=== FILE: README.md ===
# Engagement and profiling core of a Telegram joke bot

This project models in Dafny the engagement and profiling core of a Telegram
group bot, and proves properties of the model. The bot's Python code covers
the following parts, each in its own module:

- **Autonomous commenter** (`Commenter`). It keeps one state per chat: a
  message counter, a sliding window of recent messages, a randomised
  threshold and the time of the last comment. It decides whether to comment
  through an ordered cascade of gates, builds the prompt and reads the
  model's JSON answer.
- **Profile store** (`Profiles`). It caches one profile per user. Messages
  update a profile: the message count, the chats, a Cyrillic language
  heuristic. A reply from the AI provider enriches it. Reactions and roasts
  are tallied in it.
- **Reaction analytics and reaction choice** (`ReactionAnalytics`,
  `ReactionManager`). These hold the emoji sentiment sets, the group-mood
  bands, the per-user statistics and personality insights, the
  cooldown-and-probability gate for the bot's own reactions, and the
  first-match keyword cascade that picks an emoji.
- **Message history** (`History`). It is a bounded per-chat buffer of message
  records. It sanitises and formats context, expires old records, and lists
  and clears chats.
- **Commands and their parsing** (`Arguments`, `Commands`, `AskCommand`,
  `HelpCommand`, `UsersCommand`, `Config`). These are:
  - the quote-aware argument tokenizer and typed argument parser;
  - the command registry, its permission check and its help text;
  - the `system:`/`user:` request parser of `/ask`;
  - the help-language rule;
  - the user discovery, merge, listing and message splitting of `/users`;
  - configuration validation and provider selection.
- **Message routing** (`MessageHandler`, `Conversation`, `Mention`). This is
  the profile-update guard, the enrichment trigger, command-name extraction
  and the routing order of `handle_message`. It relies on the
  language-detection counters and on mention detection.
- **Profile regeneration** (`ProfileRegeneration`). It groups the history's
  records by user, skips users with fewer than five texts and regenerates
  the rest.
- **`OpenAI.bytesToHex`** (`Hex`). This is the Java helper that writes a hash
  as lowercase Base16.

Supporting modules:

- `Text` holds Python's string operations: `strip`, `find`, `split`, `join`
  and lower-casing.
- `PyList` holds Python's list slicing with negative indices and the ordered
  counters.
- `Telegram` holds the message and user records.
- `Emoji` holds the emoji constants.
- `Wrappers` holds `Option` and `Result`.

How the model stands in for the source:

- Python objects whose methods update fields become Dafny classes: the
  commenter, the profile manager, the message history, the command registry,
  the reaction manager, the argument parser and the configuration holder.
  Their loops become methods proved against specification functions.
- Pure helpers become functions. Their lemmas state what the source promises.
- Randomness, clocks and replies from the AI provider are parameters:
  - a `randint` result comes with its range;
  - a `random()` draw lies in [0, 1);
  - the current time is passed in;
  - the AI provider's reply is an `Option<string>`;
  - JSON decoding is a function parameter returning `Option`.
- Python's integer floor remainder, negative slice indices and `x or y` are
  written out explicitly (`MessageHandler.PyMod`, `PyList.From`, `PyList.KeepLast`,
  `ProfileRegeneration.Or`). So is the quirk that `xs[-0:]` is the whole list.
- Percentages are compared by cross-multiplying integer counts.
- Java's signed bytes are a `newtype` from -128 to 127.

Behaviours of the code that a reader might not expect, which the model reproduces:

- `should_comment` compares the draw with the configured
  `comment_probability` (utils/autonomous_commenter.py:131). A
  mood-adjusted probability appears only in the tests. The source defines
  no such method, so the model has none.
- The configuration loader accepts a minimum gap between comments that is
  larger than the maximum (`Config.InvertedCommentRangeAccepted`).
- `OpenAI.bytesToHex` writes lowercase digits. Section 8 of RFC 4648 gives the
  Base16 alphabet in upper case.
- Records in the message history carry no last name. Regeneration therefore
  never overwrites a profile's last name (`ProfileRegeneration.LastNameKept`).
- The enrichment step in `handle_message` reads the user's messages before
  the current message is stored in the history (handlers/message_handler.py:177-209).
- A zero enrichment interval raises a division by zero, which the handler
  catches. The profile is then updated in memory but not saved
  (`MessageHandler.EnrichmentStep`).
- `/help` from a user with no profile creates a fresh profile whose
  preference is "en", so such a user gets English help
  (`HelpCommand.NewUserGetsEnglish`).
- A command word followed by a tab or newline, with no space in the message,
  keeps the whitespace and the arguments inside the extracted command name
  (`MessageHandler.OtherWhitespaceKeptInName`).
- `regenerate_all_profiles` counts `failed`, but nothing inside its loop
  can raise: `enrich_profile_with_ai` and `save_profile` catch every
  exception themselves. So `failed` is always 0, in the source as in the model.

## Model

| member | source | states |
|---|---|---|
| Commenter.NewChatState | utils/autonomous_commenter.py:72-75 | a new chat state has the drawn threshold, a zero counter, no comment time and no recent messages |
| Commenter.Window | utils/autonomous_commenter.py:89-92 | for a window size of at least one, the recent messages are the last `size` of the old ones plus the new message, which comes last; for size 0 nothing is cut, as `xs[-0:]` is the whole list |
| Commenter.Added | utils/autonomous_commenter.py:85-92 | adding a message raises the counter by exactly one, windows the recent messages, and changes nothing else |
| Commenter.Evaluate | utils/autonomous_commenter.py:104-145 | commenting requires every gate in order: enabled, chat not excluded, enough messages, cooldown passed, threshold reached, draw within the probability, and a good moment when the intelligent check is on; too few messages or a counter below the threshold refuse before the draw is looked at |
| Commenter.EarlyGatesIgnoreDraw | utils/autonomous_commenter.py:104-128 | a chat refused by a gate before the probability draw is refused whatever the draw |
| Commenter.IsGoodTimeToComment | utils/autonomous_commenter.py:147-188 | the three scans decide exactly: there is a recent message and neither of the last two replies to the bot; the user and keyword scans cannot change the outcome |
| Commenter.GoodTimeFacts | utils/autonomous_commenter.py:147-188 | no recent message, or a reply to the bot among the last two, makes it a bad moment; a window with no reply to the bot is a good moment |
| Commenter.RepliesToBot | utils/autonomous_commenter.py:163-166 | the scan finds a reply exactly when one of the given messages replies to the bot |
| Commenter.OtherSenders | utils/autonomous_commenter.py:169-172 | the collected ids are exactly the senders of the recent messages other than the bot |
| Commenter.AnyRoastWorthy | utils/autonomous_commenter.py:178-185 | the keyword scan succeeds exactly when one of the last messages is roast-worthy |
| Commenter.Commenter.constructor | utils/autonomous_commenter.py:40-55 | the commenter starts with no chat states and reads its settings from the configuration |
| Commenter.Commenter.GetChatState | utils/autonomous_commenter.py:57-76 | an existing chat state is returned unchanged; a missing one is created with the drawn threshold and stored; when a new chat needs a threshold and the configured range is inverted (minimum above maximum) `randint` raises, reported as an error with nothing stored |
| Commenter.Commenter.AddMessage | utils/autonomous_commenter.py:78-92 | only this chat's state changes, to the state with one more message counted and windowed; a new chat with an inverted range raises and nothing changes |
| Commenter.Commenter.ShouldComment | utils/autonomous_commenter.py:94-145 | the answer is yes exactly when every gate passes; a probability miss re-rolls only the threshold; a disabled or excluded chat creates no state; creating a chat with an inverted range raises and nothing changes |
| Commenter.Commenter.MarkCommented | utils/autonomous_commenter.py:190-205 | the counter becomes zero, the comment time is now and the threshold is a fresh draw, while the recent messages stay as they were; a new chat with an inverted range raises and nothing changes |
| Commenter.Commenter.GetChatStats | utils/autonomous_commenter.py:440-462 | an unknown chat has the untracked stats; a known one reports its counter, its last comment time (none for "Never"), its next threshold and its number of recent messages, all as the chat's state holds them |
| Commenter.Commenter.StateFor | utils/autonomous_commenter.py:57-76 | the state of a known chat, or a new state with the drawn threshold for an unknown one |
| Commenter.Commenter.GatherConversation | utils/autonomous_commenter.py:224-281 | gathering creates the chat state if needed and changes nothing else, and the context is exactly `ContextOf` the chat's recent messages and the stored history; creating the state with an inverted range raises and nothing changes |
| Commenter.DisplayName | utils/autonomous_commenter.py:262 | the shown name is never empty and is the first name when there is one |
| Commenter.FromOthers | utils/autonomous_commenter.py:229-232 | the messages kept are exactly those with a sender other than the bot |
| Commenter.Senders | utils/autonomous_commenter.py:267-269 | the senders are listed once each, and every sender of a recent message is listed |
| Commenter.CollectSenders | utils/autonomous_commenter.py:267-269 | the loop computes exactly the list of distinct senders |
| Commenter.MemoryLines | utils/autonomous_commenter.py:272-275 | at most one line per message, none exactly when no message has text, and no line empty; `MemoryLinesAppend` gives the lines of a list as the lines of its parts in order |
| Commenter.TargetIds | utils/autonomous_commenter.py:255-258 | the target users are the distinct non-zero ids other than the bot's |
| Commenter.HistoryContext | utils/autonomous_commenter.py:253-264 | the loop computes exactly the target users and the history lines of the last ten stored records |
| Commenter.ConversationContext | utils/autonomous_commenter.py:228-281 | the loop computes exactly `ContextOf`: the recent messages from others when there are any, otherwise the stored history |
| Commenter.ContextOf | utils/autonomous_commenter.py:228-281 | from the recent messages of others when there are any: their distinct senders and the lines of the last ten, none exactly when no line shows; otherwise from the last ten stored records in the same way; none when both are empty |
| Commenter.MemoryLinesSound | utils/autonomous_commenter.py:272-275 | every memory line is the line of a shown message |
| Commenter.MemoryLinesComplete | utils/autonomous_commenter.py:272-275 | every shown message gives its line |
| Commenter.HistoryLinesSound | utils/autonomous_commenter.py:253-264 | every history line is the line of a shown record |
| Commenter.HistoryLinesComplete | utils/autonomous_commenter.py:253-264 | every shown record gives its line |
| Commenter.SectionOf | utils/autonomous_commenter.py:293-300 | a summary section appears exactly when its list is non-empty, showing at most its limit of items |
| Commenter.Sections | utils/autonomous_commenter.py:291-302 | a user has at most four sections, and none exactly when all four lists are empty |
| Commenter.RenderSection | utils/autonomous_commenter.py:294 | a rendered section is never empty |
| Commenter.SummaryText | utils/autonomous_commenter.py:302-303 | a user with a non-empty list gets a non-empty summary |
| Commenter.Summary | utils/autonomous_commenter.py:289-303 | a user with a non-empty list gets a non-empty summary text |
| Commenter.ProfileSummaries | utils/autonomous_commenter.py:289-303 | every user with a non-empty list gets exactly their summary, every entry is the summary of such a user, no entry is empty, and there are none exactly when no user has a list; `ProfileSummariesAppend` keeps the users' order |
| Commenter.ShouldRoast | utils/autonomous_commenter.py:306 | roasting needs the setting and a draw below the target probability; it never happens when disabled or with a zero probability, and always happens with a probability of one |
| Commenter.PreferReply | utils/autonomous_commenter.py:307 | a reply is preferred only with the setting and a draw above the standalone probability; never when disabled or with a standalone probability of one, always with a negative one |
| Commenter.RoastInstruction | utils/autonomous_commenter.py:363-369 | the roasting block is present exactly when roasting was chosen and some user has a summary |
| Commenter.ProfilesText | utils/autonomous_commenter.py:379-383 | the profiles block is empty exactly when there are no summaries |
| Commenter.BuildCommentPrompt | utils/autonomous_commenter.py:341-412 | the conversation, the profiles block, the roasting block, the reply instruction and the censorship line occur in the prompt in this order |
| Commenter.JsonSpan | utils/autonomous_commenter.py:425-429 | the decoded slice runs from the first "{" to the last "}", and there is none when no "{" occurs or no "}" follows it |
| Commenter.ParseCommentResponse | utils/autonomous_commenter.py:414-438 | a response gives comment data exactly when it has a brace span that decodes with a true should_comment and a non-empty comment, and that decoded object is the result |
| Commenter.ToComment | utils/autonomous_commenter.py:330-335 | the comment text is the decoded comment, and the type defaults to "observation" |
| Commenter.CommentLanguage | utils/autonomous_commenter.py:323 | with no users the language passed is "en"; otherwise it is the first user's language preference |
| Config.Validate | config.py:144-159 | a configuration is accepted exactly when the token, username, API key and model are set, the provider is groq, openrouter or local, and both counts are at least 1; the token is checked first, the username second |
| Config.LoadYamlConfig | config.py:166-178 | a configuration file is used as it is; without one the defaults apply: the "local" provider, no token, no excluded chats and the default commenting settings |
| Config.LoadConfig | config.py:304-348 | loading succeeds exactly when the lower-cased provider is known, the token, username and the chosen provider's key and model are set, and both counts are at least 1; an unknown provider and a missing token give their errors; a loaded configuration takes the key and model from the chosen provider's section, a base URL exactly for "local", and the YAML settings |
| Config.MissingFileFailsOnToken | config.py:174-176 | without a configuration file the defaults are used and loading fails on the missing token |
| Config.ProviderCaseInsensitive | config.py:317-322 | "GROQ" selects the groq provider with its key and no base URL |
| Config.InvertedCommentRangeAccepted | config.py:144-159 | loading accepts a configuration whose minimum gap between comments exceeds its maximum |
| Config.ConfigHolder.constructor | config.py:163 | the singleton starts unset |
| Config.ConfigHolder.GetConfig | config.py:351-360 | a loaded configuration is returned unchanged; otherwise it is loaded and kept when loading succeeds |
| Config.ConfigHolder.ReloadConfig | config.py:363-373 | reloading always loads afresh, and keeps the old configuration when loading fails |
| Profiles.NewProfile | utils/profile_manager.py:184-187 | a fresh profile has the given id, first-seen time, no messages, no chats, the "en" preference and consistent reaction tallies |
| Profiles.LanguageAfter | utils/profile_manager.py:249-254 | any Cyrillic character sets "ru"; a message without text keeps the preference; "ru" is never reverted; only an empty preference can become "en" |
| Profiles.UpdatedFromMessage | utils/profile_manager.py:230-254 | the count grows by one; the chat is listed, appended only when new, so the chats stay duplicate-free; username, names and last-seen come from the sender; only those fields and the language change |
| Profiles.DedupAppend | utils/profile_manager.py:325-327 | the old list is kept as a prefix; exactly the old items and the non-empty new ones end up in the list; an appended item is non-empty and was not there before; no duplicates appear |
| Profiles.MergeList | utils/profile_manager.py:324-359 | a non-list value aborts the merge; an absent key keeps the list; a list gives the last `keep` items (or all) of the old list followed by the new non-empty items not already present |
| Profiles.MergeAnalysis | utils/profile_manager.py:323-359 | only the analysed fields change, social weaknesses and other pattern and style fields stay; a non-list interests value leaves the profile unchanged; interests are capped at 10 |
| Profiles.MergeIterable | utils/profile_manager.py:324-359 | when no key raises, each list field is merged from its own key, tone and humor are overwritten when given, and no other field changes |
| Profiles.MergeAnalysisComplete | utils/profile_manager.py:324-359 | with every value a list or absent: interests are capped at 10 and the other lists at 5, and no duplicates appear |
| Profiles.MergeAnalysisKeeps | utils/profile_manager.py:324-359 | with every value a list or absent: absent keys leave their fields alone, and tone and humor take the given values |
| Profiles.MergeStopsAtFailure | utils/profile_manager.py:337-366 | a failure in the personal weaknesses keeps the interests already merged but leaves the later fields untouched |
| Profiles.StripFences | utils/profile_manager.py:314-319 | the cleaned reply has no surrounding whitespace, and a reply not starting with a fence is just stripped |
| Profiles.FencedReplyBody | utils/profile_manager.py:315-319 | a reply written as "```json", a body and "```" cleans to the stripped body |
| Profiles.ReactionTarget | utils/profile_manager.py:442-454 | empty text has no target; for the lower-cased text the target is "humor" exactly when a humor word occurs, "news" exactly when a news word and no humor word occurs, "questions" exactly when a question word and neither of the others occurs, and none exactly when no group matches |
| Profiles.EmotionOf | utils/profile_manager.py:457-468 | the emotion is one of four buckets, tested in order: positive exactly for the positive emojis, negative exactly for a negative emoji that is not positive, thoughtful exactly for a thinking emoji in neither earlier list, neutral exactly for emojis in no list |
| Profiles.TrackedReaction | utils/profile_manager.py:433-473 | the total, the emoji's count and its emotion's count grow by one and no other count changes; the target label is appended only when new |
| Profiles.TrackReactionKeepsTallies | utils/profile_manager.py:433-473 | the emoji counts, the emotion counts and the total stay equal, and the target labels stay duplicate-free |
| Profiles.RoastRecorded | utils/profile_manager.py:492-497 | the roast time is always set; a success adds one and appends the topic when it is not yet listed; a failure keeps the count and the topics |
| Profiles.SummaryLines | utils/profile_manager.py:379-397 | name, count and language lines, then the interests (first five), technical and personal weaknesses and common mistakes (first three each), one line per non-empty list, in this order |
| Profiles.ProfileSummary | utils/profile_manager.py:368-397 | the summary starts with the name line and contains every summary line |
| Profiles.CountSavedIsSetSize | utils/profile_manager.py:505-511 | the saved count is the number of profiles whose write succeeds |
| Profiles.CountSavedSnoc | utils/profile_manager.py:506-508 | one more profile adds one exactly when its write succeeds |
| Profiles.Enriched | utils/profile_manager.py:256-366 | without a reply, or with a reply that does not decode, the profile is unchanged; a decoded reply gives `MergeAnalysis` of the profile and the analysis, which keeps the id, count and chats |
| Profiles.ProfileManager.constructor | utils/profile_manager.py:117-133 | a new manager holds no profiles |
| Profiles.ProfileManager.LoadProfile | utils/profile_manager.py:157-190 | a cached profile is returned as it is; otherwise the stored or a fresh profile is cached under the id and returned; nothing else changes |
| Profiles.ProfileManager.SaveProfile | utils/profile_manager.py:192-216 | saving succeeds exactly when the profile is cached and the write succeeds |
| Profiles.ProfileManager.SaveAllProfiles | utils/profile_manager.py:499-511 | the count is the number of cached profiles whose write succeeds |
| Profiles.ProfileManager.UpdateProfileFromMessage | utils/profile_manager.py:218-254 | nothing changes without a sender; otherwise the sender's loaded profile is updated from the message |
| Profiles.ProfileManager.EnrichProfile | utils/profile_manager.py:256-366 | the loaded profile is replaced by its enrichment from the reply |
| Profiles.ProfileManager.GetProfileSummary | utils/profile_manager.py:368-397 | the summary of the loaded profile, which is cached |
| Profiles.ProfileManager.TrackReaction | utils/profile_manager.py:418-475 | the loaded profile's reaction patterns are updated with the reaction, nothing else |
| Profiles.ProfileManager.RecordRoast | utils/profile_manager.py:477-497 | the loaded profile's roast history records the attempt, nothing else |
| Profiles.StripIdempotent | utils/profile_manager.py:314-319 | stripping twice is stripping once, so the final strip of an unfenced reply changes nothing |
| Profiles.FenceFoundAtEnd | utils/profile_manager.py:316 | in "json", a body and a fence, the first fence is the closing one |
| ReactionAnalytics.ClassifySentiment | utils/reaction_analytics.py:177-194 | positive exactly for the positive emojis, negative exactly for the negative ones, neutral for everything else |
| ReactionAnalytics.SentimentSetsDisjoint | utils/reaction_analytics.py:186-187 | no emoji is both positive and negative, so the order of the two tests does not matter |
| ReactionAnalytics.ThinkingIsNeutral | utils/reaction_analytics.py:186-194 | the thinking face, thoughtful to the profile store, counts as neutral for the group mood |
| ReactionAnalytics.DetermineOverallMood | utils/reaction_analytics.py:196-216 | the mood is one of five labels, each exactly on its band of the positive and negative shares: above 60 percent positive, above 40, negative above 40, positive above 25, and neutral otherwise |
| ReactionAnalytics.EmptyMood | utils/reaction_analytics.py:241-258 | the empty mood is "Unknown" with all counts zero and the given message |
| ReactionAnalytics.CountSentiment | utils/reaction_analytics.py:47-50 | a sentiment count never exceeds the number of reactions |
| ReactionAnalytics.SentimentCountsSum | utils/reaction_analytics.py:47-55 | the positive, negative and neutral counts add up to the number of reactions |
| ReactionAnalytics.ReactorsAtMostReactions | utils/reaction_analytics.py:61 | there are never more active users than reactions |
| ReactionAnalytics.PrefixStep | utils/reaction_analytics.py:47-61 | one more reaction adds one to its own sentiment only and its sender to the active users |
| ReactionAnalytics.GetGroupMood | utils/reaction_analytics.py:27-74 | over the chat's reactions as the intended fetch would give them: no reactions give the empty mood with its message; otherwise the counts are the sentiment counts summing to the total, the active users are the distinct senders, and the mood is the band of the shares |
| ReactionAnalytics.RecentReactionsAsWritten | utils/reaction_analytics.py:160-175 | as written, the fetch calls `get_recent_chat_reactions`, which the profile manager does not define; the error is caught and no reactions are returned |
| ReactionAnalytics.GetGroupMoodAsWritten | utils/reaction_analytics.py:27-41 | as written, every chat gets the empty mood "No recent reactions to analyze", with no reactions counted and an unknown mood |
| ReactionAnalytics.Insert | utils/reaction_analytics.py:97 | inserting adds exactly the one entry |
| ReactionAnalytics.InsertSorted | utils/reaction_analytics.py:97 | inserting into a list sorted by descending count keeps it sorted |
| ReactionAnalytics.SortDesc | utils/reaction_analytics.py:97 | the sorted counter is a permutation of the counter, in descending order of count |
| ReactionAnalytics.TopFive | utils/reaction_analytics.py:97 | at most five entries, exactly five when there are that many, sorted, taken from the counter, and none left out has a higher count than one kept |
| ReactionAnalytics.PrefixIsTop | utils/reaction_analytics.py:97 | a prefix of a sorted counter is sorted and no entry after it has a higher count |
| ReactionAnalytics.Tally | utils/reaction_analytics.py:108-110 | each label is counted exactly as often as it occurs, the keys are exactly the labels, once each, and the counts add up to the number of labels |
| ReactionAnalytics.TopIndex | utils/reaction_analytics.py:288 | the first entry with the highest count, as `max` picks it |
| ReactionAnalytics.FavoriteInsight | utils/reaction_analytics.py:287-296 | no favourites give no insight; otherwise the top emoji decides by the first matching group: humor, affection, support, thought, or none |
| ReactionAnalytics.EmotionalInsight | utils/reaction_analytics.py:299-309 | "upbeat" exactly when positive responses are over 70 percent of the three buckets; "deep thinker" exactly when not upbeat and thoughtful ones are over 40 percent |
| ReactionAnalytics.OptionList | utils/reaction_analytics.py:287-309 | an insight when there is one, else none |
| ReactionAnalytics.AnalyzeReactionPersonality | utils/reaction_analytics.py:275-320 | one insight for each of favourite, emotion, humor and questions that fires, the favourite first, and only "still developing" when none fires |
| ReactionAnalytics.ReactionRate | utils/reaction_analytics.py:322-338 | zero without messages; otherwise reactions divided by messages |
| ReactionAnalytics.GetUserReactionStats | utils/reaction_analytics.py:80-124 | a user with no reactions gets the empty statistics; otherwise the total, the top five favourites (`TopFive`: sorted, and no left-out emoji counts more than a kept one), the emotional distribution, the sorted target tally, the insights and the rate |
| ReactionAnalytics.TotalSortDesc | utils/reaction_analytics.py:97 | sorting keeps the total of the counts |
| ReactionManager.FirstRule | utils/reaction_manager.py:78-101 | the first keyword rule, from a starting rule on, whose keywords occur; no earlier rule fires |
| ReactionManager.ChooseReaction | utils/reaction_manager.py:64-108 | the emoji of the first rule whose keyword occurs in the lower-cased text; with no rule firing, the drawn one of the configured types; nothing only when no rule fires and there are no types to draw from |
| ReactionManager.LaughterGivesTearsOfJoy | utils/reaction_manager.py:78-80 | a text containing "lol" or "funny" in any case always gets the tears-of-joy emoji |
| ReactionManager.DirectHitOnlyFromAccuracyWords | utils/reaction_manager.py:96-101 | when the direct-hit emoji is not a configured type, it is chosen only for "right", "correct" or "spot on" without "exactly", which the agreement rule takes first |
| ReactionManager.ReactionManager.constructor | utils/reaction_manager.py:14-22 | a new manager keeps its configuration and has reacted in no chat |
| ReactionManager.ReactionManager.ShouldReact | utils/reaction_manager.py:24-54 | never when reactions are disabled or the bot's own reactions are off, never before the minimum time since the chat's last reaction, and otherwise exactly when the draw is below the probability |
| ReactionManager.ReactionManager.MarkReacted | utils/reaction_manager.py:56-62 | the chat's last reaction time becomes now and no other chat's changes |
| ReactionManager.ReactionManagerHolder.constructor | utils/reaction_manager.py:111-112 | there is no manager before the first request |
| ReactionManager.ReactionManagerHolder.GetReactionManager | utils/reaction_manager.py:115-127 | the first call creates a manager from its configuration and keeps it; every later call returns that same manager |
| UsersCommand.DiscoverKeys | handlers/commands/users_command.py:93-108 | exactly the positive user ids of the records are found, each marked as from history, with no last name |
| UsersCommand.DiscoverUsersFromHistory | handlers/commands/users_command.py:80-123 | the loop over the chats finds the users of all their records in order, as the scan is meant to work (see Findings) |
| UsersCommand.LimitKeywordLosesUsers | handlers/commands/users_command.py:92-100 | as written every chat's call raises, so discovery from history is empty, while the intended scan finds any user with a positive id in any chat |
| UsersCommand.DiscoverUsername | handlers/commands/users_command.py:101-111 | a found user has a username exactly when one of its records has one |
| UsersCommand.DiscoverKeepsFirst | handlers/commands/users_command.py:101-113 | a user whose first record has a username and a real first name keeps that record's details |
| UsersCommand.Merge | handlers/commands/users_command.py:168-198 | every user of either side is kept; a one-sided user keeps its entry; a user on both sides is marked as both, each non-empty profile value winning over the history value |
| UsersCommand.MergeBothIff | handlers/commands/users_command.py:185-196 | a merged user is marked as both exactly when it is on both sides, and as history exactly when only in history |
| UsersCommand.MergeUserData | handlers/commands/users_command.py:178-198 | the two loops produce the merged map |
| UsersCommand.MinOf | handlers/commands/users_command.py:213 | the smallest id of a non-empty set |
| UsersCommand.SortedIds | handlers/commands/users_command.py:213 | every id once, in increasing order |
| UsersCommand.UserLine | handlers/commands/users_command.py:216-237 | every user line starts with the bullet |
| UsersCommand.Lines | handlers/commands/users_command.py:215-237 | one line per id, each that user's line |
| UsersCommand.CountOver | handlers/commands/users_command.py:240-243 | a source count is at most the number of users |
| UsersCommand.FormatUserList | handlers/commands/users_command.py:200-253 | "not found" exactly when there are no users; otherwise the text starts with a user line and every user's line is in it |
| UsersCommand.Listing | handlers/commands/users_command.py:212-238 | a non-empty listing starts with a bullet |
| UsersCommand.ListingInIdOrder | handlers/commands/users_command.py:209-253 | the ids are listed in increasing order, each user once, and the text is their lines followed by the summary |
| UsersCommand.SummaryFigure | handlers/commands/users_command.py:240-243 | each summary figure is the number of users it counts |
| UsersCommand.ListsEveryUser | handlers/commands/users_command.py:213-253 | every user's line appears in the list |
| UsersCommand.CountOverInclusionExclusion | handlers/commands/users_command.py:240-243 | history and profile counts together are the total plus the users counted in both |
| UsersCommand.SummaryInclusionExclusion | handlers/commands/users_command.py:240-251 | the summary's history and profile counts add up to the total plus the "both" count |
| UsersCommand.SplitPos | handlers/commands/users_command.py:273-277 | the cut is never beyond the maximum length |
| UsersCommand.SplitPosRule | handlers/commands/users_command.py:273-277 | the cut is at the last newline before the maximum, else at the last space, else at the maximum itself |
| UsersCommand.CutShrinks | handlers/commands/users_command.py:271-280 | each cut leaves less text, so the loop ends for a positive maximum |
| UsersCommand.SplitStuckAtZero | handlers/commands/users_command.py:271-280 | with a maximum of 0 a text starting with a non-space never shrinks, so the loop would not end |
| UsersCommand.AppendChunk | handlers/commands/users_command.py:279-280 | cutting a chunk and stripping the rest loses only whitespace |
| UsersCommand.SplitMessage | handlers/commands/users_command.py:255-285 | a short text is one chunk; every chunk is at most the maximum; the chunks hold the same non-space characters in the same order as the text |
| History.Truncate | utils/context_extractor.py:104-107 | text of at most 200 characters is kept; longer text keeps its first 200 characters followed by "...", 203 in all |
| History.Sanitize | utils/context_extractor.py:85-109 | no message and a command give ""; otherwise the text truncated to 200 characters plus "..." and then stripped |
| History.Reversed | utils/context_extractor.py:76 | the same elements in the opposite order |
| History.ContextLines | utils/context_extractor.py:72-82 | at most one line per message, none exactly when no message has text worth showing, and no line empty |
| History.FormatContextForAi | utils/context_extractor.py:63-82 | the context is empty exactly when no message has text worth showing |
| History.FormatOldestFirst | utils/context_extractor.py:72-82 | adding an older message puts its line first, or leaves the context as it was when the message shows nothing |
| History.ExtractContext | utils/context_extractor.py:10-60 | the context is always "", as no fetched message is ever kept; the walk tries the ids just below the current one, downwards, at most `count` of them and none below 1 |
| History.RecordOf | utils/context_extractor.py:221-228 | the stored record carries the sender's id and first name (0 and "Unknown" without a sender), the current time and the message id |
| History.Appended | utils/context_extractor.py:230-234 | with a positive limit the new record comes last and the list is the tail of old records plus the new one, at most the limit long; below the limit nothing is dropped |
| History.ShownRecords | utils/context_extractor.py:257-259 | only records whose stripped text is non-empty and not a command are kept, and never more than there were |
| History.ShownComplete | utils/context_extractor.py:257-259 | every record whose stripped text is non-empty and not a command is kept |
| History.HistoryLine | utils/context_extractor.py:258-264 | a context line is at most the first name, ": " and 203 characters of text |
| History.UserTexts | utils/context_extractor.py:293-297 | every line of a user's messages is non-empty and not a command |
| History.RecordsOf | utils/context_extractor.py:283-286 | only records of the given user, taken from the chat's records, and every record of that user is kept |
| History.RecordsOfAppend | utils/context_extractor.py:283-286 | selection keeps order: the records of two lists are those of the first followed by those of the second |
| History.Live | utils/context_extractor.py:309-312 | exactly the records younger than the expiration, in order |
| History.Surviving | utils/context_extractor.py:308-318 | the chats that keep at least one live record, in the original order and without duplicates |
| History.LiveMap | utils/context_extractor.py:308-318 | the cleaned map holds exactly the chats with live records, each mapped to its live records |
| History.SurvivingSize | utils/context_extractor.py:313-318 | the records left in the surviving chats are the live records counted over all chats |
| History.LiveSizeAtMostSize | utils/context_extractor.py:313 | cleaning never counts more live records than there were, so the removed count is never negative |
| History.PrefixStep | utils/context_extractor.py:308-318 | handling one more chat adds its live records to the map, its sizes to both counts and the chat to the survivors when it keeps records |
| History.Expire | utils/context_extractor.py:301-319 | the loop over the chats produces the cleaned map, the surviving chat order and the number of removed records |
| History.RemoveAll | utils/context_extractor.py:355-356 | the chat order without the removed chat, and still without duplicates |
| History.MessageHistory.constructor | utils/context_extractor.py:116-137 | a new history is empty, keeps the given limit and expires after the given hours times 3600 seconds |
| History.MessageHistory.AddMessage | utils/context_extractor.py:208-238 | the chat's records become the old ones with the new record appended and cut to the limit; no other chat changes; a new chat is added to the order |
| History.MessageHistory.GetContext | utils/context_extractor.py:240-251 | an unknown chat gives "" |
| History.ContextShowsRecent | utils/context_extractor.py:253-266 | every record worth showing among the chat's last `count` appears in the context as its "first name: text" line |
| History.LineShown | utils/context_extractor.py:257-266 | the joined lines contain the line of every record worth showing |
| History.MessageHistory.GetUserMessages | utils/context_extractor.py:268-280 | an unknown chat gives "" |
| History.UserMessagesShowRecent | utils/context_extractor.py:283-299 | every text worth showing among the user's last `count` records in the chat appears, stripped, in the result |
| History.TextShown | utils/context_extractor.py:292-299 | the joined user texts contain every stripped text worth showing |
| History.MessageHistory.GetAllChatIds | utils/context_extractor.py:328-334 | exactly the chats with history, each once |
| History.MessageHistory.GetRecentMessages | utils/context_extractor.py:336-345 | the chat's records, or nothing for an unknown chat |
| History.MessageHistory.ClearChatHistory | utils/context_extractor.py:347-357 | the chat is gone from the history and from the order, everything else stays |
| History.MessageHistory.CleanupExpired | utils/context_extractor.py:301-322 | a chat stays exactly when it has live records and then holds exactly those; the order keeps the survivors; the count is the number of records removed, never negative |
| Conversation.CyrillicCount | handlers/conversation_handler.py:24 | the number of characters in the Cyrillic block U+0400 to U+04FF, never more than the length |
| Conversation.LatinCount | handlers/conversation_handler.py:42 | the number of characters that lower-case to a letter from a to z, never more than the length |
| Conversation.LetterCount | handlers/conversation_handler.py:25 | the number of alphabetic characters, never more than the length |
| Conversation.IsMostlyCyrillic | handlers/conversation_handler.py:12-27 | false for empty text; otherwise true exactly when there are letters and Cyrillic characters are more than half of them |
| Conversation.IsMostlyEnglish | handlers/conversation_handler.py:30-45 | false for empty text; otherwise true exactly when there are letters and Latin letters are more than half of them |
| Conversation.CountsWithinLetters | handlers/conversation_handler.py:24-25 | when every Cyrillic character is alphabetic, Cyrillic and Latin characters together are at most the letters |
| Conversation.NotBothMostly | handlers/conversation_handler.py:12-45 | under the same condition no text is both mostly Cyrillic and mostly English |
| Conversation.BothMostlyWithCyrillicSign | handlers/conversation_handler.py:24-27 | a non-letter in the Cyrillic block (U+0482) makes "a" plus that sign count as both mostly Cyrillic and mostly English |
| Conversation.Combined | handlers/conversation_handler.py:59 | without context the text is the current message; with context it is the context, one space and the message |
| Conversation.DetectConversationLanguage | handlers/conversation_handler.py:48-78 | the result is "english" or "russian", and "english" exactly when Latin letters are more than twice the Cyrillic characters of the combined text; empty text, no letters and mixed text give "russian" |
| Mention.EntityHit | handlers/mention_handler.py:38-43 | a hit means some mention or text_mention entity whose slice of the text, lower-cased, contains the lower-cased username |
| Mention.IsBotMentioned | handlers/mention_handler.py:13-45 | no message or no text is never a mention; text containing the lower-cased username is always one |
| Mention.EntityHitSubsumed | handlers/mention_handler.py:29-43 | an entity hit implies the whole lower-cased text contains the username, so the entity loop never adds a mention |
| Mention.MentionedIff | handlers/mention_handler.py:13-45 | for a username with "@" at most in front, the bot is mentioned exactly when the lower-cased text contains the username without "@" |
| Mention.BareInFull | handlers/mention_handler.py:29-35 | text containing the full username contains it without "@" as well |
| Mention.LowerBare | handlers/mention_handler.py:33 | removing the leading "@" and lower-casing is lower-casing and dropping the first character |
| Mention.EmptyUsernameMatchesAll | handlers/mention_handler.py:29-30 | with an empty username every message with text counts as a mention |
| MessageHandler.BeforeAt | handlers/message_handler.py:225-228 | the text before the first "@": a prefix of the input with no "@", followed by "@" when anything was cut |
| MessageHandler.CommandName | handlers/message_handler.py:216-228 | the command name never contains "@" |
| MessageHandler.BareCommand | handlers/message_handler.py:221-228 | a lone "/word" names the word up to its first "@" |
| MessageHandler.CommandWithArguments | handlers/message_handler.py:218-228 | "/word" followed by a space and arguments names the same command as "/word" alone |
| MessageHandler.AddressedCommand | handlers/message_handler.py:224-228 | "/name@bot" with arguments names "name" |
| MessageHandler.AddressedName | handlers/message_handler.py:225-226 | the text before the first "@" of "name@rest" is "name" when the name has no "@" |
| MessageHandler.OtherWhitespaceKeptInName | handlers/message_handler.py:218-222 | a command followed by a tab or newline instead of a space, with no space anywhere, keeps the whitespace and the arguments inside its name |
| MessageHandler.PyMod | handlers/message_handler.py:170 | Python's remainder: the Euclidean one for a positive divisor, and for a negative divisor the value between the divisor (excluded) and zero that differs from the dividend by a multiple of the divisor |
| MessageHandler.MultipleOfNegative | handlers/message_handler.py:170 | a multiple of a negative divisor leaves no remainder |
| MessageHandler.EnrichmentStep | handlers/message_handler.py:169-197 | a zero interval raises a division by zero; for a positive interval enrichment runs exactly when the count is a multiple of it, otherwise the logged distance is between 1 and the interval minus 1 |
| MessageHandler.WaitCountsDown | handlers/message_handler.py:195-197 | the logged distance is exact: enrichment comes after exactly that many more messages and not before |
| MessageHandler.EveryIntervalMessages | handlers/message_handler.py:170 | the decision repeats every interval messages |
| MessageHandler.ProfileAfter | handlers/message_handler.py:167-193 | the enrichment keeps the user id, message count and chats; with no enrichment due or no user messages the profile is unchanged |
| MessageHandler.RouteOf | handlers/message_handler.py:145-275 | a message without text is ignored; a text starting with "/" goes to the command named by its first word: executed if registered and allowed, refused if admin-only and the sender is no admin, unknown if not registered; private text goes to the conversation, group text that mentions the bot to the mention handler, and the rest to the autonomous comment check when commenting is on and to the reaction check when the sender is not the bot |
| MessageHandler.AdminOnlyRefused | handlers/message_handler.py:233-245 | an admin-only command from a sender who is not an admin is refused |
| MessageHandler.NoGroupChecksForBotOrPrivate | handlers/message_handler.py:255-275 | private chats never reach the group checks, and the bot's own messages never reach the reaction check |
| MessageHandler.UpdateProfile | handlers/message_handler.py:154-206 | the sender's profile becomes the loaded profile updated from the message and then, when due, enriched from the user's messages in the history; it is saved exactly when the interval is non-zero and the write succeeds |
| MessageHandler.Store | handlers/message_handler.py:208-213 | the message is appended to its chat's history, and to the commenter's chat state only for group messages from a sender other than the bot; a new chat with an inverted range raises and only the history changes |
| MessageHandler.HandleMessage | handlers/message_handler.py:138-275 | a message without text changes nothing; otherwise the profile update, the history, the commenter state and the route are as above, a raise in the commenter gives the `Raised` route, and the stored profile counts one message more than the loaded one |
| ProfileRegeneration.Batch | services/profile_regeneration_service.py:50-55 | a chat without history gives nothing; otherwise the last 100 records of the chat, or all of them when there are fewer |
| ProfileRegeneration.TextsOf | services/profile_regeneration_service.py:57-74 | the texts collected for a user: at most one per record, none empty and none a command |
| ProfileRegeneration.FirstOf | services/profile_regeneration_service.py:64-70 | the user's first qualifying record, when there is one |
| ProfileRegeneration.Snoc | services/profile_regeneration_service.py:57-74 | one more record adds its text to its sender's texts, sets the sender's first record if it had none, and appends a new sender to the users, all only when the record qualifies |
| ProfileRegeneration.UsersSpec | services/profile_regeneration_service.py:46-74 | the users are listed once each, and exactly those with collected texts; a user has a first record exactly when it has texts, and that record's text comes first |
| ProfileRegeneration.NoAnonymousUser | services/profile_regeneration_service.py:61-62 | records without a sender (user id 0) never yield a user |
| ProfileRegeneration.NoAnonymousTexts | services/profile_regeneration_service.py:61-62 | no texts are ever collected for user id 0 |
| ProfileRegeneration.FirstIdentity | services/profile_regeneration_service.py:64-70 | a user has an identity exactly when it has a first record |
| ProfileRegeneration.CollectChat | services/profile_regeneration_service.py:57-74 | the loop over one chat's records extends the collected users, texts and identities by that chat's records |
| ProfileRegeneration.SkipKeeps | services/profile_regeneration_service.py:61-62 | a skipped record leaves the collection as it was |
| ProfileRegeneration.AddKeeps | services/profile_regeneration_service.py:64-74 | a qualifying record appends its text, lists a new sender and records a new sender's identity, which keeps the collection exact |
| ProfileRegeneration.Collect | services/profile_regeneration_service.py:42-74 | the loop over all chats collects exactly the users, texts and first identities of the last 100 records of every chat, in chat order |
| ProfileRegeneration.FlatSnoc | services/profile_regeneration_service.py:49-55 | one more chat appends its batch to the records read so far |
| ProfileRegeneration.Or | services/profile_regeneration_service.py:98-100 | Python's `value or fallback`: the value when present, else the fallback; never empty when the fallback is not |
| ProfileRegeneration.WithIdentity | services/profile_regeneration_service.py:96-100 | only the username, first name and last name change; a non-empty one stays non-empty; a non-empty collected first name wins; an absent or empty collected username keeps the profile's |
| ProfileRegeneration.LastNameKept | services/profile_regeneration_service.py:64-100 | the collected last name is always empty, so the profile's last name is never overwritten |
| ProfileRegeneration.FirstTexts | services/profile_regeneration_service.py:102 | the first 30 texts, or all of them when there are fewer |
| ProfileRegeneration.Regenerated | services/profile_regeneration_service.py:93-111 | regenerating keeps the user id, the message count and the chats |
| ProfileRegeneration.CountSkipped | services/profile_regeneration_service.py:87-91 | the number of users with fewer than 5 texts, at most the number of users |
| ProfileRegeneration.Process | services/profile_regeneration_service.py:82-120 | processed and skipped users add up to all users, skipped being those with fewer than 5 texts; every user with 5 or more texts gets the regenerated profile; every other profile stays as it was |
| ProfileRegeneration.ProcessUser | services/profile_regeneration_service.py:93-112 | the user's profile becomes the loaded profile with the collected identity, enriched from the first 30 texts; nothing else changes |
| ProfileRegeneration.CollectedEligible | services/profile_regeneration_service.py:87-97 | the users the loop processes are exactly those with at least 5 texts in the history, with their collected texts and first identity |
| ProfileRegeneration.RegenerateAllProfiles | services/profile_regeneration_service.py:19-130 | with no users the result is all zeros with the "No user messages found" message and nothing changes; otherwise the total is the number of users, nothing fails, processed plus skipped is the total, every user with at least 5 texts in the history gets the regenerated profile, and every other profile stays as it was |
| ProfileRegeneration.CollectedTexts | services/profile_regeneration_service.py:48-73 | the collection loop gathers, for each user, exactly that user's texts |
| Commands.Command.constructor | handlers/commands/base.py:22-43 | a command keeps its name, description, admin flag and arguments, gets the "/"-prefixed command name and a parser exactly when it has arguments, and registers itself, replacing any command of the same name |
| Commands.Command.HelpLine | handlers/commands/base.py:71-88 | the help line, with the CHOICE argument help as intended, starts with the escaped command name and description, and adds the arguments' help after a blank line exactly when there are arguments |
| Commands.Command.HelpLineAsWritten | handlers/commands/base.py:71-88 | as written, the help line raises exactly when some argument is a CHOICE, and otherwise is the intended line |
| Commands.Command.ParseArguments | handlers/commands/base.py:90-106 | a command without arguments parses any text to the empty arguments; otherwise its parser's result is returned |
| Commands.ArgumentHelpNonEmpty | handlers/commands/base.py:83-86 | the arguments' help of a command with arguments is never empty, so the emptiness test never drops it |
| Commands.Where | handlers/commands/registry.py:123-124 | the public (or admin) filter keeps exactly the commands of that kind |
| Commands.WherePartition | handlers/commands/registry.py:123-124 | the public and admin commands together are the available commands, none lost or repeated |
| Commands.Usable | handlers/commands/registry.py:66 | the usable commands are exactly those the user may execute |
| Commands.ValuesOf | handlers/commands/registry.py:54 | the values in insertion order are the commands registered under each name in turn |
| Commands.SectionAsWritten | handlers/commands/registry.py:132-133 | as written, the bullet loop raises exactly when one of its commands has a CHOICE argument, and otherwise gives the intended bullets |
| Commands.BlockAsWritten | handlers/commands/registry.py:130-134 | as written, a section raises exactly when one of its commands has a CHOICE argument, and otherwise is the intended section |
| Commands.AssembleAsWritten | handlers/commands/registry.py:121-147 | as written, the help raises exactly when a command of either section has a CHOICE argument, and otherwise is the intended help from its parts |
| Commands.SectionContains | handlers/commands/registry.py:132-133 | a section holds the bullet line of each of its commands |
| Commands.AssembleParts | handlers/commands/registry.py:126-147 | the help starts with its title and contains the public and admin parts |
| Commands.CommandRegistry.constructor | handlers/commands/registry.py:19-22 | a new registry is empty |
| Commands.CommandRegistry.RegisterCommand | handlers/commands/registry.py:24-35 | registering stores the command under its name, overwriting an earlier one, and appends the name only if it is new |
| Commands.CommandRegistry.GetCommand | handlers/commands/registry.py:37-46 | a lookup finds a command exactly when one is registered under the name, and that command has the name |
| Commands.CommandRegistry.AllCommands | handlers/commands/registry.py:48-54 | all commands are listed once each, in registration order of their names |
| Commands.CommandRegistry.CountIsNames | handlers/commands/registry.py:48-54 | there are as many listed commands as registered names |
| Commands.CommandRegistry.UserCommands | handlers/commands/registry.py:56-66 | the user's commands are exactly the registered commands the user may execute |
| Commands.CommandRegistry.AdminCommands | handlers/commands/registry.py:68-74 | the admin commands are exactly the registered admin-only commands |
| Commands.CommandRegistry.PublicCommands | handlers/commands/registry.py:76-82 | the public commands are exactly the registered commands that are not admin-only |
| Commands.CommandRegistry.AdminPublicPartition | handlers/commands/registry.py:68-82 | admin and public commands partition all commands |
| Commands.CommandRegistry.CommandNames | handlers/commands/registry.py:95-101 | the names list has each command's "/"-prefixed name, in order |
| Commands.CommandRegistry.BotCommandsAsWritten | handlers/commands/registry.py:84-93 | as written, the menu fails exactly when some command is registered, because commands have no `get_description` |
| Commands.CommandRegistry.BotCommands | handlers/commands/registry.py:84-93 | the menu, as intended, has one (name, description) pair per command in order |
| Commands.CommandRegistry.Listed | handlers/commands/registry.py:123-139 | a help section lists exactly the user's executable commands of its kind, sorted by name |
| Commands.CommandRegistry.GenerateHelpText | handlers/commands/registry.py:103-177 | the help-building method computes exactly the specified help, with the CHOICE argument help as intended |
| Commands.CommandRegistry.GenerateHelpTextAsWritten | handlers/commands/registry.py:103-177 | as written, the help raises exactly when the user may run a registered command with a CHOICE argument, and otherwise is the specified help |
| Commands.CommandRegistry.VisibleChoice | handlers/commands/registry.py:114-124 | the runnable commands with a CHOICE argument are exactly those in the public and admin sections |
| Commands.CommandRegistry.ChoiceBreaksHelpOfRunners | handlers/commands/groupmood_rebuild_command.py:25-45 | when one registered command has a CHOICE argument (as `groupmood_rebuild` does, admin-only), the help as written raises exactly for the users who may run it, and everyone else gets the specified help |
| Commands.CommandRegistry.SectionPart | handlers/commands/registry.py:129-140 | a section is empty when the user may run no command of its kind, and otherwise is the heading, the name-sorted bullets and a blank line |
| Commands.CommandRegistry.AppendSection | handlers/commands/registry.py:131-132 | the loop appends exactly one bullet per command, in the given order |
| Commands.CommandRegistry.HelpLanguage | handlers/commands/registry.py:116-119 | the help is Russian exactly for "ru" and English for any other language |
| Commands.CommandRegistry.HelpListsAvailable | handlers/commands/registry.py:114-140 | every command the user may execute appears in the help with its help line |
| Commands.CommandRegistry.NoAdminSectionForOthers | handlers/commands/registry.py:124-137 | a user who is not an admin sees no admin section |
| Commands.NoDupCard | handlers/commands/registry.py:54 | a list without repeats has as many distinct names as entries |
| Arguments.CheckDefinition | handlers/commands/arguments.py:33-40 | a definition is accepted exactly when a CHOICE argument has a non-empty choice list and an INTEGER argument does not have min above max; an accepted definition is unchanged |
| Arguments.ArgMap | handlers/commands/arguments.py:87-90 | the name map has exactly the defined names as keys, each mapped to a definition of that name |
| Arguments.ArgMapLastWins | handlers/commands/arguments.py:90 | the last definition of a name is the one the map keeps |
| Arguments.Positional | handlers/commands/arguments.py:113 | the positional definitions have names not starting with "-", no more of them than definitions |
| Arguments.PositionalComplete | handlers/commands/arguments.py:113 | the positional definitions are exactly the definitions whose name does not start with "-" |
| Arguments.Put | handlers/commands/arguments.py:126 | storing a parsed value adds its name, makes it readable under that name and leaves every other name's value alone |
| Arguments.Lookup | handlers/commands/arguments.py:145 | a lookup succeeds exactly for the names present, and gives the value of the first entry with that name |
| Arguments.Names | handlers/commands/arguments.py:144-145 | the names of the parsed dictionary include every entry's name |
| Arguments.ParsedArguments.Get | handlers/commands/arguments.py:55-57 | `get` returns the stored value of a present name and the default for an absent one |
| Arguments.Split | handlers/commands/arguments.py:169-197 | the tokenizer fails exactly when a quote is left open, and never yields an empty part |
| Arguments.RunPartsNonEmpty | handlers/commands/arguments.py:185-192 | a finished token is never empty, because only a non-empty current token is flushed |
| Arguments.SplitArguments | handlers/commands/arguments.py:169-197 | the character loop computes exactly the tokenizer's result |
| Arguments.RunQuoteFree | handlers/commands/arguments.py:177-192 | on text without quotes no quote is ever open and the tokens, which hold no whitespace, concatenate to the text's non-space characters |
| Arguments.SplitWithoutQuotes | handlers/commands/arguments.py:169-197 | text without quotes always splits, into whitespace-free tokens that concatenate to its non-space characters |
| Arguments.RunInQuotes | handlers/commands/arguments.py:178-189 | after an opening quote every character other than that quote joins the current token, whitespace included |
| Arguments.QuotedPhrase | handlers/commands/arguments.py:169-197 | a quoted phrase is a single token without its quotes |
| Arguments.DigitsOfNat | handlers/commands/arguments.py:205 | the digits of a natural number read back as that number |
| Arguments.ParseIntOfIntToString | handlers/commands/arguments.py:205 | `int(str(n)) == n` for every integer |
| Arguments.ParseInt | handlers/commands/arguments.py:205 | Python's `int()` on text: accepted exactly when the stripped text is ASCII digit groups joined by single underscores, optionally signed, and then the value of its digits |
| Arguments.UnderscoreGrouping | handlers/commands/arguments.py:205 | an underscore between two digit groups is ignored: "1_000" reads as 1000 |
| Arguments.MisplacedUnderscore | handlers/commands/arguments.py:205 | a leading, trailing or doubled underscore is refused |
| Arguments.ParseMinus | handlers/commands/arguments.py:205 | a minus sign before digits gives the negated value |
| Arguments.ParseNatural | handlers/commands/arguments.py:205 | the decimal text of a natural number parses to it |
| Arguments.ParseNegative | handlers/commands/arguments.py:205 | a minus sign before a positive number's digits parses to its negation |
| Arguments.StripUnchanged | handlers/commands/arguments.py:104 | text without whitespace at either end is its own strip |
| Arguments.ParseValue | handlers/commands/arguments.py:199-219 | STRING keeps the text, FLAG gives true, BOOLEAN is true exactly for the lower-cased words true/1/yes/on, CHOICE succeeds exactly for a listed choice, INTEGER exactly for decimal integer text; every failure is reported as an "Invalid value for" error |
| Arguments.ValidateValue | handlers/commands/arguments.py:221-241 | a custom validator decides alone; otherwise an INTEGER argument must be an integer within the bounds that are set, and any other type is valid |
| Arguments.ScanFrom | handlers/commands/arguments.py:116-141 | the scanning loop only ever stores defined names |
| Arguments.ValidateAll | handlers/commands/arguments.py:151-155 | validation passes exactly when every stored value is valid for its definition |
| Arguments.EmptyDefaults | handlers/commands/arguments.py:159-167 | empty input fails exactly when some argument is required, and otherwise gives exactly the arguments with a default |
| Arguments.ParseSucceeds | handlers/commands/arguments.py:92-157 | a successful parse of non-blank input holds every required argument, only defined names, and only valid values |
| Arguments.FillDefaults | handlers/commands/arguments.py:143-149 | the defaults loop keeps every given value and adds only defined names |
| Arguments.FillDefaultsCovers | handlers/commands/arguments.py:143-149 | after the loop every required argument and every argument with a default is present |
| Arguments.FillDefaultsFails | handlers/commands/arguments.py:145-146 | the loop fails only on a required argument that was not given |
| Arguments.BlankInput | handlers/commands/arguments.py:104-106 | blank input raises exactly when some argument is required, and otherwise yields exactly the defaulted arguments |
| Arguments.SurplusTokensRaise | handlers/commands/arguments.py:128-141 | more plain tokens than positional definitions, the last of which is not a STRING, raise "Unexpected argument" |
| Arguments.NamedWithoutValue | handlers/commands/arguments.py:120-124 | a named token with nothing after it raises "Missing value for argument" |
| Arguments.LastStringTakesTheRest | handlers/commands/arguments.py:131-135 | a parser with a single positional STRING argument and non-blank input parses to that argument holding all tokens joined by single spaces |
| Arguments.RestOfLine | handlers/commands/arguments.py:128-135 | with any other definitions, a scan that reaches the last positional STRING argument gives it every remaining token, named ones included, joined by spaces |
| Arguments.ScanSingleString | handlers/commands/arguments.py:131-135 | the scanning loop gives a lone STRING definition the joined tokens |
| Arguments.FillAndValidateSingle | handlers/commands/arguments.py:143-155 | a scanned lone STRING value needs no default and passes validation |
| Arguments.ArgumentParser.constructor | handlers/commands/arguments.py:87-90 | the parser keeps its definitions |
| Arguments.ArgumentParser.ParseEmptyArgs | handlers/commands/arguments.py:159-167 | the loop raises exactly when some argument is required, and otherwise returns the defaults |
| Arguments.ArgumentParser.Parse | handlers/commands/arguments.py:92-157 | the parse method computes exactly the specified parse |
| Arguments.ArgumentParser.Scan | handlers/commands/arguments.py:116-141 | the while loop computes exactly the scanning function |
| Arguments.ArgumentParser.AddDefaults | handlers/commands/arguments.py:143-149 | the defaults loop computes exactly the defaults function |
| Arguments.ArgumentParser.Validate | handlers/commands/arguments.py:151-155 | the validation loop reports exactly what the validation function reports |
| Arguments.EscapeHtml | handlers/commands/arguments.py:289-291 | the escaped text contains none of the four characters `<`, `>`, `"` and `'`; `&` remains because every entity starts with it, and `Arguments.EscapeRoundTrip` pins the entities |
| Arguments.EscapeRoundTrip | handlers/commands/arguments.py:289-291 | escaping loses nothing: decoding the five entities gives the text back |
| Arguments.UnescapeStep | handlers/commands/arguments.py:289-291 | decoding an escaped character gives back that character |
| Arguments.RangeText | handlers/commands/arguments.py:275-281 | the range note is empty exactly when neither bound is set |
| Arguments.FormatArgumentHelp | handlers/commands/arguments.py:268-287 | a help line starts with the indented name, shows the choices of a CHOICE argument and the default when one is set, and agrees with the code as written for every other type |
| Arguments.FormatLines | handlers/commands/arguments.py:249-262 | a group's lines are empty exactly when no definition belongs to the group |
| Arguments.FormatLinesHas | handlers/commands/arguments.py:254-262 | every definition of a group has its help line |
| Arguments.HelpLines | handlers/commands/arguments.py:248-263 | the help starts with "Required arguments:" when something is required, else with "Optional arguments:", and holds every argument's line |
| Arguments.GenerateHelpText | handlers/commands/arguments.py:243-266 | without definitions the help is "No arguments required."; otherwise it is the joined help lines, HTML-escaped |
| Arguments.FormatArgumentHelpAsWritten | handlers/commands/arguments.py:268-287 | as written, formatting fails exactly for a CHOICE argument |
| Arguments.FormatLinesAsWritten | handlers/commands/arguments.py:249-262 | as written, a group's lines fail exactly when the group holds a CHOICE argument |
| Arguments.GenerateHelpTextAsWritten | handlers/commands/arguments.py:243-287 | as written, the help fails exactly when some argument is a CHOICE, and otherwise equals the intended help |
| Arguments.ChoiceBreaksHelp | handlers/commands/arguments.py:273-287 | the help of a single CHOICE argument fails as written, while the corrected line shows its choices |
| AskCommand.ParseRequest | handlers/commands/ask_command.py:69-96 | the request never gets the usage reply; a request sent to the provider is non-empty; a system prompt is split off only when both markers occur; without both markers an empty request is refused and any other is sent whole |
| AskCommand.UsageIffOneWord | handlers/commands/ask_command.py:57-67 | the usage reply comes exactly when the stripped message has no whitespace inside |
| AskCommand.PlainRequestIsSent | handlers/commands/ask_command.py:57-96 | a message with an argument and without both markers is sent as the stripped rest, which is never empty |
| AskCommand.SystemUserRoundTrip | handlers/commands/ask_command.py:74-81 | a request written as "system:" prompt, a space, "user:" request parses back to that prompt and request, provided the prompt has no "user:" in it |
| AskCommand.OrderedMarkers | handlers/commands/ask_command.py:74-81 | with "system:" found before "user:" the prompt is the text between them and the request the text after "user:" |
| AskCommand.MarkersFound | handlers/commands/ask_command.py:76-77 | in the documented form the first "system:" is at the start and the first "user:" is the written one |
| AskCommand.AdjacentMarkersAreAFormatError | handlers/commands/ask_command.py:79-87 | "user:" written directly after "system:" is reported as a format error |
| AskCommand.UserBeforeSystemIsAFormatError | handlers/commands/ask_command.py:79-87 | "user:" written before "system:" is reported as a format error |
| HelpCommand.ChooseLanguage | handlers/commands/help_command.py:53-65 | the language is "ru" or "en": a Russian or English argument word decides, else the profile's "ru" preference or an empty preference gives "ru" and any other gives "en" |
| HelpCommand.ForcedIsArgument | handlers/commands/help_command.py:49-51 | the forced language is the lower-cased argument after the command word |
| HelpCommand.ArgumentDecides | handlers/commands/help_command.py:49-57 | a recognised argument, in any letter case, decides the language whatever the profile says |
| HelpCommand.CapitalisedWords | handlers/commands/help_command.py:51-57 | capitalised forms such as "Русский" and "EN" are recognised |
| HelpCommand.NewUserGetsEnglish | handlers/commands/help_command.py:59-65 | a user without a profile gets a fresh one whose "en" preference gives English help, not the Russian default |
| HelpCommand.Execute | handlers/commands/help_command.py:39-73 | nothing is replied without a message and sender; otherwise the reply is the registry's help (as intended) for the sender in the chosen language; a forced language leaves the profiles alone, otherwise the sender's loaded profile is cached |
| PyList.From | utils/profile_manager.py:329 | Python's `xs[i:]`: a suffix, of length counted from the end for a negative index and clamped to the list |
| PyList.Upto | utils/profile_manager.py:386 | Python's `xs[:i]`: a prefix, clamped to the list, a negative index counting from the end |
| PyList.Slice | handlers/mention_handler.py:41 | Python's `xs[a:b]`: empty or the slice between the clamped bounds |
| PyList.KeepLast | utils/context_extractor.py:253 | Python's `xs[-k:]`: the last k elements for k at least 1, and the whole list for k = 0 |
| PyList.KeepLastFacts | utils/context_extractor.py:234 | keeping the last elements only keeps elements of the list, and keeps a list duplicate-free |
| PyList.AppendIfAbsent | utils/profile_manager.py:447-454 | the element is in the result; it is appended only when absent; a duplicate-free list stays duplicate-free |
| PyList.Inc | utils/profile_manager.py:434-437 | a counter keeps its keys in order and gains the new key at the end with count 1 |
| PyList.IncGet | utils/profile_manager.py:434-437 | incrementing adds one to the key's count and leaves every other key's count alone |
| PyList.IncTotal | utils/profile_manager.py:434-439 | incrementing adds one to the sum of the counts |
| PyList.IncKeepsUniqueKeys | utils/profile_manager.py:434-437 | incrementing keeps every key listed once and lists the key |
| Text.Find | handlers/commands/ask_command.py:76-77 | Python's `str.find`: -1 exactly when there is no occurrence, otherwise the first occurrence |
| Text.Strip | handlers/commands/ask_command.py:57 | Python's `str.strip`: never longer, with no whitespace at either end; `StripOnlyEnds` shows only end whitespace is removed |
| Text.StripOnlyEnds | handlers/commands/ask_command.py:57 | the stripped text is the slice of the text between its leading and trailing whitespace |
| Text.SplitOnce | handlers/commands/ask_command.py:58 | Python's `split(maxsplit=1)`: at most two parts, none for blank text, the first being the first word and the rest the text after it with leading whitespace removed |
| Text.LStrip | handlers/commands/ask_command.py:57 | the text with its leading whitespace removed: a suffix that starts with a non-space, everything before it whitespace |
| Text.RStrip | handlers/commands/ask_command.py:57 | the text with its trailing whitespace removed: a prefix that ends with a non-space, everything after it whitespace |
| Text.Words | handlers/message_handler.py:220 | Python's `split()`: every part is a non-empty word without whitespace |
| Text.LowerFacts | handlers/mention_handler.py:26 | lower-casing maps A to Z onto a to z and А to Я onto а to я, keeps letters letters and Cyrillic Cyrillic, and is idempotent |
| Text.LowerStrIdempotent | handlers/mention_handler.py:26 | lower-casing a lower-cased string changes nothing |
| Text.RFindChar | handlers/commands/users_command.py:273-275 | Python's `rfind` before a limit: -1 when the character is absent there, otherwise its last position before the limit |
| Text.JoinContains | utils/context_extractor.py:266 | a joined text contains each of its parts |
| Text.SortBy | handlers/commands/registry.py:132 | the sorted list is a permutation of the input, ordered by the key |
| Hex.Unsigned | openai/src/main/java/com/homesoft/openai/OpenAI.java:56 | `0xff & b` is the byte's value modulo 256, the byte itself when non-negative |
| Hex.Signed | openai/src/main/java/com/homesoft/openai/OpenAI.java:56 | the byte cast back from an unsigned value, which masks to that value again |
| Hex.Digit | openai/src/main/java/com/homesoft/openai/OpenAI.java:56 | a nibble's digit is a lowercase hex digit, from 0 to 7 exactly for nibbles below 8 |
| Hex.ToHexString | openai/src/main/java/com/homesoft/openai/OpenAI.java:56 | `Integer.toHexString` of a non-negative value: non-empty lowercase hex digits, one digit exactly below 16, no leading zero otherwise |
| Hex.PairIsNibbles | openai/src/main/java/com/homesoft/openai/OpenAI.java:56-60 | every byte contributes exactly its high and low nibble, and a negative byte's first digit is 8 to f |
| Hex.Encode | openai/src/main/java/com/homesoft/openai/OpenAI.java:53-64 | the encoding is twice as long as the bytes and holds only lowercase hex digits |
| Hex.BytesToHex | openai/src/main/java/com/homesoft/openai/OpenAI.java:53-64 | the loop builds exactly the encoding of the array |
| Hex.DigitValue | openai/src/main/java/com/homesoft/openai/OpenAI.java:56 | a digit's value exists exactly for lowercase hex digits, and its digit is the character back |
| Hex.PairValue | openai/src/main/java/com/homesoft/openai/OpenAI.java:56-60 | a two-character pair has a byte exactly when both are lowercase hex digits |
| Hex.PairRoundTrip | openai/src/main/java/com/homesoft/openai/OpenAI.java:56-60 | a byte's pair reads back as the byte, and a readable pair is the pair of what it reads as |
| Hex.Decode | openai/src/main/java/com/homesoft/openai/OpenAI.java:53-64 | reading a lowercase hex text back into bytes, the inverse of the encoding, gives two characters per byte |
| Hex.DecodeSnoc | openai/src/main/java/com/homesoft/openai/OpenAI.java:55-61 | reading a text followed by one pair reads the text and then the pair |
| Hex.DecodeEncode | openai/src/main/java/com/homesoft/openai/OpenAI.java:53-64 | reading the encoding back gives the original bytes |
| Hex.EncodeDecode | openai/src/main/java/com/homesoft/openai/OpenAI.java:53-64 | every even-length string of lowercase hex digits is the encoding of exactly the bytes it reads as |
| Hex.EncodeInjective | openai/src/main/java/com/homesoft/openai/OpenAI.java:53-64 | different byte arrays never encode to the same string |
| Hex.Example | openai/src/main/java/com/homesoft/openai/OpenAI.java:53-64 | the bytes 0, 15, -1 and 16 encode as "000fff10" |

## Left out

- Telegram I/O is not modelled: sending replies, reactions and chat-action calls. Only the decisions that lead to these calls, and their arguments, are modelled.
- Disk persistence of profiles is not modelled. A profile's disk copy is a `stored` parameter, and the success of a save is a `writeOk` parameter.
- Concurrency, the async event loop and the auto-save loops are not modelled.
- The AI provider is not modelled: creating a provider, prompt wording, and the network call with its re-raised errors. A reply is an `Option<string>` parameter. The `ask` parameter of regeneration stands for the provider call.
- JSON parsing is a `decode` function parameter, because the model has no JSON library.
- Random draws and the clock are parameters, each with its documented range.
- FLOAT arguments in the typed argument parser are not modelled, because the model has no floating point. STRING, INTEGER, BOOLEAN, CHOICE and FLAG arguments are modelled.
- Unicode `isalpha` and `lower` are modelled by tables of ASCII, Latin-1 and the Cyrillic block U+0400 to U+04FF. Other scripts are not covered.
- Arguments.ParseInt: it reads ASCII digits only. Other Unicode decimal digits, which `int()` accepts, make it fail.
- Arguments.ParseValue: the INTEGER error message quotes the value in single quotes. Python's message uses `repr`, which switches to double quotes for a value containing `'` and escapes backslashes and control characters; that is not modelled.
- Arguments.ParseValue: INT values accept ASCII digits with single underscores between digit groups, as `int()` does. Other Unicode decimal digits, which `int()` also accepts, are refused.
- The `execute` methods of commands other than `/ask`, `/help` and `/users` are not modelled, and neither are the function-wrapper commands. Their behaviour is Telegram I/O and calls into the AI provider.
- The autonomous reply and reaction handlers, and the Telegram calls inside `extract_context`, are not modelled. For `extract_context`, only the message ids it asks for are modelled.
- `_discover_users_from_profiles` is not modelled, because it reads the profile directory on disk.
- ReactionAnalytics.ReactionRate: the percentage is compared by cross-multiplication and is not rounded to two decimal places.
- ReactionAnalytics.GetGroupMood: it takes the chat's reactions as an input that stands for the intended fetch. As written, the fetch calls `get_recent_chat_reactions`, a method the profile manager never defines, so every result is the empty mood (`ReactionAnalytics.GetGroupMoodAsWritten`).
- ReactionAnalytics.GetGroupMood: the mood bands are decided on integer counts by cross-multiplication, not on floating-point percentages.
- ReactionAnalytics.TopFive: it does not state that ties keep insertion order, which Python's stable sort guarantees.
- History.MessageHistory.GetContext: its own ensures covers only the unknown-chat case. The formatted content is stated by `History.ContextShowsRecent`.
- History.MessageHistory.GetUserMessages: its own ensures covers only the unknown-chat case. The content is stated by `History.UserMessagesShowRecent`.
- ReactionManager.ChooseReaction: with an empty list of reaction types, `random.choice` raises. The model gives `None` instead.
- UsersCommand.SplitMessage: it requires a maximum length of at least one. With 0 the source loops forever, as `UsersCommand.SplitStuckAtZero` shows.
- Commands.Command.HelpLine: it gives the help with the CHOICE argument help as intended. As written, `get_help_text` raises for a command with a CHOICE argument; `Commands.Command.HelpLineAsWritten` states when.
- Commands.CommandRegistry.GenerateHelpText: it computes the help as intended. As written, the help raises for a user who may run a command with a CHOICE argument, such as an admin while `groupmood_rebuild` is registered; `Commands.CommandRegistry.GenerateHelpTextAsWritten` states when.
- HelpCommand.Execute: it replies with the help as intended. As written, `/help` from a user who may run a command with a CHOICE argument raises in the registry and sends no reply; `Commands.CommandRegistry.GenerateHelpTextAsWritten` states when.
- The mood-adjusted comment probability that the tests expect is not modelled, because the source defines no method for it.
- Integer widths are not modelled. Python integers are unbounded, and the only fixed width, the Java byte, is a `newtype`.

## Findings

| source | as written | input that shows it | evidently intended | confidence | as-written member | corrected member |
|---|---|---|---|---|---|---|
| handlers/commands/arguments.py:273-287 | `range_text` is assigned only in the INT branch and for non-CHOICE values, but it is read for every argument | a parser with one CHOICE argument: building its help raises `UnboundLocalError`; so `/help` from an admin, while the admin-only `groupmood_rebuild` with its CHOICE argument is registered, raises too (`Commands.CommandRegistry.GenerateHelpTextAsWritten`) and gets no reply | a CHOICE argument lists its choices and has no range text | not executed | Arguments.GenerateHelpTextAsWritten | Arguments.GenerateHelpText |
| handlers/commands/registry.py:93 | `get_bot_commands` calls `cmd.get_description(language)`, which `Command` does not define | any registry with one command: the call raises `AttributeError` | each entry pairs the command name with its description in the chosen language | not executed | Commands.CommandRegistry.BotCommandsAsWritten | Commands.CommandRegistry.BotCommands |
| handlers/commands/users_command.py:96 | `get_recent_messages(chat_id, limit=1000)` passes a keyword argument that `get_recent_messages` (utils/context_extractor.py:336) does not take | any history with one record of a user with a positive id: each call raises `TypeError`, the handler catches it, and the discovery from history is empty | every chat's recent records are scanned and their users discovered | not executed | UsersCommand.LimitKeywordLosesUsers | UsersCommand.DiscoverUsersFromHistory |
| utils/reaction_analytics.py:172 | `_get_recent_reactions` calls `self.profile_manager.get_recent_chat_reactions(chat_id, hours)`, which `ProfileManager` does not define; the `AttributeError` is caught and `[]` is returned | any chat in which users reacted: `get_group_mood` returns the empty mood "No recent reactions to analyze" | the chat's reactions of the last 24 hours are fetched and analysed | not executed | ReactionAnalytics.GetGroupMoodAsWritten | ReactionAnalytics.GetGroupMood |

=== FILE: arguments.dfy ===
/**
 * Command arguments (`handlers/commands/arguments.py`): definitions and
 * their validation, the quote-aware tokenizer, the positional/named parser
 * with typed conversion and validation, and the generated help text.
 *
 * A parsed value is a string, an integer or a boolean; the parsed-argument
 * dictionary keeps Python's insertion order, since the validation pass
 * reports the first invalid entry in that order.
 */
module Arguments {
  import opened Wrappers
  import opened Text

  // ------------------------------------------------------------ definitions

  /** `ArgumentType` without FLOAT. */
  datatype ArgType = StringType | IntegerType | BooleanType | ChoiceType | FlagType

  /** `ArgumentType.value`, as it appears in error messages. */
  function TypeName(t: ArgType): string {
    match t
    case StringType => "string"
    case IntegerType => "int"
    case BooleanType => "bool"
    case ChoiceType => "choice"
    case FlagType => "flag"
  }

  /** A parsed (or default) argument value. */
  datatype Value = Str(s: string) | Int(i: int) | Bool(b: bool)

  /** Python's `str(value)`. */
  function ValueText(v: Value): string {
    match v
    case Str(s) => s
    case Int(i) => IntToString(i)
    case Bool(b) => BoolToString(b)
  }

  /** `ArgumentDefinition`; the custom validator is any total predicate. */
  datatype Definition = Definition(
    name: string,
    argType: ArgType,
    required: bool,
    default: Option<Value>,
    description: string,
    choices: Option<seq<string>>,
    minValue: Option<int>,
    maxValue: Option<int>,
    validator: Option<Value -> bool>)

  /** `ArgumentDefinition.__post_init__`: a CHOICE argument needs a non-empty
      choice list, and an INTEGER range must not be inverted. */
  function CheckDefinition(d: Definition): (r: Result<Definition, string>)
    ensures r.Ok? <==>
      !(d.argType == ChoiceType && (d.choices.None? || d.choices.value == []))
      && !(d.argType == IntegerType && d.minValue.Some? && d.maxValue.Some? && d.minValue.value > d.maxValue.value)
    ensures r.Ok? ==> r.value == d
  {
    if d.argType == ChoiceType && (d.choices.None? || d.choices.value == []) then
      Err("Argument '" + d.name + "' of type CHOICE must have choices defined")
    else if d.argType == IntegerType && d.minValue.Some? && d.maxValue.Some?
         && d.minValue.value > d.maxValue.value then
      Err("Argument '" + d.name + "': min_value cannot be greater than max_value")
    else Ok(d)
  }

  predicate AllWellFormed(defs: seq<Definition>) {
    forall j | 0 <= j < |defs| :: CheckDefinition(defs[j]).Ok?
  }

  /** `{arg.name: arg for arg in definitions}`: a later definition with the
      same name replaces an earlier one. */
  function ArgMap(defs: seq<Definition>): (m: map<string, Definition>)
    ensures forall n :: n in m <==> exists j | 0 <= j < |defs| :: defs[j].name == n
    ensures forall n | n in m :: m[n].name == n
  {
    if defs == [] then map[]
    else
      var init := defs[..|defs| - 1];
      assert forall j | 0 <= j < |init| :: init[j] == defs[j];
      ArgMap(init)[defs[|defs| - 1].name := defs[|defs| - 1]]
  }

  /** `defs[j]` is the last definition carrying its name. */
  predicate LastOfName(defs: seq<Definition>, j: int) {
    0 <= j < |defs| && forall k | j < k < |defs| :: defs[k].name != defs[j].name
  }

  /** The positional definitions: those whose name does not start with "-". */
  function Positional(defs: seq<Definition>): (r: seq<Definition>)
    ensures |r| <= |defs|
    ensures forall i | 0 <= i < |r| :: !StartsWith(r[i].name, "-") && r[i].name in ArgMap(defs)
  {
    if defs == [] then []
    else
      var init := defs[..|defs| - 1];
      var last := defs[|defs| - 1];
      assert forall j | 0 <= j < |init| :: init[j] == defs[j];
      Positional(init) + (if StartsWith(last.name, "-") then [] else [last])
  }

  /** The map holds, for each name, the last definition carrying it. */
  lemma {:induction false} ArgMapLastWins(defs: seq<Definition>)
    ensures forall j | LastOfName(defs, j) :: ArgMap(defs)[defs[j].name] == defs[j]
  {
    if defs != [] {
      var init, last := defs[..|defs| - 1], defs[|defs| - 1];
      ArgMapLastWins(init);
      forall j | LastOfName(defs, j)
        ensures ArgMap(defs)[defs[j].name] == defs[j]
      {
        if j < |defs| - 1 {
          assert init[j] == defs[j];
          assert LastOfName(init, j);
          assert defs[j].name != last.name;
        }
      }
    }
  }

  /** The positional definitions are exactly those of `defs` whose name does
      not start with "-". */
  lemma {:induction false} PositionalComplete(defs: seq<Definition>)
    ensures forall i | 0 <= i < |Positional(defs)| :: Positional(defs)[i] in defs
    ensures forall j | 0 <= j < |defs| && !StartsWith(defs[j].name, "-") :: defs[j] in Positional(defs)
  {
    if defs != [] {
      var init, last := defs[..|defs| - 1], defs[|defs| - 1];
      PositionalComplete(init);
      assert defs == init + [last];
      var rest := if StartsWith(last.name, "-") then [] else [last];
      assert Positional(defs) == Positional(init) + rest;
      forall i | 0 <= i < |Positional(defs)|
        ensures Positional(defs)[i] in defs
      {
        if i < |Positional(init)| {
          assert Positional(defs)[i] == Positional(init)[i];
        }
      }
      forall j | 0 <= j < |defs| && !StartsWith(defs[j].name, "-")
        ensures defs[j] in Positional(defs)
      {
        if j < |init| {
          assert defs[j] == init[j];
        }
      }
    }
  }

  // ------------------------------------------------------- parsed dictionary

  /** An insertion-ordered `Dict[str, Any]`. */
  type Dict = seq<(string, Value)>

  function Names(d: Dict): (r: set<string>)
    ensures forall i | 0 <= i < |d| :: d[i].0 in r
  {
    if d == [] then {}
    else
      assert forall i | 1 <= i < |d| :: d[i] == d[1..][i - 1];
      {d[0].0} + Names(d[1..])
  }

  /** Entry `i` is the first one with key `k`. */
  predicate FirstOfKey(d: Dict, k: string, i: int) {
    0 <= i < |d| && d[i].0 == k && forall j | 0 <= j < i :: d[j].0 != k
  }

  /** `d.get(k)`. */
  function Lookup(d: Dict, k: string): (r: Option<Value>)
    ensures r.Some? <==> k in Names(d)
    ensures forall i | FirstOfKey(d, k, i) :: r == Some(d[i].1)
  {
    if d == [] then None else if d[0].0 == k then Some(d[0].1) else Lookup(d[1..], k)
  }

  /** `d[k] = v`: an existing key keeps its place, a new key goes last. */
  function Put(d: Dict, k: string, v: Value): (r: Dict)
    ensures Names(r) == Names(d) + {k}
    ensures Lookup(r, k) == Some(v)
    ensures forall n | n != k :: Lookup(r, n) == Lookup(d, n)
  {
    if d == [] then [(k, v)]
    else if d[0].0 == k then
      assert ([(k, v)] + d[1..])[1..] == d[1..];
      [(k, v)] + d[1..]
    else
      var r := [d[0]] + Put(d[1..], k, v);
      assert r[1..] == Put(d[1..], k, v);
      r
  }

  /** `ParsedArguments`: a copy of the parsed dictionary. */
  datatype ParsedArguments = ParsedArguments(args: Dict) {
    /** `get(name, default)`. */
    function Get(name: string, default: Option<Value>): (r: Option<Value>)
      ensures name in Names(args) ==> r == Lookup(args, name) && r.Some?
      ensures name !in Names(args) ==> r == default
    {
      if name in Names(args) then Lookup(args, name) else default
    }

    /** `name in parsed`. */
    predicate Has(name: string) {
      name in Names(args)
    }
  }

  // --------------------------------------------------------------- tokenizer

  /** The tokenizer's state: finished parts, the token being built, and the
      open quote character, if any (`in_quotes` is `quote.Some?`). */
  datatype SplitState = SplitState(parts: seq<string>, current: string, quote: Option<char>)

  function Step(st: SplitState, c: char): SplitState {
    if st.quote.None? && (c == '"' || c == '\'') then st.(quote := Some(c))
    else if st.quote.Some? && c == st.quote.value then st.(quote := None)
    else if st.quote.None? && IsSpace(c) then
      if st.current != [] then SplitState(st.parts + [st.current], "", None) else st
    else st.(current := st.current + [c])
  }

  /** The state after reading all of `s`. */
  function Run(s: string): SplitState {
    if s == [] then SplitState([], "", None) else Step(Run(s[..|s| - 1]), s[|s| - 1])
  }

  /** `_split_arguments`: the parts, or the unclosed-quote error. */
  function Split(s: string): (r: Result<seq<string>, string>)
    ensures r.Err? <==> Run(s).quote.Some?
    ensures r.Ok? ==> forall k | 0 <= k < |r.value| :: r.value[k] != []
  {
    var st := Run(s);
    RunPartsNonEmpty(s);
    var parts := if st.current != [] then st.parts + [st.current] else st.parts;
    if st.quote.Some? then Err("Unclosed quote in arguments") else Ok(parts)
  }

  /** No finished part is ever empty. */
  lemma {:induction false} RunPartsNonEmpty(s: string)
    ensures forall k | 0 <= k < |Run(s).parts| :: Run(s).parts[k] != []
  {
    if s != [] {
      RunPartsNonEmpty(s[..|s| - 1]);
    }
  }

  /** The tokenizer loop, proved against `Split`. */
  method SplitArguments(s: string) returns (r: Result<seq<string>, string>)
    ensures r == Split(s)
  {
    var parts: seq<string> := [];
    var current: string := "";
    var inQuotes := false;
    var quoteChar: Option<char> := None;
    var i := 0;
    while i < |s|
      invariant 0 <= i <= |s|
      invariant inQuotes <==> quoteChar.Some?
      invariant SplitState(parts, current, quoteChar) == Run(s[..i])
    {
      var c := s[i];
      assert s[..i + 1][..i] == s[..i];
      if !inQuotes && (c == '"' || c == '\'') {
        inQuotes := true;
        quoteChar := Some(c);
      } else if inQuotes && Some(c) == quoteChar {
        inQuotes := false;
        quoteChar := None;
      } else if !inQuotes && IsSpace(c) {
        if current != [] {
          parts := parts + [current];
          current := "";
        }
      } else {
        current := current + [c];
      }
      i := i + 1;
    }
    assert s[..i] == s;
    if current != [] {
      parts := parts + [current];
    }
    if inQuotes {
      return Err("Unclosed quote in arguments");
    }
    return Ok(parts);
  }

  predicate QuoteFree(s: string) {
    forall i | 0 <= i < |s| :: s[i] != '"' && s[i] != '\''
  }

  /** Without quotes the tokenizer is a whitespace split: no open quote,
      tokens free of whitespace, and together they are exactly the
      non-whitespace characters. */
  lemma {:induction false} RunQuoteFree(s: string)
    requires QuoteFree(s)
    ensures Run(s).quote.None?
    ensures NoSpace(Run(s).current)
    ensures forall k | 0 <= k < |Run(s).parts| :: NoSpace(Run(s).parts[k])
    ensures Concat(Run(s).parts) + Run(s).current == NonSpace(s)
  {
    if s != [] {
      var init := s[..|s| - 1];
      var c := s[|s| - 1];
      assert QuoteFree(init) by {
        assert forall i | 0 <= i < |init| :: init[i] == s[i];
      }
      RunQuoteFree(init);
      var st := Run(init);
      if IsSpace(c) && st.current != [] {
        ConcatSnoc(st.parts, st.current);
      }
    }
  }

  /** On quote-free input, `_split_arguments` never fails and splits on whitespace. */
  lemma SplitWithoutQuotes(s: string)
    requires QuoteFree(s)
    ensures Split(s).Ok?
    ensures forall k | 0 <= k < |Split(s).value| :: NoSpace(Split(s).value[k])
    ensures Concat(Split(s).value) == NonSpace(s)
  {
    RunQuoteFree(s);
    var st := Run(s);
    if st.current != [] {
      ConcatSnoc(st.parts, st.current);
    } else {
      assert st.parts + [] == st.parts;
    }
  }

  /** Inside a quote, everything but the closing quote joins the current token. */
  lemma {:induction false} RunInQuotes(q: char, w: string)
    requires q == '"' || q == '\''
    requires forall i | 0 <= i < |w| :: w[i] != q
    ensures Run([q] + w) == SplitState([], w, Some(q))
    decreases |w|
  {
    if w == [] {
      assert Run([q]) == Step(Run([]), q);
    } else {
      var init := w[..|w| - 1];
      RunInQuotes(q, init);
      assert ([q] + w)[..|[q] + w| - 1] == [q] + init;
      assert init + [w[|w| - 1]] == w;
    }
  }

  /** A quoted phrase is one token, whitespace included, without its quotes. */
  lemma QuotedPhrase(q: char, w: string)
    requires q == '"' || q == '\''
    requires w != [] && forall i | 0 <= i < |w| :: w[i] != q
    ensures Split([q] + w + [q]) == Ok([w])
  {
    RunInQuotes(q, w);
    assert ([q] + w + [q])[..|[q] + w + [q]| - 1] == [q] + w;
    var st := Run([q] + w + [q]);
    assert st == SplitState([], w, None);
    assert [] + [w] == [w];
  }

  // ------------------------------------------------------------- conversion

  predicate AllDigits(s: string) {
    forall i | 0 <= i < |s| :: IsDigit(s[i])
  }

  /** The value of a string of decimal digits. */
  function DigitsValue(s: string): nat
    requires AllDigits(s)
  {
    if s == [] then 0 else DigitsValue(s[..|s| - 1]) * 10 + (s[|s| - 1] as int - '0' as int)
  }

  predicate IsDigit(c: char) {
    '0' <= c <= '9'
  }

  /** The digit groups Python's `int` accepts: ASCII digits, beginning and
      ending with a digit, with single underscores between digits. */
  predicate Grouped(t: string) {
    t != [] && IsDigit(t[0]) && IsDigit(t[|t| - 1])
    && (forall i | 0 <= i < |t| :: IsDigit(t[i]) || t[i] == '_')
    && NoDoubleUnderscore(t)
  }

  predicate NoDoubleUnderscore(t: string) {
    |t| < 2 || (!(t[0] == '_' && t[1] == '_') && NoDoubleUnderscore(t[1..]))
  }

  /** The digits of a grouped number, without its underscores. */
  function Ungroup(t: string): (d: string)
    requires forall i | 0 <= i < |t| :: IsDigit(t[i]) || t[i] == '_'
    ensures AllDigits(d)
  {
    if t == [] then []
    else
      var init, last := t[..|t| - 1], t[|t| - 1];
      assert t == init + [last];
      assert forall i | 0 <= i < |init| :: init[i] == t[i];
      var d := Ungroup(init);
      if last == '_' then d
      else
        assert forall i | 0 <= i < |d + [last]| :: (d + [last])[i] == if i < |d| then d[i] else last;
        d + [last]
  }

  /** Python's `int(s)` for base-10 text: surrounding whitespace, an optional
      sign, then digits grouped by single underscores. */
  function ParseInt(s: string): (r: Option<int>)
    ensures r.Some? <==>
      (var t := Strip(s);
       Grouped(t) || (|t| > 1 && (t[0] == '-' || t[0] == '+') && Grouped(t[1..])))
    ensures r.Some? && Grouped(Strip(s)) ==> r.value == DigitsValue(Ungroup(Strip(s)))
  {
    var t := Strip(s);
    if t != [] && (t[0] == '-' || t[0] == '+') then
      if |t| > 1 && Grouped(t[1..]) then
        var magnitude: int := DigitsValue(Ungroup(t[1..]));
        Some(if t[0] == '-' then -magnitude else magnitude)
      else None
    else if Grouped(t) then Some(DigitsValue(Ungroup(t)))
    else None
  }

  /** Underscores between digits group them, as in Python: `int("1_000") == 1000`. */
  lemma {:induction false} UnderscoreGrouping(a: string, b: string)
    requires a != [] && b != [] && AllDigits(a) && AllDigits(b)
    ensures ParseInt(a + "_" + b) == Some(DigitsValue(a + b))
    ensures ParseInt(a + "_" + b) == ParseInt(a + b)
  {
    var s := a + "_" + b;
    GroupedJoin(a, b);
    assert Strip(s) == s by {
      assert s[0] == a[0] && s[|s| - 1] == b[|b| - 1];
      StripUnchanged(s);
    }
    assert ParseInt(s) == Some(DigitsValue(a + b)) by {
      assert s[0] != '-' && s[0] != '+';
    }
    var ab := a + b;
    assert ParseInt(ab) == Some(DigitsValue(ab)) by {
      assert AllDigits(ab);
      assert ab[0] == a[0] && ab[|ab| - 1] == b[|b| - 1];
      StripUnchanged(ab);
      DigitsGrouped(ab);
      assert ab[0] != '-' && ab[0] != '+';
    }
  }

  lemma {:induction false} GroupedJoin(a: string, b: string)
    requires a != [] && b != [] && AllDigits(a) && AllDigits(b)
    ensures Grouped(a + "_" + b) && Ungroup(a + "_" + b) == a + b
  {
    var s := a + "_" + b;
    NoUnderscoreNoDouble(a);
    NoUnderscoreNoDouble(b);
    NoDoubleAppend(a, "_");
    NoDoubleAppend(a + "_", b);
    assert Grouped(s);
    UngroupAppend(a, "_");
    UngroupAppend(a + "_", b);
    UngroupDigits(a);
    UngroupDigits(b);
    assert Ungroup("_") == [];
  }

  /** Removing the underscores of a concatenation removes those of each part. */
  lemma {:induction false} UngroupAppend(x: string, y: string)
    requires forall i | 0 <= i < |x| :: IsDigit(x[i]) || x[i] == '_'
    requires forall i | 0 <= i < |y| :: IsDigit(y[i]) || y[i] == '_'
    ensures Ungroup(x + y) == Ungroup(x) + Ungroup(y)
    decreases |y|
  {
    if y == [] {
      assert x + y == x;
    } else {
      var init := y[..|y| - 1];
      UngroupAppend(x, init);
      var xy := x + y;
      assert xy[..|xy| - 1] == x + init;
      assert xy[|xy| - 1] == y[|y| - 1];
    }
  }

  /** Two texts without a doubled underscore keep that property when joined,
      unless an underscore ends the first and another begins the second. */
  lemma {:induction false} NoDoubleAppend(x: string, y: string)
    requires NoDoubleUnderscore(x) && NoDoubleUnderscore(y)
    requires x == [] || y == [] || x[|x| - 1] != '_' || y[0] != '_'
    ensures NoDoubleUnderscore(x + y)
    decreases |x|
  {
    if x == [] {
      assert x + y == y;
    } else {
      assert (x + y)[1..] == x[1..] + y;
      NoDoubleAppend(x[1..], y);
    }
  }

  /** An underscore that begins or ends the stripped text, or a doubled one
      anywhere in it, makes the text no number. */
  lemma {:induction false} MisplacedUnderscore(s: string, i: int)
    requires var t := Strip(s);
      (t != [] && (t[0] == '_' || t[|t| - 1] == '_'))
      || (0 <= i < |t| - 1 && t[i] == '_' && t[i + 1] == '_')
    ensures ParseInt(s).None?
  {
    var t := Strip(s);
    NotGrouped(t, i);
  }

  lemma {:induction false} NotGrouped(t: string, i: int)
    requires (t != [] && (t[0] == '_' || t[|t| - 1] == '_'))
      || (0 <= i < |t| - 1 && t[i] == '_' && t[i + 1] == '_')
    ensures !Grouped(t)
    ensures !(|t| > 1 && (t[0] == '-' || t[0] == '+') && Grouped(t[1..]))
  {
    var double := 0 <= i < |t| - 1 && t[i] == '_' && t[i + 1] == '_';
    if Grouped(t) && double {
      DoubleUnderscoreAt(t, i);
    }
    if |t| > 1 && (t[0] == '-' || t[0] == '+') && Grouped(t[1..]) && double {
      var u := t[1..];
      assert u[i - 1] == t[i] && u[i] == t[i + 1];
      DoubleUnderscoreAt(u, i - 1);
    }
  }

  lemma {:induction false} DoubleUnderscoreAt(t: string, i: int)
    requires NoDoubleUnderscore(t) && 0 <= i < |t| - 1
    ensures !(t[i] == '_' && t[i + 1] == '_')
    decreases i
  {
    if i > 0 {
      DoubleUnderscoreAt(t[1..], i - 1);
    }
  }

  /** A non-empty run of digits is a grouped number of its own digits. */
  lemma {:induction false} DigitsGrouped(s: string)
    requires s != [] && AllDigits(s)
    ensures Grouped(s) && Ungroup(s) == s
  {
    NoUnderscoreNoDouble(s);
    UngroupDigits(s);
  }

  lemma {:induction false} UngroupDigits(t: string)
    requires AllDigits(t)
    ensures Ungroup(t) == t
  {
    if t != [] {
      var init := t[..|t| - 1];
      UngroupDigits(init);
      assert t == init + [t[|t| - 1]];
    }
  }

  lemma {:induction false} NoUnderscoreNoDouble(t: string)
    requires AllDigits(t)
    ensures NoDoubleUnderscore(t)
  {
    if |t| >= 2 {
      NoUnderscoreNoDouble(t[1..]);
    }
  }

  lemma DigitCharValue(d: nat)
    requires d < 10
    ensures DigitChar(d) as int - '0' as int == d
  {
    if d == 0 {} else if d == 1 {} else if d == 2 {} else if d == 3 {} else if d == 4 {}
    else if d == 5 {} else if d == 6 {} else if d == 7 {} else if d == 8 {} else {}
  }

  lemma {:induction false} DigitsOfNat(n: nat)
    ensures DigitsValue(NatToString(n)) == n
  {
    var s := NatToString(n);
    if n < 10 {
      DigitCharValue(n);
      assert s[..0] == [];
    } else {
      DigitsOfNat(n / 10);
      DigitCharValue(n % 10);
      assert s[..|s| - 1] == NatToString(n / 10);
    }
  }

  /** Text with no whitespace at either end is its own strip. */
  lemma StripUnchanged(s: string)
    requires s != [] && !IsSpace(s[0]) && !IsSpace(s[|s| - 1])
    ensures Strip(s) == s
  {
    assert LStrip(s) == s;
  }

  /** `int(str(n)) == n`. */
  lemma {:induction false} ParseIntOfIntToString(n: int)
    ensures ParseInt(IntToString(n)) == Some(n)
  {
    if n < 0 {
      var m: nat := -n;
      assert IntToString(n) == "-" + NatToString(m);
      ParseNegative(m);
    } else {
      assert IntToString(n) == NatToString(n);
      ParseNatural(n);
    }
  }

  lemma {:induction false} ParseNatural(n: nat)
    ensures ParseInt(NatToString(n)) == Some(n)
  {
    var s := NatToString(n);
    DigitsOfNat(n);
    StripUnchanged(s);
    DigitsGrouped(s);
    assert s[0] != '-' && s[0] != '+';
  }

  lemma {:induction false} ParseNegative(m: nat)
    requires m > 0
    ensures ParseInt("-" + NatToString(m)) == Some(0 - m)
  {
    var digits := NatToString(m);
    DigitsOfNat(m);
    ParseMinus(digits, m);
  }

  /** A minus sign followed by digits parses as the negated digits. */
  lemma {:induction false} ParseMinus(digits: string, v: int)
    requires digits != [] && AllDigits(digits) && DigitsValue(digits) == v
    ensures ParseInt("-" + digits) == Some(0 - v)
  {
    var s := "-" + digits;
    assert s[1..] == digits;
    assert s[|s| - 1] == digits[|digits| - 1];
    StripUnchanged(s);
    DigitsGrouped(digits);
  }

  const TrueWords: seq<string> := ["true", "1", "yes", "on"]

  /** `_parse_value`: conversion by type; a failed conversion is reported as
      an `ArgumentParseError` naming the type and the argument. */
  function ParseValue(valueStr: string, d: Definition): (r: Result<Value, string>)
    ensures d.argType == StringType ==> r == Ok(Str(valueStr))
    ensures d.argType == FlagType ==> r == Ok(Bool(true))
    ensures d.argType == BooleanType ==> r == Ok(Bool(LowerStr(valueStr) in TrueWords))
    ensures d.argType == ChoiceType ==>
      (r.Ok? <==> valueStr in d.choices.GetOr([])) && (r.Ok? ==> r.value == Str(valueStr))
    ensures d.argType == IntegerType ==>
      (r.Ok? <==> ParseInt(valueStr).Some?) && (r.Ok? ==> r.value == Int(ParseInt(valueStr).value))
    ensures r.Err? ==> StartsWith(r.error, "Invalid value for ")
  {
    var prefix := "Invalid value for " + TypeName(d.argType) + " argument '" + d.name + "': ";
    match d.argType
    case StringType => Ok(Str(valueStr))
    case IntegerType =>
      var n := ParseInt(valueStr);
      if n.Some? then Ok(Int(n.value))
      else Err(prefix + "invalid literal for int() with base 10: '" + valueStr + "'")
    case BooleanType => Ok(Bool(LowerStr(valueStr) in TrueWords))
    case ChoiceType =>
      var choices := d.choices.GetOr([]);
      if valueStr in choices then Ok(Str(valueStr))
      else Err(prefix + "Value must be one of: " + Join(choices, ", "))
    case FlagType => Ok(Bool(true))
  }

  /** Python's `isinstance(value, int)` with its value: a bool is an int. */
  function IntOf(v: Value): Option<int> {
    match v
    case Int(i) => Some(i)
    case Bool(b) => Some(if b then 1 else 0)
    case Str(_) => None
  }

  /** `_validate_value`. */
  function ValidateValue(v: Value, d: Definition): (ok: bool)
    ensures d.validator.Some? ==> ok == d.validator.value(v)
    ensures d.validator.None? && d.argType != IntegerType ==> ok
    ensures d.validator.None? && d.argType == IntegerType ==>
      (ok <==> IntOf(v).Some?
               && (d.minValue.Some? ==> IntOf(v).value >= d.minValue.value)
               && (d.maxValue.Some? ==> IntOf(v).value <= d.maxValue.value))
  {
    if d.validator.Some? then d.validator.value(v)
    else if d.argType == IntegerType then
      match IntOf(v)
      case None => false
      case Some(n) =>
        if d.minValue.Some? && n < d.minValue.value then false
        else if d.maxValue.Some? && n > d.maxValue.value then false
        else true
    else true
  }

  // ------------------------------------------------------------------ parse

  /** The scanning loop of `parse`, from token `i` with `parsed` so far. A
      token that names a named definition consumes the next token; otherwise
      the token at position `i` goes to the `i`-th positional definition, the
      last positional STRING taking all remaining tokens. */
  function ScanFrom(defs: seq<Definition>, parts: seq<string>, i: nat, parsed: Dict): (r: Result<Dict, string>)
    requires i <= |parts|
    requires Names(parsed) <= ArgMap(defs).Keys
    decreases |parts| - i
    ensures r.Ok? ==> Names(r.value) <= ArgMap(defs).Keys
  {
    if i == |parts| then Ok(parsed)
    else
      var part := parts[i];
      var pos := Positional(defs);
      var argMap := ArgMap(defs);
      if StartsWith(part, "-") && part in argMap then
        var d := argMap[part];
        if i + 1 >= |parts| then Err("Missing value for argument '" + part + "'")
        else
          match ParseValue(parts[i + 1], d)
          case Err(e) => Err(e)
          case Ok(v) => ScanFrom(defs, parts, i + 2, Put(parsed, d.name, v))
      else if i < |pos| then
        var d := pos[i];
        if d.argType == StringType && i == |pos| - 1 then
          match ParseValue(Join(parts[i..], " "), d)
          case Err(e) => Err(e)
          case Ok(v) => Ok(Put(parsed, d.name, v))
        else
          match ParseValue(part, d)
          case Err(e) => Err(e)
          case Ok(v) => ScanFrom(defs, parts, i + 1, Put(parsed, d.name, v))
      else Err("Unexpected argument: " + part)
  }

  /** The defaults loop of `parse`: a missing required argument raises, a
      missing optional one gets its default when that is not None. */
  function FillDefaults(defs: seq<Definition>, k: nat, parsed: Dict): (r: Result<Dict, string>)
    requires k <= |defs|
    decreases |defs| - k
    ensures r.Ok? ==> Names(parsed) <= Names(r.value)
    ensures r.Ok? ==> forall n | n in Names(parsed) :: Lookup(r.value, n) == Lookup(parsed, n)
    ensures Names(parsed) <= ArgMap(defs).Keys && r.Ok? ==> Names(r.value) <= ArgMap(defs).Keys
  {
    if k == |defs| then Ok(parsed)
    else
      var d := defs[k];
      assert d.name in ArgMap(defs);
      if d.name !in Names(parsed) then
        if d.required then Err("Missing required argument: " + d.name)
        else if d.default.Some? then FillDefaults(defs, k + 1, Put(parsed, d.name, d.default.value))
        else FillDefaults(defs, k + 1, parsed)
      else FillDefaults(defs, k + 1, parsed)
  }

  /** After the defaults loop every required argument and every argument
      with a default is present. */
  lemma {:induction false} FillDefaultsCovers(defs: seq<Definition>, k: nat, parsed: Dict)
    requires k <= |defs|
    decreases |defs| - k
    ensures var r := FillDefaults(defs, k, parsed);
      r.Ok? ==> forall j | k <= j < |defs| && (defs[j].required || defs[j].default.Some?) ::
        defs[j].name in Names(r.value)
  {
    if k < |defs| {
      var d := defs[k];
      var next := if d.name !in Names(parsed) && !d.required && d.default.Some?
                  then Put(parsed, d.name, d.default.value) else parsed;
      if !(d.name !in Names(parsed) && d.required) {
        assert FillDefaults(defs, k, parsed) == FillDefaults(defs, k + 1, next);
        FillDefaultsCovers(defs, k + 1, next);
        var r := FillDefaults(defs, k + 1, next);
        if r.Ok? {
          assert d.required || d.default.Some? ==> d.name in Names(next);
          assert Names(next) <= Names(r.value);
        }
      }
    }
  }

  /** The defaults loop fails only on a required argument that was not given. */
  lemma {:induction false} FillDefaultsFails(defs: seq<Definition>, k: nat, parsed: Dict)
    requires k <= |defs|
    decreases |defs| - k
    ensures FillDefaults(defs, k, parsed).Err? ==>
      exists j | k <= j < |defs| :: defs[j].required && defs[j].name !in Names(parsed)
  {
    if k < |defs| {
      var d := defs[k];
      var next := if d.name !in Names(parsed) && !d.required && d.default.Some?
                  then Put(parsed, d.name, d.default.value) else parsed;
      if !(d.name !in Names(parsed) && d.required) {
        assert FillDefaults(defs, k, parsed) == FillDefaults(defs, k + 1, next);
        FillDefaultsFails(defs, k + 1, next);
        assert Names(parsed) <= Names(next);
      }
    }
  }

  /** The validation loop of `parse`: the first entry, in insertion order,
      that its definition rejects. */
  function ValidateAll(defs: seq<Definition>, p: Dict): (r: Option<string>)
    requires Names(p) <= ArgMap(defs).Keys
    ensures r.None? <==> forall i | 0 <= i < |p| :: ValidateValue(p[i].1, ArgMap(defs)[p[i].0])
  {
    if p == [] then None
    else
      assert forall i | 1 <= i < |p| :: p[i] == p[1..][i - 1];
      var d := ArgMap(defs)[p[0].0];
      if !ValidateValue(p[0].1, d) then
        Some("Invalid value for argument '" + p[0].0 + "': " + ValueText(p[0].1))
      else ValidateAll(defs, p[1..])
  }

  /** `_parse_empty_args`: defaults only, and no validation. */
  function EmptyDefaults(defs: seq<Definition>, k: nat, parsed: Dict): (r: Result<Dict, string>)
    requires k <= |defs|
    decreases |defs| - k
    ensures r.Err? <==> exists j | k <= j < |defs| :: defs[j].required
    ensures r.Ok? ==> forall n :: n in Names(r.value) <==>
      n in Names(parsed) || exists j | k <= j < |defs| :: defs[j].default.Some? && defs[j].name == n
  {
    if k == |defs| then Ok(parsed)
    else if defs[k].required then Err("Missing required argument: " + defs[k].name)
    else if defs[k].default.Some? then EmptyDefaults(defs, k + 1, Put(parsed, defs[k].name, defs[k].default.value))
    else EmptyDefaults(defs, k + 1, parsed)
  }

  /** `ArgumentParser.parse`. */
  function ParseSpec(defs: seq<Definition>, argsString: string): Result<ParsedArguments, string> {
    var stripped := Strip(argsString);
    if stripped == [] then
      match EmptyDefaults(defs, 0, [])
      case Err(e) => Err(e)
      case Ok(p) => Ok(ParsedArguments(p))
    else
      match Split(stripped)
      case Err(e) => Err(e)
      case Ok(parts) =>
        match ScanFrom(defs, parts, 0, [])
        case Err(e) => Err(e)
        case Ok(scanned) =>
          match FillDefaults(defs, 0, scanned)
          case Err(e) => Err(e)
          case Ok(filled) =>
            match ValidateAll(defs, filled)
            case Some(e) => Err(e)
            case None => Ok(ParsedArguments(filled))
  }

  /** What a successful parse of non-blank input promises: every required
      argument is present, every key is a defined argument, no value the
      caller gave is replaced by a default, and every value passes its
      definition's validation. */
  lemma ParseSucceeds(defs: seq<Definition>, argsString: string)
    requires Strip(argsString) != []
    requires ParseSpec(defs, argsString).Ok?
    ensures var p := ParseSpec(defs, argsString).value.args;
      (forall j | 0 <= j < |defs| && defs[j].required :: defs[j].name in Names(p))
      && Names(p) <= ArgMap(defs).Keys
      && forall i | 0 <= i < |p| :: ValidateValue(p[i].1, ArgMap(defs)[p[i].0])
  {
    var parts := Split(Strip(argsString)).value;
    var scanned := ScanFrom(defs, parts, 0, []).value;
    var filled := FillDefaults(defs, 0, scanned).value;
    assert ParseSpec(defs, argsString).value.args == filled;
    FillDefaultsCovers(defs, 0, scanned);
  }

  /** Blank input gives the non-None defaults, and raises exactly when some
      argument is required. */
  lemma BlankInput(defs: seq<Definition>, argsString: string)
    requires Strip(argsString) == []
    ensures ParseSpec(defs, argsString).Err? <==> exists j | 0 <= j < |defs| :: defs[j].required
    ensures ParseSpec(defs, argsString).Ok? ==> forall n ::
      n in Names(ParseSpec(defs, argsString).value.args) <==>
      exists j | 0 <= j < |defs| :: defs[j].default.Some? && defs[j].name == n
  {
    var r := EmptyDefaults(defs, 0, []);
    assert ParseSpec(defs, argsString) == if r.Err? then Err(r.error) else Ok(ParsedArguments(r.value));
    if r.Ok? {
      assert Names([]) == {};
    }
  }

  /** More tokens than positional definitions, none of them named and no
      trailing STRING definition to absorb them, always raise. */
  lemma {:induction false} SurplusTokensRaise(defs: seq<Definition>, parts: seq<string>, i: nat, parsed: Dict)
    requires i <= |Positional(defs)| < |parts|
    requires Names(parsed) <= ArgMap(defs).Keys
    requires forall j | 0 <= j < |parts| :: !StartsWith(parts[j], "-")
    requires Positional(defs) == [] || Positional(defs)[|Positional(defs)| - 1].argType != StringType
    ensures ScanFrom(defs, parts, i, parsed).Err?
    decreases |parts| - i
  {
    var pos := Positional(defs);
    if i < |pos| {
      var d := pos[i];
      match ParseValue(parts[i], d)
      case Err(_) =>
      case Ok(v) => SurplusTokensRaise(defs, parts, i + 1, Put(parsed, d.name, v));
    }
  }

  /** A lone named token has no value to consume. */
  lemma NamedWithoutValue(defs: seq<Definition>, part: string, parsed: Dict)
    requires StartsWith(part, "-") && part in ArgMap(defs)
    requires Names(parsed) <= ArgMap(defs).Keys
    ensures ScanFrom(defs, [part], 0, parsed) == Err("Missing value for argument '" + part + "'")
  {
  }

  /** Whatever the other definitions, once scanning reaches the last
      positional definition and it is a STRING, that argument receives every
      remaining token, named-argument tokens included, joined by spaces. */
  lemma RestOfLine(defs: seq<Definition>, parts: seq<string>, i: nat, parsed: Dict)
    requires i < |parts| && Names(parsed) <= ArgMap(defs).Keys
    requires i == |Positional(defs)| - 1 && Positional(defs)[i].argType == StringType
    requires !(StartsWith(parts[i], "-") && parts[i] in ArgMap(defs))
    ensures ScanFrom(defs, parts, i, parsed)
            == Ok(Put(parsed, Positional(defs)[i].name, Str(Join(parts[i..], " "))))
  {
  }

  /** With a single positional STRING definition and no validator, any
      non-blank input is that argument: its tokens joined by single spaces. */
  lemma LastStringTakesTheRest(d: Definition, argsString: string)
    requires d.argType == StringType && d.validator.None? && !StartsWith(d.name, "-")
    requires Strip(argsString) != [] && Split(Strip(argsString)).Ok?
    requires Split(Strip(argsString)).value != []
    ensures ParseSpec([d], argsString) ==
      Ok(ParsedArguments([(d.name, Str(Join(Split(Strip(argsString)).value, " ")))]))
  {
    var parts := Split(Strip(argsString)).value;
    var scanned := [(d.name, Str(Join(parts, " ")))];
    ScanSingleString(d, parts);
    FillAndValidateSingle(d, Join(parts, " "));
  }

  lemma ScanSingleString(d: Definition, parts: seq<string>)
    requires d.argType == StringType && !StartsWith(d.name, "-")
    requires parts != []
    ensures ScanFrom([d], parts, 0, []) == Ok([(d.name, Str(Join(parts, " ")))])
  {
    var text := Join(parts, " ");
    ScanTakesTheRest(d, parts);
    assert ParseValue(text, d) == Ok(Str(text));
    assert Put([], d.name, Str(text)) == [(d.name, Str(text))];
  }

  /** With one positional STRING definition the first part starts the last
      positional argument, which takes every part. */
  lemma {:induction false} ScanTakesTheRest(d: Definition, parts: seq<string>)
    requires d.argType == StringType && !StartsWith(d.name, "-")
    requires parts != []
    ensures ScanFrom([d], parts, 0, [])
            == match ParseValue(Join(parts, " "), d)
               case Err(e) => Err(e)
               case Ok(v) => Ok(Put([], d.name, v))
  {
    SingleDefinition(d);
    RestOfLine([d], parts, 0, []);
    assert parts[0..] == parts;
  }

  /** One positional definition: it is the positional list, and its name is
      the only key. */
  lemma SingleDefinition(d: Definition)
    requires !StartsWith(d.name, "-")
    ensures Positional([d]) == [d] && ArgMap([d]).Keys == {d.name}
  {
    var defs := [d];
    assert defs[..0] == [];
    assert Positional(defs) == Positional([]) + [d];
    assert ArgMap(defs) == map[][d.name := d];
  }

  lemma FillAndValidateSingle(d: Definition, text: string)
    requires d.argType == StringType && d.validator.None?
    ensures var scanned := [(d.name, Str(text))];
      Names(scanned) <= ArgMap([d]).Keys
      && FillDefaults([d], 0, scanned) == Ok(scanned)
      && ValidateAll([d], scanned) == None
  {
    var scanned := [(d.name, Str(text))];
    assert Names(scanned) == {d.name} by {
      assert scanned[1..] == [];
    }
    assert [d][0] == d;
  }

  // ------------------------------------------------------------------ parser

  /** `ArgumentParser`: a parser over a fixed list of definitions (each of
      which passed `__post_init__`). */
  class ArgumentParser {
    const definitions: seq<Definition>

    constructor (definitions: seq<Definition>)
      requires AllWellFormed(definitions)
      ensures this.definitions == definitions
    {
      this.definitions := definitions;
    }

    /** `_parse_empty_args`. */
    method ParseEmptyArgs() returns (r: Result<ParsedArguments, string>)
      ensures r.Err? <==> exists j | 0 <= j < |definitions| :: definitions[j].required
      ensures r == (match EmptyDefaults(definitions, 0, [])
                    case Err(e) => Err(e)
                    case Ok(p) => Ok(ParsedArguments(p)))
    {
      var parsed: Dict := [];
      var k := 0;
      while k < |definitions|
        invariant 0 <= k <= |definitions|
        invariant EmptyDefaults(definitions, 0, []) == EmptyDefaults(definitions, k, parsed)
      {
        var d := definitions[k];
        if d.required {
          return Err("Missing required argument: " + d.name);
        } else if d.default.Some? {
          parsed := Put(parsed, d.name, d.default.value);
        }
        k := k + 1;
      }
      return Ok(ParsedArguments(parsed));
    }

    /** `parse`. */
    method Parse(argsString: string) returns (r: Result<ParsedArguments, string>)
      ensures r == ParseSpec(definitions, argsString)
    {
      var stripped := Strip(argsString);
      if stripped == [] {
        r := ParseEmptyArgs();
        return;
      }
      var split := SplitArguments(stripped);
      if split.Err? {
        return Err(split.error);
      }
      var scanned := Scan(split.value);
      if scanned.Err? {
        return Err(scanned.error);
      }
      var filled := AddDefaults(scanned.value);
      if filled.Err? {
        return Err(filled.error);
      }
      var invalid := Validate(filled.value);
      if invalid.Some? {
        return Err(invalid.value);
      }
      return Ok(ParsedArguments(filled.value));
    }

    /** The scanning loop of `parse`. */
    method Scan(parts: seq<string>) returns (r: Result<Dict, string>)
      ensures r == ScanFrom(definitions, parts, 0, [])
    {
      var pos := Positional(definitions);
      var argMap := ArgMap(definitions);
      var parsed: Dict := [];
      var i := 0;
      while i < |parts|
        invariant 0 <= i <= |parts|
        invariant Names(parsed) <= argMap.Keys
        invariant ScanFrom(definitions, parts, 0, []) == ScanFrom(definitions, parts, i, parsed)
        decreases |parts| - i
      {
        var part := parts[i];
        if StartsWith(part, "-") && part in argMap {
          var d := argMap[part];
          if i + 1 >= |parts| {
            return Err("Missing value for argument '" + part + "'");
          }
          var v := ParseValue(parts[i + 1], d);
          if v.Err? {
            return Err(v.error);
          }
          parsed := Put(parsed, d.name, v.value);
          i := i + 2;
        } else if i < |pos| {
          var d := pos[i];
          if d.argType == StringType && i == |pos| - 1 {
            var v := ParseValue(Join(parts[i..], " "), d);
            parsed := Put(parsed, d.name, v.value);
            return Ok(parsed);
          } else {
            var v := ParseValue(part, d);
            if v.Err? {
              return Err(v.error);
            }
            parsed := Put(parsed, d.name, v.value);
            i := i + 1;
          }
        } else {
          return Err("Unexpected argument: " + part);
        }
      }
      return Ok(parsed);
    }

    /** The defaults loop of `parse`. */
    method AddDefaults(scanned: Dict) returns (r: Result<Dict, string>)
      ensures r == FillDefaults(definitions, 0, scanned)
    {
      var parsed := scanned;
      var k := 0;
      while k < |definitions|
        invariant 0 <= k <= |definitions|
        invariant FillDefaults(definitions, 0, scanned) == FillDefaults(definitions, k, parsed)
      {
        var d := definitions[k];
        if d.name !in Names(parsed) {
          if d.required {
            return Err("Missing required argument: " + d.name);
          } else if d.default.Some? {
            parsed := Put(parsed, d.name, d.default.value);
          }
        }
        k := k + 1;
      }
      return Ok(parsed);
    }

    /** The validation loop of `parse`. */
    method Validate(p: Dict) returns (invalid: Option<string>)
      requires Names(p) <= ArgMap(definitions).Keys
      ensures invalid == ValidateAll(definitions, p)
    {
      var argMap := ArgMap(definitions);
      var k := 0;
      while k < |p|
        invariant 0 <= k <= |p|
        invariant Names(p[k..]) <= argMap.Keys
        invariant ValidateAll(definitions, p) == ValidateAll(definitions, p[k..])
      {
        assert p[k..][1..] == p[k + 1..];
        var (name, value) := p[k];
        if !ValidateValue(value, argMap[name]) {
          return Some("Invalid value for argument '" + name + "': " + ValueText(value));
        }
        k := k + 1;
      }
      return None;
    }
  }

  // -------------------------------------------------------------- help text

  /** Python's `html.escape(s, quote=True)` for one character. */
  function EscapeChar(c: char): string {
    if c == '&' then "&amp;"
    else if c == '<' then "&lt;"
    else if c == '>' then "&gt;"
    else if c == '"' then "&quot;"
    else if c == '\'' then "&#x27;"
    else [c]
  }

  predicate Unsafe(c: char) {
    c == '<' || c == '>' || c == '"' || c == '\''
  }

  /** `_escape_html`. */
  function EscapeHtml(s: string): (r: string)
    ensures forall i | 0 <= i < |r| :: !Unsafe(r[i])
  {
    if s == [] then []
    else
      var e := EscapeChar(s[0]);
      var rest := EscapeHtml(s[1..]);
      assert forall i | |e| <= i < |e + rest| :: (e + rest)[i] == rest[i - |e|];
      e + rest
  }

  /** Decoding of the five entities `EscapeHtml` produces. */
  function UnescapeHtml(t: string): string
    decreases |t|
  {
    if t == [] then []
    else if StartsWith(t, "&amp;") then "&" + UnescapeHtml(t[5..])
    else if StartsWith(t, "&lt;") then "<" + UnescapeHtml(t[4..])
    else if StartsWith(t, "&gt;") then ">" + UnescapeHtml(t[4..])
    else if StartsWith(t, "&quot;") then "\"" + UnescapeHtml(t[6..])
    else if StartsWith(t, "&#x27;") then "'" + UnescapeHtml(t[6..])
    else [t[0]] + UnescapeHtml(t[1..])
  }

  /** Escaping loses nothing: decoding gives the text back. */
  lemma {:induction false} EscapeRoundTrip(s: string)
    ensures UnescapeHtml(EscapeHtml(s)) == s
  {
    if s != [] {
      EscapeRoundTrip(s[1..]);
      UnescapeStep(s[0], EscapeHtml(s[1..]));
      assert s == [s[0]] + s[1..];
    }
  }

  /** Decoding one escaped character. */
  lemma UnescapeStep(c: char, rest: string)
    ensures UnescapeHtml(EscapeChar(c) + rest) == [c] + UnescapeHtml(rest)
  {
    if c == '&' {
      UnescapeAmp(rest);
    } else if c == '<' {
      UnescapeLt(rest);
    } else if c == '>' {
      UnescapeGt(rest);
    } else if c == '"' {
      UnescapeQuot(rest);
    } else if c == '\'' {
      UnescapeApos(rest);
    } else {
      UnescapePlain(c, rest);
    }
  }

  /** A character other than `&` is copied. */
  lemma UnescapePlain(c: char, rest: string)
    requires c != '&'
    ensures UnescapeHtml([c] + rest) == [c] + UnescapeHtml(rest)
  {
    var t := [c] + rest;
    assert t[0] == c && t[1..] == rest;
    assert !StartsWith(t, "&amp;") && !StartsWith(t, "&lt;") && !StartsWith(t, "&gt;");
    assert !StartsWith(t, "&quot;") && !StartsWith(t, "&#x27;");
  }

  lemma UnescapeAmp(rest: string)
    ensures UnescapeHtml("&amp;" + rest) == "&" + UnescapeHtml(rest)
  {
    var t := "&amp;" + rest;
    assert t[..5] == "&amp;" && t[5..] == rest;
  }

  lemma UnescapeLt(rest: string)
    ensures UnescapeHtml("&lt;" + rest) == "<" + UnescapeHtml(rest)
  {
    var t := "&lt;" + rest;
    assert t[..4] == "&lt;" && t[4..] == rest;
    assert !StartsWith(t, "&amp;") by { assert t[1] == 'l'; }
  }

  lemma UnescapeGt(rest: string)
    ensures UnescapeHtml("&gt;" + rest) == ">" + UnescapeHtml(rest)
  {
    var t := "&gt;" + rest;
    assert t[..4] == "&gt;" && t[4..] == rest;
    assert t[1] == 'g';
    assert !StartsWith(t, "&amp;") && !StartsWith(t, "&lt;");
  }

  lemma UnescapeQuot(rest: string)
    ensures UnescapeHtml("&quot;" + rest) == "\"" + UnescapeHtml(rest)
  {
    var t := "&quot;" + rest;
    assert t[..6] == "&quot;" && t[6..] == rest;
    assert t[1] == 'q';
    assert !StartsWith(t, "&amp;") && !StartsWith(t, "&lt;") && !StartsWith(t, "&gt;");
  }

  lemma UnescapeApos(rest: string)
    ensures UnescapeHtml("&#x27;" + rest) == "'" + UnescapeHtml(rest)
  {
    var t := "&#x27;" + rest;
    assert t[..6] == "&#x27;" && t[6..] == rest;
    assert t[1] == '#';
    assert !StartsWith(t, "&amp;") && !StartsWith(t, "&lt;") && !StartsWith(t, "&gt;");
    assert !StartsWith(t, "&quot;");
  }

  /** "No description" for an empty description. */
  function Description(d: Definition): string {
    if d.description != "" then d.description else "No description"
  }

  function ChoicesText(d: Definition): string {
    " (choices: " + Join(d.choices.GetOr([]), ", ") + ")"
  }

  /** The INTEGER range note: " (min: a, max: b)" with the bounds that are set. */
  function RangeText(d: Definition): (r: string)
    ensures r == "" <==> d.minValue.None? && d.maxValue.None?
  {
    var parts := (if d.minValue.Some? then ["min: " + IntToString(d.minValue.value)] else [])
      + (if d.maxValue.Some? then ["max: " + IntToString(d.maxValue.value)] else []);
    if parts != [] then " (" + Join(parts, ", ") + ")" else ""
  }

  function DefaultText(d: Definition): string {
    if d.default.Some? then " [default: " + ValueText(d.default.value) + "]" else ""
  }

  /** `_format_argument_help` as written: for a CHOICE argument the line reads
      `range_text`, which only the other branches assign, so it raises. */
  function FormatArgumentHelpAsWritten(d: Definition): (r: Result<string, string>)
    ensures r.Err? <==> d.argType == ChoiceType
  {
    if d.argType == ChoiceType then
      Err("UnboundLocalError: local variable 'range_text' referenced before assignment")
    else
      var rangeText := if d.argType == IntegerType then RangeText(d) else "";
      Ok("  " + d.name + ": " + Description(d) + rangeText + DefaultText(d))
  }

  /** `_format_argument_help` as evidently intended: the CHOICE line shows its
      choices, the other lines are unchanged. */
  function FormatArgumentHelp(d: Definition): (line: string)
    ensures StartsWith(line, "  " + d.name + ": ")
    ensures d.argType == ChoiceType ==> Contains(line, ChoicesText(d))
    ensures d.default.Some? ==> Contains(line, DefaultText(d))
    ensures d.argType != ChoiceType ==> FormatArgumentHelpAsWritten(d) == Ok(line)
  {
    var head := "  " + d.name + ": " + Description(d);
    var extra := if d.argType == ChoiceType then ChoicesText(d)
                 else if d.argType == IntegerType then RangeText(d) else "";
    var line := head + extra + DefaultText(d);
    ContainsInfix(head, extra, DefaultText(d));
    ContainsInfix(head + extra, DefaultText(d), "");
    assert head + extra + DefaultText(d) + "" == line;
    assert line[..|"  " + d.name + ": "|] == "  " + d.name + ": ";
    line
  }

  /** The help lines of the definitions whose `required` is `want`, in order. */
  function FormatLines(defs: seq<Definition>, want: bool): (r: seq<string>)
    ensures |r| <= |defs|
    ensures r == [] <==> forall j | 0 <= j < |defs| :: defs[j].required != want
  {
    if defs == [] then []
    else
      var init := defs[..|defs| - 1];
      var last := defs[|defs| - 1];
      assert forall j | 0 <= j < |init| :: init[j] == defs[j];
      FormatLines(init, want) + (if last.required == want then [FormatArgumentHelp(last)] else [])
  }

  /** Every definition of the group has its line. */
  lemma {:induction false} FormatLinesHas(defs: seq<Definition>, want: bool, j: nat)
    requires j < |defs| && defs[j].required == want
    ensures FormatArgumentHelp(defs[j]) in FormatLines(defs, want)
  {
    var init := defs[..|defs| - 1];
    if j < |defs| - 1 {
      assert init[j] == defs[j];
      FormatLinesHas(init, want, j);
    }
  }

  /** The lines of `generate_help_text` before joining and escaping. */
  function HelpLines(defs: seq<Definition>): (lines: seq<string>)
    ensures (exists j | 0 <= j < |defs| :: defs[j].required) ==> |lines| > 0 && lines[0] == "Required arguments:"
    ensures (forall j | 0 <= j < |defs| :: !defs[j].required) && defs != [] ==>
      |lines| > 0 && lines[0] == "Optional arguments:"
    ensures forall j | 0 <= j < |defs| :: FormatArgumentHelp(defs[j]) in lines
  {
    var required := FormatLines(defs, true);
    var optional := FormatLines(defs, false);
    forall j | 0 <= j < |defs| ensures FormatArgumentHelp(defs[j]) in required + optional {
      FormatLinesHas(defs, defs[j].required, j);
    }
    assert (exists j | 0 <= j < |defs| :: defs[j].required) ==> required != [];
    assert defs != [] ==> required != [] || optional != [] by {
      if defs != [] {
        assert defs[0].required || !defs[0].required;
      }
    }
    (if required != [] then ["Required arguments:"] + required else [])
    + (if optional != [] then (if required != [] then [""] else []) + ["Optional arguments:"] + optional else [])
  }

  /** `generate_help_text` (with the CHOICE line as intended). The language
      argument is accepted and ignored. */
  function GenerateHelpText(defs: seq<Definition>, language: string): (text: string)
    ensures defs == [] ==> text == "No arguments required."
    ensures defs != [] ==> UnescapeHtml(text) == Join(HelpLines(defs), "\n")
    ensures defs != [] ==> forall i | 0 <= i < |text| :: !Unsafe(text[i])
  {
    if defs == [] then "No arguments required."
    else
      EscapeRoundTrip(Join(HelpLines(defs), "\n"));
      EscapeHtml(Join(HelpLines(defs), "\n"))
  }

  /** The help lines as written, which fail at the first CHOICE argument. */
  function FormatLinesAsWritten(defs: seq<Definition>, want: bool): (r: Result<seq<string>, string>)
    ensures r.Err? <==> exists j | 0 <= j < |defs| :: defs[j].required == want && defs[j].argType == ChoiceType
    ensures r.Ok? ==> r.value == FormatLines(defs, want)
  {
    if defs == [] then Ok([])
    else
      var init := defs[..|defs| - 1];
      var last := defs[|defs| - 1];
      FormatLinesLast(defs, want);
      ChoiceWantedLast(defs, want);
      match FormatLinesAsWritten(init, want)
      case Err(e) => Err(e)
      case Ok(lines) =>
        if last.required == want then
          match FormatArgumentHelpAsWritten(last)
          case Err(e) => Err(e)
          case Ok(line) => Ok(lines + [line])
        else Ok(lines)
  }

  lemma FormatLinesLast(defs: seq<Definition>, want: bool)
    requires defs != []
    ensures var last := defs[|defs| - 1];
      FormatLines(defs, want) ==
        FormatLines(defs[..|defs| - 1], want) + (if last.required == want then [FormatArgumentHelp(last)] else [])
  {
  }

  /** A wanted CHOICE argument is in the front or is the last one. */
  lemma ChoiceWantedLast(defs: seq<Definition>, want: bool)
    requires defs != []
    ensures var init, last := defs[..|defs| - 1], defs[|defs| - 1];
      (exists j | 0 <= j < |defs| :: defs[j].required == want && defs[j].argType == ChoiceType) <==>
        (exists j | 0 <= j < |init| :: init[j].required == want && init[j].argType == ChoiceType)
        || (last.required == want && last.argType == ChoiceType)
  {
    var init := defs[..|defs| - 1];
    assert forall j | 0 <= j < |init| :: init[j] == defs[j];
  }

  /** `generate_help_text` as written: it raises whenever some argument is a
      CHOICE, and otherwise agrees with the corrected text. */
  function GenerateHelpTextAsWritten(defs: seq<Definition>, language: string): (r: Result<string, string>)
    ensures r.Err? <==> exists j | 0 <= j < |defs| :: defs[j].argType == ChoiceType
    ensures r.Ok? ==> r.value == GenerateHelpText(defs, language)
  {
    if defs == [] then Ok("No arguments required.")
    else
      match FormatLinesAsWritten(defs, true)
      case Err(e) => Err(e)
      case Ok(required) =>
        match FormatLinesAsWritten(defs, false)
        case Err(e) => Err(e)
        case Ok(optional) =>
          var lines := (if required != [] then ["Required arguments:"] + required else [])
            + (if optional != [] then (if required != [] then [""] else []) + ["Optional arguments:"] + optional else []);
          Ok(EscapeHtml(Join(lines, "\n")))
  }

  /** A parser with a CHOICE argument cannot produce its help as written. */
  lemma ChoiceBreaksHelp(choice: Definition)
    requires choice.argType == ChoiceType
    ensures GenerateHelpTextAsWritten([choice], "en").Err?
    ensures Contains(FormatArgumentHelp(choice), ChoicesText(choice))
  {
  }
}

=== FILE: ask_command.dfy ===
/**
 * The request parsing of the `/ask` command: a plain request, or a request
 * with a system prompt written as `system:<text> user:<text>`. The replies and
 * the AI call are left out; the parse decides which of them happens.
 */
module AskCommand {
  import opened Wrappers
  import opened Text

  /** What `execute` does with a message: the usage reply, the format-error
      reply, the empty-request reply, or a request to the AI provider. */
  datatype Outcome =
    | Usage
    | FormatError
    | EmptyRequest
    | Ask(system: Option<string>, user: string)

  const SystemMarker := "system:"
  const UserMarker := "user:"

  /** The decisions on the stripped text after the command word. */
  function ParseRequest(requestText: string): (r: Outcome)
    ensures r != Usage
    ensures r.Ask? ==> r.user != []
    ensures r.Ask? && r.system.Some? ==>
      Contains(requestText, SystemMarker) && Contains(requestText, UserMarker)
    ensures !(Contains(requestText, SystemMarker) && Contains(requestText, UserMarker)) ==>
      r == (if requestText == [] then EmptyRequest else Ask(None, requestText))
  {
    if Contains(requestText, SystemMarker) && Contains(requestText, UserMarker) then
      var systemStart := Find(requestText, SystemMarker) + 7;
      var userStart := Find(requestText, UserMarker);
      if systemStart < userStart then WithSystem(requestText, systemStart, userStart)
      else FormatError
    else if requestText == [] then EmptyRequest
    else Ask(None, requestText)
  }

  /** The system prompt between the markers and the request after "user:",
      both stripped; an empty request is refused. */
  function WithSystem(requestText: string, systemStart: nat, userStart: nat): Outcome
    requires systemStart < userStart && userStart + 5 <= |requestText|
  {
    var systemMessage := Strip(requestText[systemStart..userStart]);
    var userMessage := Strip(requestText[userStart + 5..]);
    if userMessage == [] then EmptyRequest else Ask(Some(systemMessage), userMessage)
  }

  /** `AskCommand.execute` up to the AI call: the message is stripped and
      split once; a single word gets the usage reply. */
  function ParseAsk(text: string): (r: Outcome)
  {
    var parts := SplitOnce(Strip(text));
    if |parts| < 2 then Usage
    else ParseRequest(Strip(parts[1]))
  }

  /** The usage reply comes exactly when the stripped message has no
      whitespace inside, that is when it is the bare command. */
  lemma UsageIffOneWord(text: string)
    ensures ParseAsk(text) == Usage <==> NoSpace(Strip(text))
  {
    SplitsInTwoIffSpace(Strip(text));
  }

  /** A text with no whitespace at either end splits into a command word and
      a rest exactly when it has whitespace inside. */
  lemma SplitsInTwoIffSpace(t: string)
    requires t == [] || (!IsSpace(t[0]) && !IsSpace(t[|t| - 1]))
    ensures |SplitOnce(t)| == 2 <==> !NoSpace(t)
  {
    if t != [] {
      assert LStrip(t) == t;
      var n := SpanNonSpace(t);
      if n < |t| {
        var tail := t[n..];
        assert !IsSpace(tail[|tail| - 1]);
        assert LStrip(tail) != [];
        assert IsSpace(t[n]);
      } else {
        assert t[n..] == [];
      }
    }
  }

  /** A plain request (one word after the command at least) is never empty,
      so it always reaches the AI provider when it has no markers. */
  lemma PlainRequestIsSent(text: string)
    requires !NoSpace(Strip(text))
    ensures var parts := SplitOnce(Strip(text));
      |parts| == 2
      && var request := Strip(parts[1]);
      !(Contains(request, SystemMarker) && Contains(request, UserMarker)) ==>
        ParseAsk(text) == Ask(None, request) && request != []
  {
    UsageIffOneWord(text);
    var parts := SplitOnce(Strip(text));
    var rest := parts[1];
    assert rest == LStrip(rest);
    assert RStrip(rest) != [] by {
      assert !IsSpace(rest[0]);
    }
  }

  /** The round trip: writing a system prompt and a user request in the
      documented form and parsing it gives them back, as long as the system
      prompt does not itself contain "user:". */
  lemma SystemUserRoundTrip(system: string, user: string)
    requires Stripped(system) && Stripped(user) && user != []
    requires !Contains(system, UserMarker)
    ensures ParseRequest(SystemMarker + system + " " + UserMarker + user) == Ask(Some(system), user)
  {
    var req := SystemMarker + system + " " + UserMarker + user;
    MarkersFound(system, user);
    Pieces(SystemMarker, system, UserMarker, user);
    ParsedPieces(req, 8 + |system|, system, user);
  }

  /** The round trip stated on the positions and slices alone. */
  lemma {:induction false} ParsedPieces(req: string, p: nat, system: string, user: string)
    requires Find(req, SystemMarker) == 0 && Find(req, UserMarker) == p && 7 < p
    requires p + 5 <= |req| && req[7..p] == system + " " && req[p + 5..] == user
    requires Stripped(system) && Stripped(user) && user != []
    ensures ParseRequest(req) == Ask(Some(system), user)
  {
    OrderedMarkers(req);
    WithSystemOf(req, p, system, user);
    SameSlices(req, Find(req, SystemMarker) + 7, Find(req, UserMarker), 7, p);
  }

  lemma SameSlices(req: string, s: nat, u: nat, s': nat, u': nat)
    requires s < u && u + 5 <= |req| && s == s' && u == u'
    ensures WithSystem(req, s, u) == WithSystem(req, s', u')
  {
  }

  lemma WithSystemOf(req: string, p: nat, system: string, user: string)
    requires 7 < p && p + 5 <= |req|
    requires req[7..p] == system + " " && req[p + 5..] == user
    requires Stripped(system) && Stripped(user) && user != []
    ensures WithSystem(req, 7, p) == Ask(Some(system), user)
  {
    StripTrailingSpace(system);
    StripStripped(user);
  }

  /** With "system:" found before "user:", the parse takes the text between
      them as the system prompt and the text after "user:" as the request. */
  lemma {:induction false} OrderedMarkers(req: string)
    requires 0 <= Find(req, SystemMarker) && Find(req, SystemMarker) + 7 < Find(req, UserMarker)
    ensures Find(req, UserMarker) + 5 <= |req|
    ensures ParseRequest(req) == WithSystem(req, Find(req, SystemMarker) + 7, Find(req, UserMarker))
  {
    assert OccursAt(req, UserMarker, Find(req, UserMarker));
  }

  /** The slices of a text made of a marker, a text, a space, a marker and
      a text. */
  lemma Pieces(a: string, s: string, c: string, w: string)
    ensures var whole := a + s + " " + c + w;
      whole[|a|..|a| + |s| + 1] == s + " " && whole[|a| + |s| + 1 + |c|..] == w
  {
  }

  /** In such a request the first "system:" is at the start and the first
      "user:" is the written one. */
  lemma MarkersFound(system: string, user: string)
    requires !Contains(system, UserMarker)
    ensures var req := SystemMarker + system + " " + UserMarker + user;
      Find(req, SystemMarker) == 0 && Find(req, UserMarker) == 8 + |system|
  {
    var req := SystemMarker + system + " " + UserMarker + user;
    var p := 8 + |system|;
    assert OccursAt(req, SystemMarker, 0) by {
      assert req[0..7] == SystemMarker;
    }
    assert OccursAt(req, UserMarker, p) by {
      assert req[p..p + 5] == UserMarker;
    }
    forall j | 0 <= j < p
      ensures !OccursAt(req, UserMarker, j)
    {
      NoEarlierUser(system, user, j);
    }
  }

  lemma NoEarlierUser(system: string, user: string, j: nat)
    requires !Contains(system, UserMarker)
    requires j < 8 + |system|
    ensures !OccursAt(SystemMarker + system + " " + UserMarker + user, UserMarker, j)
  {
    var req := SystemMarker + system + " " + UserMarker + user;
    if j < 7 {
      assert req[j] == SystemMarker[j];
      assert req[j] != 'u';
    } else if j + 5 <= 7 + |system| {
      OccursWithin(SystemMarker, system, " " + UserMarker + user, UserMarker, j - 7);
      assert SystemMarker + system + (" " + UserMarker + user) == req;
    } else {
      assert req[7 + |system|] == ' ';
      if j + 5 <= |req| {
        assert req[j..j + 5][7 + |system| - j] == ' ';
      }
    }
  }

  /** An occurrence inside the middle piece is an occurrence in the whole,
      and the other way round. */
  lemma OccursWithin(a: string, s: string, b: string, w: string, j: nat)
    requires j + |w| <= |s|
    ensures OccursAt(a + s + b, w, |a| + j) <==> OccursAt(s, w, j)
  {
    assert (a + s + b)[|a| + j..|a| + j + |w|] == s[j..j + |w|];
  }

  /** A stripped text with a space after it strips back to itself. */
  lemma StripTrailingSpace(s: string)
    requires Stripped(s)
    ensures Strip(s + " ") == s
  {
    if s != [] {
      assert LStrip(s + " ") == s + " ";
      assert (s + " ")[..|s|] == s;
      assert RStrip(s + " ") == RStrip(s);
      assert RStrip(s) == s;
    } else {
      assert LStrip(" ") == LStrip("");
    }
  }

  /** "user:" written directly after "system:" leaves no room for the system
      text, which the source reports as a format error. */
  lemma AdjacentMarkersAreAFormatError(user: string)
    ensures ParseRequest(SystemMarker + UserMarker + user) == FormatError
  {
    var req := SystemMarker + UserMarker + user;
    assert req[0..7] == SystemMarker;
    assert OccursAt(req, SystemMarker, 0);
    assert req[7..12] == UserMarker;
    assert OccursAt(req, UserMarker, 7);
    assert Find(req, UserMarker) <= 7;
  }

  /** A user marker before the system marker is a format error too. */
  lemma UserBeforeSystemIsAFormatError(a: string, b: string)
    ensures ParseRequest(UserMarker + a + SystemMarker + b) == FormatError
  {
    var req := UserMarker + a + SystemMarker + b;
    assert req[0..5] == UserMarker;
    assert OccursAt(req, UserMarker, 0);
    assert req[5 + |a|..12 + |a|] == SystemMarker;
    assert OccursAt(req, SystemMarker, 5 + |a|);
    assert Find(req, UserMarker) == 0;
  }
}

=== FILE: commands.dfy ===
/**
 * The command system: a `Command` carries its name, description, admin flag
 * and formal arguments, and registers itself in a `CommandRegistry` when it
 * is created; the registry answers lookups, permission-filtered lists and the
 * help text.
 *
 * Python's dict keeps insertion order and an overwrite keeps the key's place;
 * the registry therefore holds the map together with its keys in insertion
 * order. A command's `execute` is left to the concrete commands.
 */
module Commands {
  import opened Wrappers
  import opened Text
  import PyList
  import Config
  import Arguments

  class Command {
    const name: string
    const description: string
    const adminOnly: bool
    const commandName: string
    const arguments: seq<Arguments.Definition>
    const argumentParser: Option<Arguments.ArgumentParser>

    /** What `__init__` establishes: the "/"-prefixed name, and a parser over
        the arguments exactly when there are any. */
    ghost predicate Valid() {
      commandName == "/" + name
      && (argumentParser.Some? <==> arguments != [])
      && (argumentParser.Some? ==> argumentParser.value.definitions == arguments)
    }

    /** `Command.__init__`: the fields, the parser, and the registration,
        which replaces any command already registered under the name. A
        missing argument list is the empty one. */
    constructor (name: string, description: string, adminOnly: bool,
                 arguments: seq<Arguments.Definition>, registry: CommandRegistry)
      requires Arguments.AllWellFormed(arguments)
      requires registry.Valid()
      modifies registry
      ensures this.name == name && this.description == description
      ensures this.adminOnly == adminOnly && this.arguments == arguments
      ensures Valid()
      ensures registry.Valid()
      ensures registry.commands == old(registry.commands)[name := this]
      ensures registry.names == PyList.AppendIfAbsent(old(registry.names), name)
    {
      this.name := name;
      this.description := description;
      this.adminOnly := adminOnly;
      this.commandName := "/" + name;
      this.arguments := arguments;
      if arguments != [] {
        var parser := new Arguments.ArgumentParser(arguments);
        this.argumentParser := Some(parser);
      } else {
        this.argumentParser := None;
      }
      new;
      registry.RegisterCommand(this);
    }

    /** `can_execute`. */
    predicate CanExecute(userId: int, config: Config.BotConfig) {
      !adminOnly || userId in config.adminUserIds
    }

    /** `get_help_text`: the escaped command name and description, followed
        by the arguments' help when the command has arguments. That help is
        never empty, so the source's emptiness test never drops it. */
    function HelpLine(language: string): (r: string)
      requires Valid()
      ensures var head := Arguments.EscapeHtml(commandName) + " - " + Arguments.EscapeHtml(description);
        StartsWith(r, head)
        && (arguments == [] ==> r == head)
        && (arguments != [] ==> r == head + "\n\n" + Arguments.GenerateHelpText(arguments, language))
    {
      var head := Arguments.EscapeHtml(commandName) + " - " + Arguments.EscapeHtml(description);
      StartsWithSelf(head);
      if argumentParser.Some? then
        var argHelp := Arguments.GenerateHelpText(argumentParser.value.definitions, language);
        ArgumentHelpNonEmpty(arguments, language);
        if argHelp != "" then
          StartsWithAppend(head, head, "\n\n" + argHelp);
          head + ("\n\n" + argHelp)
        else head
      else head
    }

    /** Some formal argument is a CHOICE. */
    predicate HasChoiceArgument() {
      exists j | 0 <= j < |arguments| :: arguments[j].argType == Arguments.ChoiceType
    }

    /** `get_help_text` as written: the arguments' help raises for a CHOICE
        argument, and so does the whole line; otherwise it is `HelpLine`. */
    function HelpLineAsWritten(language: string): (r: Result<string, string>)
      requires Valid()
      ensures r.Err? <==> HasChoiceArgument()
      ensures r.Ok? ==> r.value == HelpLine(language)
    {
      var head := Arguments.EscapeHtml(commandName) + " - " + Arguments.EscapeHtml(description);
      if argumentParser.Some? then
        match Arguments.GenerateHelpTextAsWritten(argumentParser.value.definitions, language)
        case Err(e) => Err(e)
        case Ok(argHelp) => if argHelp != "" then Ok(head + ("\n\n" + argHelp)) else Ok(head)
      else Ok(head)
    }

    /** `parse_arguments`: without arguments every input parses to nothing;
        otherwise the parser's verdict. Python's `ArgumentParseError` is the
        `Err` case. */
    method ParseArguments(argsString: string) returns (r: Result<Arguments.ParsedArguments, string>)
      requires Valid()
      ensures arguments == [] ==> r == Ok(Arguments.ParsedArguments([]))
      ensures arguments != [] ==> r == Arguments.ParseSpec(arguments, argsString)
    {
      if argumentParser.None? {
        return Ok(Arguments.ParsedArguments([]));
      }
      r := argumentParser.value.Parse(argsString);
    }
  }

  /** The help of a non-empty argument list is non-empty. */
  lemma ArgumentHelpNonEmpty(defs: seq<Arguments.Definition>, language: string)
    requires defs != []
    ensures Arguments.GenerateHelpText(defs, language) != ""
  {
    var lines := Arguments.HelpLines(defs);
    assert |lines| > 0 && lines[0] != "" by {
      if exists j | 0 <= j < |defs| :: defs[j].required {
        assert lines[0] == "Required arguments:";
      } else {
        assert lines[0] == "Optional arguments:";
      }
    }
    JoinNonEmpty(lines, "\n");
    assert Arguments.UnescapeHtml(Arguments.GenerateHelpText(defs, language)) != "";
  }

  /** The sort key of `sorted(..., key=lambda x: x.name)`. */
  function NameOf(c: Command): string {
    c.name
  }

  /** `[cmd for cmd in cs if cmd.admin_only == admin]`. */
  function Where(cs: seq<Command>, admin: bool): (r: seq<Command>)
    ensures forall c | c in r :: c in cs && c.adminOnly == admin
    ensures forall i | 0 <= i < |cs| && cs[i].adminOnly == admin :: cs[i] in r
    ensures r == [] <==> forall i | 0 <= i < |cs| :: cs[i].adminOnly != admin
  {
    if cs == [] then []
    else
      var init := cs[..|cs| - 1];
      var last := cs[|cs| - 1];
      assert cs == init + [last];
      Where(init, admin) + (if last.adminOnly == admin then [last] else [])
  }

  /** The admin and the public commands split any list between them. */
  lemma {:induction false} WherePartition(cs: seq<Command>)
    ensures |Where(cs, true)| + |Where(cs, false)| == |cs|
    ensures multiset(Where(cs, true)) + multiset(Where(cs, false)) == multiset(cs)
  {
    if cs != [] {
      var init, last := cs[..|cs| - 1], cs[|cs| - 1];
      assert cs == init + [last];
      WherePartition(init);
      WhereLast(cs, true);
      WhereLast(cs, false);
      SplitSnoc(Where(init, true), Where(init, false), init, last, last.adminOnly);
    }
  }

  /** Adding one element to a split list adds it to one side. */
  lemma SplitSnoc<T>(a: seq<T>, b: seq<T>, whole: seq<T>, x: T, left: bool)
    requires |a| + |b| == |whole| && multiset(a) + multiset(b) == multiset(whole)
    ensures var a', b' := (if left then a + [x] else a), (if left then b else b + [x]);
      |a'| + |b'| == |whole + [x]| && multiset(a') + multiset(b') == multiset(whole + [x])
  {
  }

  /** Filtering a non-empty list filters its front and then its last
      command. */
  lemma WhereLast(cs: seq<Command>, admin: bool)
    requires cs != []
    ensures Where(cs, admin) == Where(cs[..|cs| - 1], admin) + (if cs[|cs| - 1].adminOnly == admin then [cs[|cs| - 1]] else [])
  {
  }

  /** `[cmd for cmd in cs if cmd.can_execute(user_id, config)]`. */
  function Usable(cs: seq<Command>, userId: int, config: Config.BotConfig): (r: seq<Command>)
    ensures forall c | c in r :: c in cs && c.CanExecute(userId, config)
    ensures forall i | 0 <= i < |cs| && cs[i].CanExecute(userId, config) :: cs[i] in r
    ensures |r| <= |cs|
  {
    if cs == [] then []
    else
      var init := cs[..|cs| - 1];
      var last := cs[|cs| - 1];
      assert cs == init + [last];
      Usable(init, userId, config) + (if last.CanExecute(userId, config) then [last] else [])
  }

  /** The dictionary's values in key order. */
  function ValuesOf(names: seq<string>, commands: map<string, Command>): (r: seq<Command>)
    requires forall n | n in names :: n in commands
    ensures |r| == |names|
    ensures forall i | 0 <= i < |names| :: r[i] == commands[names[i]]
  {
    if names == [] then []
    else ValuesOf(names[..|names| - 1], commands) + [commands[names[|names| - 1]]]
  }

  /** The bullet line of one command in the help text. */
  function Bullet(c: Command, language: string): string
    requires c.Valid()
  {
    "• " + c.HelpLine(language) + "\n"
  }

  /** The bullet lines of a section, in order. */
  function Section(cs: seq<Command>, language: string): string
    requires forall c | c in cs :: c.Valid()
  {
    if cs == [] then ""
    else Section(cs[..|cs| - 1], language) + Bullet(cs[|cs| - 1], language)
  }

  /** A section as written: the first help line that raises stops it. */
  function SectionAsWritten(cs: seq<Command>, language: string): (r: Result<string, string>)
    requires forall c | c in cs :: c.Valid()
    ensures r.Err? <==> exists c | c in cs :: c.HasChoiceArgument()
    ensures r.Ok? ==> r.value == Section(cs, language)
  {
    if cs == [] then Ok("")
    else
      var init := cs[..|cs| - 1];
      var last := cs[|cs| - 1];
      assert cs == init + [last];
      match SectionAsWritten(init, language)
      case Err(e) => Err(e)
      case Ok(text) =>
        match last.HelpLineAsWritten(language)
        case Err(e) => Err(e)
        case Ok(line) => Ok(text + ("• " + line + "\n"))
  }

  /** A section holds the bullet of each of its commands. */
  lemma {:induction false} SectionContains(cs: seq<Command>, language: string, i: nat)
    requires forall c | c in cs :: c.Valid()
    requires i < |cs|
    ensures Contains(Section(cs, language), Bullet(cs[i], language))
  {
    var init := cs[..|cs| - 1];
    var last := Bullet(cs[|cs| - 1], language);
    if i == |cs| - 1 {
      ContainsInfix(Section(init, language), last, "");
      AppendEmpty(Section(init, language) + last);
    } else {
      assert init[i] == cs[i];
      SectionContains(init, language, i);
      ContainsInfix("", Section(init, language), last);
      PrependEmpty(Section(init, language));
      ContainsTransitive(Section(cs, language), Section(init, language), Bullet(cs[i], language));
    }
  }

  const EnglishTitle := "🤖 <b>Telegram Joke Bot Help</b>\n\n"
  const RussianTitle := "🤖 <b>Помощь по Telegram Joke Bot</b>\n\n"

  function Title(ru: bool): string {
    if ru then RussianTitle else EnglishTitle
  }

  function IdLine(ru: bool, userId: int): string {
    (if ru then "🆔 <b>Ваш ID:</b> <code>" else "🆔 <b>Your ID:</b> <code>")
      + IntToString(userId) + "</code>\n\n"
  }

  function PublicHeading(ru: bool): string {
    if ru then "📋 <b>Доступные команды:</b>\n" else "📋 <b>Available Commands:</b>\n"
  }

  function AdminHeading(ru: bool): string {
    if ru then "🔐 <b>Команды администратора:</b>\n" else "🔐 <b>Admin Commands:</b>\n"
  }

  function Features(ru: bool): string {
    if ru then
      "ℹ️ <b>Возможности:</b>\n" + "• Контекстные ответы\n" + "• Автономные комментарии с ИИ\n"
      + "• Поддержка нескольких языков\n"
    else
      "ℹ️ <b>Features:</b>\n" + "• Context-aware responses\n" + "• AI-powered autonomous comments\n"
      + "• Multi-language support\n"
  }

  /** The optional part of the help for one group of commands. */
  function Block(heading: string, cs: seq<Command>, language: string): string
    requires forall c | c in cs :: c.Valid()
  {
    if cs == [] then "" else heading + Section(cs, language) + "\n"
  }

  /** A block as written: it raises when one of its commands' lines does. */
  function BlockAsWritten(heading: string, cs: seq<Command>, language: string): (r: Result<string, string>)
    requires forall c | c in cs :: c.Valid()
    ensures r.Err? <==> exists c | c in cs :: c.HasChoiceArgument()
    ensures r.Ok? ==> r.value == Block(heading, cs, language)
  {
    if cs == [] then Ok("")
    else
      match SectionAsWritten(cs, language)
      case Err(e) => Err(e)
      case Ok(section) => Ok(heading + section + "\n")
  }

  /** The help text as written from its two sections: it raises when a
      command of either section has a CHOICE argument. */
  function AssembleAsWritten(ru: bool, userId: int, pub: seq<Command>, adm: seq<Command>, lang: string)
    : (r: Result<string, string>)
    requires forall c | c in pub :: c.Valid()
    requires forall c | c in adm :: c.Valid()
    ensures r.Err? <==>
      (exists c | c in pub :: c.HasChoiceArgument()) || (exists c | c in adm :: c.HasChoiceArgument())
    ensures r.Ok? ==>
      r.value == Assemble(Title(ru), IdLine(ru, userId), Block(PublicHeading(ru), pub, lang),
                          Block(AdminHeading(ru), adm, lang), Features(ru))
  {
    match BlockAsWritten(PublicHeading(ru), pub, lang)
    case Err(e) => Err(e)
    case Ok(pubPart) =>
      match BlockAsWritten(AdminHeading(ru), adm, lang)
      case Err(e) => Err(e)
      case Ok(admPart) => Ok(Assemble(Title(ru), IdLine(ru, userId), pubPart, admPart, Features(ru)))
  }

  /** The help text from its parts, in order. */
  function Assemble(title: string, id: string, pub: string, adm: string, features: string): string {
    title + (id + (pub + (adm + features)))
  }

  lemma AssembleParts(title: string, id: string, pub: string, adm: string, features: string)
    ensures StartsWith(Assemble(title, id, pub, adm, features), title)
    ensures Contains(Assemble(title, id, pub, adm, features), pub)
    ensures Contains(Assemble(title, id, pub, adm, features), adm)
  {
    var whole := Assemble(title, id, pub, adm, features);
    assert whole[..|title|] == title;
    assert whole[|title| + |id|..|title| + |id| + |pub|] == pub;
    assert OccursAt(whole, pub, |title| + |id|);
    assert whole[|title| + |id| + |pub|..|title| + |id| + |pub| + |adm|] == adm;
    assert OccursAt(whole, adm, |title| + |id| + |pub|);
  }

  /** The two titles differ, so the opening tells the languages apart. */
  lemma TitlesDiffer()
    ensures !StartsWith(RussianTitle, EnglishTitle) && !StartsWith(EnglishTitle, RussianTitle)
  {
    assert EnglishTitle[5] != RussianTitle[5];
  }

  class CommandRegistry {
    var commands: map<string, Command>
    /** The dictionary's keys in insertion order. */
    var names: seq<string>

    ghost predicate Valid()
      reads this
    {
      PyList.NoDup(names)
      && (forall n :: n in names <==> n in commands)
      && (forall n | n in commands :: commands[n].name == n && commands[n].Valid())
    }

    /** `c` is the command registered under its own name. */
    ghost predicate Registered(c: Command)
      reads this
    {
      c.name in commands && commands[c.name] == c
    }

    constructor ()
      ensures Valid() && commands == map[] && names == []
    {
      commands := map[];
      names := [];
    }

    /** `register_command`: the command is stored under its name, replacing
        any earlier one there; a new name goes last in the order. */
    method RegisterCommand(command: Command)
      requires Valid() && command.Valid()
      modifies this
      ensures Valid()
      ensures commands == old(commands)[command.name := command]
      ensures names == PyList.AppendIfAbsent(old(names), command.name)
      ensures Registered(command)
    {
      if command.name !in commands {
        PyList.NoDupSnoc(names, command.name);
      }
      names := PyList.AppendIfAbsent(names, command.name);
      commands := commands[command.name := command];
    }

    /** `get_command`. */
    function GetCommand(name: string): (r: Option<Command>)
      reads this
      requires Valid()
      ensures r.Some? <==> name in commands
      ensures r.Some? ==> Registered(r.value) && r.value.name == name
    {
      if name in commands then Some(commands[name]) else None
    }

    /** `get_all_commands`: every registered command once, in registration
        order. */
    function AllCommands(): (r: seq<Command>)
      reads this
      requires Valid()
      ensures |r| == |names|
      ensures forall i | 0 <= i < |r| :: Registered(r[i]) && r[i].name == names[i]
      ensures forall n | n in commands :: commands[n] in r
      ensures forall c | c in r :: c.Valid()
    {
      var r := ValuesOf(names, commands);
      forall n | n in commands ensures commands[n] in r {
        var i :| 0 <= i < |names| && names[i] == n;
        assert r[i] == commands[n];
      }
      r
    }

    /** The registry holds as many commands as names. */
    lemma CountIsNames()
      requires Valid()
      ensures |AllCommands()| == |commands|
    {
      NoDupCard(names);
      var keys := set n | n in names;
      forall n | n in keys ensures n in commands.Keys {}
      forall n | n in commands.Keys ensures n in keys {}
      assert keys == commands.Keys;
    }

    /** `get_user_commands`: exactly the registered commands the user may
        run. */
    function UserCommands(userId: int, config: Config.BotConfig): (r: seq<Command>)
      reads this
      requires Valid()
      ensures forall c | c in r :: Registered(c) && c.CanExecute(userId, config)
      ensures forall n | n in commands && commands[n].CanExecute(userId, config) :: commands[n] in r
      ensures forall c | c in r :: c.Valid()
    {
      Usable(AllCommands(), userId, config)
    }

    /** `get_admin_commands`. */
    function AdminCommands(): (r: seq<Command>)
      reads this
      requires Valid()
      ensures forall c | c in r :: Registered(c) && c.adminOnly
      ensures forall n | n in commands && commands[n].adminOnly :: commands[n] in r
    {
      Where(AllCommands(), true)
    }

    /** `get_public_commands`. */
    function PublicCommands(): (r: seq<Command>)
      reads this
      requires Valid()
      ensures forall c | c in r :: Registered(c) && !c.adminOnly
      ensures forall n | n in commands && !commands[n].adminOnly :: commands[n] in r
    {
      Where(AllCommands(), false)
    }

    /** The admin and the public commands together are all commands, each
        exactly once. */
    lemma AdminPublicPartition()
      requires Valid()
      ensures |AdminCommands()| + |PublicCommands()| == |commands|
      ensures multiset(AdminCommands()) + multiset(PublicCommands()) == multiset(AllCommands())
    {
      WherePartition(AllCommands());
      CountIsNames();
    }

    /** `get_command_names`: each command's "/"-prefixed name, in
        registration order. */
    function CommandNames(): (r: seq<string>)
      reads this
      requires Valid()
      ensures |r| == |AllCommands()|
      ensures forall i | 0 <= i < |r| :: r[i] == AllCommands()[i].commandName
    {
      var ns := names;
      var cs := AllCommands();
      seq(|ns|, i requires 0 <= i < |ns| => "/" + ns[i])
    }

    /** `get_bot_commands` as written: it asks each command for
        `get_description`, which `Command` does not define, so it raises as
        soon as any command is registered. */
    function BotCommandsAsWritten(language: string): (r: Result<seq<(string, string)>, string>)
      reads this
      requires Valid()
      ensures r.Err? <==> |AllCommands()| > 0
      ensures r.Ok? ==> r.value == BotCommands(language)
    {
      if names == [] then Ok([])
      else Err("AttributeError: 'Command' object has no attribute 'get_description'")
    }

    /** `get_bot_commands` as intended: one (command, description) pair per
        registered command, in registration order. `Command` has only one
        description, so the language does not change it. */
    function BotCommands(language: string): (r: seq<(string, string)>)
      reads this
      requires Valid()
      ensures |r| == |AllCommands()|
      ensures forall i | 0 <= i < |r| ::
        r[i] == (AllCommands()[i].name, AllCommands()[i].description)
    {
      var cs := AllCommands();
      seq(|cs|, i requires 0 <= i < |cs| => (cs[i].name, cs[i].description))
    }

    /** One section of the help: the commands of one kind that the user may
        run, sorted by name. */
    function Listed(admin: bool, userId: int, config: Config.BotConfig): (r: seq<Command>)
      reads this
      requires Valid()
      ensures forall c | c in r :: Registered(c) && c.CanExecute(userId, config) && c.adminOnly == admin
      ensures forall n | n in commands && commands[n].CanExecute(userId, config) && commands[n].adminOnly == admin ::
        commands[n] in r
      ensures SortedBy(r, NameOf)
      ensures |r| == |Where(UserCommands(userId, config), admin)|
      ensures forall c | c in r :: c.Valid()
    {
      var kind := Where(UserCommands(userId, config), admin);
      var r := SortBy(kind, NameOf);
      assert |multiset(r)| == |multiset(kind)|;
      forall c | c in r ensures c in kind {
        assert c in multiset(r);
      }
      forall c | c in kind ensures c in r {
        assert c in multiset(kind);
      }
      r
    }

    /** `generate_help_text`: Russian exactly when the language is "ru",
        otherwise English; a section appears only when it has commands. */
    function HelpSpec(userId: int, config: Config.BotConfig, language: string): string
      reads this
      requires Valid()
    {
      var ru := language == "ru";
      var lang := if ru then "ru" else "en";
      Assemble(Title(ru), IdLine(ru, userId),
               Block(PublicHeading(ru), Listed(false, userId, config), lang),
               Block(AdminHeading(ru), Listed(true, userId, config), lang),
               Features(ru))
    }

    /** `generate_help_text` as written: it raises when the user may run a
        command with a CHOICE argument, and otherwise gives the specified help. */
    function GenerateHelpTextAsWritten(userId: int, config: Config.BotConfig, language: string)
      : (r: Result<string, string>)
      reads this
      requires Valid()
      ensures r.Err? <==>
        exists n | n in commands :: commands[n].CanExecute(userId, config) && commands[n].HasChoiceArgument()
      ensures r.Ok? ==> r.value == HelpSpec(userId, config, language)
    {
      var ru := language == "ru";
      VisibleChoice(userId, config);
      AssembleAsWritten(ru, userId, Listed(false, userId, config), Listed(true, userId, config),
                        if ru then "ru" else "en")
    }

    /** The commands the user may run with a CHOICE argument are those of
        the two sections. */
    lemma VisibleChoice(userId: int, config: Config.BotConfig)
      requires Valid()
      ensures (exists n | n in commands :: commands[n].CanExecute(userId, config) && commands[n].HasChoiceArgument())
        <==> ((exists c | c in Listed(false, userId, config) :: c.HasChoiceArgument())
              || (exists c | c in Listed(true, userId, config) :: c.HasChoiceArgument()))
    {
      var pub := Listed(false, userId, config);
      var adm := Listed(true, userId, config);
      forall n | n in commands && commands[n].CanExecute(userId, config) && commands[n].HasChoiceArgument()
        ensures commands[n] in pub || commands[n] in adm
      {
      }
    }

    /** As written, a command with a CHOICE argument breaks the help of
        exactly the users who may run it: an admin-only one leaves everyone
        else's help intact. */
    lemma ChoiceBreaksHelpOfRunners(c: Command, userId: int, config: Config.BotConfig, language: string)
      requires Valid() && Registered(c) && c.HasChoiceArgument()
      requires forall n | n in commands && commands[n] != c :: !commands[n].HasChoiceArgument()
      ensures GenerateHelpTextAsWritten(userId, config, language).Err? <==> c.CanExecute(userId, config)
      ensures c.adminOnly && userId !in config.adminUserIds ==>
        GenerateHelpTextAsWritten(userId, config, language) == Ok(HelpSpec(userId, config, language))
    {
      if c.CanExecute(userId, config) {
        assert commands[c.name] == c;
      }
    }

    /** `generate_help_text` and its two language variants: each section is
        built by the loop over its sorted commands, and the pieces are put
        together in order. */
    method GenerateHelpText(userId: int, config: Config.BotConfig, language: string) returns (text: string)
      requires Valid()
      ensures text == HelpSpec(userId, config, language)
    {
      var ru := language == "ru";
      var lang := if ru then "ru" else "en";
      var publicPart := SectionPart(false, PublicHeading(ru), userId, config, lang);
      var adminPart := SectionPart(true, AdminHeading(ru), userId, config, lang);
      text := Assemble(Title(ru), IdLine(ru, userId), publicPart, adminPart, Features(ru));
    }

    /** One `if <kind>_commands:` block of `generate_help_text`: nothing when
        the user may run no command of that kind, otherwise the heading, the
        sorted bullets and a blank line. */
    method SectionPart(admin: bool, heading: string, userId: int, config: Config.BotConfig, lang: string)
      returns (part: string)
      requires Valid()
      ensures part == Block(heading, Listed(admin, userId, config), lang)
    {
      var available := UserCommands(userId, config);
      var kind := Where(available, admin);
      part := "";
      if kind != [] {
        var listed := Listed(admin, userId, config);
        part := AppendSection(heading, listed, lang);
        part := part + "\n";
      }
    }

    /** The `for cmd in sorted(...)` loop: one bullet per command. */
    static method AppendSection(text: string, cs: seq<Command>, language: string) returns (r: string)
      requires forall c | c in cs :: c.Valid()
      ensures r == text + Section(cs, language)
    {
      r := text;
      AppendEmpty(text);
      for i := 0 to |cs|
        invariant r == text + Section(cs[..i], language)
      {
        assert cs[..i + 1][..i] == cs[..i];
        AppendAssoc(text, Section(cs[..i], language), Bullet(cs[i], language));
        r := r + Bullet(cs[i], language);
      }
      assert cs[..|cs|] == cs;
    }

    /** The help opens with the Russian title for "ru" and with the English
        one for any other language. */
    lemma HelpLanguage(userId: int, config: Config.BotConfig, language: string)
      requires Valid()
      ensures language == "ru" ==> StartsWith(HelpSpec(userId, config, language), RussianTitle)
      ensures language != "ru" ==> StartsWith(HelpSpec(userId, config, language), EnglishTitle)
    {
      var ru := language == "ru";
      var lang := if ru then "ru" else "en";
      AssembleParts(Title(ru), IdLine(ru, userId),
                    Block(PublicHeading(ru), Listed(false, userId, config), lang),
                    Block(AdminHeading(ru), Listed(true, userId, config), lang),
                    Features(ru));
    }

    /** Every command the user may run has its bullet line in the help. */
    lemma HelpListsAvailable(c: Command, userId: int, config: Config.BotConfig, language: string)
      requires Valid()
      requires Registered(c) && c.CanExecute(userId, config)
      ensures c.Valid()
      ensures Contains(HelpSpec(userId, config, language),
                       Bullet(c, if language == "ru" then "ru" else "en"))
    {
      var ru := language == "ru";
      var lang := if ru then "ru" else "en";
      var listed := Listed(c.adminOnly, userId, config);
      assert c.name in commands;
      assert c in listed;
      var i :| 0 <= i < |listed| && listed[i] == c;
      SectionContains(listed, lang, i);
      var heading := if c.adminOnly then AdminHeading(ru) else PublicHeading(ru);
      ContainsInfix(heading, Section(listed, lang), "\n");
      ContainsTransitive(Block(heading, listed, lang), Section(listed, lang), Bullet(c, lang));
      var pub := Block(PublicHeading(ru), Listed(false, userId, config), lang);
      var adm := Block(AdminHeading(ru), Listed(true, userId, config), lang);
      var help := Assemble(Title(ru), IdLine(ru, userId), pub, adm, Features(ru));
      AssembleParts(Title(ru), IdLine(ru, userId), pub, adm, Features(ru));
      if c.adminOnly {
        ContainsTransitive(help, adm, Bullet(c, lang));
      } else {
        ContainsTransitive(help, pub, Bullet(c, lang));
      }
    }

    /** A user outside the admin list gets no admin section. */
    lemma NoAdminSectionForOthers(userId: int, config: Config.BotConfig)
      requires Valid()
      requires userId !in config.adminUserIds
      ensures Listed(true, userId, config) == []
    {
      var available := UserCommands(userId, config);
      forall i | 0 <= i < |available| ensures !available[i].adminOnly {
        assert available[i] in available;
      }
    }
  }

  /** A duplicate-free list has as many distinct items as entries. */
  lemma {:induction false} NoDupCard(xs: seq<string>)
    requires PyList.NoDup(xs)
    ensures |set x | x in xs| == |xs|
  {
    if xs != [] {
      var init := xs[..|xs| - 1];
      var last := xs[|xs| - 1];
      assert PyList.NoDup(init);
      NoDupCard(init);
      assert last !in init;
      var s := set x | x in init;
      forall x | x in xs ensures x in s + {last} {
        if x != last {
          var i :| 0 <= i < |xs| && xs[i] == x;
          assert init[i] == x;
        }
      }
      forall x | x in s + {last} ensures x in xs {}
      assert (set x | x in xs) == s + {last};
    }
  }
}

=== FILE: commenter.dfy ===
/**
 * The autonomous-comment engine (`AutonomousCommenter`): per-chat counters
 * and message windows, the ordered cascade of gates that decides whether the
 * bot chimes in, the reset after it has commented, and the pure pieces of
 * comment generation (conversation context, profile summaries, the prompt
 * and the tolerant reading of the model's JSON answer).
 *
 * Random draws (`random.randint`, `random.random`) and the clock are
 * parameters; JSON decoding is a function parameter.
 */
module Commenter {
  import opened Wrappers
  import opened PyList
  import Text
  import Telegram
  import Config
  import Profiles
  import History

  /** A comment the bot decided to post; no reply target means standalone. */
  datatype AutonomousComment = AutonomousComment(
    text: string,
    replyToMessageId: Option<int>,
    targetUserId: Option<int>,
    commentType: string)

  /** The exception `random.randint` raises on an empty range. */
  datatype Error = ValueError

  /** Per-chat state; `lastCommentTime` is in whole seconds. */
  datatype ChatState = ChatState(
    chatId: int,
    messagesSinceLastComment: int,
    lastCommentTime: Option<int>,
    nextCommentThreshold: int,
    recentMessages: seq<Telegram.Message>,
    lastAutonomousComment: Option<string>)

  /** A draw of `random.randint(min, max)` for the message gap. */
  predicate InRange(ac: Config.AutonomousCommentingConfig, r: int) {
    ac.minMessagesBetweenComments <= r <= ac.maxMessagesBetweenComments
  }

  /** Whether `random.randint(min, max)` can draw at all; with min > max it
      raises ValueError. The configuration loader accepts such a range. */
  predicate RangeOk(ac: Config.AutonomousCommentingConfig) {
    ac.minMessagesBetweenComments <= ac.maxMessagesBetweenComments
  }

  function NewChatState(chatId: int, threshold: int): (s: ChatState)
    ensures s.chatId == chatId && s.nextCommentThreshold == threshold
    ensures s.messagesSinceLastComment == 0 && s.lastCommentTime.None? && s.recentMessages == []
  {
    ChatState(chatId, 0, None, threshold, [], None)
  }

  /** The window after appending `m`: cut to the last `size` messages when it
      grew beyond `size` (with Python's slice rules for `size <= 0`). */
  function Window(xs: seq<Telegram.Message>, m: Telegram.Message, size: int): (r: seq<Telegram.Message>)
    ensures size >= 1 ==> |r| == if |xs| + 1 <= size then |xs| + 1 else size
    ensures size >= 1 ==> r == (xs + [m])[|xs| + 1 - |r|..]
    ensures size >= 1 ==> r[|r| - 1] == m
    ensures size == 0 ==> r == xs + [m]
  {
    var all := xs + [m];
    if |all| > size then KeepLast(all, size) else all
  }

  /** The state after `add_message`: one more message counted and windowed. */
  function Added(s: ChatState, m: Telegram.Message, size: int): (r: ChatState)
    ensures r.messagesSinceLastComment == s.messagesSinceLastComment + 1
    ensures r.recentMessages == Window(s.recentMessages, m, size)
    ensures r.(messagesSinceLastComment := s.messagesSinceLastComment, recentMessages := s.recentMessages) == s
  {
    s.(messagesSinceLastComment := s.messagesSinceLastComment + 1,
       recentMessages := Window(s.recentMessages, m, size))
  }

  // ------------------------------------------------------------- the decision

  /** The outcome of `should_comment`: the first gate that refuses, or `Go`. */
  datatype Gate = Disabled | Excluded | TooFewMessages | CoolingDown | BelowThreshold
                | ProbabilityMiss | BadMoment | Go

  /** `_is_good_time_to_comment` as its outcome really is: among the last five
      messages there is one, and neither of the last two replies to the bot. */
  predicate GoodTime(recentMessages: seq<Telegram.Message>, botId: int) {
    var recent := KeepLast(recentMessages, 5);
    recent != [] && forall m | m in KeepLast(recent, 2) :: m.replyToFrom != Some(botId)
  }

  /** The gates before the probability draw let the chat through: enabled,
      not excluded, enough messages, not cooling down, threshold reached. */
  predicate ReachesDraw(ac: Config.AutonomousCommentingConfig, excludedChats: seq<int>, s: ChatState, now: int) {
    ac.enabled && s.chatId !in excludedChats
    && s.messagesSinceLastComment >= ac.minMessagesBetweenComments
    && (s.lastCommentTime.Some? ==> now - s.lastCommentTime.value >= ac.minTimeBetweenCommentsSeconds)
    && s.messagesSinceLastComment >= s.nextCommentThreshold
  }

  /** A good moment needs a message in the window, and a reply to the bot
      as the last message spoils it; without any reply to the bot, any
      non-empty window is a good moment. */
  lemma {:induction false} GoodTimeFacts(recentMessages: seq<Telegram.Message>, botId: int)
    ensures recentMessages == [] ==> !GoodTime(recentMessages, botId)
    ensures recentMessages != [] && recentMessages[|recentMessages| - 1].replyToFrom == Some(botId)
            ==> !GoodTime(recentMessages, botId)
    ensures |recentMessages| >= 2 && recentMessages[|recentMessages| - 2].replyToFrom == Some(botId)
            ==> !GoodTime(recentMessages, botId)
    ensures recentMessages != [] && (forall m | m in recentMessages :: m.replyToFrom != Some(botId))
            ==> GoodTime(recentMessages, botId)
  {
    LastTwoOfWindow(recentMessages);
    if recentMessages != [] {
      ReplyAmongLastTwo(recentMessages, botId);
      LastTwoFromWindow(recentMessages, botId);
    }
  }

  lemma {:induction false} ReplyAmongLastTwo(recentMessages: seq<Telegram.Message>, botId: int)
    requires recentMessages != []
    ensures recentMessages[|recentMessages| - 1].replyToFrom == Some(botId) ==> !GoodTime(recentMessages, botId)
    ensures |recentMessages| >= 2 && recentMessages[|recentMessages| - 2].replyToFrom == Some(botId)
            ==> !GoodTime(recentMessages, botId)
  {
    LastTwoOfWindow(recentMessages);
    var two := KeepLast(recentMessages, 2);
    assert two[|two| - 1] == recentMessages[|recentMessages| - 1];
    if |recentMessages| >= 2 {
      assert two[0] == recentMessages[|recentMessages| - 2];
    }
  }

  lemma {:induction false} LastTwoFromWindow(recentMessages: seq<Telegram.Message>, botId: int)
    requires recentMessages != []
    ensures (forall m | m in recentMessages :: m.replyToFrom != Some(botId)) ==> GoodTime(recentMessages, botId)
  {
    LastTwoOfWindow(recentMessages);
    var two := KeepLast(recentMessages, 2);
    assert forall m | m in two :: m in recentMessages;
  }

  /** The last two of the last five are the last two. */
  lemma {:induction false} LastTwoOfWindow<T>(xs: seq<T>)
    ensures KeepLast(xs, 5) == [] <==> xs == []
    ensures KeepLast(KeepLast(xs, 5), 2) == KeepLast(xs, 2)
  {
  }

  /** Every gate of `should_comment` lets the chat through. */
  predicate AllGatesPass(ac: Config.AutonomousCommentingConfig, excludedChats: seq<int>, s: ChatState,
                         now: int, draw: real, botId: int) {
    ReachesDraw(ac, excludedChats, s, now)
    && draw <= ac.commentProbability
    && (ac.useIntelligentDecision ==> GoodTime(s.recentMessages, botId))
  }

  /** The cascade of `should_comment`, in its order, for a chat whose state is `s`. */
  function Evaluate(ac: Config.AutonomousCommentingConfig, excludedChats: seq<int>, s: ChatState,
                    now: int, draw: real, botId: int): (g: Gate)
    ensures g == Go <==> AllGatesPass(ac, excludedChats, s, now, draw, botId)
    ensures s.messagesSinceLastComment < ac.minMessagesBetweenComments ==> g != Go && g != ProbabilityMiss
    ensures s.messagesSinceLastComment < s.nextCommentThreshold ==> g != Go && g != ProbabilityMiss
    ensures g == ProbabilityMiss <==> ReachesDraw(ac, excludedChats, s, now) && draw > ac.commentProbability
    ensures g == BadMoment ==> ac.useIntelligentDecision && !GoodTime(s.recentMessages, botId)
  {
    if !ac.enabled then Disabled
    else if s.chatId in excludedChats then Excluded
    else if s.messagesSinceLastComment < ac.minMessagesBetweenComments then TooFewMessages
    else if s.lastCommentTime.Some? && now - s.lastCommentTime.value < ac.minTimeBetweenCommentsSeconds
    then CoolingDown
    else if s.messagesSinceLastComment < s.nextCommentThreshold then BelowThreshold
    else if draw > ac.commentProbability then ProbabilityMiss
    else if ac.useIntelligentDecision && !GoodTime(s.recentMessages, botId) then BadMoment
    else Go
  }

  /** The gates before the probability draw do not look at the draw: a chat
      they refuse is refused whatever `random.random()` returns. */
  lemma EarlyGatesIgnoreDraw(ac: Config.AutonomousCommentingConfig, excludedChats: seq<int>, s: ChatState,
                             now: int, botId: int, d1: real, d2: real)
    requires Evaluate(ac, excludedChats, s, now, d1, botId) in {Disabled, Excluded, TooFewMessages, CoolingDown, BelowThreshold}
    ensures Evaluate(ac, excludedChats, s, now, d2, botId) == Evaluate(ac, excludedChats, s, now, d1, botId)
  {
  }

  /** Python's `msg.text` being truthy and one of the "roast-worthy" markers occurring. */
  predicate RoastWorthy(m: Telegram.Message) {
    Telegram.HasText(m)
    && (var lower := Text.LowerStr(m.text.value);
        (exists w | w in ["help", "error", "bug", "problem", "why", "how"] :: Text.Contains(lower, w))
        || Text.Contains(lower, "???")
        || (exists k | 0 <= k < 26 :: Text.Contains(m.text.value, [Letters[k], Letters[k], Letters[k]])))
  }

  const Letters := "abcdefghijklmnopqrstuvwxyz"

  /** `_is_good_time_to_comment`, with its three scans. The multi-user and
      keyword scans end in `return True` as the fall-through does, so only the
      first two checks decide. */
  method IsGoodTimeToComment(recentMessages: seq<Telegram.Message>, botId: int) returns (good: bool)
    ensures good == GoodTime(recentMessages, botId)
  {
    var recent := if |recentMessages| >= 5 then KeepLast(recentMessages, 5) else recentMessages;
    assert recent == KeepLast(recentMessages, 5);
    if recent == [] {
      return false;
    }
    var replied := RepliesToBot(KeepLast(recent, 2), botId);
    if replied {
      return false;
    }
    var recentUsers := OtherSenders(recent, botId);
    if |recentUsers| >= 2 {
      return true;
    }
    var roastable := AnyRoastWorthy(KeepLast(recent, 3));
    if roastable {
      return true;
    }
    return true;
  }

  /** The scan of the last two messages for a reply to the bot. */
  method RepliesToBot(lastTwo: seq<Telegram.Message>, botId: int) returns (found: bool)
    ensures found <==> exists m | m in lastTwo :: m.replyToFrom == Some(botId)
  {
    for i := 0 to |lastTwo|
      invariant forall k | 0 <= k < i :: lastTwo[k].replyToFrom != Some(botId)
    {
      if lastTwo[i].replyToFrom == Some(botId) {
        return true;
      }
    }
    return false;
  }

  /** The ids of the senders other than the bot (`recent_users`). */
  method OtherSenders(recent: seq<Telegram.Message>, botId: int) returns (users: set<int>)
    ensures users == set m | m in recent && m.fromUser.Some? && m.fromUser.value.id != botId :: m.fromUser.value.id
  {
    users := {};
    for i := 0 to |recent|
      invariant users == set m | m in recent[..i] && m.fromUser.Some? && m.fromUser.value.id != botId :: m.fromUser.value.id
    {
      assert recent[..i + 1] == recent[..i] + [recent[i]];
      var m := recent[i];
      if m.fromUser.Some? && m.fromUser.value.id != botId {
        users := users + {m.fromUser.value.id};
      }
    }
    assert recent[..|recent|] == recent;
  }

  /** The keyword scan of the last three messages. */
  method AnyRoastWorthy(lastThree: seq<Telegram.Message>) returns (found: bool)
    ensures found <==> exists m | m in lastThree :: RoastWorthy(m)
  {
    for i := 0 to |lastThree|
      invariant forall k | 0 <= k < i :: !RoastWorthy(lastThree[k])
    {
      if RoastWorthy(lastThree[i]) {
        return true;
      }
    }
    return false;
  }

  /** `get_chat_stats`. */
  datatype ChatStats =
    | Untracked
    | Tracked(messagesSinceComment: int, lastComment: Option<int>, nextThreshold: int, recentMessagesCount: nat)

  /** `AutonomousCommenter`: the configuration it reads and its `chat_states`. */
  class Commenter {
    const ac: Config.AutonomousCommentingConfig
    const contextWindowSize: int
    const excludedChats: seq<int>
    var chatStates: map<int, ChatState>

    /** Every state sits under its own chat id, has a threshold drawn from
        [min, max], a non-negative counter and a window no longer than the
        configured size (when that size is at least 1). */
    ghost predicate Valid()
      reads this
    {
      forall c | c in chatStates :: StateOk(c, chatStates[c])
    }

    ghost predicate StateOk(c: int, s: ChatState) {
      s.chatId == c
      && InRange(ac, s.nextCommentThreshold)
      && s.messagesSinceLastComment >= 0
      && (contextWindowSize >= 1 ==> |s.recentMessages| <= contextWindowSize)
    }

    constructor (config: Config.BotConfig)
      ensures Valid() && chatStates == map[]
      ensures ac == config.yamlConfig.autonomousCommenting
      ensures contextWindowSize == config.yamlConfig.conversationMonitoring.contextWindowSize
      ensures excludedChats == config.yamlConfig.excludedChats
    {
      ac := config.yamlConfig.autonomousCommenting;
      contextWindowSize := config.yamlConfig.conversationMonitoring.contextWindowSize;
      excludedChats := config.yamlConfig.excludedChats;
      chatStates := map[];
    }

    /** The chat's state, or the one `_get_chat_state` would create with threshold `r`. */
    function StateFor(chatId: int, r: int): (s: ChatState)
      reads this
      ensures chatId in chatStates ==> s == chatStates[chatId]
      ensures chatId !in chatStates ==> s == NewChatState(chatId, r)
      ensures Valid() ==> s.chatId == chatId && s.messagesSinceLastComment >= 0
    {
      if chatId in chatStates then chatStates[chatId] else NewChatState(chatId, r)
    }

    /** Whether `_get_chat_state` has to create the chat's state from a range
        `randint` cannot draw from, and so raises ValueError. */
    predicate CreationRaises(chatId: int)
      reads this
    {
      chatId !in chatStates && !RangeOk(ac)
    }

    /** A state exists only when its threshold was drawn, so only when the
        range is non-empty: a second draw on an existing state never raises. */
    lemma StatesOnlyWithRange(chatId: int)
      requires Valid() && chatId in chatStates
      ensures RangeOk(ac)
    {
      assert StateOk(chatId, chatStates[chatId]);
    }

    /** `_get_chat_state`: create the state on first use, with threshold
        `rCreate`; with an empty range the draw raises and nothing changes. */
    method GetChatState(chatId: int, rCreate: int) returns (r: Result<ChatState, Error>)
      requires Valid()
      requires chatId !in chatStates && RangeOk(ac) ==> InRange(ac, rCreate)
      modifies this
      ensures Valid()
      ensures r.Err? <==> old(CreationRaises(chatId))
      ensures r.Err? ==> chatStates == old(chatStates)
      ensures r.Ok? ==> StateOk(chatId, r.value) && r.value == old(StateFor(chatId, rCreate))
                        && chatStates == old(chatStates)[chatId := r.value]
    {
      if chatId !in chatStates {
        if !RangeOk(ac) {
          return Err(ValueError);
        }
        chatStates := chatStates[chatId := NewChatState(chatId, rCreate)];
      }
      r := Ok(chatStates[chatId]);
    }

    /** `add_message`: count the message and keep it in the chat's window.
        Returns whether the state's creation raised. */
    method AddMessage(chatId: int, m: Telegram.Message, rCreate: int) returns (raised: bool)
      requires Valid()
      requires chatId !in chatStates && RangeOk(ac) ==> InRange(ac, rCreate)
      modifies this
      ensures Valid()
      ensures raised <==> old(CreationRaises(chatId))
      ensures raised ==> chatStates == old(chatStates)
      ensures !raised ==>
        chatStates == old(chatStates)[chatId := Added(old(StateFor(chatId, rCreate)), m, contextWindowSize)]
    {
      var r := GetChatState(chatId, rCreate);
      if r.Err? {
        return true;
      }
      var next := Added(r.value, m, contextWindowSize);
      assert StateOk(chatId, next);
      chatStates := chatStates[chatId := next];
      return false;
    }

    /** `should_comment`. Disabled or excluded chats are left untouched; any
        other chat gets its state (or the creation raises), and a failed
        probability draw re-rolls its threshold to `rReroll`, the only change
        it ever makes to an existing state. The re-roll cannot raise: the
        state exists, so the range is non-empty. */
    method ShouldComment(chatId: int, botId: int, now: int, rCreate: int, draw: real, rReroll: int)
      returns (r: Result<bool, Error>)
      requires Valid()
      requires ac.enabled && chatId !in excludedChats && chatId !in chatStates && RangeOk(ac) ==> InRange(ac, rCreate)
      requires RangeOk(ac) && Evaluate(ac, excludedChats, StateFor(chatId, rCreate), now, draw, botId) == ProbabilityMiss
               ==> InRange(ac, rReroll)
      modifies this
      ensures Valid()
      ensures r.Err? <==> ac.enabled && chatId !in excludedChats && old(CreationRaises(chatId))
      ensures r.Err? || !ac.enabled || chatId in excludedChats ==> chatStates == old(chatStates)
      ensures r.Ok? ==> (r.value <==> Evaluate(ac, excludedChats, old(StateFor(chatId, rCreate)), now, draw, botId) == Go)
      ensures r.Ok? && ac.enabled && chatId !in excludedChats ==>
        (var s := old(StateFor(chatId, rCreate));
         chatStates == old(chatStates)[chatId :=
           if Evaluate(ac, excludedChats, s, now, draw, botId) == ProbabilityMiss
           then s.(nextCommentThreshold := rReroll) else s])
    {
      if !ac.enabled {
        return Ok(false);
      }
      if chatId in excludedChats {
        return Ok(false);
      }
      var got := GetChatState(chatId, rCreate);
      if got.Err? {
        return Err(ValueError);
      }
      var s := got.value;
      ghost var verdict := Evaluate(ac, excludedChats, s, now, draw, botId);
      assert s.chatId == chatId;
      if s.messagesSinceLastComment < ac.minMessagesBetweenComments {
        return Ok(false);
      }
      if s.lastCommentTime.Some? && now - s.lastCommentTime.value < ac.minTimeBetweenCommentsSeconds {
        return Ok(false);
      }
      if s.messagesSinceLastComment < s.nextCommentThreshold {
        return Ok(false);
      }
      if draw > ac.commentProbability {
        assert verdict == ProbabilityMiss;
        StatesOnlyWithRange(chatId);
        chatStates := chatStates[chatId := s.(nextCommentThreshold := rReroll)];
        return Ok(false);
      }
      if ac.useIntelligentDecision {
        var good := IsGoodTimeToComment(s.recentMessages, botId);
        if !good {
          return Ok(false);
        }
      }
      return Ok(true);
    }

    /** `mark_commented`: reset the counter, stamp the time and draw a new
        threshold; the window is kept. Only the creation of a missing state
        can raise: an existing state means the range is non-empty, so the
        partial update before the second draw is never left behind. */
    method MarkCommented(chatId: int, now: int, rCreate: int, rNew: int) returns (raised: bool)
      requires Valid()
      requires chatId !in chatStates && RangeOk(ac) ==> InRange(ac, rCreate)
      requires RangeOk(ac) ==> InRange(ac, rNew)
      modifies this
      ensures Valid()
      ensures raised <==> old(CreationRaises(chatId))
      ensures raised ==> chatStates == old(chatStates)
      ensures !raised ==> chatStates == old(chatStates)[chatId := old(StateFor(chatId, rCreate)).(
        messagesSinceLastComment := 0, lastCommentTime := Some(now), nextCommentThreshold := rNew)]
    {
      var got := GetChatState(chatId, rCreate);
      if got.Err? {
        return true;
      }
      StatesOnlyWithRange(chatId);
      chatStates := chatStates[chatId := got.value.(
        messagesSinceLastComment := 0, lastCommentTime := Some(now), nextCommentThreshold := rNew)];
      return false;
    }

    /** `get_chat_stats`: never creates a state. */
    function GetChatStats(chatId: int): (r: ChatStats)
      reads this
      ensures r.Untracked? <==> chatId !in chatStates
      ensures r.Tracked? ==>
        r.messagesSinceComment == chatStates[chatId].messagesSinceLastComment
        && r.lastComment == chatStates[chatId].lastCommentTime
        && r.nextThreshold == chatStates[chatId].nextCommentThreshold
        && r.recentMessagesCount == |chatStates[chatId].recentMessages|
    {
      if chatId !in chatStates then Untracked
      else
        var s := chatStates[chatId];
        Tracked(s.messagesSinceLastComment, s.lastCommentTime, s.nextCommentThreshold, |s.recentMessages|)
    }

    /** The first half of `generate_comment`: it gets the chat's state (whose
        creation may raise), then builds the conversation context from memory
        or, failing that, from the stored history. */
    method GatherConversation(chatId: int, botId: int, rCreate: int, stored: Option<seq<History.Record>>)
      returns (r: Result<Option<(seq<int>, string)>, Error>)
      requires Valid()
      requires chatId !in chatStates && RangeOk(ac) ==> InRange(ac, rCreate)
      modifies this
      ensures Valid()
      ensures r.Err? <==> old(CreationRaises(chatId))
      ensures r.Err? ==> chatStates == old(chatStates)
      ensures r.Ok? ==> chatStates == old(chatStates)[chatId := old(StateFor(chatId, rCreate))]
      ensures r.Ok? ==> r.value == ContextOf(old(StateFor(chatId, rCreate)).recentMessages, stored, botId)
    {
      var got := GetChatState(chatId, rCreate);
      if got.Err? {
        return Err(ValueError);
      }
      var context := ConversationContext(got.value.recentMessages, stored, botId);
      return Ok(context);
    }
  }

  // ------------------------------------------------------ comment generation

  /** Python's `first_name or username or "User"`. */
  function DisplayName(firstName: string, username: Option<string>): (r: string)
    ensures r != ""
    ensures firstName != "" ==> r == firstName
  {
    if firstName != "" then firstName
    else if username.Some? && username.value != "" then username.value
    else "User"
  }

  function ConversationLine(messageId: int, name: string, text: string): string {
    "[ID:" + Text.IntToString(messageId) + "] " + name + ": " + text
  }

  /** The tracked messages that have a sender other than the bot, in order. */
  function FromOthers(msgs: seq<Telegram.Message>, botId: int): (r: seq<Telegram.Message>)
    ensures |r| <= |msgs|
    ensures forall k | 0 <= k < |r| :: r[k] in msgs && r[k].fromUser.Some? && r[k].fromUser.value.id != botId
    ensures forall i | 0 <= i < |msgs| :: msgs[i].fromUser.Some? && msgs[i].fromUser.value.id != botId ==> msgs[i] in r
  {
    if msgs == [] then []
    else
      var m := msgs[0];
      (if m.fromUser.Some? && m.fromUser.value.id != botId then [m] else []) + FromOthers(msgs[1..], botId)
  }

  /** A message's sender id, when it has one. */
  predicate SentBy(m: Telegram.Message, id: int) {
    m.fromUser.Some? && m.fromUser.value.id == id
  }

  /** The distinct sender ids of `msgs` in order of first appearance. */
  function Senders(msgs: seq<Telegram.Message>): (ids: seq<int>)
    ensures NoDup(ids)
    ensures forall x | x in ids :: exists i | 0 <= i < |msgs| :: SentBy(msgs[i], x)
    ensures forall i | 0 <= i < |msgs| && msgs[i].fromUser.Some? :: msgs[i].fromUser.value.id in ids
  {
    if msgs == [] then []
    else
      var init := msgs[..|msgs| - 1];
      var m := msgs[|msgs| - 1];
      var ids0 := Senders(init);
      assert forall x | x in ids0 :: exists i | 0 <= i < |msgs| :: SentBy(msgs[i], x) by {
        forall x | x in ids0 ensures exists i | 0 <= i < |msgs| :: SentBy(msgs[i], x) {
          var i :| 0 <= i < |init| && SentBy(init[i], x);
          assert msgs[i] == init[i];
        }
      }
      assert forall i | 0 <= i < |init| :: msgs[i] == init[i];
      if m.fromUser.Some? then AppendIfAbsent(ids0, m.fromUser.value.id) else ids0
  }

  /** The loop of `generate_comment` collecting the senders of the messages in memory. */
  method CollectSenders(msgs: seq<Telegram.Message>) returns (ids: seq<int>)
    ensures ids == Senders(msgs)
  {
    ids := [];
    var i := 0;
    while i < |msgs|
      invariant 0 <= i <= |msgs|
      invariant ids == Senders(msgs[..i])
    {
      var m := msgs[i];
      assert msgs[..i + 1][..i] == msgs[..i];
      if m.fromUser.Some? && m.fromUser.value.id !in ids {
        ids := ids + [m.fromUser.value.id];
      }
      i := i + 1;
    }
    assert msgs[..i] == msgs;
  }

  /** A message in memory gives a conversation line when it has a sender
      and a truthy text. */
  predicate Shown(m: Telegram.Message) {
    m.fromUser.Some? && Telegram.HasText(m)
  }

  function MemoryLine(m: Telegram.Message): (line: string)
    requires Shown(m)
    ensures line != ""
  {
    ConversationLine(m.messageId, DisplayName(m.fromUser.value.firstName, m.fromUser.value.username), m.text.value)
  }

  /** The line of one message in memory, if it gives one. */
  function MemoryPiece(m: Telegram.Message): (r: seq<string>)
    ensures |r| <= 1 && (r != [] <==> Shown(m))
    ensures forall line | line in r :: line != ""
  {
    if Shown(m) then [MemoryLine(m)] else []
  }

  /** The conversation lines built from messages in memory, one per shown
      message, in order. */
  function MemoryLines(msgs: seq<Telegram.Message>): (lines: seq<string>)
    ensures |lines| <= |msgs|
    ensures lines == [] <==> forall i | 0 <= i < |msgs| :: !Shown(msgs[i])
    ensures forall k | 0 <= k < |lines| :: lines[k] != ""
  {
    FlatMapFacts(msgs, MemoryPiece);
    var lines := FlatMap(msgs, MemoryPiece);
    assert forall k | 0 <= k < |lines| :: lines[k] != "" by {
      forall k | 0 <= k < |lines| ensures lines[k] != "" {
        assert lines[k] in lines;
        var i :| 0 <= i < |msgs| && lines[k] in MemoryPiece(msgs[i]);
      }
    }
    lines
  }

  /** Lines of consecutive stretches of memory follow each other, so the
      lines keep the messages' order; a shown message gives exactly its
      line and any other none. */
  lemma MemoryLinesAppend(xs: seq<Telegram.Message>, ys: seq<Telegram.Message>, m: Telegram.Message)
    ensures MemoryLines(xs + ys) == MemoryLines(xs) + MemoryLines(ys)
    ensures MemoryLines([m]) == if Shown(m) then [MemoryLine(m)] else []
  {
    FlatMapAppend(xs, ys, MemoryPiece);
    FlatMapOne(m, MemoryPiece);
  }

  /** Every line is the line of an item that gives one. */
  lemma MemoryLinesSound(msgs: seq<Telegram.Message>)
    ensures forall line | line in MemoryLines(msgs) ::
      exists i | 0 <= i < |msgs| :: Shown(msgs[i]) && line == MemoryLine(msgs[i])
  {
    FlatMapFacts(msgs, MemoryPiece);
    forall line | line in MemoryLines(msgs)
      ensures exists i | 0 <= i < |msgs| :: Shown(msgs[i]) && line == MemoryLine(msgs[i])
    {
      var i :| 0 <= i < |msgs| && line in MemoryPiece(msgs[i]);
    }
  }

  /** Every item that gives a line has its line among the lines. */
  lemma MemoryLinesComplete(msgs: seq<Telegram.Message>)
    ensures forall i | 0 <= i < |msgs| && Shown(msgs[i]) :: MemoryLine(msgs[i]) in MemoryLines(msgs)
  {
    forall i | 0 <= i < |msgs| && Shown(msgs[i]) ensures MemoryLine(msgs[i]) in MemoryLines(msgs) {
      FlatMapComplete(msgs, MemoryPiece, i);
    }
  }


  /** The ids of `ids` other than 0 and `botId`, in order of first appearance. */
  function TargetIds(ids: seq<int>, botId: int): (r: seq<int>)
    ensures NoDup(r)
    ensures forall x :: x in r <==> x in ids && x != 0 && x != botId
  {
    if ids == [] then []
    else
      var init := TargetIds(ids[..|ids| - 1], botId);
      var x := ids[|ids| - 1];
      assert forall y | y in ids :: y in ids[..|ids| - 1] || y == x;
      if x != 0 && x != botId then AppendIfAbsent(init, x) else init
  }

  /** One more id: it is added when it is a target and not yet listed. */
  lemma TargetIdsStep(all: seq<int>, i: nat, botId: int)
    requires i < |all|
    ensures var ids, x := TargetIds(all[..i], botId), all[i];
      TargetIds(all[..i + 1], botId) == if x != 0 && x != botId && x !in ids then ids + [x] else ids
  {
    assert all[..i + 1][..i] == all[..i];
  }

  /** The user ids of stored records, in order. */
  function UserIds(records: seq<History.Record>): (ids: seq<int>)
    ensures |ids| == |records| && forall k | 0 <= k < |records| :: ids[k] == records[k].userId
  {
    seq(|records|, k requires 0 <= k < |records| => records[k].userId)
  }

  /** A stored record gives a conversation line when its stripped text is
      non-empty; the line shows that stripped text. */
  predicate ShownRecord(r: History.Record) {
    Text.Strip(r.text) != ""
  }

  function RecordLine(r: History.Record): (line: string)
    ensures line != ""
  {
    ConversationLine(r.messageId, DisplayName(r.firstName, r.username), Text.Strip(r.text))
  }

  /** The line of one stored record, if it gives one. */
  function RecordPiece(r: History.Record): (p: seq<string>)
    ensures |p| <= 1 && (p != [] <==> ShownRecord(r))
    ensures forall line | line in p :: line != ""
  {
    if ShownRecord(r) then [RecordLine(r)] else []
  }

  /** The conversation lines built from stored records, one per shown record,
      in order. */
  function HistoryLines(records: seq<History.Record>): (lines: seq<string>)
    ensures |lines| <= |records|
    ensures lines == [] <==> forall i | 0 <= i < |records| :: !ShownRecord(records[i])
    ensures forall k | 0 <= k < |lines| :: lines[k] != ""
  {
    FlatMapFacts(records, RecordPiece);
    var lines := FlatMap(records, RecordPiece);
    assert forall k | 0 <= k < |lines| :: lines[k] != "" by {
      forall k | 0 <= k < |lines| ensures lines[k] != "" {
        assert lines[k] in lines;
        var i :| 0 <= i < |records| && lines[k] in RecordPiece(records[i]);
      }
    }
    lines
  }

  /** Lines of consecutive stretches of stored records follow each other;
      a record with text gives exactly its line, with the text stripped. */
  lemma HistoryLinesAppend(xs: seq<History.Record>, ys: seq<History.Record>, r: History.Record)
    ensures HistoryLines(xs + ys) == HistoryLines(xs) + HistoryLines(ys)
    ensures HistoryLines([r]) == if ShownRecord(r) then [RecordLine(r)] else []
  {
    FlatMapAppend(xs, ys, RecordPiece);
    FlatMapOne(r, RecordPiece);
  }

  /** One more record: its line, if any, comes after the earlier ones. */
  lemma HistoryLinesStep(window: seq<History.Record>, i: nat)
    requires i < |window|
    ensures HistoryLines(window[..i + 1])
            == HistoryLines(window[..i]) + if ShownRecord(window[i]) then [RecordLine(window[i])] else []
  {
    assert window[..i + 1] == window[..i] + [window[i]];
    HistoryLinesAppend(window[..i], [window[i]], window[i]);
  }

  /** Every line is the line of an item that gives one. */
  lemma HistoryLinesSound(records: seq<History.Record>)
    ensures forall line | line in HistoryLines(records) ::
      exists i | 0 <= i < |records| :: ShownRecord(records[i]) && line == RecordLine(records[i])
  {
    FlatMapFacts(records, RecordPiece);
    forall line | line in HistoryLines(records)
      ensures exists i | 0 <= i < |records| :: ShownRecord(records[i]) && line == RecordLine(records[i])
    {
      var i :| 0 <= i < |records| && line in RecordPiece(records[i]);
    }
  }

  /** Every item that gives a line has its line among the lines. */
  lemma HistoryLinesComplete(records: seq<History.Record>)
    ensures forall i | 0 <= i < |records| && ShownRecord(records[i]) :: RecordLine(records[i]) in HistoryLines(records)
  {
    forall i | 0 <= i < |records| && ShownRecord(records[i]) ensures RecordLine(records[i]) in HistoryLines(records) {
      FlatMapComplete(records, RecordPiece, i);
    }
  }


  /** The history branch of `generate_comment`: over the last ten stored
      records it collects the non-zero, non-bot user ids in order of first
      appearance and the lines of the records whose stripped text is non-empty. */
  method HistoryContext(records: seq<History.Record>, botId: int) returns (ids: seq<int>, lines: seq<string>)
    ensures ids == TargetIds(UserIds(KeepLast(records, 10)), botId)
    ensures lines == HistoryLines(KeepLast(records, 10))
  {
    var window := KeepLast(records, 10);
    var all := UserIds(window);
    ids := [];
    lines := [];
    var i := 0;
    while i < |window|
      invariant 0 <= i <= |window|
      invariant ids == TargetIds(all[..i], botId)
      invariant lines == HistoryLines(window[..i])
    {
      var r := window[i];
      TargetIdsStep(all, i, botId);
      HistoryLinesStep(window, i);
      if r.userId != 0 && r.userId !in ids && r.userId != botId {
        ids := ids + [r.userId];
      }
      var text := Text.Strip(r.text);
      if text != "" {
        lines := lines + [ConversationLine(r.messageId, DisplayName(r.firstName, r.username), text)];
      }
      i := i + 1;
    }
    assert all[..i] == all;
    assert window[..i] == window;
  }

  /** The conversation context of `generate_comment`, as user ids and the
      joined lines. Messages in memory from someone other than the bot take
      precedence: their distinct senders and the lines of the last ten of
      them. Without such messages the stored history is read: the distinct
      non-zero, non-bot users and the lines of its last ten records. With
      nothing to show there is no context. */
  function ContextOf(recent: seq<Telegram.Message>, stored: Option<seq<History.Record>>, botId: int)
    : (r: Option<(seq<int>, string)>)
    ensures r.Some? ==> r.value.1 != "" && NoDup(r.value.0) && botId !in r.value.0
    ensures var others := FromOthers(recent, botId);
      others != [] ==>
        (r.Some? <==> exists m | m in KeepLast(others, 10) :: Shown(m))
        && (r.Some? ==> r.value == (Senders(others), Text.Join(MemoryLines(KeepLast(others, 10)), "\n")))
    ensures FromOthers(recent, botId) == [] && (stored.None? || stored.value == []) ==> r.None?
    ensures var window := KeepLast(stored.GetOr([]), 10);
      FromOthers(recent, botId) == [] && stored.Some? && stored.value != [] ==>
        (r.Some? <==> exists rec | rec in window :: ShownRecord(rec))
        && (r.Some? ==> r.value == (TargetIds(UserIds(window), botId), Text.Join(HistoryLines(window), "\n")))
  {
    var others := FromOthers(recent, botId);
    if others != [] then
      var lines := MemoryLines(KeepLast(others, 10));
      if lines == [] then None
      else
        Text.JoinNonEmpty(lines, "\n");
        OthersSenders(recent, botId);
        Some((Senders(others), Text.Join(lines, "\n")))
    else if stored.None? || stored.value == [] then None
    else
      var window := KeepLast(stored.value, 10);
      var lines := HistoryLines(window);
      if lines == [] then None
      else
        Text.JoinNonEmpty(lines, "\n");
        Some((TargetIds(UserIds(window), botId), Text.Join(lines, "\n")))
  }

  /** The senders of the messages from others are the senders of the window
      other than the bot. */
  lemma OthersSenders(recent: seq<Telegram.Message>, botId: int)
    ensures botId !in Senders(FromOthers(recent, botId))
    ensures forall x | x in Senders(FromOthers(recent, botId)) :: exists i | 0 <= i < |recent| :: SentBy(recent[i], x)
    ensures forall i | 0 <= i < |recent| && recent[i].fromUser.Some? && recent[i].fromUser.value.id != botId ::
      recent[i].fromUser.value.id in Senders(FromOthers(recent, botId))
  {
    var others := FromOthers(recent, botId);
    var ids := Senders(others);
    forall x | x in ids ensures x != botId && exists i | 0 <= i < |recent| :: SentBy(recent[i], x) {
      var j :| 0 <= j < |others| && SentBy(others[j], x);
      var i :| 0 <= i < |recent| && recent[i] == others[j];
    }
    forall i | 0 <= i < |recent| && recent[i].fromUser.Some? && recent[i].fromUser.value.id != botId
      ensures recent[i].fromUser.value.id in ids
    {
      var j :| 0 <= j < |others| && others[j] == recent[i];
    }
  }

  /** `generate_comment`'s conversation context, computed with its loops. */
  method ConversationContext(recent: seq<Telegram.Message>, stored: Option<seq<History.Record>>, botId: int)
    returns (r: Option<(seq<int>, string)>)
    ensures r == ContextOf(recent, stored, botId)
  {
    var others := FromOthers(recent, botId);
    var ids: seq<int>;
    var lines: seq<string>;
    if others == [] {
      if stored.None? || stored.value == [] {
        return None;
      }
      ids, lines := HistoryContext(stored.value, botId);
    } else {
      ids := CollectSenders(others);
      lines := MemoryLines(KeepLast(others, 10));
    }
    if lines != [] {
      Text.JoinNonEmpty(lines, "\n");
    }
    var context := Text.Join(lines, "\n");
    if context == "" {
      return None;
    }
    return Some((ids, context));
  }

  /** The four lists a profile summary draws on. */
  datatype Kind = Technical | Personal | Mistakes | Embarrassments

  /** One labelled list of a profile summary. */
  datatype Section = Section(kind: Kind, items: seq<string>)

  function Heading(kind: Kind): string {
    match kind
    case Technical => "Technical weaknesses: "
    case Personal => "Personal traits: "
    case Mistakes => "Common mistakes: "
    case Embarrassments => "Past embarrassments: "
  }

  /** How many items of each list a summary shows. */
  function Limit(kind: Kind): nat {
    if kind == Embarrassments then 2 else 3
  }

  function ListOf(p: Profiles.UserProfile, kind: Kind): seq<string> {
    match kind
    case Technical => p.weaknesses.technical
    case Personal => p.weaknesses.personal
    case Mistakes => p.patterns.commonMistakes
    case Embarrassments => p.embarrassingMoments
  }

  /** Whether a user gets a summary: one of the four lists is non-empty. */
  predicate HasSummary(p: Profiles.UserProfile) {
    p.weaknesses.technical != [] || p.weaknesses.personal != []
    || p.patterns.commonMistakes != [] || p.embarrassingMoments != []
  }

  /** A section shows the first items of its list, at most its limit of them,
      and at least one. */
  predicate SectionOk(p: Profiles.UserProfile, s: Section) {
    1 <= |s.items| <= Limit(s.kind)
    && |s.items| <= |ListOf(p, s.kind)| && s.items == ListOf(p, s.kind)[..|s.items|]
    && (|s.items| == Limit(s.kind) || |s.items| == |ListOf(p, s.kind)|)
  }

  /** A section exactly when the list is non-empty. */
  function SectionOf(p: Profiles.UserProfile, kind: Kind): (r: seq<Section>)
    ensures |r| <= 1
    ensures r == [] <==> ListOf(p, kind) == []
    ensures forall s | s in r :: s.kind == kind && SectionOk(p, s)
  {
    if ListOf(p, kind) == [] then [] else [Section(kind, Upto(ListOf(p, kind), Limit(kind)))]
  }

  /** The sections of a user's summary, in the order technical, personal,
      mistakes, embarrassments: each shows the first three items of its list
      (two for embarrassments) and appears only when its list is non-empty. */
  function Sections(p: Profiles.UserProfile): (ss: seq<Section>)
    ensures |ss| <= 4
    ensures ss == [] <==> !HasSummary(p)
    ensures forall s | s in ss :: SectionOk(p, s)
  {
    SectionOf(p, Technical) + SectionOf(p, Personal) + SectionOf(p, Mistakes)
    + SectionOf(p, Embarrassments)
  }

  function RenderSection(s: Section): (r: string)
    ensures r != ""
  {
    Heading(s.kind) + Text.Join(s.items, ", ")
  }

  function SummaryText(p: Profiles.UserProfile): (r: string)
    ensures HasSummary(p) ==> r != ""
  {
    var ss := Sections(p);
    var lines := seq(|ss|, k requires 0 <= k < |ss| => RenderSection(ss[k]));
    if ss != [] then Text.JoinNonEmpty(lines, "\n"); Text.Join(lines, "\n")
    else Text.Join(lines, "\n")
  }

  function SummaryKey(userId: int, p: Profiles.UserProfile): string {
    p.firstName + " (ID:" + Text.IntToString(userId) + ")"
  }

  /** The entry of one user, if the user has a summary. */
  function SummaryPiece(u: (int, Profiles.UserProfile)): (r: seq<(string, string)>)
    ensures |r| <= 1 && (r != [] <==> HasSummary(u.1))
    ensures forall e | e in r :: e == Summary(u) && e.1 != ""
  {
    if HasSummary(u.1) then [Summary(u)] else []
  }

  /** `profile_summaries`, in the order of the users: one entry for each user
      with some section, and no other. */
  function ProfileSummaries(users: seq<(int, Profiles.UserProfile)>): (r: seq<(string, string)>)
    ensures |r| <= |users|
    ensures forall i | 0 <= i < |users| && HasSummary(users[i].1) :: Summary(users[i]) in r
    ensures forall e | e in r :: exists i | 0 <= i < |users| :: HasSummary(users[i].1) && e == Summary(users[i])
    ensures r == [] <==> forall i | 0 <= i < |users| :: !HasSummary(users[i].1)
    ensures forall e | e in r :: e.1 != ""
  {
    FlatMapFacts(users, SummaryPiece);
    assert forall i | 0 <= i < |users| && HasSummary(users[i].1) :: Summary(users[i]) in FlatMap(users, SummaryPiece) by {
      forall i | 0 <= i < |users| && HasSummary(users[i].1)
        ensures Summary(users[i]) in FlatMap(users, SummaryPiece)
      {
        FlatMapComplete(users, SummaryPiece, i);
      }
    }
    FlatMap(users, SummaryPiece)
  }

  /** Summaries of consecutive stretches of users follow each other, so the
      entries keep the users' order. */
  lemma ProfileSummariesAppend(xs: seq<(int, Profiles.UserProfile)>, ys: seq<(int, Profiles.UserProfile)>)
    ensures ProfileSummaries(xs + ys) == ProfileSummaries(xs) + ProfileSummaries(ys)
  {
    FlatMapAppend(xs, ys, SummaryPiece);
  }

  /** A user's entry: the name with the id, and the summary text. */
  function Summary(u: (int, Profiles.UserProfile)): (r: (string, string))
    ensures HasSummary(u.1) ==> r.1 != ""
  {
    (SummaryKey(u.0, u.1), SummaryText(u.1))
  }

  /** `should_roast`: roasting is on and the draw of `random.random()`, in
      [0, 1), is below the target probability; a probability of 0 never
      roasts and one of 1 always does. */
  function ShouldRoast(ac: Config.AutonomousCommentingConfig, draw: real): (b: bool)
    ensures b ==> ac.roastingEnabled && draw < ac.targetWeaknessesProbability
    ensures !ac.roastingEnabled ==> !b
    ensures ac.targetWeaknessesProbability <= 0.0 && draw >= 0.0 ==> !b
    ensures ac.roastingEnabled && ac.targetWeaknessesProbability >= 1.0 && draw < 1.0 ==> b
  {
    ac.roastingEnabled && draw < ac.targetWeaknessesProbability
  }

  /** `prefer_reply`: replies are preferred and the draw is above the
      standalone probability; a standalone probability of 1 never prefers a
      reply. */
  function PreferReply(ac: Config.AutonomousCommentingConfig, draw: real): (b: bool)
    ensures b ==> ac.preferReplies && draw > ac.standaloneProbability
    ensures !ac.preferReplies ==> !b
    ensures ac.standaloneProbability >= 1.0 && draw < 1.0 ==> !b
    ensures ac.preferReplies && ac.standaloneProbability < 0.0 && draw >= 0.0 ==> b
  {
    ac.preferReplies && draw > ac.standaloneProbability
  }

  /** The roasting block; `aggression` is the configured level already
      formatted with one decimal. */
  function RoastInstruction(shouldRoast: bool, haveSummaries: bool, aggression: string): (r: string)
    ensures r != "" <==> shouldRoast && haveSummaries
  {
    if shouldRoast && haveSummaries then
      "\nROASTING MODE: Your goal is to cleverly roast/tease someone based on their known weaknesses.\n"
      + "Aggression Level: " + aggression + "/1.0 (0=gentle teasing, 1=brutal roasting)\n"
      + "Target their patterns, mistakes, or embarrassments in a witty way.\n"
    else ""
  }

  function ReplyInstruction(preferReply: bool): string {
    if preferReply then "Prefer replying to a specific message if it makes sense contextually. "
    else "Make a general observation about the conversation. "
  }

  function Censorship(uncensored: bool): string {
    if uncensored then "Be completely uncensored. No boundaries, no filters." else "Keep it appropriate."
  }

  function ProfileEntries(summaries: seq<(string, string)>): string {
    if summaries == [] then ""
    else "\n" + summaries[0].0 + ":\n" + summaries[0].1 + "\n" + ProfileEntries(summaries[1..])
  }

  function ProfilesText(summaries: seq<(string, string)>): (r: string)
    ensures summaries == [] <==> r == ""
  {
    if summaries == [] then "" else "\n\nUSER PROFILES:\n" + ProfileEntries(summaries)
  }

  const PromptHead :=
    "You are a witty, observational bot in a group chat. You've been monitoring the conversation "
    + "and now want to chime in naturally.\n\nRECENT CONVERSATION:\n"

  const PromptTail :=
    "\n- Be clever and natural, blend into the conversation\n"
    + "- Match the group's tone and language\n- "

  const PromptEnd :=
    "\n- If roasting, be witty not mean-spirited (unless aggression is high)\n\n"
    + "Respond with JSON:\n{\n  \"should_comment\": true,\n  \"type\": \"roast|observation|joke|reaction\",\n"
    + "  \"reply_to_message_id\": <message_id or null>,\n  \"target_user_id\": <user_id or null>,\n"
    + "  \"comment\": \"your witty comment here\",\n  \"reasoning\": \"why this comment/target\"\n}\n\n"
    + "IMPORTANT: Respond ONLY with valid JSON, no other text."

  /** `_build_comment_prompt`. The prompt holds, in this order, the
      conversation, the profiles, the roasting block (non-empty exactly when
      roasting was chosen and some user has a summary), the reply instruction
      and the censorship line, between fixed texts. */
  function BuildCommentPrompt(context: string, summaries: seq<(string, string)>, shouldRoast: bool,
                              preferReply: bool, aggression: string, uncensored: bool): (prompt: string)
    ensures Text.InOrder(prompt, [context, ProfilesText(summaries),
                                  RoastInstruction(shouldRoast, summaries != [], aggression),
                                  ReplyInstruction(preferReply), Censorship(uncensored)])
    ensures Text.Contains(prompt, context)
    ensures Text.Contains(prompt, ProfilesText(summaries))
    ensures Text.Contains(prompt, RoastInstruction(shouldRoast, summaries != [], aggression))
    ensures Text.Contains(prompt, ReplyInstruction(preferReply))
    ensures Text.Contains(prompt, Censorship(uncensored))
  {
    var profiles := ProfilesText(summaries);
    var roast := RoastInstruction(shouldRoast, summaries != [], aggression);
    var reply := ReplyInstruction(preferReply);
    var censorship := Censorship(uncensored);
    FiveInOrder(PromptHead, context, "\n", profiles, "\n\n", roast, "\n\nINSTRUCTIONS:\n- ", reply,
                PromptTail, censorship, PromptEnd);
    PromptHead + context + ("\n" + profiles + ("\n\n" + roast + ("\n\nINSTRUCTIONS:\n- " + reply
      + (PromptTail + censorship + PromptEnd))))
  }

  /** Five pieces between fixed texts occur in the text in their order, and
      each of them occurs in it. */
  lemma FiveInOrder(a0: string, w1: string, a1: string, w2: string, a2: string, w3: string, a3: string,
                    w4: string, a4: string, w5: string, a5: string)
    ensures var s := a0 + w1 + (a1 + w2 + (a2 + w3 + (a3 + w4 + (a4 + w5 + a5))));
      Text.InOrder(s, [w1, w2, w3, w4, w5])
      && Text.Contains(s, w1) && Text.Contains(s, w2) && Text.Contains(s, w3)
      && Text.Contains(s, w4) && Text.Contains(s, w5)
  {
    var s5 := a4 + w5 + a5;
    var s4 := a3 + w4 + s5;
    var s3 := a2 + w3 + s4;
    var s2 := a1 + w2 + s3;
    var s := a0 + w1 + s2;
    Text.InOrderCons(a4, w5, a5, []);
    Text.InOrderCons(a3, w4, s5, [w5]);
    Text.InOrderCons(a2, w3, s4, [w4, w5]);
    Text.InOrderCons(a1, w2, s3, [w3, w4, w5]);
    Text.InOrderCons(a0, w1, s2, [w2, w3, w4, w5]);
    var ws := [w1, w2, w3, w4, w5];
    assert [w1] + [w2, w3, w4, w5] == ws;
    Text.InOrderContains(s, ws, 0);
    Text.InOrderContains(s, ws, 1);
    Text.InOrderContains(s, ws, 2);
    Text.InOrderContains(s, ws, 3);
    Text.InOrderContains(s, ws, 4);
  }

  /** The fields of the decoded JSON object `generate_comment` reads; the two
      flags record whether `should_comment` and `comment` are truthy. */
  datatype CommentData = CommentData(
    shouldComment: bool,
    comment: string,
    replyToMessageId: Option<int>,
    targetUserId: Option<int>,
    commentType: Option<string>)

  /** The slice `_parse_comment_response` hands to the decoder: from the first
      `{` to just past the last `}`, when that slice is non-empty. */
  function JsonSpan(response: string): (r: Option<(nat, nat)>)
    ensures r.Some? ==> r.value.0 < r.value.1 <= |response|
                        && response[r.value.0] == '{' && response[r.value.1 - 1] == '}'
    ensures r.Some? ==> forall j | 0 <= j < r.value.0 :: response[j] != '{'
    ensures r.Some? ==> forall j | r.value.1 <= j < |response| :: response[j] != '}'
    ensures r.None? <==> Text.Find(response, "{") < 0
                         || Text.RFindChar(response, '}', |response|) < Text.Find(response, "{")
  {
    var start := Text.Find(response, "{");
    var end := Text.RFindChar(response, '}', |response|) + 1;
    if start >= 0 && end > start then
      assert Text.OccursAt(response, "{", start);
      assert response[start..start + 1][0] == response[start];
      forall j | 0 <= j < start ensures response[j] != '{' {
        assert !Text.OccursAt(response, "{", j);
        assert response[j..j + 1] == [response[j]];
      }
      Some((start, end))
    else None
  }

  /** `_parse_comment_response`: decode the span between the first `{` and the
      last `}`; keep the object only when `should_comment` and `comment` are
      truthy. A failed decode (an exception in the source) gives `None`. */
  function ParseCommentResponse(response: string, decode: string -> Option<CommentData>): (r: Option<CommentData>)
    ensures JsonSpan(response).None? ==> r.None?
    ensures r.Some? <==>
      (JsonSpan(response).Some?
       && (var d := decode(response[JsonSpan(response).value.0..JsonSpan(response).value.1]);
           d.Some? && d.value.shouldComment && d.value.comment != ""))
    ensures r.Some? ==> r == decode(response[JsonSpan(response).value.0..JsonSpan(response).value.1])
  {
    match JsonSpan(response)
    case None => None
    case Some((start, end)) =>
      var d := decode(response[start..end]);
      if d.Some? && d.value.shouldComment && d.value.comment != "" then d else None
  }

  /** The comment `generate_comment` returns for accepted data. */
  function ToComment(d: CommentData): (c: AutonomousComment)
    ensures c.text == d.comment
    ensures d.commentType.None? ==> c.commentType == "observation"
  {
    AutonomousComment(d.comment, d.replyToMessageId, d.targetUserId, d.commentType.GetOr("observation"))
  }

  /** The language passed to the model: the first user's preference, or "en". */
  function CommentLanguage(userIds: seq<int>, profiles: map<int, Profiles.UserProfile>): (lang: string)
    requires userIds != [] ==> userIds[0] in profiles
    ensures userIds == [] ==> lang == "en"
    ensures userIds != [] ==> lang == profiles[userIds[0]].languagePreference
  {
    if userIds == [] then "en" else profiles[userIds[0]].languagePreference
  }
}

=== FILE: config.dfy ===
/**
 * The bot's configuration: the settings records with their defaults, the
 * validation `BotConfig` performs on construction, provider selection in
 * `load_config`, and the process-wide configuration that `get_config` loads
 * once and `reload_config` replaces.
 *
 * Reading and parsing config.yaml is not modelled: the parsed file is an
 * input, `None` when the file does not exist.
 */
module Config {
  import opened Wrappers
  import Text
  import Emoji

  datatype BotSettings = BotSettings(telegramToken: string, botUsername: string, adminUserIds: seq<int>)

  datatype ProviderSettings = ProviderSettings(apiKey: string, model: string)

  datatype LocalSettings = LocalSettings(apiKey: string, apiUrl: string, model: string)

  datatype AISettings = AISettings(
    provider: string,
    contextMessagesCount: int,
    maxRetries: int,
    groq: ProviderSettings,
    openrouter: ProviderSettings,
    local: LocalSettings)

  datatype AutonomousCommentingConfig = AutonomousCommentingConfig(
    enabled: bool,
    minMessagesBetweenComments: int,
    maxMessagesBetweenComments: int,
    commentProbability: real,
    minTimeBetweenCommentsSeconds: int,
    useIntelligentDecision: bool,
    useAiDecision: bool,
    preferReplies: bool,
    standaloneProbability: real,
    roastingEnabled: bool,
    roastingAggression: real,
    targetWeaknessesProbability: real,
    avoidSensitiveTopics: bool,
    learnFromReactions: bool)

  datatype UserProfilingConfig = UserProfilingConfig(
    enabled: bool,
    profileDirectory: string,
    maxProfileSizeKb: int,
    enrichmentIntervalMessages: int,
    trackTopics: bool,
    trackSpeakingStyle: bool,
    trackInterests: bool,
    trackRelationships: bool,
    trackHumorType: bool,
    trackWeaknesses: bool,
    trackMistakes: bool,
    trackEmbarrassments: bool,
    trackContradictions: bool,
    autoSaveIntervalSeconds: int,
    crossChatProfiling: bool)

  datatype ConversationMonitoringConfig = ConversationMonitoringConfig(
    contextWindowSize: int,
    languageDetection: bool,
    uncensoredMode: bool)

  datatype ReactionSystemConfig = ReactionSystemConfig(
    enabled: bool,
    trackReactions: bool,
    addOwnReactions: bool,
    reactionProbability: real,
    minTimeBetweenReactionsSeconds: int,
    reactionTypes: seq<string>)

  datatype SystemPromptsConfig = SystemPromptsConfig(
    jokeGeneration: string,
    conversation: string,
    autonomousComment: string,
    aiDecision: string,
    mentionResponse: string)

  datatype YamlConfig = YamlConfig(
    bot: BotSettings,
    ai: AISettings,
    autonomousCommenting: AutonomousCommentingConfig,
    userProfiling: UserProfilingConfig,
    conversationMonitoring: ConversationMonitoringConfig,
    reactionSystem: ReactionSystemConfig,
    systemPrompts: SystemPromptsConfig,
    excludedChats: seq<int>)

  datatype BotConfig = BotConfig(
    telegramToken: string,
    botUsername: string,
    aiProvider: string,
    apiKey: string,
    modelName: string,
    baseUrl: Option<string>,
    contextMessagesCount: int,
    maxRetries: int,
    adminUserIds: seq<int>,
    yamlConfig: YamlConfig)

  // ------------------------------------------------------------------ defaults

  const DefaultAI := AISettings(
    "local", 10, 3,
    ProviderSettings("", "llama-3.2-90b-text-preview"),
    ProviderSettings("", "openai/gpt-4o-mini"),
    LocalSettings("dummy", "http://localhost:11434/v1", "llama2-uncensored"))

  const DefaultAutonomousCommenting := AutonomousCommentingConfig(
    true, 8, 20, 0.3, 120, true, true, true, 0.3, true, 0.7, 0.6, false, true)

  const DefaultUserProfiling := UserProfilingConfig(
    true, "profiles", 100, 10, true, true, true, true, true, true, true, true, true, 300, true)

  const DefaultConversationMonitoring := ConversationMonitoringConfig(15, true, true)

  const DefaultReactionTypes: seq<string> := [
    Emoji.ThumbsUp, Emoji.TearsOfJoy, Emoji.Fire, Emoji.Screaming,
    Emoji.Thinking, Emoji.Eyes, Emoji.Hundred, Emoji.DirectHit]

  const DefaultReactionSystem := ReactionSystemConfig(true, true, true, 0.15, 60, DefaultReactionTypes)

  const DefaultSystemPrompts := SystemPromptsConfig(
    "You are a witty AI assistant that can generate jokes and humorous content.",
    "You are a helpful, witty AI assistant.",
    "You are an observational bot.",
    "You are a conversation analyst. Respond with YES or NO.",
    "You are a straightforward, sarcastic bot. Respond directly to mentions.")

  const DefaultYaml := YamlConfig(
    BotSettings("", "", []), DefaultAI, DefaultAutonomousCommenting, DefaultUserProfiling,
    DefaultConversationMonitoring, DefaultReactionSystem, DefaultSystemPrompts, [])

  // ---------------------------------------------------------------- validation

  const TokenRequired := "TELEGRAM_BOT_TOKEN is required"
  const UsernameRequired := "BOT_USERNAME is required"
  const ProviderInvalid := "AI_PROVIDER must be 'groq', 'openrouter', or 'local'"
  const ModelRequired := "MODEL_NAME is required"
  const ContextCountTooSmall := "CONTEXT_MESSAGES_COUNT must be at least 1"
  const RetriesTooSmall := "MAX_RETRIES must be at least 1"

  function ApiKeyRequired(provider: string): string {
    "API key for " + provider + " is required"
  }

  predicate KnownProvider(p: string) {
    p == "groq" || p == "openrouter" || p == "local"
  }

  /** `BotConfig.__post_init__`: the first failing check, in the source's order, raises. */
  function Validate(c: BotConfig): (r: Result<BotConfig, string>)
    ensures r.Ok? <==>
      c.telegramToken != "" && c.botUsername != "" && KnownProvider(c.aiProvider)
      && c.apiKey != "" && c.modelName != "" && c.contextMessagesCount >= 1 && c.maxRetries >= 1
    ensures r.Ok? ==> r.value == c
    ensures c.telegramToken == "" ==> r == Err(TokenRequired)
    ensures c.telegramToken != "" && c.botUsername == "" ==> r == Err(UsernameRequired)
    ensures r == Err(ProviderInvalid) <==>
      c.telegramToken != "" && c.botUsername != "" && !KnownProvider(c.aiProvider)
  {
    if c.telegramToken == "" then Err(TokenRequired)
    else if c.botUsername == "" then Err(UsernameRequired)
    else if !KnownProvider(c.aiProvider) then Err(ProviderInvalid)
    else if c.apiKey == "" then Err(ApiKeyRequired(c.aiProvider))
    else if c.modelName == "" then Err(ModelRequired)
    else if c.contextMessagesCount < 1 then Err(ContextCountTooSmall)
    else if c.maxRetries < 1 then Err(RetriesTooSmall)
    else Ok(c)
  }

  /** `load_yaml_config`: a missing file gives the all-default configuration. */
  function LoadYamlConfig(file: Option<YamlConfig>): (y: YamlConfig)
    ensures file.Some? ==> y == file.value
    ensures file.None? ==> y.ai.provider == "local" && y.bot.telegramToken == "" && y.excludedChats == []
    ensures file.None? ==> y.autonomousCommenting == DefaultAutonomousCommenting
  {
    if file.Some? then file.value else DefaultYaml
  }

  /** The API key and model of a provider's own section. */
  function Credentials(ai: AISettings, provider: string): (string, string)
    requires KnownProvider(provider)
  {
    if provider == "groq" then (ai.groq.apiKey, ai.groq.model)
    else if provider == "openrouter" then (ai.openrouter.apiKey, ai.openrouter.model)
    else (ai.local.apiKey, ai.local.model)
  }

  /** `load_config`: select the provider's credentials by the lower-cased provider
      name, then build (and so validate) the `BotConfig`. */
  function LoadConfig(y: YamlConfig): (r: Result<BotConfig, string>)
    ensures !KnownProvider(Text.LowerStr(y.ai.provider)) ==>
      r == Err("Unknown AI_PROVIDER: " + Text.LowerStr(y.ai.provider))
    ensures r.Ok? <==>
      (var p := Text.LowerStr(y.ai.provider);
       KnownProvider(p) && y.bot.telegramToken != "" && y.bot.botUsername != ""
       && Credentials(y.ai, p).0 != "" && Credentials(y.ai, p).1 != ""
       && y.ai.contextMessagesCount >= 1 && y.ai.maxRetries >= 1)
    ensures KnownProvider(Text.LowerStr(y.ai.provider)) && y.bot.telegramToken == "" ==> r == Err(TokenRequired)
    ensures r.Ok? ==>
      (KnownProvider(r.value.aiProvider)
       && r.value.aiProvider == Text.LowerStr(y.ai.provider)
       && (r.value.apiKey, r.value.modelName) == Credentials(y.ai, r.value.aiProvider)
       && r.value.baseUrl == (if r.value.aiProvider == "local" then Some(y.ai.local.apiUrl) else None)
       && r.value.telegramToken == y.bot.telegramToken && r.value.botUsername == y.bot.botUsername
       && r.value.adminUserIds == y.bot.adminUserIds
       && r.value.yamlConfig == y
       && r.value.contextMessagesCount == y.ai.contextMessagesCount && r.value.maxRetries == y.ai.maxRetries)
    // the provider check of `Validate` can never be the one that fails here
    ensures KnownProvider(Text.LowerStr(y.ai.provider)) ==> r != Err(ProviderInvalid)
  {
    var provider := Text.LowerStr(y.ai.provider);
    if provider == "groq" then
      Validate(BotConfig(y.bot.telegramToken, y.bot.botUsername, provider, y.ai.groq.apiKey,
        y.ai.groq.model, None, y.ai.contextMessagesCount, y.ai.maxRetries, y.bot.adminUserIds, y))
    else if provider == "openrouter" then
      Validate(BotConfig(y.bot.telegramToken, y.bot.botUsername, provider, y.ai.openrouter.apiKey,
        y.ai.openrouter.model, None, y.ai.contextMessagesCount, y.ai.maxRetries, y.bot.adminUserIds, y))
    else if provider == "local" then
      Validate(BotConfig(y.bot.telegramToken, y.bot.botUsername, provider, y.ai.local.apiKey,
        y.ai.local.model, Some(y.ai.local.apiUrl), y.ai.contextMessagesCount, y.ai.maxRetries,
        y.bot.adminUserIds, y))
    else Err("Unknown AI_PROVIDER: " + provider)
  }

  /** Without config.yaml the defaults select the local provider, whose key and
      model are set, so loading fails on the empty Telegram token. */
  lemma MissingFileFailsOnToken()
    ensures LoadYamlConfig(None) == DefaultYaml
    ensures LoadConfig(LoadYamlConfig(None)) == Err(TokenRequired)
  {
    assert Text.LowerStr("local") == "local";
  }

  /** The provider name is matched case-insensitively: "GROQ" selects groq. */
  lemma ProviderCaseInsensitive(y: YamlConfig)
    requires y.ai.provider == "GROQ"
    requires y.bot.telegramToken != "" && y.bot.botUsername != ""
    requires y.ai.groq.apiKey != "" && y.ai.groq.model != ""
    requires y.ai.contextMessagesCount >= 1 && y.ai.maxRetries >= 1
    ensures LoadConfig(y).Ok? && LoadConfig(y).value.aiProvider == "groq"
    ensures LoadConfig(y).value.apiKey == y.ai.groq.apiKey && LoadConfig(y).value.baseUrl == None
  {
    assert Text.LowerStr(y.ai.provider) == "groq";
  }

  /** Nothing checks that the minimum message gap is at most the maximum. */
  lemma InvertedCommentRangeAccepted()
    ensures exists y: YamlConfig ::
      (LoadConfig(y).Ok?
       && y.autonomousCommenting.minMessagesBetweenComments > y.autonomousCommenting.maxMessagesBetweenComments)
  {
    var y := DefaultYaml.(
      bot := BotSettings("token", "bot", []),
      autonomousCommenting := DefaultAutonomousCommenting.(minMessagesBetweenComments := 30));
    assert Text.LowerStr(y.ai.provider) == "local";
    assert LoadConfig(y).Ok?;
  }

  /** The process-wide configuration (`_config`). */
  class ConfigHolder {
    var current: Option<BotConfig>

    constructor ()
      ensures current == None
    {
      current := None;
    }

    /** `get_config`: load on first use, then return the same configuration. */
    method GetConfig(file: Option<YamlConfig>) returns (r: Result<BotConfig, string>)
      modifies this
      ensures old(current).Some? ==> r == Ok(old(current).value) && current == old(current)
      ensures old(current).None? ==> r == LoadConfig(LoadYamlConfig(file))
      ensures old(current).None? ==> current == if r.Ok? then Some(r.value) else None
    {
      if current.Some? {
        return Ok(current.value);
      }
      r := LoadConfig(LoadYamlConfig(file));
      if r.Ok? {
        current := Some(r.value);
      }
    }

    /** `reload_config`: always load afresh; a failed load raises and keeps the old one. */
    method ReloadConfig(file: Option<YamlConfig>) returns (r: Result<BotConfig, string>)
      modifies this
      ensures r == LoadConfig(LoadYamlConfig(file))
      ensures current == if r.Ok? then Some(r.value) else old(current)
    {
      r := LoadConfig(LoadYamlConfig(file));
      if r.Ok? {
        current := Some(r.value);
      }
    }
  }
}

=== FILE: conversation.dfy ===
/**
 * The character-counting language tests of the private-conversation handler.
 *
 * Python compares the float ratio `count / total_letters` with 0.5; for the
 * counts of a chat message that is exactly `2 * count > total_letters`,
 * which is what is written here.
 */
module Conversation {
  import opened Text

  /** Characters in U+0400..U+04FF. */
  function CyrillicCount(s: string): (n: nat)
    ensures n <= |s|
  {
    if s == [] then 0 else CyrillicCount(s[..|s| - 1]) + (if IsCyrillic(s[|s| - 1]) then 1 else 0)
  }

  /** Characters whose lower-case form is in a..z. */
  function LatinCount(s: string): (n: nat)
    ensures n <= |s|
  {
    if s == [] then 0 else LatinCount(s[..|s| - 1]) + (if 'a' <= Lower(s[|s| - 1]) <= 'z' then 1 else 0)
  }

  /** Characters for which `isalpha` holds. */
  function LetterCount(s: string): (n: nat)
    ensures n <= |s|
  {
    if s == [] then 0 else LetterCount(s[..|s| - 1]) + (if IsAlpha(s[|s| - 1]) then 1 else 0)
  }

  /** `is_mostly_cyrillic`: false for empty text; otherwise there are letters
      and more than half as many Cyrillic characters as letters. */
  function IsMostlyCyrillic(text: string): (r: bool)
    ensures text == [] ==> !r
    ensures r <==> LetterCount(text) > 0 && 2 * CyrillicCount(text) > LetterCount(text)
  {
    if text == [] then false
    else
      var cyrillic := CyrillicCount(text);
      var letters := LetterCount(text);
      letters > 0 && 2 * cyrillic > letters
  }

  /** `is_mostly_english`: the same test counting a..z after lower-casing. */
  function IsMostlyEnglish(text: string): (r: bool)
    ensures text == [] ==> !r
    ensures r <==> LetterCount(text) > 0 && 2 * LatinCount(text) > LetterCount(text)
  {
    if text == [] then false
    else
      var latin := LatinCount(text);
      var letters := LetterCount(text);
      letters > 0 && 2 * latin > letters
  }

  /** Latin letters are letters, and no character is both Latin and
      Cyrillic; so when every Cyrillic-block character is a letter, the two
      counts together stay within the letters. */
  lemma {:induction false} CountsWithinLetters(s: string)
    requires forall i | 0 <= i < |s| :: IsCyrillic(s[i]) ==> IsAlpha(s[i])
    ensures CyrillicCount(s) + LatinCount(s) <= LetterCount(s)
  {
    if s != [] {
      var c := s[|s| - 1];
      LowerFacts(c);
      CountsWithinLetters(s[..|s| - 1]);
    }
  }

  /** A text made of letters is never both mostly Cyrillic and mostly
      English. */
  lemma NotBothMostly(text: string)
    requires forall i | 0 <= i < |text| :: IsCyrillic(text[i]) ==> IsAlpha(text[i])
    ensures !(IsMostlyCyrillic(text) && IsMostlyEnglish(text))
  {
    CountsWithinLetters(text);
  }

  /** The Cyrillic test counts every character of the block, letters or not,
      so with a non-letter such as U+0482 both tests can hold at once. */
  lemma BothMostlyWithCyrillicSign()
    ensures IsMostlyCyrillic("a\U{0482}") && IsMostlyEnglish("a\U{0482}")
  {
    var s := "a\U{0482}";
    assert s[..1] == "a";
    assert s[..1][..0] == [];
    assert CyrillicCount(s) == 1;
    assert LatinCount(s) == 1;
    assert LetterCount(s) == 1;
  }

  /** What the detector looks at: context, a space and the message, or the
      message alone when there is no context. */
  function Combined(context: string, currentMessage: string): (r: string)
    ensures context == [] ==> r == currentMessage
    ensures context != [] ==> |r| == |context| + 1 + |currentMessage|
  {
    if context != [] then context + " " + currentMessage else currentMessage
  }

  /** `detect_conversation_language`: "english" exactly when the Latin
      characters outnumber twice the Cyrillic ones; "russian" otherwise,
      including for empty text or text without letters. */
  function DetectConversationLanguage(context: string, currentMessage: string): (r: string)
    ensures r == "english" || r == "russian"
    ensures var t := Combined(context, currentMessage);
      r == "english" <==> LatinCount(t) > 2 * CyrillicCount(t)
  {
    var combined := Combined(context, currentMessage);
    if combined == [] then "russian"
    else
      var cyrillic := CyrillicCount(combined);
      var latin := LatinCount(combined);
      var total := cyrillic + latin;
      if total == 0 then "russian"
      else if cyrillic > latin then "russian"
      else if latin > cyrillic * 2 then "english"
      else "russian"
  }
}

=== FILE: emoji.dfy ===
/**
 * The emoji the bot reacts with and classifies, as named string constants.
 * Each is the exact code-point sequence of the source's literal
 * (the red heart carries its variation selector U+FE0F).
 */
module Emoji {

  const ThumbsUp: string := "\U{1F44D}"
  const ThumbsDown: string := "\U{1F44E}"
  const TearsOfJoy: string := "\U{1F602}"
  const RollingLaughing: string := "\U{1F923}"
  const Grinning: string := "\U{1F604}"
  const Fire: string := "\U{1F525}"
  const Screaming: string := "\U{1F631}"
  const Thinking: string := "\U{1F914}"
  const Eyes: string := "\U{1F440}"
  const Hundred: string := "\U{1F4AF}"
  const DirectHit: string := "\U{1F3AF}"
  const RedHeart: string := "\U{2764}\U{FE0F}"
  const Smiling: string := "\U{1F60A}"
  const PartyPopper: string := "\U{1F389}"
  const CheckMark: string := "\U{2705}"
  const HeartEyes: string := "\U{1F60D}"
  const SmilingHearts: string := "\U{1F970}"
  const Hugging: string := "\U{1F917}"
  const Angry: string := "\U{1F620}"
  const Crying: string := "\U{1F622}"
  const BrokenHeart: string := "\U{1F494}"
  const CrossMark: string := "\U{274C}"
  const Disappointed: string := "\U{1F61E}"
  const Pensive: string := "\U{1F614}"
  const Confused: string := "\U{1F615}"
  const Persevering: string := "\U{1F623}"
  const Confounded: string := "\U{1F616}"
  const ThoughtBalloon: string := "\U{1F4AD}"
  const Monocle: string := "\U{1F9D0}"
  const Neutral: string := "\U{1F610}"
}

=== FILE: help_command.dfy ===
/**
 * The `/help` command: the language of the help (an explicit argument, else
 * the sender's profile preference) and the reply built by the registry.
 */
module HelpCommand {
  import opened Wrappers
  import opened Text
  import Telegram
  import Config
  import Profiles
  import Commands

  const RussianWords: seq<string> := ["ru", "russian", "русский"]
  const EnglishWords: seq<string> := ["en", "english", "английский"]

  /** `forced_language`: the lower-cased rest of the message after the
      command word, if there is any. */
  function ForcedLanguage(text: string): Option<string> {
    var parts := SplitOnce(Strip(text));
    if |parts| > 1 then Some(LowerStr(parts[1])) else None
  }

  /** The language selection of `execute`, given the forced language: a
      recognised argument wins; otherwise the profile's preference, "ru" for
      "ru", "en" for any other non-empty value and "ru" for an empty one. */
  function ChooseLanguage(forced: Option<string>, preference: string): (language: string)
    ensures language == "ru" || language == "en"
    ensures forced.Some? && forced.value in RussianWords ==> language == "ru"
    ensures forced.Some? && forced.value in EnglishWords ==> language == "en"
    ensures !(forced.Some? && (forced.value in RussianWords || forced.value in EnglishWords)) ==>
      (language == "ru" <==> preference == "" || preference == "ru")
  {
    if forced.Some? && forced.value in RussianWords then "ru"
    else if forced.Some? && forced.value in EnglishWords then "en"
    else if preference != "" then (if preference == "ru" then "ru" else "en")
    else "ru"
  }

  /** For a command word followed by one argument, the forced language is
      that argument lower-cased. */
  lemma ForcedIsArgument(command: string, argument: string)
    requires command != [] && NoSpace(command)
    requires argument != [] && !IsSpace(argument[0]) && !IsSpace(argument[|argument| - 1])
    ensures ForcedLanguage(command + " " + argument) == Some(LowerStr(argument))
  {
    var t := command + " " + argument;
    assert t == command + (" " + argument);
    assert Stripped(t) by {
      assert t[0] == command[0] && t[|t| - 1] == argument[|argument| - 1];
    }
    StripStripped(t);
    assert LStrip(" " + argument) == argument by {
      assert LStrip(" " + argument) == LStrip(argument);
      assert LStrip(argument) == argument;
    }
    SplitOnceOfWord(command, " " + argument);
    assert SplitOnce(Strip(t)) == [command, argument];
  }

  /** A command word followed by a recognised argument, in any case,
      decides the language whatever the profile says. */
  lemma ArgumentDecides(command: string, argument: string, preference: string)
    requires command != [] && NoSpace(command)
    requires argument != [] && !IsSpace(argument[0]) && !IsSpace(argument[|argument| - 1])
    ensures LowerStr(argument) in RussianWords ==>
      ChooseLanguage(ForcedLanguage(command + " " + argument), preference) == "ru"
    ensures LowerStr(argument) in EnglishWords ==>
      ChooseLanguage(ForcedLanguage(command + " " + argument), preference) == "en"
  {
    ForcedIsArgument(command, argument);
  }

  /** Capitalised forms are recognised: "Русский" and "EN" lower-case to
      listed words. */
  lemma CapitalisedWords()
    ensures LowerStr("Русский") in RussianWords
    ensures LowerStr("EN") in EnglishWords
  {
    assert LowerStr("Русский") == "русский";
    assert LowerStr("EN") == "en";
  }

  /** A user with neither a cached nor a stored profile gets a fresh one,
      whose preference "en" gives English help; the Russian default applies
      only to a profile with an empty preference. */
  lemma NewUserGetsEnglish(text: string, manager: Profiles.ProfileManager, userId: int, nowIso: string)
    requires userId !in manager.profiles
    requires ForcedLanguage(text).None?
    ensures ChooseLanguage(ForcedLanguage(text), manager.Loaded(userId, None, nowIso).languagePreference) == "en"
  {
    assert manager.Loaded(userId, None, nowIso) == Profiles.NewProfile(userId, nowIso);
    EnglishPreferenceGivesEnglish(ForcedLanguage(text));
  }

  lemma EnglishPreferenceGivesEnglish(forced: Option<string>)
    requires forced.None?
    ensures ChooseLanguage(forced, "en") == "en"
  {
  }

  /** `HelpCommand.execute`: nothing without a message and its sender;
      otherwise the language is chosen (loading the sender's profile when no
      argument decides it) and the registry's help in that language is the
      reply. The profile's disk copy is the `stored` parameter. */
  method Execute(registry: Commands.CommandRegistry, manager: Profiles.ProfileManager,
                 message: Option<Telegram.Message>, config: Config.BotConfig,
                 stored: Option<Profiles.UserProfile>, nowIso: string)
    returns (reply: Option<string>)
    requires registry.Valid() && manager.Valid()
    requires message.Some? && message.value.fromUser.Some? ==> message.value.text.Some?
    modifies manager
    ensures manager.Valid()
    ensures message.None? || message.value.fromUser.None? ==> reply.None? && unchanged(manager)
    ensures message.Some? && message.value.fromUser.Some? ==>
      var userId := message.value.fromUser.value.id;
      var text := message.value.text.value;
      var preference := old(manager.Loaded(userId, stored, nowIso)).languagePreference;
      reply == Some(registry.HelpSpec(userId, config, ChooseLanguage(ForcedLanguage(text), preference)))
    ensures message.Some? && message.value.fromUser.Some? ==>
      var userId := message.value.fromUser.value.id;
      var forced := ForcedLanguage(message.value.text.value);
      if forced.Some? && (forced.value in RussianWords || forced.value in EnglishWords) then
        manager.profiles == old(manager.profiles) && manager.order == old(manager.order)
      else
        manager.profiles == old(manager.profiles)[userId := old(manager.Loaded(userId, stored, nowIso))]
        && manager.order == if userId in old(manager.profiles) then old(manager.order) else old(manager.order) + [userId]
  {
    if message.None? || message.value.fromUser.None? {
      return None;
    }
    var userId := message.value.fromUser.value.id;
    var text := message.value.text.value;
    var forced := ForcedLanguage(text);
    ghost var preference := old(manager.Loaded(userId, stored, nowIso)).languagePreference;
    var language: string;
    if forced.Some? && (forced.value in RussianWords || forced.value in EnglishWords) {
      language := if forced.value in RussianWords then "ru" else "en";
    } else {
      var profile := manager.LoadProfile(userId, stored, nowIso);
      assert profile.languagePreference == preference;
      language := ChooseLanguage(forced, profile.languagePreference);
    }
    assert language == ChooseLanguage(forced, preference);
    var help := registry.GenerateHelpText(userId, config, language);
    reply := Some(help);
  }
}

=== FILE: hex.dfy ===
/**
 * The lowercase hexadecimal encoding of a hash (`OpenAI.bytesToHex`): every
 * byte, read as unsigned, becomes two lowercase hex digits. Section 8 of
 * RFC 4648 gives the Base16 alphabet in upper case; this encoder writes the
 * lower-case letters instead, as Java's `Integer.toHexString` does.
 */
module Hex {
  import opened Wrappers

  /** A Java `byte`: signed, two's complement, eight bits. */
  newtype JavaByte = x: int | -128 <= x < 128

  /** The lowercase hexadecimal alphabet. */
  predicate IsDigit(c: char) {
    '0' <= c <= '9' || 'a' <= c <= 'f'
  }

  /** `0xff & b`: the byte, sign-extended to an `int`, masked to its low
      eight bits, which is its unsigned reading. */
  function Unsigned(b: JavaByte): (v: nat)
    ensures v < 256 && v == b as int % 256
    ensures b >= 0 ==> v == b as int
  {
    if b < 0 then b as int + 256 else b as int
  }

  /** The inverse of `Unsigned`: the Java cast `(byte) v`. */
  function Signed(v: nat): (b: JavaByte)
    requires v < 256
    ensures Unsigned(b) == v
  {
    if v >= 128 then (v - 256) as JavaByte else v as JavaByte
  }

  /** The digit for a nibble, as `Character.forDigit(d, 16)` writes it. */
  function Digit(d: nat): (c: char)
    requires d < 16
    ensures IsDigit(c)
    ensures d < 8 <==> '0' <= c <= '7'
  {
    if d < 10 then ('0' as int + d) as char else ('a' as int + d - 10) as char
  }

  /** `Integer.toHexString` on a non-negative value: lowercase digits with
      no leading zero ("0" for zero). */
  function ToHexString(v: nat): (r: string)
    ensures r != [] && (forall k | 0 <= k < |r| :: IsDigit(r[k]))
    ensures |r| == 1 <==> v < 16
    ensures v >= 16 ==> r[0] != '0'
  {
    if v < 16 then [Digit(v)] else ToHexString(v / 16) + [Digit(v % 16)]
  }

  /** The loop body's contribution for one byte: the hex string of the
      unsigned byte, with a "0" in front when it is a single digit. */
  function Pair(b: JavaByte): string {
    var hex := ToHexString(Unsigned(b));
    if |hex| == 1 then "0" + hex else hex
  }

  /** Every byte becomes exactly its high and low nibble, so negative bytes
      (unsigned 128 to 255) start with a digit from 8 to f. */
  lemma PairIsNibbles(b: JavaByte)
    ensures Pair(b) == [Digit(Unsigned(b) / 16), Digit(Unsigned(b) % 16)]
    ensures b < 0 <==> !('0' <= Pair(b)[0] <= '7')
  {
    var v := Unsigned(b);
    if v >= 16 {
      assert ToHexString(v / 16) == [Digit(v / 16)];
    }
  }

  /** The string `bytesToHex` builds for a byte sequence. */
  function Encode(bs: seq<JavaByte>): (s: string)
    ensures |s| == 2 * |bs|
    ensures forall k | 0 <= k < |s| :: IsDigit(s[k])
  {
    if bs == [] then [] else
      PairIsNibbles(bs[|bs| - 1]);
      Encode(bs[..|bs| - 1]) + Pair(bs[|bs| - 1])
  }

  /** `bytesToHex`: the builder grows by one pair per byte. */
  method BytesToHex(hash: array<JavaByte>) returns (hexString: string)
    ensures hexString == Encode(hash[..])
  {
    hexString := "";
    for i := 0 to hash.Length
      invariant hexString == Encode(hash[..i])
    {
      var hex := ToHexString(Unsigned(hash[i]));
      if |hex| == 1 {
        hexString := hexString + "0";
      }
      hexString := hexString + hex;
      assert hash[..i + 1][..i] == hash[..i];
    }
    assert hash[..hash.Length] == hash[..];
  }

  /** The value of a lowercase hex digit. */
  function DigitValue(c: char): (d: Option<nat>)
    ensures d.Some? <==> IsDigit(c)
    ensures d.Some? ==> d.value < 16 && Digit(d.value) == c
  {
    if '0' <= c <= '9' then Some(c as int - '0' as int)
    else if 'a' <= c <= 'f' then Some(c as int - 'a' as int + 10)
    else None
  }

  /** The byte a two-digit pair stands for. */
  function PairValue(p: string): (b: Option<JavaByte>)
    requires |p| == 2
    ensures b.Some? <==> IsDigit(p[0]) && IsDigit(p[1])
  {
    var hi, lo := DigitValue(p[0]), DigitValue(p[1]);
    if hi.None? || lo.None? then None else Some(Signed(hi.value * 16 + lo.value))
  }

  /** A pair and its byte determine each other. */
  lemma PairRoundTrip(b: JavaByte, p: string)
    requires |p| == 2
    ensures PairValue(Pair(b)) == Some(b)
    ensures PairValue(p).Some? ==> Pair(PairValue(p).value) == p
  {
    PairDecodes(b);
    if PairValue(p).Some? {
      PairEncodes(p);
    }
  }

  lemma DigitRoundTrip(d: nat)
    requires d < 16
    ensures DigitValue(Digit(d)) == Some(d)
  {
  }

  lemma Nibbles(hi: nat, lo: nat)
    requires hi < 16 && lo < 16
    ensures (hi * 16 + lo) / 16 == hi && (hi * 16 + lo) % 16 == lo && hi * 16 + lo < 256
  {
  }

  lemma PairDecodes(b: JavaByte)
    ensures PairValue(Pair(b)) == Some(b)
  {
    PairIsNibbles(b);
    var v := Unsigned(b);
    DigitRoundTrip(v / 16);
    DigitRoundTrip(v % 16);
    assert v == v / 16 * 16 + v % 16;
  }

  lemma PairEncodes(p: string)
    requires |p| == 2 && PairValue(p).Some?
    ensures Pair(PairValue(p).value) == p
  {
    var hi, lo := DigitValue(p[0]).value, DigitValue(p[1]).value;
    Nibbles(hi, lo);
    var c := PairValue(p).value;
    assert Unsigned(c) == hi * 16 + lo;
    PairIsNibbles(c);
    assert Pair(c) == [Digit(hi), Digit(lo)];
  }

  /** Reading the fixed-width pairs back: `None` for an odd length or a
      character outside the lowercase alphabet. */
  function Decode(s: string): (r: Option<seq<JavaByte>>)
    ensures r.Some? ==> 2 * |r.value| == |s|
  {
    if s == [] then Some([])
    else if |s| == 1 then None
    else
      match Decode(s[..|s| - 2])
      case None => None
      case Some(init) =>
        match PairValue(s[|s| - 2..])
        case None => None
        case Some(b) => Some(init + [b])
  }

  /** Decoding a text followed by one pair. */
  lemma DecodeSnoc(t: string, p: string)
    requires |p| == 2
    ensures Decode(t + p) ==
      if Decode(t).Some? && PairValue(p).Some? then Some(Decode(t).value + [PairValue(p).value]) else None
  {
    var s := t + p;
    assert s[..|s| - 2] == t;
    assert s[|s| - 2..] == p;
  }

  /** Encoding a sequence followed by one byte. */
  lemma EncodeSnoc(init: seq<JavaByte>, b: JavaByte)
    ensures Encode(init + [b]) == Encode(init) + Pair(b)
  {
    var bs := init + [b];
    assert bs[..|bs| - 1] == init;
  }

  /** The round trip: decoding the encoder's output gives back the bytes. */
  lemma {:induction false} DecodeEncode(bs: seq<JavaByte>)
    ensures Decode(Encode(bs)) == Some(bs)
  {
    if bs != [] {
      var init, b := bs[..|bs| - 1], bs[|bs| - 1];
      assert bs == init + [b];
      EncodeSnoc(init, b);
      DecodeEncode(init);
      PairIsNibbles(b);
      PairRoundTrip(b, Pair(b));
      DecodeSnoc(Encode(init), Pair(b));
    }
  }

  /** The other direction: every even-length string over the lowercase
      alphabet decodes, and is exactly the encoding of what it decodes to. */
  lemma {:induction false} EncodeDecode(s: string)
    requires |s| % 2 == 0
    requires forall k | 0 <= k < |s| :: IsDigit(s[k])
    ensures Decode(s).Some? && Encode(Decode(s).value) == s
  {
    if s != [] {
      var init, p := s[..|s| - 2], s[|s| - 2..];
      assert s == init + p;
      assert IsDigit(p[0]) && IsDigit(p[1]);
      EncodeDecode(init);
      PairRoundTrip(0, p);
      DecodeSnoc(init, p);
      var bs := Decode(s).value;
      assert bs[..|bs| - 1] == Decode(init).value;
    }
  }

  /** Different hashes give different strings. */
  lemma EncodeInjective(a: seq<JavaByte>, b: seq<JavaByte>)
    requires Encode(a) == Encode(b)
    ensures a == b
  {
    DecodeEncode(a);
    DecodeEncode(b);
  }

  /** A fixed example: the bytes 0, 15, -1 and 16 encode as "000fff10". */
  lemma Example()
    ensures Encode([0, 15, -1, 16]) == "000fff10"
  {
    var bs: seq<JavaByte> := [0, 15, -1, 16];
    PairIsNibbles(0);
    PairIsNibbles(15);
    PairIsNibbles(-1);
    PairIsNibbles(16);
    assert Pair(0) == "00" && Pair(15) == "0f" && Pair(-1) == "ff" && Pair(16) == "10";
    assert bs[..3] == [0, 15, -1] && bs[..3][..2] == [0, 15] && bs[..3][..2][..1] == [0];
    assert [0][..0] == [];
    assert Encode([0]) == "00";
    assert Encode([0, 15]) == "000f";
    assert Encode([0, 15, -1]) == "000fff";
  }
}

=== FILE: history.dfy ===
/**
 * Conversation context: sanitising and formatting Telegram messages for the
 * AI, and the per-chat message history (`MessageHistory`) with its bounded
 * buffers, expiry and formatted views.
 *
 * Persistence of the history to disk is not modelled; clock readings are
 * parameters (`now`, whole seconds).
 */
module History {
  import opened Wrappers
  import opened PyList
  import Text
  import Telegram

  /** Texts longer than this are cut to this many characters plus "...". */
  const MaxTextLength := 200

  /** Python's `message.text or message.caption or ""`. */
  function MessageText(m: Telegram.Message): string {
    if m.text.Some? && m.text.value != "" then m.text.value
    else if m.caption.Some? then m.caption.value
    else ""
  }

  /** Cut a text to `MaxTextLength` characters plus "..." when it is longer. */
  function Truncate(text: string): (r: string)
    ensures |text| <= MaxTextLength ==> r == text
    ensures |text| > MaxTextLength ==> |r| == MaxTextLength + 3 && r[..MaxTextLength] == text[..MaxTextLength]
    ensures |r| <= MaxTextLength + 3
  {
    if |text| > MaxTextLength then text[..MaxTextLength] + "..." else text
  }

  /** `sanitize_message`: no text for a missing message or a bot command;
      long texts are truncated; the result is stripped. */
  function Sanitize(m: Option<Telegram.Message>): (r: string)
    ensures m.None? ==> r == ""
    ensures m.Some? && Text.StartsWith(MessageText(m.value), "/") ==> r == ""
    ensures m.Some? && !Text.StartsWith(MessageText(m.value), "/")
            ==> r == Text.Strip(Truncate(MessageText(m.value)))
    ensures |r| <= MaxTextLength + 3
  {
    if m.None? then ""
    else
      var text := MessageText(m.value);
      if Text.StartsWith(text, "/") then "" else Text.Strip(Truncate(text))
  }

  function Reversed<T>(xs: seq<T>): (r: seq<T>)
    ensures |r| == |xs|
    ensures forall i | 0 <= i < |xs| :: r[i] == xs[|xs| - 1 - i]
  {
    if xs == [] then [] else Reversed(xs[1..]) + [xs[0]]
  }

  /** The "name: text" line `format_context_for_ai` writes for a message. */
  function ContextLine(m: Telegram.Message): string {
    (if m.fromUser.Some? then m.fromUser.value.firstName else "Unknown") + ": " + Sanitize(Some(m))
  }

  /** A message's contribution to the context: its line when its sanitised text is not empty. */
  function ContextPiece(m: Telegram.Message): (piece: seq<string>)
    ensures |piece| <= 1 && (piece == [] <==> Sanitize(Some(m)) == "")
    ensures forall k | 0 <= k < |piece| :: piece[k] != []
  {
    if Sanitize(Some(m)) != "" then [ContextLine(m)] else []
  }

  /** The line of each message with a non-empty sanitised text, in the order given. */
  function ContextLines(msgs: seq<Telegram.Message>): (lines: seq<string>)
    ensures |lines| <= |msgs|
    ensures lines == [] <==> forall i | 0 <= i < |msgs| :: Sanitize(Some(msgs[i])) == ""
    ensures forall k | 0 <= k < |lines| :: lines[k] != []
  {
    var lines := FlatMap(msgs, ContextPiece);
    FlatMapFacts(msgs, ContextPiece);
    assert forall k | 0 <= k < |lines| :: lines[k] != [] by {
      forall k | 0 <= k < |lines| ensures lines[k] != [] {
        assert lines[k] in lines;
        var i :| 0 <= i < |msgs| && lines[k] in ContextPiece(msgs[i]);
      }
    }
    lines
  }

  /** `format_context_for_ai`: the input is newest-first, the lines oldest-first;
      nothing when no message has text. */
  function FormatContextForAi(msgs: seq<Telegram.Message>): (r: string)
    ensures r == "" <==> forall i | 0 <= i < |msgs| :: Sanitize(Some(msgs[i])) == ""
  {
    var lines := ContextLines(Reversed(msgs));
    assert forall i | 0 <= i < |msgs| :: msgs[i] == Reversed(msgs)[|msgs| - 1 - i];
    assert forall i | 0 <= i < |msgs| :: Reversed(msgs)[i] == msgs[|msgs| - 1 - i];
    if lines == [] then ""
    else
      Text.JoinNonEmpty(lines, "\n");
      Text.Join(lines, "\n")
  }

  /** An older message, at the end of the newest-first list, comes first:
      its line, when it has one, is followed by the lines of the newer ones. */
  lemma FormatOldestFirst(msgs: seq<Telegram.Message>, older: Telegram.Message)
    ensures FormatContextForAi(msgs + [older])
            == if Sanitize(Some(older)) == "" then FormatContextForAi(msgs)
               else if FormatContextForAi(msgs) == "" then ContextLine(older)
               else ContextLine(older) + "\n" + FormatContextForAi(msgs)
  {
    ReversedSnoc(msgs, older);
    FlatMapAppend([older], Reversed(msgs), ContextPiece);
    FlatMapOne(older, ContextPiece);
    var rest := ContextLines(Reversed(msgs));
    var lines := ContextLines(Reversed(msgs + [older]));
    assert lines == ContextPiece(older) + rest;
    if Sanitize(Some(older)) == "" {
      assert lines == rest;
    } else if rest == [] {
      assert lines == [ContextLine(older)];
    } else {
      assert lines == [ContextLine(older)] + rest;
      JoinCons(ContextLine(older), rest);
    }
  }

  lemma ReversedSnoc<T>(xs: seq<T>, x: T)
    ensures Reversed(xs + [x]) == [x] + Reversed(xs)
  {
    var all := xs + [x];
    forall i | 0 <= i < |all| ensures Reversed(all)[i] == ([x] + Reversed(xs))[i] {
      if i > 0 {
        assert Reversed(all)[i] == all[|all| - 1 - i] == xs[|xs| - i];
      }
    }
  }

  lemma JoinCons(line: string, rest: seq<string>)
    requires line != [] && rest != [] && rest[0] != []
    ensures Text.Join([line] + rest, "\n") == line + "\n" + Text.Join(rest, "\n")
    ensures Text.Join(rest, "\n") != ""
  {
    assert ([line] + rest)[1..] == rest;
    Text.JoinNonEmpty(rest, "\n");
  }

  /** `extract_context`: it walks back from `messageId - 1` for at most `count`
      ids, forwarding and deleting each, but never keeps a message, so the
      context is always empty. `attempted` lists the ids it tried. */
  method ExtractContext(messageId: int, count: int) returns (context: string, attempted: seq<int>)
    ensures context == ""
    ensures |attempted| == if count <= 0 || messageId <= 1 then 0
                           else if count < messageId - 1 then count else messageId - 1
    ensures forall k | 0 <= k < |attempted| :: attempted[k] == messageId - 1 - k && attempted[k] > 0
  {
    var messages: seq<string> := [];
    var currentId := messageId - 1;
    attempted := [];
    var n := 0;
    while n < count
      invariant 0 <= n <= (if count < 0 then 0 else count)
      invariant n == 0 || n <= messageId - 1
      invariant |attempted| == n && currentId == messageId - 1 - n
      invariant forall k | 0 <= k < |attempted| :: attempted[k] == messageId - 1 - k && attempted[k] > 0
      invariant messages == []
    {
      if currentId <= 0 {
        break;
      }
      attempted := attempted + [currentId];
      currentId := currentId - 1;
      n := n + 1;
    }
    context := if messages == [] then "" else Text.Join(messages, "\n");
  }

  // ------------------------------------------------------------ message history

  /** The record `MessageHistory.add_message` stores for a message. */
  datatype Record = Record(
    text: string,
    userId: int,
    username: Option<string>,
    firstName: string,
    timestamp: int,
    messageId: int)

  function RecordOf(m: Telegram.Message, now: int): (r: Record)
    ensures r.userId == (if m.fromUser.Some? then m.fromUser.value.id else 0)
    ensures r.firstName == (if m.fromUser.Some? then m.fromUser.value.firstName else "Unknown")
    ensures r.timestamp == now && r.messageId == m.messageId
  {
    Record(
      Telegram.OrEmpty(m.text),
      if m.fromUser.Some? then m.fromUser.value.id else 0,
      if m.fromUser.Some? then m.fromUser.value.username else Some(""),
      if m.fromUser.Some? then m.fromUser.value.firstName else "Unknown",
      now,
      m.messageId)
  }

  /** A chat's buffer after appending: cut to the last `max` records only when
      it grew beyond `max` (so for `max <= 0` the Python slice rules apply). */
  function Appended(records: seq<Record>, r: Record, max: int): (out: seq<Record>)
    ensures max >= 1 ==> |out| <= max
    ensures max >= 1 ==> out != [] && out[|out| - 1] == r
    ensures max >= 1 ==> |out| <= |records| + 1 && out == (records + [r])[|records| + 1 - |out|..]
    ensures |records| + 1 <= max ==> out == records + [r]
  {
    var all := records + [r];
    if |all| > max then KeepLast(all, max) else all
  }

  /** A stored text worth showing: non-empty after stripping and not a command. */
  predicate Shown(text: string) {
    Text.Strip(text) != "" && !Text.StartsWith(Text.Strip(text), "/")
  }

  /** The records `get_context` and `get_user_messages` show, in order. */
  function ShownRecords(records: seq<Record>): (r: seq<Record>)
    ensures |r| <= |records|
    ensures forall k | 0 <= k < |r| :: Shown(r[k].text) && r[k] in records
  {
    if records == [] then []
    else
      var head := if Shown(records[0].text) then [records[0]] else [];
      head + ShownRecords(records[1..])
  }

  /** Nothing worth showing is dropped. */
  lemma {:induction false} ShownComplete(records: seq<Record>, i: nat)
    requires i < |records| && Shown(records[i].text)
    ensures records[i] in ShownRecords(records)
  {
    if i > 0 {
      assert records[i] == records[1..][i - 1];
      ShownComplete(records[1..], i - 1);
    }
  }

  /** The `get_context` line for one shown record. */
  function HistoryLine(rec: Record): (line: string)
    ensures |line| <= |rec.firstName| + 2 + MaxTextLength + 3
  {
    rec.firstName + ": " + Truncate(Text.Strip(rec.text))
  }

  function HistoryLines(records: seq<Record>): seq<string> {
    var shown := ShownRecords(records);
    seq(|shown|, k requires 0 <= k < |shown| => HistoryLine(shown[k]))
  }

  /** The texts of `get_user_messages`: stripped, not truncated. */
  function UserTexts(records: seq<Record>): (texts: seq<string>)
    ensures forall k | 0 <= k < |texts| :: texts[k] != "" && !Text.StartsWith(texts[k], "/")
  {
    var shown := ShownRecords(records);
    seq(|shown|, k requires 0 <= k < |shown| => Text.Strip(shown[k].text))
  }

  /** The records of `get_user_messages`'s user filter, in their order. */
  function RecordsOf(records: seq<Record>, userId: int): (r: seq<Record>)
    ensures |r| <= |records|
    ensures forall k | 0 <= k < |r| :: r[k].userId == userId && r[k] in records
    ensures forall i | 0 <= i < |records| && records[i].userId == userId :: records[i] in r
  {
    if records == [] then []
    else
      assert forall i | 1 <= i < |records| :: records[i] == records[1..][i - 1];
      (if records[0].userId == userId then [records[0]] else []) + RecordsOf(records[1..], userId)
  }

  /** The filter keeps the order: the records of consecutive stretches follow each other. */
  lemma {:induction false} RecordsOfAppend(xs: seq<Record>, ys: seq<Record>, userId: int)
    ensures RecordsOf(xs + ys, userId) == RecordsOf(xs, userId) + RecordsOf(ys, userId)
  {
    if xs != [] {
      assert (xs + ys)[0] == xs[0] && (xs + ys)[1..] == xs[1..] + ys;
      RecordsOfAppend(xs[1..], ys, userId);
    } else {
      assert xs + ys == ys;
    }
  }

  /** Records that have not expired: less than `expiration` seconds old. */
  function Live(records: seq<Record>, now: int, expiration: int): (r: seq<Record>)
    ensures |r| <= |records|
    ensures forall k | 0 <= k < |r| :: now - r[k].timestamp < expiration && r[k] in records
    ensures forall k | 0 <= k < |records| :: now - records[k].timestamp < expiration ==> records[k] in r
  {
    if records == [] then []
    else (if now - records[0].timestamp < expiration then [records[0]] else []) + Live(records[1..], now, expiration)
  }

  /** Total number of records held for the chats in `order`. */
  function Size(order: seq<int>, h: map<int, seq<Record>>): nat
    requires forall c | c in order :: c in h
  {
    if order == [] then 0
    else
      var c := order[|order| - 1];
      assert c in order;
      assert forall x | x in order[..|order| - 1] :: x in order;
      Size(order[..|order| - 1], h) + |h[c]|
  }

  /** The number of live records for the chats in `order`. */
  function LiveSize(order: seq<int>, h: map<int, seq<Record>>, now: int, expiration: int): nat
    requires forall c | c in order :: c in h
  {
    if order == [] then 0
    else
      var c := order[|order| - 1];
      assert c in order;
      assert forall x | x in order[..|order| - 1] :: x in order;
      LiveSize(order[..|order| - 1], h, now, expiration) + |Live(h[c], now, expiration)|
  }

  /** The chats of `order` that keep at least one live record. */
  function Surviving(order: seq<int>, h: map<int, seq<Record>>, now: int, expiration: int): (r: seq<int>)
    requires forall c | c in order :: c in h
    ensures forall c | c in r :: c in order && Live(h[c], now, expiration) != []
    ensures forall c | c in order && Live(h[c], now, expiration) != [] :: c in r
    ensures NoDup(order) ==> NoDup(r)
  {
    if order == [] then []
    else
      var init := Surviving(order[..|order| - 1], h, now, expiration);
      var c := order[|order| - 1];
      assert forall x | x in order[..|order| - 1] :: x in order;
      assert forall x | x in order :: x in order[..|order| - 1] || x == c;
      if Live(h[c], now, expiration) != [] then init + [c] else init
  }

  /** The chats of `order` that keep live records, mapped to those records. */
  function LiveMap(order: seq<int>, h: map<int, seq<Record>>, now: int, expiration: int): (m: map<int, seq<Record>>)
    requires forall c | c in order :: c in h
    ensures forall c | c in m :: c in order && m[c] == Live(h[c], now, expiration) && m[c] != []
    ensures forall c | c in order && Live(h[c], now, expiration) != [] :: c in m
  {
    if order == [] then map[]
    else
      var c := order[|order| - 1];
      assert forall x | x in order[..|order| - 1] :: x in order;
      assert forall x | x in order :: x in order[..|order| - 1] || x == c;
      var m := LiveMap(order[..|order| - 1], h, now, expiration);
      if Live(h[c], now, expiration) != [] then m[c := Live(h[c], now, expiration)] else m
  }

  /** The live records, summed over surviving chats, are the live size. */
  lemma {:induction false} SurvivingSize(order: seq<int>, h: map<int, seq<Record>>, now: int, expiration: int,
                                         cleaned: map<int, seq<Record>>)
    requires forall c | c in order :: c in h
    requires forall c | c in order && Live(h[c], now, expiration) != [] :: c in cleaned && cleaned[c] == Live(h[c], now, expiration)
    ensures forall c | c in Surviving(order, h, now, expiration) :: c in cleaned
    ensures Size(Surviving(order, h, now, expiration), cleaned) == LiveSize(order, h, now, expiration)
  {
    if order != [] {
      var init := order[..|order| - 1];
      var c := order[|order| - 1];
      SurvivingSize(init, h, now, expiration, cleaned);
      var s := Surviving(init, h, now, expiration);
      if Live(h[c], now, expiration) != [] {
        assert Surviving(order, h, now, expiration) == s + [c];
        assert (s + [c])[..|s|] == s;
      }
    }
  }

  lemma {:induction false} LiveSizeAtMostSize(order: seq<int>, h: map<int, seq<Record>>, now: int, expiration: int)
    requires forall c | c in order :: c in h
    ensures LiveSize(order, h, now, expiration) <= Size(order, h)
  {
    if order != [] {
      LiveSizeAtMostSize(order[..|order| - 1], h, now, expiration);
    }
  }

  /** The per-chat history (`MessageHistory`), kept with the insertion order of its chats. */
  class MessageHistory {
    var history: map<int, seq<Record>>
    var chats: seq<int>
    const maxMessages: int
    const expirationSeconds: int

    ghost predicate Valid()
      reads this
    {
      NoDup(chats) && (forall c :: c in chats <==> c in history)
      && (maxMessages >= 1 ==> forall c | c in history :: |history[c]| <= maxMessages)
    }

    constructor (maxMessages: int, expirationHours: int)
      ensures Valid() && history == map[] && chats == []
      ensures this.maxMessages == maxMessages && this.expirationSeconds == expirationHours * 3600
    {
      this.maxMessages := maxMessages;
      this.expirationSeconds := expirationHours * 3600;
      history := map[];
      chats := [];
    }

    /** `add_message`: append the message's record and keep the last `maxMessages`. */
    method AddMessage(chatId: int, m: Telegram.Message, now: int)
      requires Valid()
      modifies this
      ensures Valid()
      ensures var before := if chatId in old(history) then old(history)[chatId] else [];
        history == old(history)[chatId := Appended(before, RecordOf(m, now), maxMessages)]
      ensures chats == if chatId in old(history) then old(chats) else old(chats) + [chatId]
    {
      var before := if chatId in history then history[chatId] else [];
      var out := Appended(before, RecordOf(m, now), maxMessages);
      if chatId !in history {
        NoDupSnoc(chats, chatId);
        chats := chats + [chatId];
      }
      history := history[chatId := out];
    }

    /** `get_context`: nothing for an unknown chat; otherwise the lines of the
        last `count` records. */
    function GetContext(chatId: int, count: int): (r: string)
      reads this
      ensures chatId !in history ==> r == ""
    {
      if chatId !in history then "" else Text.Join(HistoryLines(KeepLast(history[chatId], count)), "\n")
    }

    /** `get_user_messages`: the texts of the user's last `count` records. */
    function GetUserMessages(chatId: int, userId: int, count: int): (r: string)
      reads this
      ensures chatId !in history ==> r == ""
    {
      if chatId !in history then ""
      else Text.Join(UserTexts(KeepLast(RecordsOf(history[chatId], userId), count)), "\n")
    }

    /** `get_all_chat_ids`. */
    function GetAllChatIds(): (ids: seq<int>)
      reads this
      requires Valid()
      ensures forall c :: c in ids <==> c in history
      ensures NoDup(ids)
    {
      chats
    }

    /** `get_recent_messages`: the chat's records, `None` for an unknown chat. */
    function GetRecentMessages(chatId: int): (r: Option<seq<Record>>)
      reads this
      ensures r.Some? <==> chatId in history
      ensures r.Some? ==> r.value == history[chatId]
    {
      if chatId in history then Some(history[chatId]) else None
    }

    /** `clear_chat_history`: forget the chat (the file removal is not modelled). */
    method ClearChatHistory(chatId: int)
      requires Valid()
      modifies this
      ensures Valid()
      ensures history == old(history) - {chatId}
      ensures forall c :: c in chats <==> c in old(chats) && c != chatId
    {
      history := history - {chatId};
      chats := RemoveAll(chats, chatId);
    }

    /** `cleanup_expired`: keep only live records, drop chats left with none.
        `removed` is the count the source logs. */
    method CleanupExpired(now: int) returns (removed: int)
      requires Valid()
      modifies this
      ensures Valid()
      ensures forall c :: c in history <==> c in old(history) && Live(old(history)[c], now, expirationSeconds) != []
      ensures forall c | c in history :: history[c] == Live(old(history)[c], now, expirationSeconds)
      ensures chats == Surviving(old(chats), old(history), now, expirationSeconds)
      ensures removed == Size(old(chats), old(history)) - Size(chats, history) && removed >= 0
    {
      var h, keys := history, chats;
      assert forall c | c in keys :: c in h;
      var kept, keptOrder;
      kept, keptOrder, removed := Expire(keys, h, now, expirationSeconds);
      SurvivingSize(keys, h, now, expirationSeconds, kept);
      LiveSizeAtMostSize(keys, h, now, expirationSeconds);
      forall c ensures c in keptOrder <==> c in kept {
        if c in kept {
          assert c in keys && Live(h[c], now, expirationSeconds) != [];
        }
      }
      if maxMessages >= 1 {
        forall c | c in kept ensures |kept[c]| <= maxMessages {
          assert |kept[c]| <= |h[c]|;
        }
      }
      history := kept;
      chats := keptOrder;
    }
  }

  /** A record worth showing has its line among the joined lines. */
  lemma LineShown(recent: seq<Record>, k: nat)
    requires k < |recent| && Shown(recent[k].text)
    ensures Text.Contains(Text.Join(HistoryLines(recent), "\n"), HistoryLine(recent[k]))
  {
    var shown := ShownRecords(recent);
    ShownComplete(recent, k);
    var j :| 0 <= j < |shown| && shown[j] == recent[k];
    assert HistoryLines(recent)[j] == HistoryLine(recent[k]);
    Text.JoinContains(HistoryLines(recent), "\n", j);
  }

  /** A text worth showing is among the joined user texts. */
  lemma TextShown(recent: seq<Record>, k: nat)
    requires k < |recent| && Shown(recent[k].text)
    ensures Text.Contains(Text.Join(UserTexts(recent), "\n"), Text.Strip(recent[k].text))
  {
    var shown := ShownRecords(recent);
    ShownComplete(recent, k);
    var j :| 0 <= j < |shown| && shown[j] == recent[k];
    assert UserTexts(recent)[j] == Text.Strip(recent[k].text);
    Text.JoinContains(UserTexts(recent), "\n", j);
  }

  /** `get_context` shows every record worth showing among the chat's last
      `count`, as its "name: text" line. */
  lemma ContextShowsRecent(h: MessageHistory, chatId: int, count: int, k: nat)
    requires chatId in h.history
    requires k < |KeepLast(h.history[chatId], count)|
    requires Shown(KeepLast(h.history[chatId], count)[k].text)
    ensures Text.Contains(h.GetContext(chatId, count), HistoryLine(KeepLast(h.history[chatId], count)[k]))
  {
    LineShown(KeepLast(h.history[chatId], count), k);
  }

  /** `get_user_messages` shows, stripped, every text worth showing among
      the user's last `count` records in the chat. */
  lemma UserMessagesShowRecent(h: MessageHistory, chatId: int, userId: int, count: int, k: nat)
    requires chatId in h.history
    requires k < |KeepLast(RecordsOf(h.history[chatId], userId), count)|
    requires Shown(KeepLast(RecordsOf(h.history[chatId], userId), count)[k].text)
    ensures Text.Contains(h.GetUserMessages(chatId, userId, count),
                          Text.Strip(KeepLast(RecordsOf(h.history[chatId], userId), count)[k].text))
  {
    TextShown(KeepLast(RecordsOf(h.history[chatId], userId), count), k);
  }

  /** Extending a prefix of `keys` by one chat extends the sums and the survivors by that chat. */
  lemma PrefixStep(keys: seq<int>, i: int, h: map<int, seq<Record>>, now: int, expiration: int)
    requires 0 <= i < |keys| && forall c | c in keys :: c in h
    ensures forall c | c in keys[..i + 1] :: c in h
    ensures LiveMap(keys[..i + 1], h, now, expiration)
            == (var v := Live(h[keys[i]], now, expiration);
                if v != [] then LiveMap(keys[..i], h, now, expiration)[keys[i] := v]
                else LiveMap(keys[..i], h, now, expiration))
    ensures Size(keys[..i + 1], h) == Size(keys[..i], h) + |h[keys[i]]|
    ensures LiveSize(keys[..i + 1], h, now, expiration)
            == LiveSize(keys[..i], h, now, expiration) + |Live(h[keys[i]], now, expiration)|
    ensures Surviving(keys[..i + 1], h, now, expiration)
            == Surviving(keys[..i], h, now, expiration)
               + (if Live(h[keys[i]], now, expiration) != [] then [keys[i]] else [])
  {
    assert keys[..i + 1][..i] == keys[..i];
  }

  /** The loop of `cleanup_expired` over the chats in `keys`: the live part of
      each chat, the chats that keep records, and how many records expired. */
  method Expire(keys: seq<int>, h: map<int, seq<Record>>, now: int, expiration: int)
    returns (kept: map<int, seq<Record>>, keptOrder: seq<int>, removed: int)
    requires forall c | c in keys :: c in h
    ensures kept == LiveMap(keys, h, now, expiration)
    ensures keptOrder == Surviving(keys, h, now, expiration)
    ensures removed == Size(keys, h) - LiveSize(keys, h, now, expiration)
  {
    kept := map[];
    keptOrder := [];
    removed := 0;
    var i := 0;
    while i < |keys|
      invariant 0 <= i <= |keys|
      invariant kept == LiveMap(keys[..i], h, now, expiration)
      invariant keptOrder == Surviving(keys[..i], h, now, expiration)
      invariant removed == Size(keys[..i], h) - LiveSize(keys[..i], h, now, expiration)
    {
      var c := keys[i];
      var valid := Live(h[c], now, expiration);
      PrefixStep(keys, i, h, now, expiration);
      removed := removed + |h[c]| - |valid|;
      if valid != [] {
        kept := kept[c := valid];
        keptOrder := keptOrder + [c];
      }
      i := i + 1;
    }
    assert keys[..i] == keys;
  }

  function RemoveAll(xs: seq<int>, x: int): (r: seq<int>)
    ensures forall y :: y in r <==> y in xs && y != x
    ensures NoDup(xs) ==> NoDup(r)
  {
    if xs == [] then []
    else
      var rest := RemoveAll(xs[1..], x);
      NoDupTail(xs);
      if xs[0] == x then rest else [xs[0]] + rest
  }
}

=== FILE: mention.dfy ===
/**
 * `is_bot_mentioned`: whether a group message addresses the bot by its
 * username, with or without the leading "@", or through a mention entity.
 */
module Mention {
  import opened Wrappers
  import opened Text
  import PyList
  import Telegram

  /** The entity scan: some mention entity's text contains the lower-cased
      username. */
  function EntityHit(text: string, entities: seq<Telegram.Entity>, lowerName: string): (r: bool)
    ensures r ==> exists k | 0 <= k < |entities| ::
      (entities[k].kind == "mention" || entities[k].kind == "text_mention")
      && Contains(LowerStr(PyList.Slice(text, entities[k].offset, entities[k].offset + entities[k].length)), lowerName)
  {
    if entities == [] then false
    else
      var e := entities[0];
      if (e.kind == "mention" || e.kind == "text_mention")
         && Contains(LowerStr(PyList.Slice(text, e.offset, e.offset + e.length)), lowerName)
      then true
      else EntityHit(text, entities[1..], lowerName)
  }

  /** `is_bot_mentioned`. */
  function IsBotMentioned(message: Option<Telegram.Message>, botUsername: string): (r: bool)
    ensures message.None? || !Telegram.HasText(message.value) ==> !r
    ensures (message.Some? && Telegram.HasText(message.value)
             && Contains(LowerStr(message.value.text.value), LowerStr(botUsername))) ==> r
  {
    if message.None? || !Telegram.HasText(message.value) then false
    else
      var text := LowerStr(message.value.text.value);
      if Contains(text, LowerStr(botUsername)) then true
      else if Contains(text, LowerStr(RemoveChar(botUsername, '@'))) then true
      else EntityHit(message.value.text.value, message.value.entities, LowerStr(botUsername))
  }

  /** A mention entity covers part of the text, so a hit there is already a
      hit in the whole lower-cased text. */
  lemma EntityHitSubsumed(text: string, entities: seq<Telegram.Entity>, lowerName: string)
    requires EntityHit(text, entities, lowerName)
    ensures Contains(LowerStr(text), lowerName)
  {
    var k :| 0 <= k < |entities|
      && (entities[k].kind == "mention" || entities[k].kind == "text_mention")
      && Contains(LowerStr(PyList.Slice(text, entities[k].offset, entities[k].offset + entities[k].length)), lowerName);
    var e := entities[k];
    var piece := PyList.Slice(text, e.offset, e.offset + e.length);
    if piece == [] {
      ContainsEmptyOnly(lowerName);
      ContainsEmpty(LowerStr(text));
    } else {
      var i, j := PyList.Clamp(e.offset, |text|), PyList.Clamp(e.offset + e.length, |text|);
      assert piece == text[i..j];
      LowerStrSlice(text, i, j);
      ContainsSlice(LowerStr(text), i, j, lowerName);
    }
  }

  /** Only the empty string occurs in the empty string. */
  lemma ContainsEmptyOnly(w: string)
    requires Contains(LowerStr([]), w)
    ensures w == []
  {
    var i := Find(LowerStr([]), w);
    assert OccursAt(LowerStr([]), w, i);
  }

  /** A username with no "@" after its first character: dropping the "@"
      gives its tail after a leading "@", or the name itself. */
  lemma RemoveLeadingAt(s: string)
    requires forall i | 0 < i < |s| :: s[i] != '@'
    ensures s != [] && s[0] == '@' ==> RemoveChar(s, '@') == s[1..]
    ensures s == [] || s[0] != '@' ==> RemoveChar(s, '@') == s
  {
    if s != [] && s[0] == '@' {
      RemoveAbsent(s[1..]);
      RemoveSplit([s[0]], s[1..]);
      assert [s[0]] + s[1..] == s;
      assert [s[0]][..0] == [];
      PrependEmpty(s[1..]);
    } else {
      RemoveAbsent(s);
    }
  }

  lemma {:induction false} RemoveAbsent(s: string)
    requires forall i | 0 <= i < |s| :: s[i] != '@'
    ensures RemoveChar(s, '@') == s
  {
    if s != [] {
      RemoveAbsent(s[..|s| - 1]);
    }
  }

  lemma {:induction false} RemoveSplit(a: string, b: string)
    ensures RemoveChar(a + b, '@') == RemoveChar(a, '@') + RemoveChar(b, '@')
    decreases |b|
  {
    if b == [] {
      AppendEmpty(a);
      AppendEmpty(RemoveChar(a, '@'));
    } else {
      RemoveSplit(a, b[..|b| - 1]);
      assert (a + b)[..|a + b| - 1] == a + b[..|b| - 1];
    }
  }

  /** For such a username, the lower-cased name without "@" is the
      lower-cased name itself or its tail. */
  lemma LowerBare(botUsername: string)
    requires forall i | 0 < i < |botUsername| :: botUsername[i] != '@'
    ensures botUsername != [] && botUsername[0] == '@' ==>
      LowerStr(RemoveChar(botUsername, '@')) == LowerStr(botUsername)[1..]
    ensures botUsername == [] || botUsername[0] != '@' ==>
      LowerStr(RemoveChar(botUsername, '@')) == LowerStr(botUsername)
  {
    RemoveLeadingAt(botUsername);
    if botUsername != [] && botUsername[0] == '@' {
      LowerStrTail(botUsername);
    }
  }

  /** For such a username, any text containing the lower-cased name also
      contains it without the "@". */
  lemma BareInFull(text: string, botUsername: string)
    requires forall i | 0 < i < |botUsername| :: botUsername[i] != '@'
    requires Contains(text, LowerStr(botUsername))
    ensures Contains(text, LowerStr(RemoveChar(botUsername, '@')))
  {
    LowerBare(botUsername);
    if botUsername != [] && botUsername[0] == '@' {
      var full := LowerStr(botUsername);
      ContainsTail(full);
      ContainsTransitive(text, full, full[1..]);
    }
  }

  /** For a username whose only "@" is a leading one, the bot is mentioned
      exactly when the name without "@" occurs in the lower-cased text: the
      "@name" test and the entity scan can only succeed when that one does. */
  lemma MentionedIff(m: Telegram.Message, botUsername: string)
    requires Telegram.HasText(m)
    requires forall i | 0 < i < |botUsername| :: botUsername[i] != '@'
    ensures IsBotMentioned(Some(m), botUsername)
      <==> Contains(LowerStr(m.text.value), LowerStr(RemoveChar(botUsername, '@')))
  {
    var text := LowerStr(m.text.value);
    var full := LowerStr(botUsername);
    if Contains(text, full) {
      BareInFull(text, botUsername);
    }
    if EntityHit(m.text.value, m.entities, full) {
      EntityHitSubsumed(m.text.value, m.entities, full);
      BareInFull(text, botUsername);
    }
  }

  /** An empty configured username matches every text message. */
  lemma EmptyUsernameMatchesAll(m: Telegram.Message)
    requires Telegram.HasText(m)
    ensures IsBotMentioned(Some(m), "")
  {
    ContainsEmpty(LowerStr(m.text.value));
  }
}

=== FILE: message_handler.dfy ===
/**
 * `handle_message`, the entry point for every text message: the sender's
 * profile update and the periodic AI enrichment, storage in the chat history,
 * tracking for autonomous comments, and the routing of the message to a
 * command, the private conversation, the mention handler or the group checks.
 * The handlers it routes to are not part of this module; the route says which
 * one runs.
 */
module MessageHandler {
  import opened Wrappers
  import opened Text
  import Telegram
  import Config
  import Profiles
  import History
  import Commenter
  import Commands
  import Mention
  import PyList

  // ---------------------------------------------------------------------
  // Command names
  // ---------------------------------------------------------------------

  /** Python's `s[1:]`. */
  function Tail(s: string): string {
    if s == [] then [] else s[1..]
  }

  /** `s.split("@")[0]`: the longest prefix without "@". */
  function BeforeAt(s: string): (r: string)
    ensures StartsWith(s, r)
    ensures forall i | 0 <= i < |r| :: r[i] != '@'
    ensures |r| < |s| ==> s[|r|] == '@'
  {
    if s == [] || s[0] == '@' then [] else [s[0]] + BeforeAt(s[1..])
  }

  /** The command name of a text starting with "/": the stripped text's
      command part cut at the first "@". */
  function CommandName(text: string): (name: string)
    ensures forall i | 0 <= i < |name| :: name[i] != '@'
  {
    BeforeAt(CommandPart(Strip(text)))
  }

  /** The first word without its first character when the stripped text
      holds a space, the whole text without its first character otherwise. */
  function CommandPart(commandText: string): string
    requires Stripped(commandText)
  {
    if ' ' in commandText then
      assert LStrip(commandText) == commandText;
      Tail(Words(commandText)[0])
    else Tail(commandText)
  }

  /** A bare command: the name is the word after "/", up to any "@". */
  lemma BareCommand(w: string)
    requires NoSpace(w)
    ensures CommandName("/" + w) == BeforeAt(w)
  {
    SlashWord(w);
    StripStripped("/" + w);
  }

  /** "/" followed by a word without whitespace has none either, and
      dropping the "/" gives the word back. */
  lemma SlashWord(w: string)
    requires NoSpace(w)
    ensures NoSpace("/" + w) && Stripped("/" + w)
    ensures ' ' !in "/" + w && ("/" + w)[1..] == w
  {
    var t := "/" + w;
    forall i | 0 <= i < |t| ensures !IsSpace(t[i]) {
      if i > 0 { assert t[i] == w[i - 1]; }
    }
  }

  /** A command followed by a space and its arguments: the arguments play no
      part in the name. */
  lemma CommandWithArguments(w: string, args: string)
    requires NoSpace(w)
    requires args != [] && Stripped(args)
    ensures CommandName("/" + w + " " + args) == BeforeAt(w)
  {
    var c := "/" + w;
    SlashWord(w);
    SpacedWords(c, args);
    StripStripped(c + " " + args);
    SpacedCommandPart(c, args);
  }

  /** The command part of a word, a space and arguments is the word
      without its first character. */
  lemma SpacedCommandPart(c: string, args: string)
    requires c != [] && NoSpace(c) && args != [] && Stripped(args)
    ensures Stripped(c + " " + args) && CommandPart(c + " " + args) == c[1..]
  {
    SpacedWords(c, args);
    FirstWordOf(c, " " + args);
  }

  /** A word, a space and a stripped text: stripped, with a space, and made
      of the word and the rest. */
  lemma SpacedWords(c: string, args: string)
    requires c != [] && NoSpace(c) && args != [] && Stripped(args)
    ensures var t := c + " " + args;
      Stripped(t) && ' ' in t && t == c + (" " + args)
  {
    var t := c + " " + args;
    assert t[|c|] == ' ';
    assert t[0] == c[0];
    assert t[|t| - 1] == args[|args| - 1];
  }

  /** A name without "@" followed by "@" and anything: the name. This is the
      `/help@BotName` form of a command. */
  lemma {:induction false} AddressedName(name: string, rest: string)
    requires forall i | 0 <= i < |name| :: name[i] != '@'
    ensures BeforeAt(name + "@" + rest) == name
  {
    if name != [] {
      assert (name + "@" + rest)[1..] == name[1..] + "@" + rest;
      AddressedName(name[1..], rest);
      assert [name[0]] + name[1..] == name;
    } else {
      assert name + "@" + rest == "@" + rest;
    }
  }

  /** `/name@bot args` names `name`. */
  lemma AddressedCommand(name: string, bot: string, args: string)
    requires NoSpace(name) && NoSpace(bot)
    requires forall i | 0 <= i < |name| :: name[i] != '@'
    requires args != [] && Stripped(args)
    ensures CommandName("/" + name + "@" + bot + " " + args) == name
  {
    AddressedParts(name, bot, args);
    CommandWithArguments(name + "@" + bot, args);
    AddressedName(name, bot);
  }

  lemma AddressedParts(name: string, bot: string, args: string)
    requires NoSpace(name) && NoSpace(bot)
    ensures var w := name + "@" + bot;
      NoSpace(w) && "/" + name + "@" + bot + " " + args == "/" + w + " " + args
  {
    var w := name + "@" + bot;
    forall i | 0 <= i < |w| ensures !IsSpace(w[i]) {
      if i < |name| { assert w[i] == name[i]; }
      else if i > |name| { assert w[i] == bot[i - |name| - 1]; }
    }
  }

  /** The space test looks for " " only: a command separated from its
      argument by another whitespace character (a tab, a newline) keeps the
      argument in its name. */
  lemma OtherWhitespaceKeptInName(w: string, c: char, args: string)
    requires NoSpace(w) && IsSpace(c) && c != ' '
    requires args != [] && !IsSpace(args[|args| - 1])
    requires ' ' !in args
    ensures CommandName("/" + w + [c] + args) == BeforeAt(w + [c] + args)
  {
    OtherWhitespaceFacts(w, c, args);
    StripStripped("/" + (w + [c] + args));
  }

  lemma OtherWhitespaceFacts(w: string, c: char, args: string)
    requires NoSpace(w) && IsSpace(c) && c != ' '
    requires args != [] && !IsSpace(args[|args| - 1])
    requires ' ' !in args
    ensures var rest := w + [c] + args;
      "/" + w + [c] + args == "/" + rest && Stripped("/" + rest)
      && ' ' !in "/" + rest && ("/" + rest)[1..] == rest
  {
    var rest := w + [c] + args;
    var t := "/" + rest;
    assert t[|t| - 1] == args[|args| - 1];
    forall i | 0 <= i < |t| ensures t[i] != ' ' {
      if 0 < i <= |w| { assert t[i] == w[i - 1]; }
      else if i > |w| + 1 { assert t[i] == args[i - |w| - 2]; }
    }
  }

  // ---------------------------------------------------------------------
  // Profiling and enrichment
  // ---------------------------------------------------------------------

  /** Python's `a % b`: the remainder has the sign of the divisor. */
  function PyMod(a: int, b: int): (r: int)
    requires b != 0
    ensures b > 0 ==> r == a % b
    ensures b < 0 ==> b < r <= 0 && (a - r) % b == 0
  {
    var e := a % b;
    if b > 0 || e == 0 then e
    else
      assert a - (e + b) == (a / b - 1) * b;
      MultipleOfNegative(a / b - 1, b);
      e + b
  }

  /** A multiple of a negative divisor leaves no remainder. */
  lemma MultipleOfNegative(q: int, b: int)
    requires b < 0
    ensures (q * b) % b == 0
  {
    var x := q * b;
    var d, r := x / b, x % b;
    assert x == d * b + r;
    var k := q - d;
    assert k * b == r;
    assert (k + 1) * b == k * b + b;
    NegativeDivisorFactor(k, b);
    NegativeDivisorFactor(-(k + 1), b);
    assert -(k + 1) * b == -((k + 1) * b);
  }

  lemma NegativeDivisorFactor(k: int, b: int)
    requires b < 0 && k * b >= 0
    ensures k <= 0
  {
  }

  /** What the enrichment test decides for a profile's new message count:
      enrich now, wait `remaining` more messages, or fail on a zero interval
      (the `%` raises and the handler's error branch skips the save). */
  datatype Enrichment = Enrich | Wait(remaining: int) | DivisionByZero

  function EnrichmentStep(count: int, interval: int): (r: Enrichment)
    ensures r.DivisionByZero? <==> interval == 0
    ensures interval > 0 ==> (r.Enrich? <==> count % interval == 0)
    ensures interval > 0 && r.Wait? ==> 1 <= r.remaining < interval
  {
    if interval == 0 then DivisionByZero
    else if PyMod(count, interval) == 0 then Enrich
    else Wait(interval - PyMod(count, interval))
  }

  /** The countdown is exact: after `remaining` more messages enrichment
      fires, and not before. */
  lemma WaitCountsDown(count: int, interval: int, k: int)
    requires interval > 0 && EnrichmentStep(count, interval).Wait?
    requires 0 < k <= EnrichmentStep(count, interval).remaining
    ensures EnrichmentStep(count + k, interval).Enrich? <==> k == EnrichmentStep(count, interval).remaining
  {
    var q, m := count / interval, count % interval;
    assert count == q * interval + m;
    assert count + k == q * interval + (m + k);
    if m + k < interval {
      ModOfSum(q, interval, m + k);
    } else {
      assert m + k == interval;
      ModOfSum(q + 1, interval, 0);
      assert count + k == (q + 1) * interval + 0;
    }
  }

  /** With a positive interval, enrichment recurs every `interval` messages. */
  lemma EveryIntervalMessages(count: int, interval: int)
    requires interval > 0
    ensures EnrichmentStep(count + interval, interval) == EnrichmentStep(count, interval)
  {
    var q, m := count / interval, count % interval;
    assert count + interval == (q + 1) * interval + m;
    ModOfSum(q + 1, interval, m);
  }

  /** Euclidean division by a positive divisor has a unique remainder. */
  lemma ModOfSum(q: int, b: int, m: int)
    requires b > 0 && 0 <= m < b
    ensures (q * b + m) % b == m
  {
    var x := q * b + m;
    var d, r := x / b, x % b;
    assert x == d * b + r;
    var k := q - d;
    assert k * b == r - m;
    assert (k + 1) * b == k * b + b;
    assert (k - 1) * b == k * b - b;
    PositiveFactor(k + 1, b);
    NegativeFactor(k - 1, b);
  }

  lemma PositiveFactor(k: int, b: int)
    requires b > 0 && k * b > 0
    ensures k > 0
  {
  }

  lemma NegativeFactor(k: int, b: int)
    requires b > 0 && k * b < 0
    ensures k < 0
  {
  }

  /** How many of the user's messages an enrichment reads. */
  function ReadCount(config: Config.BotConfig): int {
    var window := config.yamlConfig.conversationMonitoring.contextWindowSize;
    if 30 <= window then 30 else window
  }

  /** The profile is updated only for an existing sender that is not the bot,
      and only when profiling is enabled. */
  predicate Profiled(config: Config.BotConfig, m: Telegram.Message, botId: int) {
    config.yamlConfig.userProfiling.enabled && m.fromUser.Some? && m.fromUser.value.id != botId
  }

  /** Only group messages from a sender other than the bot reach the
      autonomous commenter. */
  predicate Tracked(m: Telegram.Message, botId: int) {
    m.chatType != "private" && m.fromUser.Some? && m.fromUser.value.id != botId
  }

  /** The updated profile after the enrichment test: enriched when the test
      says so and the user's messages in the history are not empty. */
  function ProfileAfter(p: Profiles.UserProfile, interval: int, userMessages: string,
                        reply: Option<string>, decode: string -> Option<Profiles.Analysis>)
    : (r: Profiles.UserProfile)
    ensures r.userId == p.userId && r.messageCount == p.messageCount && r.chats == p.chats
    ensures !EnrichmentStep(p.messageCount, interval).Enrich? || userMessages == "" ==> r == p
  {
    if EnrichmentStep(p.messageCount, interval).Enrich? && userMessages != "" then Profiles.Enriched(p, reply, decode)
    else p
  }

  // ---------------------------------------------------------------------
  // Routing
  // ---------------------------------------------------------------------

  /** Where `handle_message` sends a message. A group message nobody
      addressed gets the autonomous-comment check when `autonomous` and the
      reaction check when `reaction`. `Raised` is the ValueError of the
      commenter's threshold draw, which leaves the handler before routing. */
  datatype Route =
    | Ignored
    | Raised
    | Execute(command: string)
    | Denied(command: string)
    | Unknown(command: string)
    | Conversation
    | Mentioned
    | Group(autonomous: bool, reaction: bool)

  predicate IsCommand(m: Telegram.Message) {
    Telegram.HasText(m) && StartsWith(m.text.value, "/")
  }

  /** The id the permission check sees: the sender's, or 0 without one. */
  function SenderId(m: Telegram.Message): int {
    if m.fromUser.Some? then m.fromUser.value.id else 0
  }

  /** The routing of a message: commands first, whatever the chat; then
      private chats; then mentions; everything else is a plain group message. */
  function RouteOf(registry: Commands.CommandRegistry, m: Telegram.Message, config: Config.BotConfig, botId: int)
    : (r: Route)
    reads registry
    requires registry.Valid()
    ensures !Telegram.HasText(m) <==> r == Ignored
    ensures IsCommand(m) <==> r.Execute? || r.Denied? || r.Unknown?
    ensures IsCommand(m) ==> r.command == CommandName(m.text.value)
    ensures r.Unknown? ==> r.command !in registry.commands
    ensures r.Execute? ==>
      r.command in registry.commands && registry.commands[r.command].CanExecute(SenderId(m), config)
    ensures r.Denied? ==>
      r.command in registry.commands && registry.commands[r.command].adminOnly
      && SenderId(m) !in config.adminUserIds
    ensures r == Conversation <==> Telegram.HasText(m) && !IsCommand(m) && m.chatType == "private"
    ensures r == Mentioned ==> m.chatType != "private" && Mention.IsBotMentioned(Some(m), config.botUsername)
    ensures r.Group? ==>
      m.chatType != "private" && !Mention.IsBotMentioned(Some(m), config.botUsername)
      && r.autonomous == config.yamlConfig.autonomousCommenting.enabled
      && (r.reaction <==> m.fromUser.Some? && m.fromUser.value.id != botId)
  {
    if !Telegram.HasText(m) then Ignored
    else if IsCommand(m) then
      var name := CommandName(m.text.value);
      match registry.GetCommand(name)
      case None => Unknown(name)
      case Some(command) =>
        if command.CanExecute(SenderId(m), config) then Execute(name) else Denied(name)
    else if m.chatType == "private" then Conversation
    else if Mention.IsBotMentioned(Some(m), config.botUsername) then Mentioned
    else Group(config.yamlConfig.autonomousCommenting.enabled, m.fromUser.Some? && m.fromUser.value.id != botId)
  }

  /** An admin-only command from a user who is not an admin is refused, in
      every chat. */
  lemma AdminOnlyRefused(registry: Commands.CommandRegistry, m: Telegram.Message, config: Config.BotConfig, botId: int)
    requires registry.Valid() && IsCommand(m)
    requires CommandName(m.text.value) in registry.commands
    requires registry.commands[CommandName(m.text.value)].adminOnly
    requires SenderId(m) !in config.adminUserIds
    ensures RouteOf(registry, m, config, botId) == Denied(CommandName(m.text.value))
  {
  }

  /** The bot's own group messages never get a reaction check, and a private
      chat never reaches the group checks. */
  lemma NoGroupChecksForBotOrPrivate(registry: Commands.CommandRegistry, m: Telegram.Message,
                                     config: Config.BotConfig, botId: int)
    requires registry.Valid()
    ensures m.chatType == "private" ==> !RouteOf(registry, m, config, botId).Group?
    ensures m.fromUser.Some? && m.fromUser.value.id == botId && RouteOf(registry, m, config, botId).Group? ==>
      !RouteOf(registry, m, config, botId).reaction
  {
  }

  // ---------------------------------------------------------------------
  // The handler
  // ---------------------------------------------------------------------

  /** The records of a chat in a history map. */
  function RecordsIn(h: map<int, seq<History.Record>>, chatId: int): seq<History.Record> {
    if chatId in h then h[chatId] else []
  }

  /** The profile step of `handle_message` for a profiled sender: update the
      profile, test the count, enrich when the test says so and the user has
      messages in the chat's history, and save. A zero interval raises in
      `%`; the error branch skips the save. Returns whether the save wrote. */
  method UpdateProfile(manager: Profiles.ProfileManager, history: History.MessageHistory,
                       m: Telegram.Message, config: Config.BotConfig, botId: int,
                       nowIso: string, stored: Option<Profiles.UserProfile>,
                       reply: Option<string>, decode: string -> Option<Profiles.Analysis>, writeOk: bool)
    returns (saved: bool)
    requires manager.Valid() && Profiled(config, m, botId)
    modifies manager
    ensures manager.Valid()
    ensures saved <==> config.yamlConfig.userProfiling.enrichmentIntervalMessages != 0 && writeOk
    ensures var id := m.fromUser.value.id;
      var updated := Profiles.UpdatedFromMessage(old(manager.Loaded(id, stored, nowIso)), m.fromUser.value,
                                                 m.chatId, m.text, nowIso);
      manager.profiles == old(manager.profiles)[id :=
        ProfileAfter(updated, config.yamlConfig.userProfiling.enrichmentIntervalMessages,
                     history.GetUserMessages(m.chatId, id, ReadCount(config)), reply, decode)]
  {
    var userId := m.fromUser.value.id;
    ghost var before := manager.profiles;
    ghost var updated := Profiles.UpdatedFromMessage(manager.Loaded(userId, stored, nowIso), m.fromUser.value,
                                                     m.chatId, m.text, nowIso);
    manager.UpdateProfileFromMessage(m, stored, nowIso);
    assert manager.profiles == before[userId := updated];
    var current := manager.profiles[userId];
    var interval := config.yamlConfig.userProfiling.enrichmentIntervalMessages;
    ghost var userMessages := history.GetUserMessages(m.chatId, userId, ReadCount(config));
    saved := false;
    if interval != 0 {
      if PyMod(current.messageCount, interval) == 0 {
        var messages := history.GetUserMessages(m.chatId, userId, ReadCount(config));
        if messages != "" {
          manager.EnrichProfile(userId, stored, nowIso, reply, decode);
          PyList.Overwrite(before, userId, updated, Profiles.Enriched(updated, reply, decode));
        }
      }
      saved := manager.SaveProfile(userId, writeOk);
    }
    assert ProfileAfter(updated, interval, userMessages, reply, decode) == manager.profiles[userId];
  }

  /** The storage step of `handle_message`: every message goes into the
      chat's history; a tracked one is also counted by the commenter, whose
      first look at a chat raises when the configured range is empty. */
  method Store(history: History.MessageHistory, commenter: Commenter.Commenter,
               m: Telegram.Message, botId: int, now: int, rCreate: int)
    returns (raised: bool)
    requires history.Valid() && commenter.Valid()
    requires Tracked(m, botId) && m.chatId !in commenter.chatStates && Commenter.RangeOk(commenter.ac)
             ==> Commenter.InRange(commenter.ac, rCreate)
    modifies history, commenter
    ensures history.Valid() && commenter.Valid()
    ensures raised <==> Tracked(m, botId) && old(commenter.CreationRaises(m.chatId))
    ensures history.history == old(history.history)[m.chatId :=
      History.Appended(RecordsIn(old(history.history), m.chatId), History.RecordOf(m, now), history.maxMessages)]
    ensures commenter.chatStates == (if Tracked(m, botId) && !raised
      then old(commenter.chatStates)[m.chatId :=
        Commenter.Added(old(commenter.StateFor(m.chatId, rCreate)), m, commenter.contextWindowSize)]
      else old(commenter.chatStates))
  {
    history.AddMessage(m.chatId, m, now);
    raised := false;
    if !(m.chatType == "private") && m.fromUser.Some? && m.fromUser.value.id != botId {
      raised := commenter.AddMessage(m.chatId, m, rCreate);
    }
  }

  /** `handle_message`. The clock (`now`, `nowIso`), the sender's stored
      profile, the commenter's threshold draw `rCreate`, the AI's enrichment
      reply (None when the request raised), the JSON decoder and the outcome of
      the profile write are parameters. Returns the route and whether the
      profile was saved. The enrichment reads the user's messages before the
      current message is stored. When the commenter's draw raises, the
      profile update and the history entry have already happened and the
      message is not routed. */
  method HandleMessage(registry: Commands.CommandRegistry, manager: Profiles.ProfileManager,
                       history: History.MessageHistory, commenter: Commenter.Commenter,
                       message: Option<Telegram.Message>, config: Config.BotConfig, botId: int,
                       now: int, nowIso: string, stored: Option<Profiles.UserProfile>, rCreate: int,
                       reply: Option<string>, decode: string -> Option<Profiles.Analysis>, writeOk: bool)
    returns (route: Route, saved: bool)
    requires registry.Valid() && manager.Valid() && history.Valid() && commenter.Valid()
    requires message.Some? && Tracked(message.value, botId) && message.value.chatId !in commenter.chatStates
               && Commenter.RangeOk(commenter.ac)
             ==> Commenter.InRange(commenter.ac, rCreate)
    modifies manager, history, commenter
    ensures manager.Valid() && history.Valid() && commenter.Valid()
    ensures message.None? || !Telegram.HasText(message.value) ==>
      route == Ignored && !saved && unchanged(manager, history, commenter)
    ensures message.Some? && Telegram.HasText(message.value) ==>
      var m := message.value;
      var raised := Tracked(m, botId) && old(commenter.CreationRaises(m.chatId));
      route == (if raised then Raised else RouteOf(registry, m, config, botId))
      && history.history == old(history.history)[m.chatId :=
           History.Appended(RecordsIn(old(history.history), m.chatId), History.RecordOf(m, now), history.maxMessages)]
      && commenter.chatStates == (if Tracked(m, botId) && !raised
           then old(commenter.chatStates)[m.chatId :=
             Commenter.Added(old(commenter.StateFor(m.chatId, rCreate)), m, commenter.contextWindowSize)]
           else old(commenter.chatStates))
      && (saved <==> Profiled(config, m, botId) && config.yamlConfig.userProfiling.enrichmentIntervalMessages != 0
                     && writeOk)
    ensures message.Some? && Telegram.HasText(message.value) && !Profiled(config, message.value, botId) ==>
      manager.profiles == old(manager.profiles)
    ensures message.Some? && Telegram.HasText(message.value) && Profiled(config, message.value, botId) ==>
      var m := message.value;
      var id := m.fromUser.value.id;
      var updated := Profiles.UpdatedFromMessage(old(manager.Loaded(id, stored, nowIso)), m.fromUser.value,
                                                 m.chatId, m.text, nowIso);
      manager.profiles == old(manager.profiles)[id :=
        ProfileAfter(updated, config.yamlConfig.userProfiling.enrichmentIntervalMessages,
                     old(history.GetUserMessages(m.chatId, id, ReadCount(config))), reply, decode)]
      && manager.profiles[id].messageCount == old(manager.Loaded(id, stored, nowIso)).messageCount + 1
  {
    if message.None? || !Telegram.HasText(message.value) {
      return Ignored, false;
    }
    var m := message.value;
    saved := false;
    if Profiled(config, m, botId) {
      saved := UpdateProfile(manager, history, m, config, botId, nowIso, stored, reply, decode, writeOk);
    }
    ghost var profiles := manager.profiles;
    var raised := Store(history, commenter, m, botId, now, rCreate);
    assert manager.profiles == profiles;
    if raised {
      return Raised, saved;
    }
    route := RouteOf(registry, m, config, botId);
  }
}

=== FILE: profile_regeneration.dfy ===
/**
 * `ProfileRegenerationService.regenerate_all_profiles`: collect every user's
 * texts from the chat histories (the last 100 records of each chat), then
 * enrich and save the profile of every user with at least five texts, and
 * report how many users were processed and skipped.
 *
 * The AI provider is the function `ask` from the text sent to it to its reply
 * (None when the request raised); the JSON decoder, the disk copies of the
 * profiles and the outcome of each profile write are parameters too.
 */
module ProfileRegeneration {
  import opened Wrappers
  import opened PyList
  import Text
  import History
  import Profiles

  // ---------------------------------------------------------------------
  // What a regeneration reads
  // ---------------------------------------------------------------------

  /** The last 100 records of a chat (none for an unknown chat). */
  function Batch(h: map<int, seq<History.Record>>, c: int): (r: seq<History.Record>)
    ensures c !in h ==> r == []
    ensures c in h ==> |r| == (if |h[c]| < 100 then |h[c]| else 100) && r == h[c][|h[c]| - |r|..]
  {
    if c in h then KeepLast(h[c], 100) else []
  }

  /** The records of the chats, chat by chat. */
  function Flat(chats: seq<int>, h: map<int, seq<History.Record>>): seq<History.Record> {
    if chats == [] then [] else Flat(chats[..|chats| - 1], h) + Batch(h, chats[|chats| - 1])
  }

  /** A record that counts: it has a sender, a text, and is not a command. */
  predicate Qualifies(r: History.Record) {
    r.userId != 0 && r.text != "" && !Text.StartsWith(r.text, "/")
  }

  /** The texts of `u`'s qualifying records, in order. */
  function TextsOf(rs: seq<History.Record>, u: int): (t: seq<string>)
    ensures |t| <= |rs|
    ensures forall k | 0 <= k < |t| :: t[k] != "" && !Text.StartsWith(t[k], "/")
  {
    if rs == [] then []
    else
      var last := rs[|rs| - 1];
      TextsOf(rs[..|rs| - 1], u) + (if Qualifies(last) && last.userId == u then [last.text] else [])
  }

  /** The first qualifying record of `u`. */
  function FirstOf(rs: seq<History.Record>, u: int): (f: Option<History.Record>)
    ensures f.Some? ==> f.value in rs && Qualifies(f.value) && f.value.userId == u
  {
    if rs == [] then None
    else
      var last := rs[|rs| - 1];
      var f := FirstOf(rs[..|rs| - 1], u);
      if f.Some? then f
      else if Qualifies(last) && last.userId == u then Some(last)
      else None
  }

  /** The users with a qualifying record, in order of first appearance. */
  function Users(rs: seq<History.Record>): seq<int> {
    if rs == [] then []
    else
      var last := rs[|rs| - 1];
      var us := Users(rs[..|rs| - 1]);
      if Qualifies(last) && last.userId !in us then us + [last.userId] else us
  }

  lemma Snoc(rs: seq<History.Record>, r: History.Record, u: int)
    ensures TextsOf(rs + [r], u) == TextsOf(rs, u) + (if Qualifies(r) && r.userId == u then [r.text] else [])
    ensures FirstOf(rs + [r], u) ==
      if FirstOf(rs, u).Some? then FirstOf(rs, u)
      else if Qualifies(r) && r.userId == u then Some(r)
      else None
    ensures Users(rs + [r]) ==
      if Qualifies(r) && r.userId !in Users(rs) then Users(rs) + [r.userId] else Users(rs)
  {
    assert (rs + [r])[..|rs|] == rs;
  }

  /** The users are listed once each and are exactly those with a text; a
      user has a first record exactly when it has a text, and that record
      supplies its first text. */
  lemma {:induction false} UsersSpec(rs: seq<History.Record>)
    ensures NoDup(Users(rs))
    ensures forall u :: u in Users(rs) <==> TextsOf(rs, u) != []
    ensures forall u :: FirstOf(rs, u).Some? <==> TextsOf(rs, u) != []
    ensures forall u | FirstOf(rs, u).Some? :: FirstOf(rs, u).value.text == TextsOf(rs, u)[0]
  {
    if rs != [] {
      var init, last := rs[..|rs| - 1], rs[|rs| - 1];
      UsersSpec(init);
      assert rs == init + [last];
      forall u
        ensures (u in Users(rs) <==> TextsOf(rs, u) != [])
        ensures (FirstOf(rs, u).Some? <==> TextsOf(rs, u) != [])
        ensures FirstOf(rs, u).Some? ==> FirstOf(rs, u).value.text == TextsOf(rs, u)[0]
      {
        Snoc(init, last, u);
      }
      Snoc(init, last, 0);
      if Qualifies(last) && last.userId !in Users(init) {
        NoDupSnoc(Users(init), last.userId);
      }
    }
  }

  /** The user 0 (no sender) never counts. */
  lemma NoAnonymousUser(rs: seq<History.Record>)
    ensures 0 !in Users(rs)
  {
    UsersSpec(rs);
    NoAnonymousTexts(rs);
  }

  lemma {:induction false} NoAnonymousTexts(rs: seq<History.Record>)
    ensures TextsOf(rs, 0) == []
  {
    if rs != [] {
      NoAnonymousTexts(rs[..|rs| - 1]);
    }
  }

  // ---------------------------------------------------------------------
  // Collecting
  // ---------------------------------------------------------------------

  /** Where `user_info` takes a user's identity from: the record's username
      and first name. History records carry no last name, so the last name
      read from them is always empty. */
  datatype Identity = Identity(username: Option<string>, firstName: string, lastName: string)

  function IdentityOf(r: History.Record): Identity {
    Identity(r.username, r.firstName, "")
  }

  /** The identity of a user's first record in `rs`, if the user has one. */
  function FirstIdentity(rs: seq<History.Record>, u: int): (id: Option<Identity>)
    ensures id.Some? <==> FirstOf(rs, u).Some?
  {
    match FirstOf(rs, u)
    case Some(r) => Some(IdentityOf(r))
    case None => None
  }

  /** The collection loop's state after reading `rs`: `users` is the
      insertion order of `user_data`, `texts` its contents, `info` is
      `user_info`. */
  ghost predicate Collected(rs: seq<History.Record>, users: seq<int>, texts: map<int, seq<string>>,
                            info: map<int, Identity>)
  {
    users == Users(rs)
    && (forall u :: u in texts <==> u in users)
    && (forall u | u in texts :: texts[u] == TextsOf(rs, u))
    && (forall u :: u in info <==> u in texts)
    && (forall u | u in info :: FirstOf(rs, u).Some? && info[u] == IdentityOf(FirstOf(rs, u).value))
  }

  /** The inner loop over one chat's records. A new user's list is created
      and the text appended in one update. */
  method CollectChat(batch: seq<History.Record>, ghost rs: seq<History.Record>,
                     users0: seq<int>, texts0: map<int, seq<string>>, info0: map<int, Identity>)
    returns (users: seq<int>, texts: map<int, seq<string>>, info: map<int, Identity>)
    requires Collected(rs, users0, texts0, info0)
    ensures Collected(rs + batch, users, texts, info)
  {
    users, texts, info := users0, texts0, info0;
    assert rs + batch[..0] == rs;
    for j := 0 to |batch|
      invariant Collected(rs + batch[..j], users, texts, info)
    {
      ghost var before := rs + batch[..j];
      var r := batch[j];
      assert rs + batch[..j + 1] == before + [r];
      if r.userId == 0 || r.text == "" || Text.StartsWith(r.text, "/") {
        SkipKeeps(before, r, users, texts, info);
        continue;
      }
      AddKeeps(before, r, users, texts, info);
      var u := r.userId;
      if u !in info {
        info := info[u := IdentityOf(r)];
      }
      var prior := if u in texts then texts[u] else [];
      if u !in texts {
        users := users + [u];
      }
      texts := texts[u := prior + [r.text]];
    }
    assert batch[..|batch|] == batch;
  }

  /** A record that does not qualify changes nothing. */
  lemma SkipKeeps(rs: seq<History.Record>, r: History.Record, users: seq<int>,
                  texts: map<int, seq<string>>, info: map<int, Identity>)
    requires Collected(rs, users, texts, info) && !Qualifies(r)
    ensures Collected(rs + [r], users, texts, info)
  {
    forall v
      ensures TextsOf(rs + [r], v) == TextsOf(rs, v) && FirstOf(rs + [r], v) == FirstOf(rs, v)
    {
      Snoc(rs, r, v);
    }
    Snoc(rs, r, 0);
  }

  /** A qualifying record: its user is added on first sight, with the
      record's identity, and its text is appended. */
  lemma AddKeeps(rs: seq<History.Record>, r: History.Record, users: seq<int>,
                 texts: map<int, seq<string>>, info: map<int, Identity>)
    requires Collected(rs, users, texts, info) && Qualifies(r)
    ensures var u := r.userId;
      Collected(rs + [r],
                if u in texts then users else users + [u],
                texts[u := (if u in texts then texts[u] else []) + [r.text]],
                if u in info then info else info[u := IdentityOf(r)])
  {
    var u := r.userId;
    var rs' := rs + [r];
    var users' := if u in texts then users else users + [u];
    var texts' := texts[u := (if u in texts then texts[u] else []) + [r.text]];
    var info' := if u in info then info else info[u := IdentityOf(r)];
    UsersSpec(rs);
    Snoc(rs, r, u);
    assert u in Users(rs) <==> u in texts;
    assert users' == Users(rs');
    forall v
      ensures v in texts' <==> v in users'
      ensures v in info' <==> v in texts'
    {
    }
    forall v | v in texts'
      ensures texts'[v] == TextsOf(rs', v)
    {
      Snoc(rs, r, v);
    }
    forall v | v in info'
      ensures FirstOf(rs', v).Some? && info'[v] == IdentityOf(FirstOf(rs', v).value)
    {
      Snoc(rs, r, v);
      if v == u && u !in info {
        assert TextsOf(rs, u) == [];
      }
    }
    assert Collected(rs', users', texts', info');
  }

  /** The collection loops of `regenerate_all_profiles`. */
  method Collect(history: History.MessageHistory)
    returns (users: seq<int>, texts: map<int, seq<string>>, info: map<int, Identity>)
    requires history.Valid()
    ensures Collected(Flat(history.chats, history.history), users, texts, info)
  {
    var chats := history.GetAllChatIds();
    users, texts, info := [], map[], map[];
    for ci := 0 to |chats|
      invariant Collected(Flat(chats[..ci], history.history), users, texts, info)
    {
      ghost var rs := Flat(chats[..ci], history.history);
      FlatSnoc(chats, ci, history.history);
      var messages := history.GetRecentMessages(chats[ci]);
      if messages.None? || messages.value == [] {
        assert Batch(history.history, chats[ci]) == [];
        assert rs + [] == rs;
        continue;
      }
      var batch := KeepLast(messages.value, 100);
      users, texts, info := CollectChat(batch, rs, users, texts, info);
    }
    assert chats[..|chats|] == chats;
  }

  lemma FlatSnoc(chats: seq<int>, i: int, h: map<int, seq<History.Record>>)
    requires 0 <= i < |chats|
    ensures Flat(chats[..i + 1], h) == Flat(chats[..i], h) + Batch(h, chats[i])
  {
    assert chats[..i + 1][..i] == chats[..i];
  }

  // ---------------------------------------------------------------------
  // Processing
  // ---------------------------------------------------------------------

  /** `value or fallback` for an identity field. */
  function Or(value: Option<string>, fallback: string): (r: string)
    ensures r == fallback || (value.Some? && r == value.value)
    ensures fallback != "" ==> r != ""
  {
    if value.Some? && value.value != "" then value.value else fallback
  }

  /** The profile with the identity written over it, field by field, only
      where the identity has a non-empty value. */
  function WithIdentity(p: Profiles.UserProfile, id: Identity): (r: Profiles.UserProfile)
    ensures r == p.(username := r.username, firstName := r.firstName, lastName := r.lastName)
    ensures p.username != "" ==> r.username != ""
    ensures p.firstName != "" ==> r.firstName != ""
    ensures r.lastName == p.lastName || r.lastName == id.lastName
    ensures id.firstName != "" ==> r.firstName == id.firstName
    ensures id.username.None? || id.username.value == "" ==> r.username == p.username
  {
    p.(username := Or(id.username, p.username),
       firstName := Or(Some(id.firstName), p.firstName),
       lastName := Or(Some(id.lastName), p.lastName))
  }

  /** An identity read from the history never changes the last name. */
  lemma LastNameKept(p: Profiles.UserProfile, r: History.Record)
    ensures WithIdentity(p, IdentityOf(r)).lastName == p.lastName
  {
  }

  /** The first 30 texts. */
  function FirstTexts(texts: seq<string>): (r: seq<string>)
    ensures |r| == (if |texts| < 30 then |texts| else 30) && r == texts[..|r|]
  {
    Upto(texts, 30)
  }

  /** What the AI is sent for a user: the first 30 texts, one per line. */
  function MessagesText(texts: seq<string>): string {
    Text.Join(FirstTexts(texts), "\n")
  }

  /** A user's profile after the regeneration. */
  function Regenerated(p: Profiles.UserProfile, id: Option<Identity>, texts: seq<string>,
                       ask: string -> Option<string>, decode: string -> Option<Profiles.Analysis>)
    : (r: Profiles.UserProfile)
    ensures r.userId == p.userId && r.messageCount == p.messageCount && r.chats == p.chats
  {
    var q := if id.Some? then WithIdentity(p, id.value) else p;
    Profiles.Enriched(q, ask(MessagesText(texts)), decode)
  }

  /** `user_data` after reading `rs`: each collected user's texts. */
  function TextsMap(rs: seq<History.Record>): map<int, seq<string>> {
    map u | u in Users(rs) :: TextsOf(rs, u)
  }

  /** How many of the users have fewer than five texts. */
  function CountSkipped(users: seq<int>, texts: map<int, seq<string>>): (n: nat)
    requires forall k | 0 <= k < |users| :: users[k] in texts
    ensures n <= |users|
    decreases |users|
  {
    if users == [] then 0
    else CountSkipped(users[..|users| - 1], texts) + (if |texts[users[|users| - 1]]| < 5 then 1 else 0)
  }

  predicate Eligible(u: int, users: seq<int>, texts: map<int, seq<string>>) {
    u in users && u in texts && |texts[u]| >= 5
  }

  /** One more user of the loop: it is new, it is eligible exactly when it has
      five texts, and it is counted as skipped otherwise. */
  lemma ProcessStep(users: seq<int>, texts: map<int, seq<string>>, i: nat)
    requires NoDup(users) && i < |users|
    requires forall k | 0 <= k < |users| :: users[k] in texts
    ensures users[i] !in users[..i]
    ensures forall v :: Eligible(v, users[..i + 1], texts) <==>
      Eligible(v, users[..i], texts) || (v == users[i] && |texts[v]| >= 5)
    ensures CountSkipped(users[..i + 1], texts) ==
      CountSkipped(users[..i], texts) + (if |texts[users[i]]| < 5 then 1 else 0)
  {
    assert users[..i + 1] == users[..i] + [users[i]];
    assert users[..i + 1][..i] == users[..i];
    forall k | 0 <= k < i ensures users[..i][k] != users[i] {
      assert users[..i][k] == users[k];
    }
  }

  /** The processing loop: users with fewer than five texts are skipped; for
      the others the cached profile takes the identity, is enriched from the
      first 30 texts and saved. The enrichment and the save catch their own
      errors, so no user reaches the loop's failure branch. */
  method Process(manager: Profiles.ProfileManager, users: seq<int>, texts: map<int, seq<string>>,
                 info: map<int, Identity>, stored: int -> Option<Profiles.UserProfile>, nowIso: string,
                 ask: string -> Option<string>, decode: string -> Option<Profiles.Analysis>,
                 writeOk: int -> bool)
    returns (processed: nat, skipped: nat)
    requires manager.Valid() && NoDup(users)
    requires forall k | 0 <= k < |users| :: users[k] in texts
    modifies manager
    ensures manager.Valid()
    ensures processed + skipped == |users| && skipped == CountSkipped(users, texts)
    ensures forall u | Eligible(u, users, texts) ::
      u in manager.profiles
      && manager.profiles[u] == Regenerated(Profiles.LoadedFrom(old(manager.profiles), u, stored(u), nowIso),
                                            if u in info then Some(info[u]) else None, texts[u], ask, decode)
    ensures forall u | !Eligible(u, users, texts) ::
      (u in manager.profiles <==> u in old(manager.profiles))
      && (u in manager.profiles ==> manager.profiles[u] == old(manager.profiles)[u])
  {
    processed, skipped := 0, 0;
    for i := 0 to |users|
      invariant manager.Valid()
      invariant processed + skipped == i && skipped == CountSkipped(users[..i], texts)
      invariant forall u | Eligible(u, users[..i], texts) ::
        u in manager.profiles
        && manager.profiles[u] == Regenerated(Profiles.LoadedFrom(old(manager.profiles), u, stored(u), nowIso),
                                              if u in info then Some(info[u]) else None, texts[u], ask, decode)
      invariant forall u | !Eligible(u, users[..i], texts) ::
        (u in manager.profiles <==> u in old(manager.profiles))
        && (u in manager.profiles ==> manager.profiles[u] == old(manager.profiles)[u])
    {
      var u := users[i];
      ProcessStep(users, texts, i);
      var messages := texts[u];
      if |messages| < 5 {
        skipped := skipped + 1;
        continue;
      }
      ProcessUser(manager, u, messages, info, stored(u), nowIso, ask, decode, writeOk(u));
      processed := processed + 1;
    }
    assert users[..|users|] == users;
  }

  /** One eligible user: take the identity into the cached profile, enrich
      it and save it. */
  method ProcessUser(manager: Profiles.ProfileManager, u: int, messages: seq<string>,
                     info: map<int, Identity>, stored: Option<Profiles.UserProfile>, nowIso: string,
                     ask: string -> Option<string>, decode: string -> Option<Profiles.Analysis>,
                     writeOk: bool)
    requires manager.Valid()
    modifies manager
    ensures manager.Valid()
    ensures manager.profiles == old(manager.profiles)[u :=
      Regenerated(old(manager.Loaded(u, stored, nowIso)), if u in info then Some(info[u]) else None,
                  messages, ask, decode)]
  {
    var profile := manager.LoadProfile(u, stored, nowIso);
    ghost var before := old(manager.profiles);
    if u in info {
      profile := WithIdentity(profile, info[u]);
      manager.profiles := manager.profiles[u := profile];
    }
    assert manager.profiles == before[u := profile];
    var messagesText := MessagesText(messages);
    manager.EnrichProfile(u, stored, nowIso, ask(messagesText), decode);
    PyList.Overwrite(before, u, profile, Profiles.Enriched(profile, ask(messagesText), decode));
    var _ := manager.SaveProfile(u, writeOk);
  }

  // ---------------------------------------------------------------------
  // The whole regeneration
  // ---------------------------------------------------------------------

  /** The returned statistics; `message` is set only when no user was found. */
  datatype Stats = Stats(processed: nat, skipped: nat, failed: nat, total: nat, message: Option<string>)

  const NoUsersMessage := "No user messages found"

  /** What the collection gives the processing loop: every listed user has
      texts, no user is listed twice, and the users the loop processes are
      those with at least five texts in the history, with their texts and
      first-seen identity. */
  lemma CollectedEligible(rs: seq<History.Record>, users: seq<int>, texts: map<int, seq<string>>,
                          info: map<int, Identity>)
    requires Collected(rs, users, texts, info)
    ensures NoDup(users)
    ensures forall k | 0 <= k < |users| :: users[k] in texts
    ensures forall u :: Eligible(u, users, texts) <==> u in Users(rs) && |TextsOf(rs, u)| >= 5
    ensures forall u | Eligible(u, users, texts) ::
      texts[u] == TextsOf(rs, u) && u in info && Some(info[u]) == FirstIdentity(rs, u)
  {
    assert forall u :: u in texts <==> u in users;
    forall k | 0 <= k < |users|
      ensures users[k] in texts
    {
      assert users[k] in users;
    }
    UsersSpec(rs);
  }

  lemma CollectedTexts(rs: seq<History.Record>, users: seq<int>, texts: map<int, seq<string>>,
                       info: map<int, Identity>)
    requires Collected(rs, users, texts, info)
    ensures texts == TextsMap(rs)
  {
    var m := TextsMap(rs);
    forall u
      ensures u in texts <==> u in m
    {
      assert u in texts <==> u in users;
      assert u in m <==> u in Users(rs);
    }
    forall u | u in texts
      ensures texts[u] == m[u]
    {
    }
  }

  /** `regenerate_all_profiles` after the provider is created. */
  method RegenerateAllProfiles(history: History.MessageHistory, manager: Profiles.ProfileManager,
                               stored: int -> Option<Profiles.UserProfile>, nowIso: string,
                               ask: string -> Option<string>, decode: string -> Option<Profiles.Analysis>,
                               writeOk: int -> bool)
    returns (stats: Stats)
    requires history.Valid() && manager.Valid()
    modifies manager
    ensures manager.Valid()
    ensures var rs := Flat(history.chats, history.history);
      Users(rs) == [] ==> stats == Stats(0, 0, 0, 0, Some(NoUsersMessage)) && unchanged(manager)
    ensures var rs := Flat(history.chats, history.history);
      Users(rs) != [] ==>
        stats.message.None? && stats.total == |Users(rs)| && stats.failed == 0
        && stats.skipped == CountSkipped(Users(rs), TextsMap(rs))
        && stats.processed + stats.skipped + stats.failed == stats.total
    ensures var rs := Flat(history.chats, history.history);
      forall u | u in Users(rs) && |TextsOf(rs, u)| >= 5 ::
        u in manager.profiles
        && manager.profiles[u] == Regenerated(Profiles.LoadedFrom(old(manager.profiles), u, stored(u), nowIso),
                                              FirstIdentity(rs, u), TextsOf(rs, u), ask, decode)
    ensures var rs := Flat(history.chats, history.history);
      forall u | !(u in Users(rs) && |TextsOf(rs, u)| >= 5) ::
        (u in manager.profiles <==> u in old(manager.profiles))
        && (u in manager.profiles ==> manager.profiles[u] == old(manager.profiles)[u])
  {
    ghost var rs := Flat(history.chats, history.history);
    var users, texts, info := Collect(history);
    CollectedEligible(rs, users, texts, info);
    if users == [] {
      return Stats(0, 0, 0, 0, Some(NoUsersMessage));
    }
    CollectedTexts(rs, users, texts, info);
    var processed, skipped := Process(manager, users, texts, info, stored, nowIso, ask, decode, writeOk);
    stats := Stats(processed, skipped, 0, |users|, None);
  }
}

=== FILE: profiles.dfy ===
/**
 * The user-profile store: the profile records, the in-memory cache with its
 * load/save bookkeeping, and the in-place updates the bot makes to a cached
 * profile (message counting, chat participation, the language heuristic, the
 * AI-enrichment merge, reaction tallies and roast bookkeeping).
 *
 * Profile files are not modelled: what a file holds is an input (`stored`,
 * `None` when the file is missing or does not deserialize) and whether a write
 * succeeds is an input too. Timestamps are the ISO strings the source writes,
 * passed in as `nowIso`.
 */
module Profiles {
  import opened Wrappers
  import opened PyList
  import Text
  import Telegram
  import Emoji

  datatype SpeakingStyle = SpeakingStyle(
    tone: string,
    vocabularyLevel: string,
    emojiUsage: string,
    messageLength: string,
    typoFrequency: string)

  datatype UserWeaknesses = UserWeaknesses(technical: seq<string>, personal: seq<string>, social: seq<string>)

  datatype UserPatterns = UserPatterns(
    commonMistakes: seq<string>,
    repeatedBehaviors: seq<string>,
    contradictions: seq<string>)

  datatype ReactionPatterns = ReactionPatterns(
    favoriteReactions: Counter,
    reactionTargets: seq<string>,
    emotionalResponses: Counter,
    totalReactions: int)

  datatype RoastHistory = RoastHistory(
    successfulRoasts: int,
    topicsHit: seq<string>,
    reactions: string,
    lastRoasted: Option<string>)

  datatype UserProfile = UserProfile(
    userId: int,
    username: string,
    firstName: string,
    lastName: string,
    firstSeen: string,
    lastSeen: string,
    messageCount: int,
    chats: seq<int>,
    topics: Counter,
    speakingStyle: SpeakingStyle,
    interests: seq<string>,
    humorType: string,
    weaknesses: UserWeaknesses,
    embarrassingMoments: seq<string>,
    complaintTopics: seq<string>,
    patterns: UserPatterns,
    relationships: map<int, string>,
    languagePreference: string,
    roastHistory: RoastHistory,
    reactionPatterns: ReactionPatterns)

  /** A profile created for a user seen for the first time: every field at its default. */
  function NewProfile(userId: int, nowIso: string): (p: UserProfile)
    ensures p.userId == userId && p.firstSeen == nowIso && p.messageCount == 0
    ensures p.chats == [] && p.languagePreference == "en"
    ensures ReactionTalliesAgree(p.reactionPatterns)
  {
    UserProfile(
      userId, "", "", "", nowIso, "", 0, [], [],
      SpeakingStyle("neutral", "medium", "moderate", "medium", "low"),
      [], "unknown", UserWeaknesses([], [], []), [], [], UserPatterns([], [], []),
      map[], "en", RoastHistory(0, [], "unknown", None), ReactionPatterns([], [], [], 0))
  }

  // ------------------------------------------------------- update from message

  /** The language heuristic: a Cyrillic character anywhere in a non-empty text
      sets "ru"; otherwise only an empty preference becomes "en". */
  function LanguageAfter(pref: string, text: Option<string>): (r: string)
    ensures pref == "ru" ==> r == "ru"
    ensures (text.None? || text.value == "") ==> r == pref
    ensures text.Some? && (exists i | 0 <= i < |text.value| :: Text.IsCyrillic(text.value[i])) ==> r == "ru"
    ensures r != pref ==> pref == "" || r == "ru"
  {
    if text.None? || text.value == "" then pref
    else if exists i | 0 <= i < |text.value| :: Text.IsCyrillic(text.value[i]) then "ru"
    else if pref == "" then "en"
    else pref
  }

  /** `update_profile_from_message` applied to the loaded profile of the sender. */
  function UpdatedFromMessage(p: UserProfile, u: Telegram.User, chatId: int, text: Option<string>, nowIso: string)
    : (r: UserProfile)
    ensures r.messageCount == p.messageCount + 1
    ensures chatId in r.chats && (chatId in p.chats ==> r.chats == p.chats)
    ensures chatId !in p.chats ==> r.chats == p.chats + [chatId]
    ensures NoDup(p.chats) ==> NoDup(r.chats)
    ensures r.username == Telegram.OrEmpty(u.username) && r.firstName == u.firstName
    ensures r.lastName == Telegram.OrEmpty(u.lastName) && r.lastSeen == nowIso
    ensures r.languagePreference == LanguageAfter(p.languagePreference, text)
    ensures r == p.(username := r.username, firstName := r.firstName, lastName := r.lastName,
                    lastSeen := r.lastSeen, messageCount := r.messageCount, chats := r.chats,
                    languagePreference := r.languagePreference)
  {
    p.(username := Telegram.OrEmpty(u.username),
       firstName := u.firstName,
       lastName := Telegram.OrEmpty(u.lastName),
       lastSeen := nowIso,
       messageCount := p.messageCount + 1,
       chats := AppendIfAbsent(p.chats, chatId),
       languagePreference := LanguageAfter(p.languagePreference, text))
  }

  // ---------------------------------------------------------- enrichment merge

  /** Append each truthy item not already present (checked against the list as
      it grows, so the batch itself is de-duplicated too). */
  function DedupAppend(xs: seq<string>, items: seq<string>): (r: seq<string>)
    decreases |items|
    ensures |r| >= |xs| && r[..|xs|] == xs
    ensures forall x :: x in r <==> x in xs || (x in items && x != "")
    ensures forall k | |xs| <= k < |r| :: r[k] != "" && r[k] !in xs
    ensures NoDup(xs) ==> NoDup(r)
  {
    if items == [] then xs
    else
      var next := if items[0] != "" then AppendIfAbsent(xs, items[0]) else xs;
      DedupAppend(next, items[1..])
  }

  /** One list-valued key of the parsed analysis: missing, a list of strings,
      or a value the merge loop cannot iterate (which raises). */
  datatype ListField = Absent | Items(items: seq<string>) | NotIterable

  /** The parsed AI analysis, restricted to the keys the merge reads. */
  datatype Analysis = Analysis(
    interests: ListField,
    technicalWeaknesses: ListField,
    personalWeaknesses: ListField,
    speakingTone: Option<string>,
    humorType: Option<string>,
    commonMistakes: ListField,
    embarrassingMoments: ListField)

  /** Merging one list field: `None` when iterating it raises. */
  function MergeList(xs: seq<string>, f: ListField, keep: nat): (r: Option<seq<string>>)
    requires keep >= 1
    ensures f.NotIterable? <==> r.None?
    ensures f.Absent? ==> r == Some(xs)
    ensures f.Items? ==>
      (r.Some? && |r.value| <= keep
       && (forall x | x in r.value :: x in xs || (x in f.items && x != ""))
       && (NoDup(xs) ==> NoDup(r.value)))
    ensures f.Items? ==>
      var all := DedupAppend(xs, f.items);
      r.Some? && |r.value| == (if keep < |all| then keep else |all|) && r.value == all[|all| - |r.value|..]
  {
    match f
    case Absent => Some(xs)
    case NotIterable => None
    case Items(items) =>
      var all := DedupAppend(xs, items);
      KeepLastFacts(all, keep);
      Some(KeepLast(all, keep))
  }

  /** The merge in `enrich_profile_with_ai`, key by key in the source's order.
      A key whose value cannot be iterated raises and stops the merge, but the
      updates made before it stay. */
  function MergeAnalysis(p: UserProfile, a: Analysis): (r: UserProfile)
    ensures r == p.(interests := r.interests, weaknesses := r.weaknesses,
                    speakingStyle := r.speakingStyle, humorType := r.humorType,
                    patterns := r.patterns, embarrassingMoments := r.embarrassingMoments)
    ensures r.weaknesses.social == p.weaknesses.social
    ensures r.patterns == p.patterns.(commonMistakes := r.patterns.commonMistakes)
    ensures r.speakingStyle == p.speakingStyle.(tone := r.speakingStyle.tone)
    ensures a.interests.NotIterable? ==> r == p
    ensures a.interests.Items? ==> |r.interests| <= 10
  {
    match MergeList(p.interests, a.interests, 10)
    case None => p
    case Some(interests) =>
      var p1 := p.(interests := interests);
      match MergeList(p1.weaknesses.technical, a.technicalWeaknesses, 5)
      case None => p1
      case Some(technical) =>
        var p2 := p1.(weaknesses := p1.weaknesses.(technical := technical));
        match MergeList(p2.weaknesses.personal, a.personalWeaknesses, 5)
        case None => p2
        case Some(personal) =>
          var p3 := p2.(weaknesses := p2.weaknesses.(personal := personal));
          var p4 := if a.speakingTone.Some? then p3.(speakingStyle := p3.speakingStyle.(tone := a.speakingTone.value)) else p3;
          var p5 := if a.humorType.Some? then p4.(humorType := a.humorType.value) else p4;
          match MergeList(p5.patterns.commonMistakes, a.commonMistakes, 5)
          case None => p5
          case Some(mistakes) =>
            var p6 := p5.(patterns := p5.patterns.(commonMistakes := mistakes));
            match MergeList(p6.embarrassingMoments, a.embarrassingMoments, 5)
            case None => p6
            case Some(moments) => p6.(embarrassingMoments := moments)
  }

  /** No key of the analysis raises. */
  predicate Iterable(a: Analysis) {
    !a.interests.NotIterable? && !a.technicalWeaknesses.NotIterable? && !a.personalWeaknesses.NotIterable?
    && !a.commonMistakes.NotIterable? && !a.embarrassingMoments.NotIterable?
  }

  /** A merge that does not raise updates every field from its own key. */
  lemma MergeIterable(p: UserProfile, a: Analysis)
    requires Iterable(a)
    ensures MergeAnalysis(p, a) == p.(
      interests := MergeList(p.interests, a.interests, 10).value,
      weaknesses := p.weaknesses.(
        technical := MergeList(p.weaknesses.technical, a.technicalWeaknesses, 5).value,
        personal := MergeList(p.weaknesses.personal, a.personalWeaknesses, 5).value),
      speakingStyle := p.speakingStyle.(
        tone := if a.speakingTone.Some? then a.speakingTone.value else p.speakingStyle.tone),
      humorType := if a.humorType.Some? then a.humorType.value else p.humorType,
      patterns := p.patterns.(commonMistakes := MergeList(p.patterns.commonMistakes, a.commonMistakes, 5).value),
      embarrassingMoments := MergeList(p.embarrassingMoments, a.embarrassingMoments, 5).value)
  {
  }

  /** A merge that does not raise: every present list ends up within its
      bound and duplicate-free if it was. */
  lemma MergeAnalysisComplete(p: UserProfile, a: Analysis)
    requires Iterable(a)
    ensures var r := MergeAnalysis(p, a);
      && (a.interests.Items? ==> |r.interests| <= 10)
      && (a.technicalWeaknesses.Items? ==> |r.weaknesses.technical| <= 5)
      && (a.personalWeaknesses.Items? ==> |r.weaknesses.personal| <= 5)
      && (a.commonMistakes.Items? ==> |r.patterns.commonMistakes| <= 5)
      && (a.embarrassingMoments.Items? ==> |r.embarrassingMoments| <= 5)
      && (NoDup(p.interests) ==> NoDup(r.interests))
      && (NoDup(p.embarrassingMoments) ==> NoDup(r.embarrassingMoments))
  {
    MergeIterable(p, a);
  }

  /** In a merge that does not raise, absent keys leave their field alone,
      and the tone and humour type are overwritten when given. */
  lemma MergeAnalysisKeeps(p: UserProfile, a: Analysis)
    requires Iterable(a)
    ensures var r := MergeAnalysis(p, a);
      && (a.interests.Absent? ==> r.interests == p.interests)
      && (a.technicalWeaknesses.Absent? ==> r.weaknesses.technical == p.weaknesses.technical)
      && (a.personalWeaknesses.Absent? ==> r.weaknesses.personal == p.weaknesses.personal)
      && (a.commonMistakes.Absent? ==> r.patterns.commonMistakes == p.patterns.commonMistakes)
      && (a.embarrassingMoments.Absent? ==> r.embarrassingMoments == p.embarrassingMoments)
      && r.speakingStyle.tone == (if a.speakingTone.Some? then a.speakingTone.value else p.speakingStyle.tone)
      && r.humorType == (if a.humorType.Some? then a.humorType.value else p.humorType)
  {
    MergeIterable(p, a);
  }

  /** The third key raising keeps the first two merges and nothing after them. */
  lemma MergeStopsAtFailure(p: UserProfile, a: Analysis)
    requires !a.interests.NotIterable? && !a.technicalWeaknesses.NotIterable?
    requires a.personalWeaknesses.NotIterable?
    ensures MergeAnalysis(p, a).weaknesses.personal == p.weaknesses.personal
    ensures MergeAnalysis(p, a).humorType == p.humorType
    ensures MergeAnalysis(p, a).interests == MergeList(p.interests, a.interests, 10).value
  {
  }

  // -------------------------------------------------------------- code fences

  const Fence := "```"

  /** Clean an AI reply before decoding: strip it; if it starts with a code
      fence keep what lies between the first two fences, minus a leading "json";
      strip again. */
  function StripFences(response: string): (r: string)
    ensures r == [] || (!Text.IsSpace(r[0]) && !Text.IsSpace(r[|r| - 1]))
    ensures !Text.StartsWith(Text.Strip(response), Fence) ==> r == Text.Strip(response)
  {
    var t := Text.Strip(response);
    if Text.StartsWith(t, Fence) then
      var rest := t[3..];
      var k := Text.Find(rest, Fence);
      var segment := if k < 0 then rest else rest[..k];
      var body := if Text.StartsWith(segment, "json") then segment[4..] else segment;
      Text.Strip(body)
    else t
  }

  /** A stripped string is unchanged by a second strip. */
  lemma StripIdempotent(s: string)
    ensures Text.Strip(Text.Strip(s)) == Text.Strip(s)
  {
    var t := Text.Strip(s);
    if t != [] {
      assert !Text.IsSpace(t[0]);
      assert Text.LStrip(t) == t;
      assert !Text.IsSpace(t[|t| - 1]);
      assert Text.RStrip(t) == t;
    }
  }

  /** A reply fenced as ```json ... ``` yields its stripped body, provided the
      body holds no fence of its own. */
  lemma {:induction false} FencedReplyBody(b: string)
    requires !Text.Contains(b + "``", Fence)
    ensures StripFences("```json" + b + "```") == Text.Strip(b)
  {
    var s := "```json" + b + "```";
    assert Text.LStrip(s) == s;
    assert s[|s| - 1] == '`';
    assert Text.RStrip(s) == s;
    assert Text.StartsWith(s, Fence);
    var rest := s[3..];
    assert rest == "json" + b + "```";
    FenceFoundAtEnd("json" + b);
    var segment := rest[..4 + |b|];
    assert segment == "json" + b;
    assert Text.StartsWith(segment, "json");
    assert segment[4..] == b;
  }

  /** In w + "```", the first fence is the appended one when w + "``" has none. */
  lemma FenceFoundAtEnd(w: string)
    requires |w| >= 4 && w[..4] == "json"
    requires !Text.Contains(w[4..] + "``", Fence)
    ensures Text.Find(w + Fence, Fence) == |w|
  {
    var s := w + Fence;
    assert Text.OccursAt(s, Fence, |w|);
    forall j | 0 <= j < |w|
      ensures !Text.OccursAt(s, Fence, j)
    {
      if j < 4 {
        assert s[j] == w[j] == "json"[j];
        assert Fence[0] == '`';
        assert j + 3 <= |s| ==> s[j..j + 3][0] != Fence[0];
      } else if Text.OccursAt(s, Fence, j) {
        var b2 := w[4..] + "``";
        assert b2[j - 4..j - 4 + 3] == s[j..j + 3];
        assert Text.OccursAt(b2, Fence, j - 4);
      }
    }
  }

  // ---------------------------------------------------------------- reactions

  const HumorWords: seq<string> := ["joke", "funny", Emoji.TearsOfJoy, Emoji.Grinning, "haha", "lol"]
  const NewsWords: seq<string> := ["news", "update", "announcement"]
  const QuestionWords: seq<string> := ["?", "question", "how", "what", "why"]

  predicate AnyIn(words: seq<string>, text: string) {
    exists w | w in words :: Text.Contains(text, w)
  }

  /** What kind of content a reaction was given to: the first matching group
      of keywords on the lower-cased text; nothing for an empty text. */
  function ReactionTarget(text: string): (r: Option<string>)
    ensures text == "" ==> r == None
    ensures r.Some? ==> r.value in {"humor", "news", "questions"}
    ensures r == Some("humor") <==> text != "" && AnyIn(HumorWords, Text.LowerStr(text))
    ensures r == Some("news") <==>
      text != "" && !AnyIn(HumorWords, Text.LowerStr(text)) && AnyIn(NewsWords, Text.LowerStr(text))
    ensures r == Some("questions") <==>
      text != "" && !AnyIn(HumorWords, Text.LowerStr(text)) && !AnyIn(NewsWords, Text.LowerStr(text))
      && AnyIn(QuestionWords, Text.LowerStr(text))
    ensures r == None <==>
      text == "" || (!AnyIn(HumorWords, Text.LowerStr(text)) && !AnyIn(NewsWords, Text.LowerStr(text))
      && !AnyIn(QuestionWords, Text.LowerStr(text)))
  {
    if text == "" then None
    else
      var lower := Text.LowerStr(text);
      if AnyIn(HumorWords, lower) then Some("humor")
      else if AnyIn(NewsWords, lower) then Some("news")
      else if AnyIn(QuestionWords, lower) then Some("questions")
      else None
  }

  const PositiveReactionEmoji: seq<string> := [
    Emoji.ThumbsUp, Emoji.RedHeart, Emoji.Fire, Emoji.Smiling,
    Emoji.TearsOfJoy, Emoji.PartyPopper, Emoji.CheckMark, Emoji.Hundred]
  const NegativeReactionEmoji: seq<string> := [
    Emoji.ThumbsDown, Emoji.Angry, Emoji.Crying, Emoji.BrokenHeart, Emoji.CrossMark]
  const ThinkingReactionEmoji: seq<string> := [Emoji.Thinking, Emoji.ThoughtBalloon, Emoji.Monocle]

  /** The emotional bucket a reaction emoji is tallied under. */
  function EmotionOf(emoji: string): (e: string)
    ensures e in {"positive", "negative", "thoughtful", "neutral"}
    ensures e == "positive" <==> emoji in PositiveReactionEmoji
    ensures e == "negative" <==> emoji !in PositiveReactionEmoji && emoji in NegativeReactionEmoji
    ensures e == "thoughtful" <==>
      emoji !in PositiveReactionEmoji && emoji !in NegativeReactionEmoji && emoji in ThinkingReactionEmoji
    ensures e == "neutral" <==>
      emoji !in PositiveReactionEmoji && emoji !in NegativeReactionEmoji && emoji !in ThinkingReactionEmoji
  {
    if emoji in PositiveReactionEmoji then "positive"
    else if emoji in NegativeReactionEmoji then "negative"
    else if emoji in ThinkingReactionEmoji then "thoughtful"
    else "neutral"
  }

  /** The invariant `track_reaction` keeps: both tallies sum to the total. */
  predicate ReactionTalliesAgree(rp: ReactionPatterns) {
    Total(rp.favoriteReactions) == rp.totalReactions && Total(rp.emotionalResponses) == rp.totalReactions
    && UniqueKeys(rp.favoriteReactions) && UniqueKeys(rp.emotionalResponses)
  }

  /** `track_reaction` applied to a profile's reaction patterns. */
  function TrackedReaction(rp: ReactionPatterns, emoji: string, text: string): (r: ReactionPatterns)
    ensures r.totalReactions == rp.totalReactions + 1
    ensures Get(r.favoriteReactions, emoji) == Get(rp.favoriteReactions, emoji) + 1
    ensures Get(r.emotionalResponses, EmotionOf(emoji)) == Get(rp.emotionalResponses, EmotionOf(emoji)) + 1
    ensures forall e | e != EmotionOf(emoji) :: Get(r.emotionalResponses, e) == Get(rp.emotionalResponses, e)
    ensures forall x | x != emoji :: Get(r.favoriteReactions, x) == Get(rp.favoriteReactions, x)
    ensures r.reactionTargets == match ReactionTarget(text)
                                  case None => rp.reactionTargets
                                  case Some(t) => AppendIfAbsent(rp.reactionTargets, t)
  {
    var targets := match ReactionTarget(text)
      case None => rp.reactionTargets
      case Some(t) => AppendIfAbsent(rp.reactionTargets, t);
    IncGet(rp.favoriteReactions, emoji, emoji);
    IncGet(rp.emotionalResponses, EmotionOf(emoji), EmotionOf(emoji));
    assert forall e | e != EmotionOf(emoji) :: Get(Inc(rp.emotionalResponses, EmotionOf(emoji)), e) == Get(rp.emotionalResponses, e) by {
      forall e | e != EmotionOf(emoji) ensures Get(Inc(rp.emotionalResponses, EmotionOf(emoji)), e) == Get(rp.emotionalResponses, e) {
        IncGet(rp.emotionalResponses, EmotionOf(emoji), e);
      }
    }
    assert forall x | x != emoji :: Get(Inc(rp.favoriteReactions, emoji), x) == Get(rp.favoriteReactions, x) by {
      forall x | x != emoji ensures Get(Inc(rp.favoriteReactions, emoji), x) == Get(rp.favoriteReactions, x) {
        IncGet(rp.favoriteReactions, emoji, x);
      }
    }
    ReactionPatterns(
      Inc(rp.favoriteReactions, emoji),
      targets,
      Inc(rp.emotionalResponses, EmotionOf(emoji)),
      rp.totalReactions + 1)
  }

  /** Tracking a reaction keeps sum(favorite) = sum(emotional) = total. */
  lemma TrackReactionKeepsTallies(rp: ReactionPatterns, emoji: string, text: string)
    requires ReactionTalliesAgree(rp)
    ensures ReactionTalliesAgree(TrackedReaction(rp, emoji, text))
    ensures NoDup(rp.reactionTargets) ==> NoDup(TrackedReaction(rp, emoji, text).reactionTargets)
  {
    IncTotal(rp.favoriteReactions, emoji);
    IncTotal(rp.emotionalResponses, EmotionOf(emoji));
    IncKeepsUniqueKeys(rp.favoriteReactions, emoji);
    IncKeepsUniqueKeys(rp.emotionalResponses, EmotionOf(emoji));
  }

  /** `record_roast` applied to a profile's roast history. */
  function RoastRecorded(h: RoastHistory, topic: string, success: bool, nowIso: string): (r: RoastHistory)
    ensures r.lastRoasted == Some(nowIso) && r.reactions == h.reactions
    ensures r.successfulRoasts == h.successfulRoasts + (if success then 1 else 0)
    ensures success ==> topic in r.topicsHit
    ensures success ==> r.topicsHit == if topic in h.topicsHit then h.topicsHit else h.topicsHit + [topic]
    ensures !success ==> r.topicsHit == h.topicsHit
    ensures NoDup(h.topicsHit) ==> NoDup(r.topicsHit)
  {
    if success then
      h.(successfulRoasts := h.successfulRoasts + 1, topicsHit := AppendIfAbsent(h.topicsHit, topic),
         lastRoasted := Some(nowIso))
    else h.(lastRoasted := Some(nowIso))
  }

  // ------------------------------------------------------------------ summary

  /** The lines of `get_profile_summary`, before they are joined with newlines. */
  function SummaryLines(p: UserProfile): (lines: seq<string>)
    ensures 3 <= |lines| <= 7
    ensures lines[0] == "User: " + p.firstName + " (@" + p.username + ")"
    ensures lines[1] == "Messages: " + Text.IntToString(p.messageCount)
    ensures lines[2] == "Language: " + p.languagePreference
    ensures |lines| == 3 + (if p.interests != [] then 1 else 0) + (if p.weaknesses.technical != [] then 1 else 0)
                         + (if p.weaknesses.personal != [] then 1 else 0)
                         + (if p.patterns.commonMistakes != [] then 1 else 0)
    ensures p.interests != [] ==> lines[3] == "Interests: " + Text.Join(Upto(p.interests, 5), ", ")
    ensures var i := 3 + (if p.interests != [] then 1 else 0);
      p.weaknesses.technical != [] ==> lines[i] == "Technical weaknesses: " + Text.Join(Upto(p.weaknesses.technical, 3), ", ")
    ensures var i := 3 + (if p.interests != [] then 1 else 0) + (if p.weaknesses.technical != [] then 1 else 0);
      p.weaknesses.personal != [] ==> lines[i] == "Personal weaknesses: " + Text.Join(Upto(p.weaknesses.personal, 3), ", ")
    ensures p.patterns.commonMistakes != []
            ==> lines[|lines| - 1] == "Common mistakes: " + Text.Join(Upto(p.patterns.commonMistakes, 3), ", ")
  {
    ["User: " + p.firstName + " (@" + p.username + ")",
     "Messages: " + Text.IntToString(p.messageCount),
     "Language: " + p.languagePreference]
    + (if p.interests != [] then ["Interests: " + Text.Join(Upto(p.interests, 5), ", ")] else [])
    + (if p.weaknesses.technical != []
       then ["Technical weaknesses: " + Text.Join(Upto(p.weaknesses.technical, 3), ", ")] else [])
    + (if p.weaknesses.personal != []
       then ["Personal weaknesses: " + Text.Join(Upto(p.weaknesses.personal, 3), ", ")] else [])
    + (if p.patterns.commonMistakes != []
       then ["Common mistakes: " + Text.Join(Upto(p.patterns.commonMistakes, 3), ", ")] else [])
  }

  /** `get_profile_summary`: the summary lines joined with newlines; it
      starts with the user line and holds every other line. */
  function ProfileSummary(p: UserProfile): (s: string)
    ensures Text.StartsWith(s, "User: " + p.firstName + " (@" + p.username + ")")
    ensures forall k | 0 <= k < |SummaryLines(p)| :: Text.Contains(s, SummaryLines(p)[k])
  {
    var lines := SummaryLines(p);
    Text.JoinStartsWith(lines, "\n");
    forall k | 0 <= k < |lines| ensures Text.Contains(Text.Join(lines, "\n"), lines[k]) {
      Text.JoinContains(lines, "\n", k);
    }
    Text.Join(lines, "\n")
  }

  // ------------------------------------------------------------------- store

  /** Number of ids in `ids` whose write succeeds. */
  function CountSaved(ids: seq<int>, writeOk: int -> bool): (n: nat)
    ensures n <= |ids|
  {
    if ids == [] then 0 else (if writeOk(ids[0]) then 1 else 0) + CountSaved(ids[1..], writeOk)
  }

  lemma {:induction false} CountSavedIsSetSize(ids: seq<int>, writeOk: int -> bool)
    requires NoDup(ids)
    ensures CountSaved(ids, writeOk) == |set id | id in ids && writeOk(id)|
  {
    if ids != [] {
      var tail := ids[1..];
      CountSavedIsSetSize(tail, writeOk);
      var all := set id | id in ids && writeOk(id);
      var rest := set id | id in tail && writeOk(id);
      assert ids[0] !in tail;
      if writeOk(ids[0]) {
        assert all == rest + {ids[0]};
      } else {
        assert all == rest;
      }
    }
  }

  /** The profile cache (`profiles`), kept with its insertion order. */
  /** The profile after an enrichment: the analysis merged in when the AI
      answered and its answer decoded, the profile unchanged otherwise. */
  function Enriched(p: UserProfile, reply: Option<string>, decode: string -> Option<Analysis>): (r: UserProfile)
    ensures r.userId == p.userId && r.messageCount == p.messageCount && r.chats == p.chats
    ensures reply.None? ==> r == p
    ensures reply.Some? && decode(StripFences(reply.value)).None? ==> r == p
    ensures reply.Some? && decode(StripFences(reply.value)).Some?
            ==> r == MergeAnalysis(p, decode(StripFences(reply.value)).value)
  {
    if reply.Some? && decode(StripFences(reply.value)).Some?
    then MergeAnalysis(p, decode(StripFences(reply.value)).value)
    else p
  }

  /** What `load_profile` returns given the cache: the cached profile, else
      the stored one, else a fresh one. */
  function LoadedFrom(profiles: map<int, UserProfile>, userId: int, stored: Option<UserProfile>, nowIso: string)
    : (p: UserProfile)
    ensures userId in profiles ==> p == profiles[userId]
    ensures userId !in profiles && stored.Some? ==> p == stored.value
    ensures userId !in profiles && stored.None? ==> p.userId == userId && p.messageCount == 0 && p.firstSeen == nowIso
  {
    if userId in profiles then profiles[userId]
    else if stored.Some? then stored.value
    else NewProfile(userId, nowIso)
  }

  class ProfileManager {
    var profiles: map<int, UserProfile>
    var order: seq<int>

    ghost predicate Valid()
      reads this
    {
      NoDup(order) && (forall id :: id in order <==> id in profiles)
    }

    constructor ()
      ensures Valid() && profiles == map[] && order == []
    {
      profiles := map[];
      order := [];
    }

    /** What `load_profile` returns for `userId` in the current state. */
    function Loaded(userId: int, stored: Option<UserProfile>, nowIso: string): UserProfile
      reads this
    {
      LoadedFrom(profiles, userId, stored, nowIso)
    }

    /** `load_profile`: the cached profile, else the stored one, else a fresh one;
        the last two are cached under `userId`. */
    method LoadProfile(userId: int, stored: Option<UserProfile>, nowIso: string) returns (p: UserProfile)
      requires Valid()
      modifies this
      ensures Valid()
      ensures p == old(Loaded(userId, stored, nowIso))
      ensures userId in profiles && profiles == old(profiles)[userId := p]
      ensures userId in old(profiles) ==> order == old(order)
      ensures userId !in old(profiles) ==> order == old(order) + [userId]
      ensures userId !in old(profiles) && stored.None? ==> p.userId == userId && p.messageCount == 0
    {
      if userId in profiles {
        return profiles[userId];
      }
      p := if stored.Some? then stored.value else NewProfile(userId, nowIso);
      profiles := profiles[userId := p];
      order := order + [userId];
    }

    /** `save_profile`: fails for an uncached user, otherwise as the write does. */
    method SaveProfile(userId: int, writeOk: bool) returns (ok: bool)
      ensures ok <==> userId in profiles && writeOk
    {
      ok := userId in profiles && writeOk;
    }

    /** `save_all_profiles`: the number of cached profiles whose write succeeds. */
    method SaveAllProfiles(writeOk: int -> bool) returns (saved: nat)
      requires Valid()
      ensures saved == |set id | id in profiles && writeOk(id)|
    {
      saved := 0;
      var i := 0;
      while i < |order|
        invariant 0 <= i <= |order|
        invariant saved == CountSaved(order[..i], writeOk)
      {
        var ok := SaveProfile(order[i], writeOk(order[i]));
        CountSavedSnoc(order[..i], order[i], writeOk);
        assert order[..i + 1] == order[..i] + [order[i]];
        if ok {
          saved := saved + 1;
        }
        i := i + 1;
      }
      assert order[..i] == order;
      CountSavedIsSetSize(order, writeOk);
      forall id
        ensures (id in order && writeOk(id)) <==> (id in profiles && writeOk(id))
      {
        assert id in order <==> id in profiles;
      }
      assert (set id | id in order && writeOk(id)) == (set id | id in profiles && writeOk(id));
    }

    /** `update_profile_from_message`: nothing without a sender; otherwise the
        sender's loaded profile is updated in place. */
    method UpdateProfileFromMessage(m: Telegram.Message, stored: Option<UserProfile>, nowIso: string)
      requires Valid()
      modifies this
      ensures Valid()
      ensures m.fromUser.None? ==> profiles == old(profiles) && order == old(order)
      ensures m.fromUser.Some? ==>
        var id := m.fromUser.value.id;
        profiles == old(profiles)[id := UpdatedFromMessage(old(Loaded(id, stored, nowIso)), m.fromUser.value,
                                                           m.chatId, m.text, nowIso)]
    {
      if m.fromUser.None? {
        return;
      }
      var u := m.fromUser.value;
      var p := LoadProfile(u.id, stored, nowIso);
      profiles := profiles[u.id := UpdatedFromMessage(p, u, m.chatId, m.text, nowIso)];
    }

    /** The in-place update of a cached profile: the cache keeps its keys
        and its order. */
    method Replace(userId: int, p: UserProfile)
      requires Valid() && userId in profiles
      modifies this
      ensures Valid() && order == old(order)
      ensures profiles == old(profiles)[userId := p]
    {
      profiles := profiles[userId := p];
    }

    /** `enrich_profile_with_ai`: `reply` is the AI's answer (`None` when the
        request raised) and `decode` the JSON decoder (`None` on a decode error). */
    method EnrichProfile(userId: int, stored: Option<UserProfile>, nowIso: string,
                         reply: Option<string>, decode: string -> Option<Analysis>)
      requires Valid()
      modifies this
      ensures Valid()
      ensures userId in profiles
      ensures profiles == old(profiles)[userId := Enriched(old(Loaded(userId, stored, nowIso)), reply, decode)]
    {
      ghost var before := old(profiles);
      var p := LoadProfile(userId, stored, nowIso);
      if reply.None? {
        assert Enriched(p, reply, decode) == p;
        return;
      }
      var analysis := decode(StripFences(reply.value));
      if analysis.Some? {
        var merged := MergeAnalysis(p, analysis.value);
        assert Enriched(p, reply, decode) == merged;
        Replace(userId, merged);
        Overwrite(before, userId, p, merged);
      } else {
        assert Enriched(p, reply, decode) == p;
      }
    }

    /** `get_profile_summary`: loads (and so may cache) the profile. */
    method GetProfileSummary(userId: int, stored: Option<UserProfile>, nowIso: string) returns (s: string)
      requires Valid()
      modifies this
      ensures Valid()
      ensures s == ProfileSummary(old(Loaded(userId, stored, nowIso)))
      ensures profiles == old(profiles)[userId := old(Loaded(userId, stored, nowIso))]
    {
      var p := LoadProfile(userId, stored, nowIso);
      s := ProfileSummary(p);
    }

    /** `track_reaction`. */
    method TrackReaction(userId: int, emoji: string, targetText: string, stored: Option<UserProfile>, nowIso: string)
      requires Valid()
      modifies this
      ensures Valid()
      ensures var p := old(Loaded(userId, stored, nowIso));
        profiles == old(profiles)[userId := p.(reactionPatterns := TrackedReaction(p.reactionPatterns, emoji, targetText))]
    {
      var p := LoadProfile(userId, stored, nowIso);
      profiles := profiles[userId := p.(reactionPatterns := TrackedReaction(p.reactionPatterns, emoji, targetText))];
    }

    /** `record_roast`. */
    method RecordRoast(userId: int, topic: string, success: bool, stored: Option<UserProfile>, nowIso: string)
      requires Valid()
      modifies this
      ensures Valid()
      ensures var p := old(Loaded(userId, stored, nowIso));
        profiles == old(profiles)[userId := p.(roastHistory := RoastRecorded(p.roastHistory, topic, success, nowIso))]
    {
      var p := LoadProfile(userId, stored, nowIso);
      profiles := profiles[userId := p.(roastHistory := RoastRecorded(p.roastHistory, topic, success, nowIso))];
    }
  }

  lemma {:induction false} CountSavedSnoc(ids: seq<int>, x: int, writeOk: int -> bool)
    ensures CountSaved(ids + [x], writeOk) == CountSaved(ids, writeOk) + (if writeOk(x) then 1 else 0)
  {
    if ids != [] {
      assert (ids + [x])[1..] == ids[1..] + [x];
      CountSavedSnoc(ids[1..], x, writeOk);
    }
  }
}

=== FILE: pylist.dfy ===
/**
 * Python list slicing with negative indices (`xs[i:]`, `xs[:i]`, `xs[-k:]`),
 * duplicate-free lists, and the ordered `Dict[str, int]` counters the bot
 * keeps per profile.
 */
module PyList {

  /** Python's `xs[i:]`: a negative `i` counts from the end; out-of-range indices clamp. */
  function From<T>(xs: seq<T>, i: int): (r: seq<T>)
    ensures |r| <= |xs| && r == xs[|xs| - |r|..]
    ensures i >= 0 ==> |r| == if i <= |xs| then |xs| - i else 0
    ensures i < 0 ==> |r| == if -i <= |xs| then -i else |xs|
  {
    var j := if i < 0 then i + |xs| else i;
    if j <= 0 then xs else if j >= |xs| then [] else xs[j..]
  }

  /** Python's `xs[:i]`. */
  function Upto<T>(xs: seq<T>, i: int): (r: seq<T>)
    ensures |r| <= |xs| && r == xs[..|r|]
    ensures i >= 0 ==> |r| == if i <= |xs| then i else |xs|
    ensures i < 0 ==> |r| == if -i <= |xs| then |xs| + i else 0
  {
    var j := if i < 0 then i + |xs| else i;
    if j <= 0 then [] else if j >= |xs| then xs else xs[..j]
  }

  /** A slice bound as Python normalises it: negative counts from the end,
      then clamped to `0..n`. */
  function Clamp(i: int, n: nat): (j: nat)
    ensures j <= n
  {
    var k := if i < 0 then i + n else i;
    if k < 0 then 0 else if k > n then n else k
  }

  /** Python's `xs[a:b]`. */
  function Slice<T>(xs: seq<T>, a: int, b: int): (r: seq<T>)
    ensures |r| <= |xs|
    ensures r == [] || (Clamp(a, |xs|) <= Clamp(b, |xs|) && r == xs[Clamp(a, |xs|)..Clamp(b, |xs|)])
  {
    var i := Clamp(a, |xs|);
    var j := Clamp(b, |xs|);
    if i < j then xs[i..j] else []
  }

  /** Python's `xs[-k:]`, the idiom the bot uses to keep "the last k" items.
      It keeps the last `k` items only for `k >= 1`: `xs[-0:]` is the whole list. */
  function KeepLast<T>(xs: seq<T>, k: int): (r: seq<T>)
    ensures |r| <= |xs| && r == xs[|xs| - |r|..]
    ensures k >= 1 ==> |r| == if k <= |xs| then k else |xs|
    ensures k == 0 ==> r == xs
  {
    From(xs, -k)
  }

  predicate NoDup<T(==)>(xs: seq<T>) {
    forall i, j | 0 <= i < j < |xs| :: xs[i] != xs[j]
  }

  lemma NoDupTail<T>(xs: seq<T>)
    ensures xs != [] && NoDup(xs) ==> NoDup(xs[1..]) && xs[0] !in xs[1..]
  {
    if xs != [] && NoDup(xs) {
      forall i | 0 <= i < |xs[1..]| ensures xs[1..][i] != xs[0] {
        assert xs[1..][i] == xs[i + 1];
      }
    }
  }

  lemma NoDupSnoc<T>(xs: seq<T>, x: T)
    requires NoDup(xs) && x !in xs
    ensures NoDup(xs + [x])
  {
  }

  /** Keeping a suffix only drops items, so it keeps a list duplicate-free. */
  lemma KeepLastFacts<T>(xs: seq<T>, k: int)
    ensures forall x | x in KeepLast(xs, k) :: x in xs
    ensures NoDup(xs) ==> NoDup(KeepLast(xs, k))
  {
    var r := KeepLast(xs, k);
    var d := |xs| - |r|;
    forall x | x in r ensures x in xs {
      var i :| 0 <= i < |r| && r[i] == x;
      assert xs[i + d] == x;
    }
    if NoDup(xs) {
      forall i, j | 0 <= i < j < |r| ensures r[i] != r[j] {
        assert r[i] == xs[i + d] && r[j] == xs[j + d];
      }
    }
  }

  /** Appending `x` only when absent (the source's `if x not in xs: xs.append(x)`). */
  function AppendIfAbsent<T(==)>(xs: seq<T>, x: T): (r: seq<T>)
    ensures x in r
    ensures x in xs ==> r == xs
    ensures x !in xs ==> r == xs + [x]
    ensures NoDup(xs) ==> NoDup(r)
  {
    if x in xs then xs else xs + [x]
  }

  // ------------------------------------------------------------------ counters

  /** An insertion-ordered `Dict[str, int]` of tallies. */
  type Counter = seq<(string, int)>

  predicate UniqueKeys(c: Counter) {
    forall i, j | 0 <= i < j < |c| :: c[i].0 != c[j].0
  }

  function Keys(c: Counter): (ks: seq<string>)
    ensures |ks| == |c|
    ensures forall i | 0 <= i < |c| :: ks[i] == c[i].0
  {
    if c == [] then [] else [c[0].0] + Keys(c[1..])
  }

  /** `c.get(k, 0)`. */
  function Get(c: Counter, k: string): int
  {
    if c == [] then 0 else if c[0].0 == k then c[0].1 else Get(c[1..], k)
  }

  /** The sum of all tallies. */
  function Total(c: Counter): int
  {
    if c == [] then 0 else c[0].1 + Total(c[1..])
  }

  /** `if k in c: c[k] += 1 else: c[k] = 1`: an existing key keeps its place,
      a new key goes last. */
  function Inc(c: Counter, k: string): (r: Counter)
    ensures |r| == |c| || r == c + [(k, 1)]
    ensures |Keys(r)| >= |Keys(c)| && Keys(r)[..|c|] == Keys(c)
  {
    if c == [] then [(k, 1)]
    else if c[0].0 == k then [(k, c[0].1 + 1)] + c[1..]
    else [c[0]] + Inc(c[1..], k)
  }

  lemma {:induction false} IncGet(c: Counter, k: string, other: string)
    ensures Get(Inc(c, k), k) == Get(c, k) + 1
    ensures other != k ==> Get(Inc(c, k), other) == Get(c, other)
  {
    if c != [] && c[0].0 != k {
      IncGet(c[1..], k, other);
    }
  }

  lemma {:induction false} IncTotal(c: Counter, k: string)
    ensures Total(Inc(c, k)) == Total(c) + 1
  {
    if c != [] && c[0].0 != k {
      IncTotal(c[1..], k);
    }
  }

  lemma {:induction false} IncKeepsUniqueKeys(c: Counter, k: string)
    requires UniqueKeys(c)
    ensures UniqueKeys(Inc(c, k))
    ensures k in Keys(Inc(c, k))
  {
    KeysOfInc(c, k, k);
    if c != [] {
      var rest := c[1..];
      assert UniqueKeys(rest) by {
        assert forall i | 0 <= i < |rest| :: rest[i] == c[i + 1];
      }
      HeadNotInTail(c);
      if c[0].0 != k {
        IncKeepsUniqueKeys(rest, k);
        KeysOfInc(rest, k, c[0].0);
        ConsUnique(c[0], Inc(rest, k));
      } else {
        ConsUnique((k, c[0].1 + 1), rest);
      }
    }
  }

  /** The first key of a counter with unique keys does not come again. */
  lemma HeadNotInTail(c: Counter)
    requires c != [] && UniqueKeys(c)
    ensures c[0].0 !in Keys(c[1..])
  {
    var ks := Keys(c[1..]);
    forall i | 0 <= i < |ks| ensures ks[i] != c[0].0 {
      assert ks[i] == c[i + 1].0;
    }
  }

  /** An entry whose key is new can go in front. */
  lemma ConsUnique(x: (string, int), c: Counter)
    requires UniqueKeys(c) && x.0 !in Keys(c)
    ensures UniqueKeys([x] + c)
  {
    var r := [x] + c;
    forall i, j | 0 <= i < j < |r| ensures r[i].0 != r[j].0 {
      assert r[j] == c[j - 1] && Keys(c)[j - 1] == c[j - 1].0;
      if i > 0 {
        assert r[i] == c[i - 1];
      }
    }
  }

  /** The keys after `Inc` are the old keys plus `k`. */
  lemma {:induction false} KeysOfInc(c: Counter, k: string, x: string)
    ensures x in Keys(Inc(c, k)) <==> x in Keys(c) || x == k
  {
    if c != [] && c[0].0 != k {
      KeysOfInc(c[1..], k, x);
      assert Keys(Inc(c, k)) == [c[0].0] + Keys(Inc(c[1..], k));
      assert Keys(c) == [c[0].0] + Keys(c[1..]);
    } else if c != [] {
      assert Keys(Inc(c, k)) == [k] + Keys(c[1..]);
      assert Keys(c) == [k] + Keys(c[1..]);
    }
  }

  /** `[y for x in xs for y in f(x)]`: the pieces of the items, in order.
      With `f` giving one or no item it is a filtered comprehension. */
  function FlatMap<T, U>(xs: seq<T>, f: T -> seq<U>): seq<U> {
    if xs == [] then [] else FlatMap(xs[..|xs| - 1], f) + f(xs[|xs| - 1])
  }

  /** The pieces of consecutive stretches follow each other. */
  lemma {:induction false} FlatMapAppend<T, U>(xs: seq<T>, ys: seq<T>, f: T -> seq<U>)
    ensures FlatMap(xs + ys, f) == FlatMap(xs, f) + FlatMap(ys, f)
  {
    if ys == [] {
      assert xs + ys == xs;
    } else {
      var ys0 := ys[..|ys| - 1];
      assert (xs + ys)[..|xs + ys| - 1] == xs + ys0;
      FlatMapAppend(xs, ys0, f);
    }
  }

  lemma FlatMapOne<T, U>(x: T, f: T -> seq<U>)
    ensures FlatMap([x], f) == f(x)
  {
    assert [x][..0] == [];
  }

  /** Every result comes from some item; with at most one piece per item
      there are at most as many results as items; there are none exactly
      when no item gives a piece. */
  lemma {:induction false} FlatMapFacts<T, U>(xs: seq<T>, f: T -> seq<U>)
    ensures forall y | y in FlatMap(xs, f) :: exists i | 0 <= i < |xs| :: y in f(xs[i])
    ensures (forall i | 0 <= i < |xs| :: |f(xs[i])| <= 1) ==> |FlatMap(xs, f)| <= |xs|
    ensures FlatMap(xs, f) == [] <==> forall i | 0 <= i < |xs| :: f(xs[i]) == []
  {
    if xs != [] {
      var init := xs[..|xs| - 1];
      FlatMapFacts(init, f);
      assert forall i | 0 <= i < |init| :: init[i] == xs[i];
    }
  }

  /** Every piece of every item is among the results. */
  lemma {:induction false} FlatMapComplete<T, U>(xs: seq<T>, f: T -> seq<U>, i: nat)
    requires i < |xs|
    ensures forall y | y in f(xs[i]) :: y in FlatMap(xs, f)
  {
    var init := xs[..|xs| - 1];
    if i < |xs| - 1 {
      assert init[i] == xs[i];
      FlatMapComplete(init, f, i);
    }
  }

  /** Assigning `d[k] = a` and then `d[k] = b` leaves the dictionary as
      `d[k] = b` alone would. */
  lemma Overwrite<K, V>(m: map<K, V>, k: K, a: V, b: V)
    ensures m[k := a][k := b] == m[k := b]
  {
    var l, r := m[k := a][k := b], m[k := b];
    forall x
      ensures x in l <==> x in r
    {
    }
    forall x | x in l
      ensures l[x] == r[x]
    {
    }
  }
}

=== FILE: reaction_analytics.dfy ===
/**
 * Reaction analytics (`ReactionAnalytics`): emoji sentiment classes, the
 * group mood over a chat's recent reactions, and a user's reaction
 * statistics with their personality insights.
 *
 * Percentages are kept as the counts they are computed from: a test such as
 * `pct > 60` becomes `100 * count > 60 * total`. The reactions of a chat are
 * an input that stands for the intended fetch: as written, the fetch calls a
 * method the profile manager does not define, so it always yields nothing
 * (`GetGroupMoodAsWritten`).
 */
module ReactionAnalytics {
  import opened Wrappers
  import opened PyList
  import Emoji
  import Profiles

  // ------------------------------------------------------------- sentiment

  datatype Sentiment = Positive | Negative | Neutral

  const PositiveEmoji: set<string> := {
    Emoji.ThumbsUp, Emoji.RedHeart, Emoji.Fire, Emoji.Smiling, Emoji.TearsOfJoy, Emoji.PartyPopper,
    Emoji.CheckMark, Emoji.Hundred, Emoji.Grinning, Emoji.HeartEyes, Emoji.SmilingHearts, Emoji.Hugging}

  const NegativeEmoji: set<string> := {
    Emoji.ThumbsDown, Emoji.Angry, Emoji.Crying, Emoji.BrokenHeart, Emoji.CrossMark,
    Emoji.Disappointed, Emoji.Pensive, Emoji.Confused, Emoji.Persevering, Emoji.Confounded}

  /** `_classify_emoji_sentiment`. */
  function ClassifySentiment(emoji: string): (s: Sentiment)
    ensures s == Positive <==> emoji in PositiveEmoji
    ensures s == Negative <==> emoji in NegativeEmoji
    ensures s == Neutral <==> emoji !in PositiveEmoji && emoji !in NegativeEmoji
  {
    SentimentSetsDisjoint();
    if emoji in PositiveEmoji then Positive
    else if emoji in NegativeEmoji then Negative
    else Neutral
  }

  /** No emoji is both positive and negative, so the classes are well defined. */
  lemma SentimentSetsDisjoint()
    ensures PositiveEmoji !! NegativeEmoji
  {
  }

  /** The thinking face, which the reaction selector often picks, counts as neutral. */
  lemma ThinkingIsNeutral()
    ensures ClassifySentiment(Emoji.Thinking) == Neutral
  {
  }

  // ------------------------------------------------------------------ mood

  const VeryPositiveMood := "Very Positive"
  const PositiveMood := "Positive"
  const NegativeMood := "Negative"
  const MixedMood := "Mixed"
  const NeutralMood := "Neutral"
  const UnknownMood := "Unknown"

  /** `_determine_overall_mood` on counts: the first of the thresholds that
      is passed, positives first. */
  function DetermineOverallMood(positive: nat, negative: nat, total: nat): (m: string)
    ensures m in {VeryPositiveMood, PositiveMood, NegativeMood, MixedMood, NeutralMood}
    ensures m == VeryPositiveMood <==> 100 * positive > 60 * total
    ensures m == PositiveMood <==> 40 * total < 100 * positive <= 60 * total
    ensures m == NegativeMood <==> 100 * positive <= 40 * total && 100 * negative > 40 * total
    ensures m == MixedMood <==>
      25 * total < 100 * positive <= 40 * total && 100 * negative <= 40 * total
    ensures m == NeutralMood <==> 100 * positive <= 25 * total && 100 * negative <= 40 * total
  {
    if 100 * positive > 60 * total then VeryPositiveMood
    else if 100 * positive > 40 * total then PositiveMood
    else if 100 * negative > 40 * total then NegativeMood
    else if 100 * positive > 25 * total then MixedMood
    else NeutralMood
  }

  /** A reaction of a chat: the emoji and the user who reacted. */
  datatype Reaction = Reaction(emoji: string, userId: int)

  /** The result of `get_group_mood`. `message` is the explanation of the
      empty result; the insight sentence of a real result is not modelled. */
  datatype MoodData = MoodData(
    overallMood: string,
    positive: nat,
    negative: nat,
    neutral: nat,
    activeUsers: nat,
    recentReactions: nat,
    message: Option<string>)

  /** `_get_empty_mood_data`. */
  function EmptyMood(message: string): (d: MoodData)
    ensures d.overallMood == UnknownMood && d.message == Some(message)
    ensures d.positive == d.negative == d.neutral == d.activeUsers == d.recentReactions == 0
  {
    MoodData(UnknownMood, 0, 0, 0, 0, 0, Some(message))
  }

  /** How many of the reactions have sentiment `s`. */
  function CountSentiment(rs: seq<Reaction>, s: Sentiment): (n: nat)
    ensures n <= |rs|
  {
    if rs == [] then 0
    else CountSentiment(rs[..|rs| - 1], s) + (if ClassifySentiment(rs[|rs| - 1].emoji) == s then 1 else 0)
  }

  /** Every reaction has exactly one sentiment. */
  lemma {:induction false} SentimentCountsSum(rs: seq<Reaction>)
    ensures CountSentiment(rs, Positive) + CountSentiment(rs, Negative) + CountSentiment(rs, Neutral) == |rs|
  {
    if rs != [] {
      SentimentCountsSum(rs[..|rs| - 1]);
    }
  }

  /** The distinct users among the reactions. */
  function Reactors(rs: seq<Reaction>): set<int> {
    set r | r in rs :: r.userId
  }

  /** There are never more distinct users than reactions. */
  lemma {:induction false} ReactorsAtMostReactions(rs: seq<Reaction>)
    ensures |Reactors(rs)| <= |rs|
  {
    if rs != [] {
      var init := rs[..|rs| - 1];
      ReactorsAtMostReactions(init);
      assert Reactors(rs) == Reactors(init) + {rs[|rs| - 1].userId} by {
        assert forall r | r in rs :: r in init || r == rs[|rs| - 1];
        assert forall r | r in init :: r in rs;
      }
    }
  }

  /** Extending a prefix of the reactions by one reaction. */
  lemma PrefixStep(rs: seq<Reaction>, i: nat)
    requires i < |rs|
    ensures forall s :: (CountSentiment(rs[..i + 1], s)
      == CountSentiment(rs[..i], s) + (if ClassifySentiment(rs[i].emoji) == s then 1 else 0))
    ensures Reactors(rs[..i + 1]) == Reactors(rs[..i]) + {rs[i].userId}
  {
    assert rs[..i + 1][..i] == rs[..i];
    var r := rs[i];
    assert forall x | x in rs[..i + 1] :: x in rs[..i] || x == r;
    assert forall x | x in rs[..i] :: x in rs[..i + 1];
  }

  /** `get_group_mood` over the chat's recent reactions. */
  method GetGroupMood(rs: seq<Reaction>) returns (d: MoodData)
    ensures rs == [] ==> d == EmptyMood("No recent reactions to analyze")
    ensures rs != [] ==>
      (d.recentReactions == |rs|
       && d.positive + d.negative + d.neutral == |rs|
       && d.positive == CountSentiment(rs, Positive)
       && d.negative == CountSentiment(rs, Negative)
       && d.neutral == CountSentiment(rs, Neutral)
       && d.activeUsers == |Reactors(rs)| <= |rs|
       && d.overallMood == DetermineOverallMood(d.positive, d.negative, |rs|)
       && d.message.None?)
  {
    if rs == [] {
      return EmptyMood("No recent reactions to analyze");
    }
    var positive, negative, neutral := 0, 0, 0;
    var users: set<int> := {};
    var i := 0;
    while i < |rs|
      invariant 0 <= i <= |rs|
      invariant positive == CountSentiment(rs[..i], Positive)
      invariant negative == CountSentiment(rs[..i], Negative)
      invariant neutral == CountSentiment(rs[..i], Neutral)
      invariant users == Reactors(rs[..i])
    {
      var r := rs[i];
      PrefixStep(rs, i);
      match ClassifySentiment(r.emoji) {
        case Positive => positive := positive + 1;
        case Negative => negative := negative + 1;
        case Neutral => neutral := neutral + 1;
      }
      users := users + {r.userId};
      i := i + 1;
    }
    assert rs[..i] == rs;
    SentimentCountsSum(rs);
    ReactorsAtMostReactions(rs);
    d := MoodData(DetermineOverallMood(positive, negative, |rs|), positive, negative, neutral,
                  |users|, |rs|, None);
  }

  // ---------------------------------------------------------- sorting tallies

  /** `_get_recent_reactions` as written: it asks the profile manager for
      `get_recent_chat_reactions`, which `ProfileManager` does not define;
      the `AttributeError` is caught and no reactions come back. */
  function RecentReactionsAsWritten(chatId: int, hours: int): (rs: seq<Reaction>)
    ensures rs == []
  {
    var fetched: Result<seq<Reaction>, string> :=
      Err("AttributeError: 'ProfileManager' object has no attribute 'get_recent_chat_reactions'");
    match fetched
    case Ok(reactions) => reactions
    case Err(_) => []
  }

  /** `get_group_mood` as written: the fetch always yields nothing, so every
      chat gets the empty mood, whatever reactions its members gave. */
  method GetGroupMoodAsWritten(chatId: int) returns (d: MoodData)
    ensures d == EmptyMood("No recent reactions to analyze")
    ensures d.recentReactions == 0 && d.overallMood == UnknownMood
  {
    var rs := RecentReactionsAsWritten(chatId, 24);
    d := GetGroupMood(rs);
  }

  /** Tallies in non-increasing order of count. */
  predicate SortedDesc(c: Counter) {
    forall i, j | 0 <= i < j < |c| :: c[i].1 >= c[j].1
  }

  /** Insert `x` before the first entry whose count it reaches, so that equal
      counts keep their order. */
  function Insert(x: (string, int), s: Counter): (r: Counter)
    ensures |r| == |s| + 1
    ensures multiset(r) == multiset(s) + multiset{x}
  {
    if s == [] || x.1 >= s[0].1 then [x] + s
    else
      assert s == [s[0]] + s[1..];
      [s[0]] + Insert(x, s[1..])
  }

  lemma {:induction false} InsertSorted(x: (string, int), s: Counter)
    requires SortedDesc(s)
    ensures SortedDesc(Insert(x, s))
  {
    if s != [] && x.1 < s[0].1 {
      InsertSorted(x, s[1..]);
      var r := Insert(x, s[1..]);
      forall j | 0 <= j < |r| ensures s[0].1 >= r[j].1 {
        assert r[j] in multiset(r);
        if r[j] != x {
          assert r[j] in multiset(s[1..]);
          var k :| 0 <= k < |s[1..]| && s[1..][k] == r[j];
          assert s[k + 1] == r[j];
        }
      }
    }
  }

  /** Python's `sorted(c, key=count, reverse=True)`: a stable sort by
      decreasing count. */
  function SortDesc(c: Counter): (r: Counter)
    ensures |r| == |c|
    ensures multiset(r) == multiset(c)
    ensures SortedDesc(r)
  {
    if c == [] then []
    else
      var rest := SortDesc(c[1..]);
      InsertSorted(c[0], rest);
      assert c == [c[0]] + c[1..];
      Insert(c[0], rest)
  }

  /** The five most frequent reactions: at most five, in non-increasing
      order, taken from the tallies, and none of the tallies left out has a
      higher count than one kept. */
  function TopFive(c: Counter): (r: Counter)
    ensures |r| <= 5 && (|c| >= 5 ==> |r| == 5) && (|c| < 5 ==> |r| == |c|)
    ensures SortedDesc(r)
    ensures multiset(r) <= multiset(c)
    ensures forall k, e | k in r && e in multiset(c) - multiset(r) :: k.1 >= e.1
  {
    var sorted := SortDesc(c);
    PrefixIsTop(sorted, 5);
    Upto(sorted, 5)
  }

  /** A prefix of a sorted list holds its largest entries. */
  lemma PrefixIsTop(sorted: Counter, n: nat)
    requires SortedDesc(sorted)
    ensures var r := Upto(sorted, n);
      SortedDesc(r) && multiset(r) <= multiset(sorted)
      && forall k, e | k in r && e in multiset(sorted) - multiset(r) :: k.1 >= e.1
  {
    var r := Upto(sorted, n);
    var rest := sorted[|r|..];
    assert sorted == r + rest;
    assert multiset(sorted) == multiset(r) + multiset(rest);
    assert multiset(sorted) - multiset(r) == multiset(rest);
    PrefixBeatsRest(sorted, |r|);
    forall k: (string, int), e: (string, int) | k in r && e in multiset(rest) ensures k.1 >= e.1 {
      assert e in rest;
    }
  }

  /** In a sorted list every entry before position `m` has at least the
      count of every entry from `m` on. */
  lemma PrefixBeatsRest(sorted: Counter, m: nat)
    requires SortedDesc(sorted) && m <= |sorted|
    ensures forall k, e | k in sorted[..m] && e in sorted[m..] :: k.1 >= e.1
  {
    forall k, e | k in sorted[..m] && e in sorted[m..] ensures k.1 >= e.1 {
      var i :| 0 <= i < m && sorted[..m][i] == k;
      var j :| 0 <= j < |sorted| - m && sorted[m..][j] == e;
      assert sorted[i] == k && sorted[m + j] == e;
    }
  }

  /** Python's `Counter(xs)`: tallies in order of first appearance. */
  function Tally(xs: seq<string>): (c: Counter)
    ensures Total(c) == |xs|
    ensures UniqueKeys(c)
    ensures forall k :: k in Keys(c) <==> k in xs
    ensures forall k :: Get(c, k) == multiset(xs)[k]
  {
    if xs == [] then []
    else
      var init, x := xs[..|xs| - 1], xs[|xs| - 1];
      var c0 := Tally(init);
      assert xs == init + [x];
      IncTotal(c0, x);
      IncKeepsUniqueKeys(c0, x);
      assert forall k :: k in Keys(Inc(c0, x)) <==> k in xs by {
        forall k ensures k in Keys(Inc(c0, x)) <==> k in xs {
          KeysOfInc(c0, x, k);
        }
      }
      assert forall k :: Get(Inc(c0, x), k) == multiset(xs)[k] by {
        forall k ensures Get(Inc(c0, x), k) == multiset(xs)[k] {
          IncGet(c0, x, k);
        }
      }
      Inc(c0, x)
  }

  // ------------------------------------------------------- personality

  /** The index Python's `max(c, key=count)` picks: the first entry with the
      largest count. */
  function TopIndex(c: Counter): (i: nat)
    requires c != []
    ensures i < |c|
    ensures forall j | 0 <= j < |c| :: c[j].1 <= c[i].1
    ensures forall j | 0 <= j < i :: c[j].1 < c[i].1
  {
    if |c| == 1 then 0
    else
      var j := TopIndex(c[..|c| - 1]);
      assert forall k | 0 <= k < |c| - 1 :: c[..|c| - 1][k] == c[k];
      if c[|c| - 1].1 > c[j].1 then |c| - 1 else j
  }

  /** The insights `_analyze_reaction_personality` and the empty statistics can give. */
  datatype Insight =
    | HumorLover | Affectionate | Supportive | Thoughtful
    | Upbeat | DeepThinker | EnjoysHumor | EngagesQuestions
    | StillDeveloping | NoData

  function InsightText(i: Insight): string {
    match i
    case HumorLover => "Has a great sense of humor and appreciates jokes"
    case Affectionate => "Very affectionate and shows appreciation often"
    case Supportive => "Supportive and encouraging of others"
    case Thoughtful => "Thoughtful and contemplative"
    case Upbeat => "Overwhelmingly positive and upbeat"
    case DeepThinker => "Tends to think deeply about content"
    case EnjoysHumor => "Really enjoys humorous content"
    case EngagesQuestions => "Engages with thoughtful questions"
    case StillDeveloping => "Reaction patterns still developing"
    case NoData => "No reaction data available"
  }

  /** The four groups of favourite emoji that give an insight, in the order they are tried. */
  const HumorEmojis := [Emoji.TearsOfJoy, Emoji.Grinning, Emoji.RollingLaughing]
  const AffectionEmojis := [Emoji.RedHeart, Emoji.SmilingHearts, Emoji.HeartEyes]
  const SupportEmojis := [Emoji.ThumbsUp, Emoji.CheckMark, Emoji.Hundred]
  const ThoughtEmojis := [Emoji.Thinking, Emoji.ThoughtBalloon, Emoji.Monocle]

  /** The insight about the favourite emoji, if it belongs to one of the four groups. */
  function FavoriteInsight(favorites: Counter): (r: Option<Insight>)
    ensures r.Some? ==> favorites != [] && r.value in {HumorLover, Affectionate, Supportive, Thoughtful}
    ensures favorites == [] ==> r.None?
    ensures favorites != [] ==> var top := favorites[TopIndex(favorites)].0;
      && (r == Some(HumorLover) <==> top in HumorEmojis)
      && (r == Some(Affectionate) <==> top !in HumorEmojis && top in AffectionEmojis)
      && (r == Some(Supportive) <==> top !in HumorEmojis + AffectionEmojis && top in SupportEmojis)
      && (r == Some(Thoughtful) <==> top !in HumorEmojis + AffectionEmojis + SupportEmojis && top in ThoughtEmojis)
      && (r.None? <==> top !in HumorEmojis + AffectionEmojis + SupportEmojis + ThoughtEmojis)
  {
    if favorites == [] then None
    else
      var top := favorites[TopIndex(favorites)].0;
      if top in HumorEmojis then Some(HumorLover)
      else if top in AffectionEmojis then Some(Affectionate)
      else if top in SupportEmojis then Some(Supportive)
      else if top in ThoughtEmojis then Some(Thoughtful)
      else None
  }

  /** The insight about the emotional buckets: over 70% positive, else over
      40% thoughtful, counted among positive, negative and thoughtful. */
  function EmotionalInsight(emotions: Counter): (r: Option<Insight>)
    ensures r == Some(Upbeat) <==>
      (var p, n, t := Get(emotions, "positive"), Get(emotions, "negative"), Get(emotions, "thoughtful");
       emotions != [] && p + n + t > 0 && 10 * p > 7 * (p + n + t))
    ensures r == Some(DeepThinker) <==>
      (var p, n, t := Get(emotions, "positive"), Get(emotions, "negative"), Get(emotions, "thoughtful");
       emotions != [] && p + n + t > 0 && 10 * p <= 7 * (p + n + t) && 10 * t > 4 * (p + n + t))
    ensures r.Some? ==> r.value in {Upbeat, DeepThinker}
  {
    if emotions == [] then None
    else
      var p, n, t := Get(emotions, "positive"), Get(emotions, "negative"), Get(emotions, "thoughtful");
      var total := p + n + t;
      if total > 0 then
        if 10 * p > 7 * total then Some(Upbeat)
        else if 10 * t > 4 * total then Some(DeepThinker)
        else None
      else None
  }

  function OptionList(o: Option<Insight>): (r: seq<Insight>)
    ensures |r| <= 1 && (r == [] <==> o.None?) && (o.Some? ==> r == [o.value])
  {
    if o.Some? then [o.value] else []
  }

  /** `_analyze_reaction_personality`: at most one favourite-emoji insight, at
      most one emotional insight, one per liked target, and the "still
      developing" line exactly when none of those fired (and then alone). */
  function AnalyzeReactionPersonality(rp: Profiles.ReactionPatterns): (insights: seq<Insight>)
    ensures 1 <= |insights| <= 4
    ensures var fired := (if FavoriteInsight(rp.favoriteReactions).Some? then 1 else 0)
                         + (if EmotionalInsight(rp.emotionalResponses).Some? then 1 else 0)
                         + (if "humor" in rp.reactionTargets then 1 else 0)
                         + (if "questions" in rp.reactionTargets then 1 else 0);
      |insights| == if fired == 0 then 1 else fired
    ensures StillDeveloping in insights <==>
      FavoriteInsight(rp.favoriteReactions).None? && EmotionalInsight(rp.emotionalResponses).None?
      && "humor" !in rp.reactionTargets && "questions" !in rp.reactionTargets
    ensures StillDeveloping in insights ==> insights == [StillDeveloping]
    ensures EnjoysHumor in insights <==> "humor" in rp.reactionTargets
    ensures EngagesQuestions in insights <==> "questions" in rp.reactionTargets
    ensures FavoriteInsight(rp.favoriteReactions).Some? ==> insights[0] == FavoriteInsight(rp.favoriteReactions).value
    ensures EmotionalInsight(rp.emotionalResponses).Some? ==> EmotionalInsight(rp.emotionalResponses).value in insights
  {
    var found := OptionList(FavoriteInsight(rp.favoriteReactions))
      + OptionList(EmotionalInsight(rp.emotionalResponses))
      + (if "humor" in rp.reactionTargets then [EnjoysHumor] else [])
      + (if "questions" in rp.reactionTargets then [EngagesQuestions] else []);
    if found == [] then [StillDeveloping] else found
  }

  // ----------------------------------------------------------- user stats

  /** The result of `get_user_reaction_stats`. The two distributions keep the
      counts their percentages are computed from. */
  datatype UserStats = UserStats(
    totalReactions: int,
    favoriteReactions: Counter,
    emotionalDistribution: Counter,
    reactionTargets: Counter,
    personalityInsights: seq<Insight>,
    reactionRate: real)

  /** `_get_empty_user_stats`. */
  const EmptyUserStats := UserStats(0, [], [], [], [NoData], 0.0)

  /** `_calculate_reaction_rate`: reactions per message, 0 without messages. */
  function ReactionRate(p: Profiles.UserProfile): (rate: real)
    ensures p.messageCount == 0 ==> rate == 0.0
    ensures p.messageCount != 0 ==> rate * (p.messageCount as real) == p.reactionPatterns.totalReactions as real
  {
    if p.messageCount == 0 then 0.0
    else (p.reactionPatterns.totalReactions as real) / (p.messageCount as real)
  }

  /** `get_user_reaction_stats` for the user's loaded profile. */
  function GetUserReactionStats(p: Profiles.UserProfile): (s: UserStats)
    ensures p.reactionPatterns.totalReactions == 0 ==> s == EmptyUserStats
    ensures p.reactionPatterns.totalReactions != 0 ==>
      (s.totalReactions == p.reactionPatterns.totalReactions
       && s.favoriteReactions == TopFive(p.reactionPatterns.favoriteReactions)
       && |s.favoriteReactions| <= 5 && SortedDesc(s.favoriteReactions)
       && multiset(s.favoriteReactions) <= multiset(p.reactionPatterns.favoriteReactions)
       && (Total(p.reactionPatterns.emotionalResponses) > 0 <==> s.emotionalDistribution != [])
       && s.reactionTargets == SortDesc(Tally(p.reactionPatterns.reactionTargets))
       && SortedDesc(s.reactionTargets)
       && Total(s.reactionTargets) == |p.reactionPatterns.reactionTargets|
       && s.personalityInsights == AnalyzeReactionPersonality(p.reactionPatterns)
       && s.reactionRate == ReactionRate(p))
  {
    var rp := p.reactionPatterns;
    if rp.totalReactions == 0 then EmptyUserStats
    else
      var targets := SortDesc(Tally(rp.reactionTargets));
      TotalSortDesc(Tally(rp.reactionTargets));
      UserStats(
        rp.totalReactions,
        TopFive(rp.favoriteReactions),
        if Total(rp.emotionalResponses) > 0 then rp.emotionalResponses else [],
        targets,
        AnalyzeReactionPersonality(rp),
        ReactionRate(p))
  }

  /** Inserting an entry adds its count to the sum. */
  lemma {:induction false} TotalInsert(x: (string, int), s: Counter)
    ensures Total(Insert(x, s)) == x.1 + Total(s)
  {
    if s != [] && x.1 < s[0].1 {
      TotalInsert(x, s[1..]);
    }
  }

  /** Sorting tallies keeps their sum. */
  lemma {:induction false} TotalSortDesc(c: Counter)
    ensures Total(SortDesc(c)) == Total(c)
  {
    if c != [] {
      TotalSortDesc(c[1..]);
      TotalInsert(c[0], SortDesc(c[1..]));
    }
  }

  lemma {:induction false} TotalSplit(a: Counter, b: Counter)
    ensures Total(a + b) == Total(a) + Total(b)
  {
    if a != [] {
      assert (a + b)[1..] == a[1..] + b;
      TotalSplit(a[1..], b);
    } else {
      assert a + b == b;
    }
  }
}

=== FILE: reaction_manager.dfy ===
/**
 * The reaction selector (`ReactionManager`): a per-chat cooldown and
 * probability gate, the first-match keyword cascade that picks an emoji, and
 * the process-wide instance.
 *
 * The clock (`time.time()`, seconds as a real) and the random draws
 * (`random.random()` and the index `random.choice` takes) are parameters.
 */
module ReactionManager {
  import opened Wrappers
  import opened Text
  import Emoji
  import Config

  /** One branch of `choose_reaction`: any of the keywords selects the emoji. */
  datatype Rule = Rule(keywords: seq<string>, emoji: string)

  /** The branches in the order they are tried. */
  const Rules: seq<Rule> := [
    Rule(["lol", "haha", "lmao", "funny", "joke", Emoji.TearsOfJoy, Emoji.RollingLaughing], Emoji.TearsOfJoy),
    Rule(["wtf", "wow", "omg", "!", "shocking"], Emoji.Screaming),
    Rule(["good", "great", "awesome", "perfect", "nice", Emoji.ThumbsUp], Emoji.ThumbsUp),
    Rule(["fire", "amazing", "incredible", Emoji.Fire], Emoji.Fire),
    Rule(["hmm", "think", "?", "question"], Emoji.Thinking),
    Rule(["watch", "see", "look", Emoji.Eyes], Emoji.Eyes),
    Rule(["100", "exactly", "agree", "true"], Emoji.Hundred),
    Rule(["right", "correct", "spot on", "exactly"], Emoji.DirectHit)
  ]

  /** Python's `any(word in text for word in words)`. */
  predicate AnyIn(text: string, words: seq<string>) {
    exists w | w in words :: Contains(text, w)
  }

  /** A rule fires on `text`. */
  predicate Fires(text: string, j: nat)
    requires j < |Rules|
  {
    AnyIn(text, Rules[j].keywords)
  }

  /** The first rule at or after `k` that fires on `text`. */
  function FirstRule(text: string, k: nat): (r: Option<nat>)
    requires k <= |Rules|
    decreases |Rules| - k
    ensures r.Some? ==> k <= r.value < |Rules| && Fires(text, r.value)
    ensures forall j | k <= j < |Rules| && (r.None? || j < r.value) :: !Fires(text, j)
  {
    if k == |Rules| then None
    else if Fires(text, k) then Some(k)
    else FirstRule(text, k + 1)
  }

  /** `choose_reaction`: the emoji of the first rule that fires on the
      lower-cased text, else the `pick`-th reaction type; `random.choice`
      on an empty list raises, which is `None` here. */
  function ChooseReaction(text: string, reactionTypes: seq<string>, pick: nat): (r: Option<string>)
    requires reactionTypes == [] || pick < |reactionTypes|
    ensures var lower := LowerStr(text);
      r.None? <==> reactionTypes == [] && forall j | 0 <= j < |Rules| :: !Fires(lower, j)
    ensures var lower := LowerStr(text);
      forall j | 0 <= j < |Rules| && Fires(lower, j) && (forall i | 0 <= i < j :: !Fires(lower, i)) ::
        r == Some(Rules[j].emoji)
    ensures r.Some? ==> r.value in reactionTypes || exists j | 0 <= j < |Rules| :: r.value == Rules[j].emoji
  {
    var lower := LowerStr(text);
    var m := FirstRule(lower, 0);
    if m.Some? then Some(Rules[m.value].emoji)
    else if reactionTypes == [] then None
    else Some(reactionTypes[pick])
  }

  /** "lol" or "funny" anywhere in the text, in any case, gives the tears of joy. */
  lemma LaughterGivesTearsOfJoy(text: string, reactionTypes: seq<string>, pick: nat)
    requires reactionTypes == [] || pick < |reactionTypes|
    requires Contains(LowerStr(text), "lol") || Contains(LowerStr(text), "funny")
    ensures ChooseReaction(text, reactionTypes, pick) == Some(Emoji.TearsOfJoy)
  {
    var lower := LowerStr(text);
    assert Fires(lower, 0) by {
      if Contains(lower, "lol") {
        assert "lol" in Rules[0].keywords;
      } else {
        assert "funny" in Rules[0].keywords;
      }
    }
  }

  /** "exactly" already fires the agreement rule, so the accuracy rule's
      direct hit comes only from "right", "correct" or "spot on". */
  lemma DirectHitOnlyFromAccuracyWords(text: string, reactionTypes: seq<string>, pick: nat)
    requires reactionTypes == [] || pick < |reactionTypes|
    requires Emoji.DirectHit !in reactionTypes
    requires ChooseReaction(text, reactionTypes, pick) == Some(Emoji.DirectHit)
    ensures var lower := LowerStr(text);
      !Contains(lower, "exactly")
      && (Contains(lower, "right") || Contains(lower, "correct") || Contains(lower, "spot on"))
  {
    var lower := LowerStr(text);
    var m := FirstRule(lower, 0);
    assert m.Some? && Rules[m.value].emoji == Emoji.DirectHit;
    OnlyLastRuleHits(m.value);
    assert !Fires(lower, 6);
    assert "exactly" in Rules[6].keywords;
    var w :| w in Rules[7].keywords && Contains(lower, w);
  }

  /** The direct hit is the emoji of the last rule only. */
  lemma OnlyLastRuleHits(j: nat)
    requires j < |Rules| && Rules[j].emoji == Emoji.DirectHit
    ensures j == 7
  {
  }

  // ----------------------------------------------------------------- manager

  /** `ReactionManager`: the configuration and the time of the last own
      reaction per chat. */
  class ReactionManager {
    const config: Config.BotConfig
    var lastReactionTime: map<int, real>

    constructor (config: Config.BotConfig)
      ensures this.config == config && lastReactionTime == map[]
    {
      this.config := config;
      lastReactionTime := map[];
    }

    /** `last_reaction_time.get(chat_id, 0)`. */
    function LastTime(chatId: int): real
      reads this
    {
      if chatId in lastReactionTime then lastReactionTime[chatId] else 0.0
    }

    /** `should_react`: enabled, own reactions on, the cooldown over and the
        draw below the probability. It only reads the state. */
    method ShouldReact(chatId: int, now: real, draw: real) returns (react: bool)
      requires 0.0 <= draw < 1.0
      ensures var rs := config.yamlConfig.reactionSystem;
        !rs.enabled || !rs.addOwnReactions ==> !react
      ensures var rs := config.yamlConfig.reactionSystem;
        now - LastTime(chatId) < rs.minTimeBetweenReactionsSeconds as real ==> !react
      ensures var rs := config.yamlConfig.reactionSystem;
        (rs.enabled && rs.addOwnReactions && now - LastTime(chatId) >= rs.minTimeBetweenReactionsSeconds as real)
        ==> (react <==> draw < rs.reactionProbability)
    {
      var rs := config.yamlConfig.reactionSystem;
      if !rs.enabled {
        return false;
      }
      if !rs.addOwnReactions {
        return false;
      }
      var timeSince := now - LastTime(chatId);
      if timeSince < rs.minTimeBetweenReactionsSeconds as real {
        return false;
      }
      react := draw < rs.reactionProbability;
    }

    /** `mark_reacted`: only this chat's time changes. */
    method MarkReacted(chatId: int, now: real)
      modifies this
      ensures lastReactionTime == old(lastReactionTime)[chatId := now]
      ensures LastTime(chatId) == now
      ensures forall c | c != chatId :: LastTime(c) == old(LastTime(c))
    {
      lastReactionTime := lastReactionTime[chatId := now];
    }
  }

  /** The module global behind `get_reaction_manager`. */
  class ReactionManagerHolder {
    var instance: Option<ReactionManager>

    constructor ()
      ensures instance == None
    {
      instance := None;
    }

    /** `get_reaction_manager`: the first call creates the manager from its
        configuration; every later call returns that manager and ignores its
        argument. */
    method GetReactionManager(config: Config.BotConfig) returns (m: ReactionManager)
      modifies this
      ensures old(instance).Some? ==> m == old(instance).value && instance == old(instance)
      ensures old(instance).None? ==>
        fresh(m) && m.config == config && m.lastReactionTime == map[] && instance == Some(m)
    {
      if instance.None? {
        var created := new ReactionManager(config);
        instance := Some(created);
      }
      m := instance.value;
    }
  }
}

=== FILE: telegram.dfy ===
/**
 * The parts of a Telegram update the bot's core reads. Absent optional
 * fields are `None`; the sender of the message being replied to is flattened
 * into `replyToFrom` (None when there is no reply or it has no sender).
 */
module Telegram {
  import opened Wrappers

  datatype User = User(
    id: int,
    isBot: bool,
    firstName: string,
    lastName: Option<string>,
    username: Option<string>)

  /** A `MessageEntity`: its type (`"mention"`, `"text_mention"`, ...) and
      the span of the text it covers. */
  datatype Entity = Entity(kind: string, offset: int, length: int)

  datatype Message = Message(
    messageId: int,
    chatId: int,
    chatType: string,
    fromUser: Option<User>,
    text: Option<string>,
    caption: Option<string>,
    replyToFrom: Option<int>,
    entities: seq<Entity>)

  /** Python's `value or ""` for an optional string. */
  function OrEmpty(s: Option<string>): string {
    if s.Some? then s.value else ""
  }

  /** `message.text` is truthy. */
  predicate HasText(m: Message) {
    m.text.Some? && m.text.value != ""
  }
}

=== FILE: text.dfy ===
/**
 * The handful of Python string operations the bot relies on: membership of a
 * substring (`in`), `find`/`rfind`, `startswith`, `strip`/`lstrip`, `split()`,
 * `split(maxsplit=1)`, `join`, `lower`, `isalpha`, `isspace` and `str(int)`.
 *
 * `IsSpace` is Python's whitespace set in full. `IsAlpha` and `Lower` follow
 * Python's tables for ASCII, Latin-1 and the Cyrillic block U+0400..U+04FF,
 * which is what the bot's heuristics distinguish; other scripts are treated
 * as neither letters nor cased.
 */
module Text {

  // ---------------------------------------------------------------- characters

  predicate IsSpace(c: char) {
    c == ' ' || c == '\t' || c == '\n' || c == '\r' || c == '\U{000B}' || c == '\U{000C}'
    || ('\U{001C}' <= c <= '\U{001F}') || c == '\U{0085}' || c == '\U{00A0}'
    || c == '\U{1680}' || ('\U{2000}' <= c <= '\U{200A}') || c == '\U{2028}' || c == '\U{2029}'
    || c == '\U{202F}' || c == '\U{205F}' || c == '\U{3000}'
  }

  /** The test the bot uses for "Russian": a code point in U+0400..U+04FF. */
  predicate IsCyrillic(c: char) {
    '\U{0400}' <= c <= '\U{04FF}'
  }

  predicate IsAsciiLetter(c: char) {
    ('a' <= c <= 'z') || ('A' <= c <= 'Z')
  }

  predicate IsAlpha(c: char) {
    IsAsciiLetter(c)
    || c == '\U{00AA}' || c == '\U{00B5}' || c == '\U{00BA}'
    || ('\U{00C0}' <= c <= '\U{00FF}' && c != '\U{00D7}' && c != '\U{00F7}')
    || ('\U{0400}' <= c <= '\U{0481}') || ('\U{048A}' <= c <= '\U{04FF}')
  }

  /** The Cyrillic capitals whose small letter is the next code point: the
      even code points of U+0460..U+0481, U+048A..U+04BF and U+04D0..U+04FF,
      and the odd ones of U+04C1..U+04CE. */
  predicate CyrillicPairCapital(c: char) {
    var n := c as int;
    (n % 2 == 0 && (0x0460 <= n <= 0x0481 || 0x048A <= n <= 0x04BF || 0x04D0 <= n <= 0x04FF))
    || (n % 2 == 1 && 0x04C1 <= n <= 0x04CE)
  }

  /** Python's `str.lower` for one character of ASCII, Latin-1 or Cyrillic. */
  function Lower(c: char): char {
    if 'A' <= c <= 'Z' then (c as int + 32) as char
    else if '\U{00C0}' <= c <= '\U{00DE}' && c != '\U{00D7}' then (c as int + 32) as char
    else if '\U{0410}' <= c <= '\U{042F}' then (c as int + 32) as char
    else if '\U{0400}' <= c <= '\U{040F}' then (c as int + 80) as char
    else if c == '\U{04C0}' then '\U{04CF}'
    else if CyrillicPairCapital(c) then (c as int + 1) as char
    else c
  }

  /** Lower-casing never moves a character into or out of the Latin range a..z
      unless it was an ASCII letter, and never changes Cyrillic-ness; it maps
      A..Z onto a..z and А..Я onto а..я, keeps letters letters, and is
      idempotent. */
  lemma LowerFacts(c: char)
    ensures ('a' <= Lower(c) <= 'z') <==> IsAsciiLetter(c)
    ensures IsCyrillic(Lower(c)) <==> IsCyrillic(c)
    ensures IsAsciiLetter(c) ==> IsAlpha(c)
    ensures 'A' <= c <= 'Z' ==> 'a' <= Lower(c) <= 'z' && Lower(c) as int - c as int == 'a' as int - 'A' as int
    ensures '\U{0410}' <= c <= '\U{042F}' ==> '\U{0430}' <= Lower(c) <= '\U{044F}'
    ensures IsAlpha(Lower(c)) <==> IsAlpha(c)
    ensures Lower(Lower(c)) == Lower(c)
  {
  }

  /** Lower-casing a lower-cased string changes nothing. */
  lemma LowerStrIdempotent(s: string)
    ensures LowerStr(LowerStr(s)) == LowerStr(s)
  {
    forall i | 0 <= i < |s|
      ensures LowerStr(LowerStr(s))[i] == LowerStr(s)[i]
    {
      LowerFacts(s[i]);
    }
  }

  function LowerStr(s: string): (r: string)
    ensures |r| == |s|
    ensures forall i | 0 <= i < |s| :: r[i] == Lower(s[i])
  {
    seq(|s|, i requires 0 <= i < |s| => Lower(s[i]))
  }

  /** Lower-casing commutes with slicing. */
  lemma LowerStrSlice(s: string, i: nat, j: nat)
    requires i <= j <= |s|
    ensures LowerStr(s[i..j]) == LowerStr(s)[i..j]
  {
  }

  /** Lower-casing commutes with dropping the first character. */
  lemma LowerStrTail(s: string)
    requires s != []
    ensures LowerStr(s[1..]) == LowerStr(s)[1..]
  {
    LowerStrSlice(s, 1, |s|);
    assert s[1..|s|] == s[1..];
  }

  /** Python's `s.replace(c, "")` for one character. */
  function RemoveChar(s: string, c: char): (r: string)
    ensures forall i | 0 <= i < |r| :: r[i] != c
    ensures |r| <= |s|
  {
    if s == [] then []
    else RemoveChar(s[..|s| - 1], c) + (if s[|s| - 1] == c then [] else [s[|s| - 1]])
  }

  // ------------------------------------------------------------ prefix, search

  predicate StartsWith(s: string, p: string) {
    |p| <= |s| && s[..|p|] == p
  }

  predicate OccursAt(s: string, w: string, i: int) {
    0 <= i && i + |w| <= |s| && s[i..i + |w|] == w
  }

  /** Python's `s.find(w, k)`: the first index at or after `k` where `w` occurs, or -1. */
  function FindFrom(s: string, w: string, k: nat): (r: int)
    requires k <= |s|
    decreases |s| - k
    ensures r == -1 || (k <= r && OccursAt(s, w, r))
    ensures r == -1 ==> forall j | k <= j :: !OccursAt(s, w, j)
    ensures r >= 0 ==> forall j | k <= j < r :: !OccursAt(s, w, j)
  {
    if k + |w| > |s| then -1
    else if s[k..k + |w|] == w then k
    else if k == |s| then -1
    else FindFrom(s, w, k + 1)
  }

  function Find(s: string, w: string): (r: int)
    ensures r == -1 || OccursAt(s, w, r)
    ensures r == -1 <==> forall j :: !OccursAt(s, w, j)
    ensures r >= 0 ==> forall j | j < r :: !OccursAt(s, w, j)
  {
    FindFrom(s, w, 0)
  }

  /** Python's `w in s` for strings. */
  predicate Contains(s: string, w: string) {
    Find(s, w) >= 0
  }

  /** A substring of a substring is a substring. */
  lemma ContainsTransitive(s: string, w: string, v: string)
    requires Contains(s, w) && Contains(w, v)
    ensures Contains(s, v)
  {
    var i := Find(s, w);
    var j := Find(w, v);
    forall k | 0 <= k < |v|
      ensures s[i + j + k] == v[k]
    {
      assert w[j..j + |v|][k] == v[k];
      assert s[i..i + |w|][j + k] == w[j + k];
    }
    assert s[i + j..i + j + |v|] == v;
    assert OccursAt(s, v, i + j);
  }

  /** A string contains each of the pieces it is built from. */
  lemma ContainsInfix(a: string, b: string, c: string)
    ensures Contains(a + b + c, b)
  {
    assert (a + b + c)[|a|..|a| + |b|] == b;
    assert OccursAt(a + b + c, b, |a|);
  }

  /** A string contains its front piece. */
  lemma ContainsFront(b: string, c: string)
    ensures Contains(b + c, b)
  {
    assert (b + c)[0..|b|] == b;
    assert OccursAt(b + c, b, 0);
  }

  /** The empty string occurs in every string, as it does in Python. */
  lemma ContainsEmpty(s: string)
    ensures Contains(s, "")
  {
    assert OccursAt(s, "", 0);
  }

  /** Python's `s.rfind(c, 0, limit)` for a one-character needle. */
  function RFindChar(s: string, c: char, limit: nat): (r: int)
    ensures r == -1 || (0 <= r < limit && r < |s| && s[r] == c)
    ensures r == -1 ==> forall j | 0 <= j < limit && j < |s| :: s[j] != c
    ensures forall j | r < j < limit && j < |s| :: s[j] != c
  {
    var n := if limit < |s| then limit else |s|;
    if n == 0 then -1
    else if s[n - 1] == c then n - 1
    else RFindChar(s[..n - 1], c, n - 1)
  }

  // ---------------------------------------------------------------- whitespace

  function LStrip(s: string): (r: string)
    ensures |r| <= |s| && r == s[|s| - |r|..]
    ensures r == [] || !IsSpace(r[0])
    ensures forall i | 0 <= i < |s| - |r| :: IsSpace(s[i])
  {
    if s != [] && IsSpace(s[0]) then LStrip(s[1..]) else s
  }

  function RStrip(s: string): (r: string)
    ensures |r| <= |s| && r == s[..|r|]
    ensures r == [] || !IsSpace(r[|r| - 1])
    ensures forall i | |r| <= i < |s| :: IsSpace(s[i])
  {
    if s != [] && IsSpace(s[|s| - 1]) then RStrip(s[..|s| - 1]) else s
  }

  /** Python's `s.strip()`. */
  function Strip(s: string): (r: string)
    ensures |r| <= |s|
    ensures Stripped(r)
  {
    RStrip(LStrip(s))
  }

  /** `Strip` keeps the slice of `s` left after removing the whitespace at
      both ends, and removes nothing else. */
  lemma StripOnlyEnds(s: string)
    ensures |s| - |LStrip(s)| + |Strip(s)| <= |s|
    ensures Strip(s) == s[|s| - |LStrip(s)|..|s| - |LStrip(s)| + |Strip(s)|]
    ensures forall k | 0 <= k < |s| - |LStrip(s)| :: IsSpace(s[k])
    ensures forall k | |s| - |LStrip(s)| + |Strip(s)| <= k < |s| :: IsSpace(s[k])
  {
    var t := LStrip(s);
    var r := RStrip(t);
    assert Strip(s) == r;
    TrailingOfSuffix(s, t, r);
  }

  /** A prefix `r` of a suffix `t` of `s`, where `t` goes on with whitespace
      only, is a slice of `s` followed by whitespace only. */
  lemma TrailingOfSuffix(s: string, t: string, r: string)
    requires |t| <= |s| && t == s[|s| - |t|..]
    requires |r| <= |t| && r == t[..|r|]
    requires forall k | |r| <= k < |t| :: IsSpace(t[k])
    ensures r == s[|s| - |t|..|s| - |t| + |r|]
    ensures forall k | |s| - |t| + |r| <= k < |s| :: IsSpace(s[k])
  {
    var i := |s| - |t|;
    forall k | i + |r| <= k < |s| ensures IsSpace(s[k]) {
      assert s[k] == t[k - i];
    }
  }

  /** Length of the leading run of non-whitespace characters. */
  function SpanNonSpace(s: string): (n: nat)
    ensures n <= |s|
    ensures forall i | 0 <= i < n :: !IsSpace(s[i])
    ensures n < |s| ==> IsSpace(s[n])
  {
    if s == [] || IsSpace(s[0]) then 0 else 1 + SpanNonSpace(s[1..])
  }

  /** Python's `s.split()`: the maximal runs of non-whitespace characters. */
  function Words(s: string): (r: seq<string>)
    decreases |s|
    ensures AllWords(r)
  {
    var t := LStrip(s);
    if t == [] then []
    else
      var n := SpanNonSpace(t);
      var w, rest := t[..n], Words(t[n..]);
      assert w != [] && NoSpace(w);
      ConsWords(w, rest);
      [w] + rest
  }

  /** Every piece is a non-empty run of non-whitespace. */
  predicate AllWords(ws: seq<string>) {
    forall k | 0 <= k < |ws| :: ws[k] != [] && NoSpace(ws[k])
  }

  lemma ConsWords(w: string, ws: seq<string>)
    requires w != [] && NoSpace(w) && AllWords(ws)
    ensures AllWords([w] + ws)
  {
    var r := [w] + ws;
    forall k | 1 <= k < |r| ensures r[k] != [] && NoSpace(r[k]) {
      assert r[k] == ws[k - 1];
    }
  }

  /** The run of non-whitespace at the start of a word followed by
      whitespace is the word. */
  lemma {:induction false} SpanOfWord(w: string, rest: string)
    requires NoSpace(w)
    requires rest != [] && IsSpace(rest[0])
    ensures SpanNonSpace(w + rest) == |w|
  {
    if w != [] {
      assert (w + rest)[1..] == w[1..] + rest;
      SpanOfWord(w[1..], rest);
    } else {
      assert w + rest == rest;
    }
  }

  /** No whitespace at either end. */
  predicate Stripped(s: string) {
    s == [] || (!IsSpace(s[0]) && !IsSpace(s[|s| - 1]))
  }

  lemma StripStripped(s: string)
    requires Stripped(s)
    ensures Strip(s) == s
  {
    assert LStrip(s) == s;
  }

  /** The first word of a word followed by whitespace is that word. */
  lemma FirstWordOf(w: string, rest: string)
    requires w != [] && NoSpace(w)
    requires rest != [] && IsSpace(rest[0])
    ensures Words(w + rest) != [] && Words(w + rest)[0] == w
  {
    var t := w + rest;
    assert t[0] == w[0];
    assert LStrip(t) == t;
    SpanOfWord(w, rest);
    assert t[..|w|] == w;
  }

  /** Python's `s.split(maxsplit=1)`: the first word and, when anything but
      whitespace follows it, the remainder with its leading whitespace removed. */
  function SplitOnce(s: string): (r: seq<string>)
    ensures |r| <= 2
    ensures r == [] <==> Words(s) == []
    ensures r != [] ==> r[0] == Words(s)[0]
    ensures r != [] ==> StartsWith(LStrip(s), r[0])
    ensures |r| == 2 ==> r[1] != [] && r[1] == LStrip(LStrip(s)[|r[0]|..])
    ensures |r| == 1 ==> LStrip(LStrip(s)[|r[0]|..]) == []
  {
    var t := LStrip(s);
    if t == [] then []
    else
      var n := SpanNonSpace(t);
      var rest := LStrip(t[n..]);
      if rest == [] then [t[..n]] else [t[..n], rest]
  }

  /** A word followed by whitespace and more text splits once into the word
      and that text without its leading whitespace. */
  lemma SplitOnceOfWord(w: string, rest: string)
    requires w != [] && NoSpace(w)
    requires rest != [] && IsSpace(rest[0]) && LStrip(rest) != []
    ensures SplitOnce(w + rest) == [w, LStrip(rest)]
  {
    var t := w + rest;
    assert t[0] == w[0];
    assert LStrip(t) == t;
    SpanOfWord(w, rest);
    assert t[..|w|] == w && t[|w|..] == rest;
  }

  // ------------------------------------------------------------------ building

  /** Python's `sep.join(xs)`. */
  function Join(xs: seq<string>, sep: string): string
  {
    if xs == [] then ""
    else if |xs| == 1 then xs[0]
    else xs[0] + sep + Join(xs[1..], sep)
  }

  lemma JoinEmpty(xs: seq<string>, sep: string)
    requires forall k | 0 <= k < |xs| :: xs[k] == []
    requires sep == []
    ensures Join(xs, sep) == []
  {
    if |xs| > 1 {
      JoinEmpty(xs[1..], sep);
    }
  }

  /** A join whose first piece is non-empty is non-empty. */
  lemma JoinNonEmpty(xs: seq<string>, sep: string)
    requires xs != [] && xs[0] != []
    ensures Join(xs, sep) != []
  {
  }

  /** The concatenation of all pieces, Python's `"".join(xs)`. */
  function Concat(xs: seq<string>): string {
    if xs == [] then "" else xs[0] + Concat(xs[1..])
  }

  lemma ConcatSingle(x: string)
    ensures Concat([x]) == x
  {
    assert Concat([x]) == x + Concat([]);
    assert x + [] == x;
  }

  /** A string contains every slice of itself, and so whatever a slice contains. */
  lemma ContainsSlice(s: string, i: nat, j: nat, w: string)
    requires i <= j <= |s|
    requires Contains(s[i..j], w)
    ensures Contains(s, w)
  {
    assert OccursAt(s, s[i..j], i);
    ContainsTransitive(s, s[i..j], w);
  }

  lemma PrependEmpty(a: string)
    ensures [] + a == a
  {
  }

  lemma AppendEmpty(a: string)
    ensures a + [] == a
  {
  }

  lemma AppendAssoc(a: string, b: string, c: string)
    ensures (a + b) + c == a + (b + c)
  {
  }

  /** A non-empty string contains its tail. */
  lemma ContainsTail(s: string)
    requires s != []
    ensures Contains(s, s[1..])
  {
    assert s[1..1 + |s[1..]|] == s[1..];
    assert OccursAt(s, s[1..], 1);
  }

  /** The pieces `ws` occur in `s` one after another, without overlapping. */
  ghost predicate InOrder(s: string, ws: seq<string>)
    decreases |ws|
  {
    ws == [] || exists i :: OccursAt(s, ws[0], i) && InOrder(s[i + |ws[0]|..], ws[1..])
  }

  /** A piece put in front of a text whose pieces are in order. */
  lemma InOrderCons(a: string, w: string, b: string, rest: seq<string>)
    requires InOrder(b, rest)
    ensures InOrder(a + w + b, [w] + rest)
  {
    var s := a + w + b;
    assert s[|a|..|a| + |w|] == w;
    assert OccursAt(s, w, |a|);
    assert s[|a| + |w|..] == b;
    assert ([w] + rest)[0] == w && ([w] + rest)[1..] == rest;
  }

  /** A text contains each of the pieces it holds in order. */
  lemma {:induction false} InOrderContains(s: string, ws: seq<string>, k: nat)
    requires InOrder(s, ws) && k < |ws|
    ensures Contains(s, ws[k])
    decreases k
  {
    var i :| OccursAt(s, ws[0], i) && InOrder(s[i + |ws[0]|..], ws[1..]);
    if k == 0 {
      assert Find(s, ws[0]) >= 0;
    } else {
      InOrderContains(s[i + |ws[0]|..], ws[1..], k - 1);
      assert s[i + |ws[0]|..] == s[i + |ws[0]|..|s|];
      ContainsSlice(s, i + |ws[0]|, |s|, ws[k]);
    }
  }

  /** A concatenation contains each of its pieces. */
  lemma {:induction false} ConcatContains(xs: seq<string>, i: nat)
    requires i < |xs|
    ensures Contains(Concat(xs), xs[i])
  {
    ConcatSplit(xs, i);
    ContainsInfix(Concat(xs[..i]), xs[i], Concat(xs[i + 1..]));
  }

  lemma {:induction false} ConcatSplit(xs: seq<string>, i: nat)
    requires i < |xs|
    ensures Concat(xs) == Concat(xs[..i]) + xs[i] + Concat(xs[i + 1..])
  {
    if i > 0 {
      ConcatSplit(xs[1..], i - 1);
      assert xs[1..][..i - 1] == xs[1..i];
      assert xs[1..][i - 1] == xs[i];
      assert xs[1..][i..] == xs[i + 1..];
      assert Concat(xs[..i]) == xs[0] + Concat(xs[1..i]) by {
        assert xs[..i][1..] == xs[1..i];
      }
    } else {
      assert Concat(xs[..0]) == "";
    }
  }

  /** The characters of `s` that are not whitespace, in order. */
  function NonSpace(s: string): string {
    if s == [] then [] else NonSpace(s[..|s| - 1]) + (if IsSpace(s[|s| - 1]) then [] else [s[|s| - 1]])
  }

  lemma ConcatSnoc(xs: seq<string>, x: string)
    ensures Concat(xs + [x]) == Concat(xs) + x
  {
    ConcatSplit(xs + [x], |xs|);
    assert (xs + [x])[..|xs|] == xs;
    assert (xs + [x])[|xs| + 1..] == [];
  }

  predicate NoSpace(w: string) {
    forall i | 0 <= i < |w| :: !IsSpace(w[i])
  }

  /** Dropping whitespace distributes over concatenation. */
  lemma {:induction false} NonSpaceAppend(a: string, b: string)
    ensures NonSpace(a + b) == NonSpace(a) + NonSpace(b)
    decreases |b|
  {
    if b != [] {
      var b' := b[..|b| - 1];
      assert (a + b)[..|a + b| - 1] == a + b';
      NonSpaceAppend(a, b');
    } else {
      assert a + b == a;
    }
  }

  /** A run of whitespace has no non-whitespace characters. */
  lemma {:induction false} NonSpaceOfSpaces(s: string)
    requires forall i | 0 <= i < |s| :: IsSpace(s[i])
    ensures NonSpace(s) == []
  {
    if s != [] {
      NonSpaceOfSpaces(s[..|s| - 1]);
    }
  }

  lemma StartsWithAppend(s: string, p: string, t: string)
    requires StartsWith(s, p)
    ensures StartsWith(s + t, p)
  {
    assert (s + t)[..|p|] == s[..|p|];
  }

  lemma StartsWithSelf(s: string)
    ensures StartsWith(s, s)
  {
    assert s[..|s|] == s;
  }

  lemma StartsWithTransitive(s: string, q: string, p: string)
    requires StartsWith(s, q) && StartsWith(q, p)
    ensures StartsWith(s, p)
  {
    assert s[..|p|] == s[..|q|][..|p|];
  }

  /** A join starts with its first piece. */
  lemma JoinStartsWith(xs: seq<string>, sep: string)
    requires xs != []
    ensures StartsWith(Join(xs, sep), xs[0])
  {
    StartsWithSelf(xs[0]);
    if |xs| > 1 {
      StartsWithAppend(xs[0], xs[0], sep);
      StartsWithAppend(xs[0] + sep, xs[0], Join(xs[1..], sep));
    }
  }

  /** Each piece of a join occurs in it. */
  lemma {:induction false} JoinContains(xs: seq<string>, sep: string, i: nat)
    requires i < |xs|
    ensures Contains(Join(xs, sep), xs[i])
  {
    if |xs| == 1 {
      ContainsInfix([], xs[0], []);
      assert [] + xs[0] + [] == xs[0];
    } else if i == 0 {
      ContainsInfix([], xs[0], sep + Join(xs[1..], sep));
      assert [] + xs[0] + (sep + Join(xs[1..], sep)) == Join(xs, sep);
    } else {
      JoinContains(xs[1..], sep, i - 1);
      ContainsInfix(xs[0] + sep, Join(xs[1..], sep), []);
      assert xs[0] + sep + Join(xs[1..], sep) + [] == Join(xs, sep);
      ContainsTransitive(Join(xs, sep), Join(xs[1..], sep), xs[i]);
    }
  }

  // ------------------------------------------------------------------ ordering

  /** Python's `a <= b` on strings: lexicographic by code point. */
  predicate StrLe(a: string, b: string)
    decreases |a|
  {
    a == [] || (b != [] && (a[0] < b[0] || (a[0] == b[0] && StrLe(a[1..], b[1..]))))
  }

  lemma {:induction false} StrLeTotal(a: string, b: string)
    ensures StrLe(a, b) || StrLe(b, a)
    decreases |a|
  {
    if a != [] && b != [] && a[0] == b[0] {
      StrLeTotal(a[1..], b[1..]);
    }
  }

  lemma {:induction false} StrLeTransitive(a: string, b: string, c: string)
    requires StrLe(a, b) && StrLe(b, c)
    ensures StrLe(a, c)
    decreases |a|
  {
    if a != [] && a[0] == b[0] && b[0] == c[0] {
      StrLeTransitive(a[1..], b[1..], c[1..]);
    }
  }

  /** The items are in non-decreasing order of their keys. */
  predicate SortedBy<T>(s: seq<T>, key: T -> string) {
    forall i, j | 0 <= i < j < |s| :: StrLe(key(s[i]), key(s[j]))
  }

  /** Inserting `x` before the first item whose key is not smaller keeps the
      list sorted. */
  function InsertBy<T(==)>(x: T, ys: seq<T>, key: T -> string): (r: seq<T>)
    requires SortedBy(ys, key)
    ensures SortedBy(r, key)
    ensures multiset(r) == multiset(ys) + multiset{x}
  {
    if ys == [] then [x]
    else if StrLe(key(x), key(ys[0])) then
      InsertFront(x, ys, key);
      [x] + ys
    else
      StrLeTotal(key(x), key(ys[0]));
      var rest := InsertBy(x, ys[1..], key);
      InsertBehind(ys[0], x, ys[1..], rest, key);
      assert ys == [ys[0]] + ys[1..];
      [ys[0]] + rest
  }

  lemma InsertFront<T>(x: T, ys: seq<T>, key: T -> string)
    requires SortedBy(ys, key) && ys != [] && StrLe(key(x), key(ys[0]))
    ensures SortedBy([x] + ys, key)
  {
    forall j | 0 < j < |ys| + 1
      ensures StrLe(key(([x] + ys)[0]), key(([x] + ys)[j]))
    {
      if j > 1 {
        StrLeTransitive(key(x), key(ys[0]), key(ys[j - 1]));
      }
    }
  }

  lemma InsertBehind<T>(y: T, x: T, ys: seq<T>, rest: seq<T>, key: T -> string)
    requires SortedBy([y] + ys, key) && StrLe(key(y), key(x))
    requires SortedBy(rest, key) && multiset(rest) == multiset(ys) + multiset{x}
    ensures SortedBy([y] + rest, key)
  {
    forall j | 0 <= j < |rest|
      ensures StrLe(key(y), key(rest[j]))
    {
      assert rest[j] in multiset(rest);
      if rest[j] != x {
        assert rest[j] in multiset(ys);
        var k :| 0 <= k < |ys| && ys[k] == rest[j];
        assert ([y] + ys)[0] == y && ([y] + ys)[k + 1] == ys[k];
        assert StrLe(key(([y] + ys)[0]), key(([y] + ys)[k + 1]));
      }
    }
  }

  /** Python's stable `sorted(xs, key=key)` for string keys: the same items
      in non-decreasing order of their keys. */
  function SortBy<T(==)>(xs: seq<T>, key: T -> string): (r: seq<T>)
    ensures SortedBy(r, key)
    ensures multiset(r) == multiset(xs)
  {
    if xs == [] then []
    else
      assert xs == [xs[0]] + xs[1..];
      InsertBy(xs[0], SortBy(xs[1..], key), key)
  }

  function DigitChar(d: nat): char
    requires d < 10
  {
    "0123456789"[d]
  }

  /** Python's `str(n)` for a natural number. */
  function NatToString(n: nat): (r: string)
    ensures r != []
    ensures forall i | 0 <= i < |r| :: '0' <= r[i] <= '9'
  {
    if n < 10 then [DigitChar(n)] else NatToString(n / 10) + [DigitChar(n % 10)]
  }

  /** Python's `str(n)` for an integer. */
  function IntToString(n: int): string
  {
    if n < 0 then "-" + NatToString(-n) else NatToString(n)
  }

  /** Python's `str(b)` for a boolean. */
  function BoolToString(b: bool): string
  {
    if b then "True" else "False"
  }
}

=== FILE: users_command.dfy ===
/**
 * The admin `/users` listing: discovering users from stored chat history,
 * merging them with the users that have profiles, formatting the list and
 * cutting a long reply into chunks.
 *
 * A Python dict from user id to an info dict is a `map<int, UserInfo>`; the
 * order in which the source walks a dict does not change any result here.
 */
module UsersCommand {
  import opened Wrappers
  import opened Text
  import History

  /** The `"source"` tag of an info dict. */
  datatype Source = FromHistory | FromProfile | FromBoth

  /** The info dict: `id`, `username`, `first_name`, `last_name`, `source`.
      A history username may be `None` (the sender had none). */
  datatype UserInfo = UserInfo(id: int, username: Option<string>, firstName: string, lastName: string, source: Source)

  /** Python truthiness of an optional string. */
  predicate Truthy(s: Option<string>) {
    s.Some? && s.value != ""
  }

  // ------------------------------------------------------------ history scan

  /** One stored record applied to the users found so far: a non-positive id
      is skipped, a new id is entered from the record, and a known id gets
      its missing username, or else its missing first name, from the record. */
  function DiscoverStep(users: map<int, UserInfo>, r: History.Record): map<int, UserInfo> {
    if r.userId <= 0 then users
    else if r.userId !in users then
      users[r.userId := UserInfo(r.userId, r.username, r.firstName, "", FromHistory)]
    else
      var u := users[r.userId];
      if !Truthy(u.username) && Truthy(r.username) then users[r.userId := u.(username := r.username)]
      else if u.firstName == "" || u.firstName == "Unknown" then users[r.userId := u.(firstName := r.firstName)]
      else users
  }

  /** The users found after scanning `rs` in order. */
  function Discover(rs: seq<History.Record>): map<int, UserInfo> {
    if rs == [] then map[] else DiscoverStep(Discover(rs[..|rs| - 1]), rs[|rs| - 1])
  }

  /** Exactly the positive ids of the records are found, each entered from
      history with no last name. */
  lemma {:induction false} DiscoverKeys(rs: seq<History.Record>)
    ensures forall k :: k in Discover(rs) <==> k > 0 && exists i | 0 <= i < |rs| :: rs[i].userId == k
    ensures forall k | k in Discover(rs) ::
      Discover(rs)[k].id == k && Discover(rs)[k].source == FromHistory && Discover(rs)[k].lastName == ""
  {
    if rs != [] {
      var init := rs[..|rs| - 1];
      DiscoverKeys(init);
      forall k
        ensures k in Discover(rs) <==> k > 0 && exists i | 0 <= i < |rs| :: rs[i].userId == k
      {
        if k > 0 && exists i | 0 <= i < |rs| :: rs[i].userId == k {
          var i :| 0 <= i < |rs| && rs[i].userId == k;
          if i < |init| {
            assert init[i] == rs[i];
          }
        }
        if k in Discover(init) {
          var i :| 0 <= i < |init| && init[i].userId == k;
          assert rs[i] == init[i];
        }
      }
    }
  }

  /** Python's iteration over the chats and, inside, over each chat's records. */
  function Flatten(batches: seq<seq<History.Record>>): seq<History.Record> {
    if batches == [] then [] else Flatten(batches[..|batches| - 1]) + batches[|batches| - 1]
  }

  /** Discovering over one more record of a chat's scan. */
  lemma DiscoverNext(seen: seq<History.Record>, batch: seq<History.Record>, j: nat)
    requires j < |batch|
    ensures Discover(seen + batch[..j + 1]) == DiscoverStep(Discover(seen + batch[..j]), batch[j])
  {
    var after := seen + batch[..j + 1];
    assert after[..|after| - 1] == seen + batch[..j];
    assert after[|after| - 1] == batch[j];
  }

  lemma FlattenNext(batches: seq<seq<History.Record>>, i: nat)
    requires i < |batches|
    ensures Flatten(batches[..i + 1]) == Flatten(batches[..i]) + batches[i]
  {
    assert batches[..i + 1][..i] == batches[..i];
  }

  /** `_discover_users_from_history`, given the records each chat's scan
      yields, in chat order. */
  method DiscoverUsersFromHistory(batches: seq<seq<History.Record>>) returns (users: map<int, UserInfo>)
    ensures users == Discover(Flatten(batches))
  {
    users := map[];
    var i := 0;
    while i < |batches|
      invariant 0 <= i <= |batches|
      invariant users == Discover(Flatten(batches[..i]))
    {
      var batch := batches[i];
      var j := 0;
      assert Flatten(batches[..i]) + batch[..0] == Flatten(batches[..i]);
      while j < |batch|
        invariant 0 <= j <= |batch|
        invariant users == Discover(Flatten(batches[..i]) + batch[..j])
      {
        DiscoverNext(Flatten(batches[..i]), batch, j);
        users := DiscoverStep(users, batch[j]);
        j := j + 1;
      }
      FlattenNext(batches, i);
      assert batch[..j] == batch;
      i := i + 1;
    }
    assert batches[..i] == batches;
  }

  /** The history's `get_recent_messages(chat_id, limit=1000)` as the scan
      calls it: the method takes no `limit` keyword, so every call raises a
      `TypeError` before returning any record. */
  function RecentMessagesAsWritten(batch: seq<History.Record>): (r: Result<seq<History.Record>, string>)
    ensures r.Err?
  {
    Err("get_recent_messages() got an unexpected keyword argument 'limit'")
  }

  /** The records the scan as written reaches: those of each chat whose call
      succeeds; a chat whose call raises is logged and skipped. */
  function ScannedAsWritten(batches: seq<seq<History.Record>>): (r: seq<seq<History.Record>>)
    ensures |r| <= |batches|
  {
    if batches == [] then []
    else
      var before := ScannedAsWritten(batches[..|batches| - 1]);
      match RecentMessagesAsWritten(batches[|batches| - 1])
      case Err(_) => before
      case Ok(records) => before + [records]
  }

  /** `_discover_users_from_history` as written. */
  function DiscoverAsWritten(batches: seq<seq<History.Record>>): map<int, UserInfo> {
    Discover(Flatten(ScannedAsWritten(batches)))
  }

  /** As written the history scan never finds anybody, while a single record
      with a positive id is enough for the intended scan to find that user. */
  lemma LimitKeywordLosesUsers(batches: seq<seq<History.Record>>, i: int, j: int)
    requires 0 <= i < |batches| && 0 <= j < |batches[i]| && batches[i][j].userId > 0
    ensures DiscoverAsWritten(batches) == map[]
    ensures batches[i][j].userId in Discover(Flatten(batches))
  {
    NothingScanned(batches);
    assert Flatten([]) == [];
    FlattenHas(batches, i, j);
    DiscoverKeys(Flatten(batches));
  }

  lemma {:induction false} NothingScanned(batches: seq<seq<History.Record>>)
    ensures ScannedAsWritten(batches) == []
  {
    if batches != [] {
      NothingScanned(batches[..|batches| - 1]);
    }
  }

  /** Every record of every chat is in the flattened scan. */
  lemma {:induction false} FlattenHas(batches: seq<seq<History.Record>>, i: int, j: int)
    requires 0 <= i < |batches| && 0 <= j < |batches[i]|
    ensures exists k | 0 <= k < |Flatten(batches)| :: Flatten(batches)[k] == batches[i][j]
  {
    var init := batches[..|batches| - 1];
    var before := Flatten(init);
    if i < |batches| - 1 {
      assert init[i] == batches[i];
      FlattenHas(init, i, j);
      var k :| 0 <= k < |before| && before[k] == batches[i][j];
      assert Flatten(batches)[k] == before[k];
    } else {
      assert Flatten(batches)[|before| + j] == batches[i][j];
    }
  }

  /** A discovered user has a username exactly when one of their records
      carries one: a missing username is filled by the first later record
      that has it, and a username once set is kept. */
  lemma {:induction false} DiscoverUsername(rs: seq<History.Record>, k: int)
    requires k in Discover(rs)
    ensures Truthy(Discover(rs)[k].username) <==>
      exists i | 0 <= i < |rs| :: rs[i].userId == k && Truthy(rs[i].username)
  {
    var init := rs[..|rs| - 1];
    DiscoverKeys(rs);
    DiscoverKeys(init);
    if k in Discover(init) {
      DiscoverUsername(init, k);
      if exists i | 0 <= i < |init| :: init[i].userId == k && Truthy(init[i].username) {
        var i :| 0 <= i < |init| && init[i].userId == k && Truthy(init[i].username);
        assert rs[i] == init[i];
      }
      if exists i | 0 <= i < |rs| :: rs[i].userId == k && Truthy(rs[i].username) {
        var i :| 0 <= i < |rs| && rs[i].userId == k && Truthy(rs[i].username);
        if i < |init| {
          assert init[i] == rs[i];
        }
      }
    } else {
      forall i | 0 <= i < |rs| - 1
        ensures rs[i].userId != k
      {
        assert rs[i] == init[i];
      }
      var i :| 0 <= i < |rs| && rs[i].userId == k;
      assert i == |rs| - 1;
    }
  }

  /** The first record of a user that carries both a username and a real
      first name fixes that user's entry. */
  lemma {:induction false} DiscoverKeepsFirst(rs: seq<History.Record>, i: nat)
    requires i < |rs| && rs[i].userId > 0
    requires forall j | 0 <= j < i :: rs[j].userId != rs[i].userId
    requires Truthy(rs[i].username) && rs[i].firstName != "" && rs[i].firstName != "Unknown"
    ensures rs[i].userId in Discover(rs)
      && Discover(rs)[rs[i].userId] == UserInfo(rs[i].userId, rs[i].username, rs[i].firstName, "", FromHistory)
  {
    var init := rs[..|rs| - 1];
    DiscoverKeys(init);
    if i < |rs| - 1 {
      assert init[i] == rs[i];
      forall j | 0 <= j < i
        ensures init[j].userId != init[i].userId
      {
        assert init[j] == rs[j];
      }
      DiscoverKeepsFirst(init, i);
    } else {
      assert rs[i] == rs[|rs| - 1];
      assert rs[i].userId !in Discover(init) by {
        forall j | 0 <= j < |init|
          ensures init[j].userId != rs[i].userId
        {
          assert init[j] == rs[j];
        }
      }
    }
  }

  // ------------------------------------------------------------------- merge

  /** A user found in both sources: non-empty profile fields win over the
      history's, and the tag becomes "both". */
  function Combine(h: UserInfo, p: UserInfo): UserInfo {
    h.(username := if Truthy(p.username) then p.username else h.username,
       firstName := if p.firstName != "" then p.firstName else h.firstName,
       lastName := if p.lastName != "" then p.lastName else h.lastName,
       source := FromBoth)
  }

  /** What `_merge_user_data` returns. */
  function Merge(history: map<int, UserInfo>, profiles: map<int, UserInfo>): (m: map<int, UserInfo>)
    ensures m.Keys == history.Keys + profiles.Keys
    ensures forall k | k in history && k !in profiles :: m[k] == history[k]
    ensures forall k | k in profiles && k !in history :: m[k] == profiles[k]
    ensures forall k | k in history && k in profiles ::
      m[k].source == FromBoth && m[k].id == history[k].id
      && (Truthy(profiles[k].username) ==> m[k].username == profiles[k].username)
      && (!Truthy(profiles[k].username) ==> m[k].username == history[k].username)
      && (profiles[k].firstName != "" ==> m[k].firstName == profiles[k].firstName)
      && (profiles[k].firstName == "" ==> m[k].firstName == history[k].firstName)
      && (profiles[k].lastName != "" ==> m[k].lastName == profiles[k].lastName)
      && (profiles[k].lastName == "" ==> m[k].lastName == history[k].lastName)
  {
    map k | k in history.Keys + profiles.Keys ::
      if k in profiles then (if k in history then Combine(history[k], profiles[k]) else profiles[k])
      else history[k]
  }

  /** With the sources tagged as the two discoveries tag them, a merged user
      is "both" exactly when it was found in both. */
  lemma MergeBothIff(history: map<int, UserInfo>, profiles: map<int, UserInfo>, k: int)
    requires forall j | j in history :: history[j].source == FromHistory
    requires forall j | j in profiles :: profiles[j].source == FromProfile
    requires k in Merge(history, profiles)
    ensures Merge(history, profiles)[k].source == FromBoth <==> k in history && k in profiles
    ensures Merge(history, profiles)[k].source == FromHistory <==> k in history && k !in profiles
  {
    var m := Merge(history, profiles);
    if k in history && k in profiles {
    } else if k in history {
      assert m[k] == history[k];
    } else {
      assert m[k] == profiles[k];
    }
  }

  /** Two maps with the same keys and the same value at each key are equal. */
  lemma SameMap(a: map<int, UserInfo>, b: map<int, UserInfo>)
    requires forall k :: k in a <==> k in b
    requires forall k | k in a :: a[k] == b[k]
    ensures a == b
  {
    forall k
      ensures k in a <==> k in b
    {
    }
    forall k | k in a
      ensures a[k] == b[k]
    {
    }
  }

  /** `_merge_user_data`: copy every history user, then add or combine every
      profile user. */
  method MergeUserData(history: map<int, UserInfo>, profiles: map<int, UserInfo>)
    returns (merged: map<int, UserInfo>)
    ensures merged == Merge(history, profiles)
  {
    merged := map[];
    var todo := history.Keys;
    while todo != {}
      invariant forall k | k in todo :: k in history
      invariant forall k :: k in merged <==> k in history && k !in todo
      invariant forall k | k in merged :: merged[k] == history[k]
      decreases |todo|
    {
      HasElement(todo);
      var k :| k in todo;
      merged := merged[k := history[k]];
      todo := todo - {k};
    }
    todo := profiles.Keys;
    while todo != {}
      invariant forall k | k in todo :: k in profiles
      invariant MergedExcept(history, profiles, todo, merged)
      decreases |todo|
    {
      HasElement(todo);
      var k :| k in todo;
      ghost var before := merged;
      if k in merged {
        merged := merged[k := Combine(merged[k], profiles[k])];
      } else {
        merged := merged[k := profiles[k]];
      }
      MergeStep(history, profiles, todo, before, k);
      todo := todo - {k};
    }
    SameMap(merged, Merge(history, profiles));
  }

  /** The second loop's invariant: the history users, with the profile users
      outside `todo` added or combined. */
  ghost predicate MergedExcept(history: map<int, UserInfo>, profiles: map<int, UserInfo>, todo: set<int>,
                               merged: map<int, UserInfo>)
  {
    (forall k :: k in merged <==> k in history || (k in profiles && k !in todo))
    && (forall k | k in merged ::
          merged[k] == (if k in profiles && k !in todo
                        then (if k in history then Combine(history[k], profiles[k]) else profiles[k])
                        else history[k]))
  }

  /** Handling one profile user keeps the invariant with that user done. */
  lemma MergeStep(history: map<int, UserInfo>, profiles: map<int, UserInfo>, todo: set<int>,
                  merged: map<int, UserInfo>, k: int)
    requires k in todo && k in profiles && MergedExcept(history, profiles, todo, merged)
    ensures MergedExcept(history, profiles, todo - {k},
      if k in merged then merged[k := Combine(merged[k], profiles[k])] else merged[k := profiles[k]])
  {
  }

  // ------------------------------------------------------------------ format

  const NotFound: string := "Пользователи не найдены."

  lemma HasElement(s: set<int>)
    requires s != {}
    ensures exists y :: y in s
  {
    assert (forall y :: y !in s) ==> s == {};
  }

  lemma MinExists(s: set<int>)
    requires |s| > 0
    ensures exists m | m in s :: forall x | x in s :: m <= x
    decreases |s|
  {
    assert s != {};
    HasElement(s);
    var y :| y in s;
    var rest := s - {y};
    if rest == {} {
      forall x | x in s
        ensures y <= x
      {
        assert x !in rest;
      }
    } else {
      assert |rest| == |s| - 1;
      MinExists(rest);
      var m :| m in rest && forall x | x in rest :: m <= x;
      var least := if y < m then y else m;
      forall x | x in s
        ensures least <= x
      {
        if x != y {
          assert x in rest;
        }
      }
      assert least in s;
    }
  }

  /** The least element of a non-empty set of ids. */
  function MinOf(s: set<int>): (m: int)
    requires |s| > 0
    ensures m in s && forall x | x in s :: m <= x
  {
    MinExists(s);
    var m :| m in s && forall x | x in s :: m <= x;
    m
  }

  /** The ids of `s` in increasing order, as `sorted(users.items())` lists them. */
  function SortedIds(s: set<int>): (r: seq<int>)
    ensures |r| == |s|
    ensures forall k :: k in r <==> k in s
    ensures forall i, j | 0 <= i < j < |r| :: r[i] < r[j]
    decreases |s|
  {
    if |s| == 0 then []
    else
      var m := MinOf(s);
      var rest := SortedIds(s - {m});
      assert forall k | k in rest :: m < k;
      [m] + rest
  }

  function SourceEmoji(s: Source): string {
    match s
    case FromHistory => "💬"
    case FromProfile => "📁"
    case FromBoth => "📁💬"
  }

  /** `• first[ last][ (@username)] (ID: id) emoji`. */
  function UserLine(id: int, u: UserInfo): (line: string)
    ensures StartsWith(line, "• ")
  {
    var display := u.firstName + (if u.lastName != "" then " " + u.lastName else "");
    var usernamePart := if Truthy(u.username) then " (@" + u.username.value + ")" else "";
    StartsWithSelf("• ");
    StartsWithAppend("• ", "• ", display + usernamePart + " (ID: " + IntToString(id) + ") " + SourceEmoji(u.source));
    "• " + (display + usernamePart + " (ID: " + IntToString(id) + ") " + SourceEmoji(u.source))
  }

  function Lines(ids: seq<int>, users: map<int, UserInfo>): (r: seq<string>)
    requires forall i | 0 <= i < |ids| :: ids[i] in users
    ensures |r| == |ids|
    ensures forall i | 0 <= i < |ids| :: r[i] == UserLine(ids[i], users[ids[i]])
  {
    seq(|ids|, i requires 0 <= i < |ids| => UserLine(ids[i], users[ids[i]]))
  }

  /** Which users a summary figure counts. */
  datatype Tally = HistoryTally | ProfileTally | BothTally

  predicate Counts(t: Tally, s: Source) {
    match t
    case HistoryTally => s == FromHistory || s == FromBoth
    case ProfileTally => s == FromProfile || s == FromBoth
    case BothTally => s == FromBoth
  }

  function CountOver(ids: seq<int>, users: map<int, UserInfo>, t: Tally): (n: nat)
    requires forall i | 0 <= i < |ids| :: ids[i] in users
    ensures n <= |ids|
  {
    if ids == [] then 0
    else (if Counts(t, users[ids[0]].source) then 1 else 0) + CountOver(ids[1..], users, t)
  }

  function Count(users: map<int, UserInfo>, t: Tally): nat {
    CountOver(SortedIds(users.Keys), users, t)
  }

  function Summary(users: map<int, UserInfo>): string {
    var h := Count(users, HistoryTally);
    var p := Count(users, ProfileTally);
    var b := Count(users, BothTally);
    "\n📊 Total: " + NatToString(|users|) + " users"
    + (if h > 0 then " | 💬 History: " + NatToString(h) else "")
    + (if p > 0 then " | 📁 Profiles: " + NatToString(p) else "")
    + (if b > 0 then " | 📁💬 Both: " + NatToString(b) else "")
  }

  /** `_format_user_list`: the "not found" text exactly when there is nobody
      to list; otherwise one bullet line per user, by increasing id, then the
      summary. */
  function FormatUserList(users: map<int, UserInfo>): (r: string)
    ensures |users| == 0 <==> r == NotFound
    ensures |users| > 0 ==> StartsWith(r, "• ")
  {
    if |users| == 0 then NotFound
    else
      assert Listing(users)[0] == '•';
      assert NotFound[0] != '•';
      Listing(users)
  }

  /** The listing of a non-empty set of users: the bullet lines joined by
      newlines, then the summary. */
  function Listing(users: map<int, UserInfo>): (r: string)
    requires |users| > 0
    ensures StartsWith(r, "• ")
  {
    var lines := Lines(SortedIds(users.Keys), users);
    var body := Join(lines, "\n");
    JoinStartsWith(lines, "\n");
    StartsWithTransitive(body, lines[0], "• ");
    StartsWithAppend(body, "• ", Summary(users));
    body + Summary(users)
  }

  /** Every user has its line in the listing. */
  lemma ListsEveryUser(users: map<int, UserInfo>, k: int)
    requires k in users
    ensures Contains(FormatUserList(users), UserLine(k, users[k]))
  {
    var ids := SortedIds(users.Keys);
    var lines := Lines(ids, users);
    var body := Join(lines, "\n");
    var i :| 0 <= i < |ids| && ids[i] == k;
    JoinContains(lines, "\n", i);
    assert lines[i] == UserLine(k, users[k]);
    BodyListed(users);
    ContainsTransitive(FormatUserList(users), body, lines[i]);
  }

  /** A non-empty listing contains the joined lines. */
  lemma BodyListed(users: map<int, UserInfo>)
    requires |users| > 0
    ensures Contains(FormatUserList(users), Join(Lines(SortedIds(users.Keys), users), "\n"))
  {
    ListingHasBody(users);
    assert FormatUserList(users) == Listing(users);
  }

  lemma ListingHasBody(users: map<int, UserInfo>)
    requires |users| > 0
    ensures Contains(Listing(users), Join(Lines(SortedIds(users.Keys), users), "\n"))
  {
    var body := Join(Lines(SortedIds(users.Keys), users), "\n");
    var summary := Summary(users);
    assert Listing(users) == body + summary;
    ContainsFront(body, summary);
  }

  lemma {:induction false} CountOverInclusionExclusion(ids: seq<int>, users: map<int, UserInfo>)
    requires forall i | 0 <= i < |ids| :: ids[i] in users
    ensures CountOver(ids, users, HistoryTally) + CountOver(ids, users, ProfileTally)
      == |ids| + CountOver(ids, users, BothTally)
  {
    if ids != [] {
      CountOverInclusionExclusion(ids[1..], users);
    }
  }

  /** A non-empty listing is the users' lines by strictly increasing id,
      every user once, followed by the summary. */
  lemma ListingInIdOrder(users: map<int, UserInfo>)
    requires |users| > 0
    ensures var ids := SortedIds(users.Keys);
      (forall i, j | 0 <= i < j < |ids| :: ids[i] < ids[j])
      && (forall k :: k in ids <==> k in users)
      && FormatUserList(users) == Join(Lines(ids, users), "\n") + Summary(users)
  {
  }

  /** Each summary figure is the number of users whose source it counts. */
  lemma {:induction false} SummaryFigure(users: map<int, UserInfo>, t: Tally)
    ensures Count(users, t) == |set k | k in users && CountedIn(users, t, k)|
  {
    var ids := SortedIds(users.Keys);
    assert forall i, j | 0 <= i < j < |ids| :: ids[i] != ids[j];
    CountOverSet(ids, users, t);
    CountedAmongKeys(users, t);
  }

  lemma {:induction false} CountedAmongKeys(users: map<int, UserInfo>, t: Tally)
    ensures CountedAmong(SortedIds(users.Keys), users, t) == set k | k in users && CountedIn(users, t, k)
  {
    var ids := SortedIds(users.Keys);
    assert forall k :: k in ids <==> k in users;
  }

  /** User `k` is one that figure `t` counts. */
  predicate CountedIn(users: map<int, UserInfo>, t: Tally, k: int) {
    k in users && Counts(t, users[k].source)
  }

  lemma {:induction false} CountOverSet(ids: seq<int>, users: map<int, UserInfo>, t: Tally)
    requires forall i | 0 <= i < |ids| :: ids[i] in users
    requires forall i, j | 0 <= i < j < |ids| :: ids[i] != ids[j]
    ensures CountOver(ids, users, t) == |CountedAmong(ids, users, t)|
  {
    if ids != [] {
      var rest := ids[1..];
      CountOverSet(rest, users, t);
      assert ids[0] !in rest by {
        assert forall j | 0 <= j < |rest| :: rest[j] == ids[j + 1];
      }
      CountedAmongCons(ids, users, t);
    }
  }

  /** The ids of `ids` that figure `t` counts. */
  function CountedAmong(ids: seq<int>, users: map<int, UserInfo>, t: Tally): set<int> {
    set k | k in ids && CountedIn(users, t, k)
  }

  lemma {:induction false} CountedAmongCons(ids: seq<int>, users: map<int, UserInfo>, t: Tally)
    requires ids != [] && ids[0] !in ids[1..]
    ensures |CountedAmong(ids, users, t)|
      == (if CountedIn(users, t, ids[0]) then 1 else 0) + |CountedAmong(ids[1..], users, t)|
  {
    var tail := CountedAmong(ids[1..], users, t);
    var head: set<int> := if CountedIn(users, t, ids[0]) then {ids[0]} else {};
    CountedAmongSplit(ids, users, t);
    assert head * tail == {};
  }

  lemma {:induction false} CountedAmongSplit(ids: seq<int>, users: map<int, UserInfo>, t: Tally)
    requires ids != []
    ensures CountedAmong(ids, users, t)
      == (if CountedIn(users, t, ids[0]) then {ids[0]} else {}) + CountedAmong(ids[1..], users, t)
  {
    assert forall k :: k in ids <==> k == ids[0] || k in ids[1..] by {
      assert ids == [ids[0]] + ids[1..];
    }
  }

  /** The history and profile figures of the summary overlap in exactly the
      "both" users. */
  lemma SummaryInclusionExclusion(users: map<int, UserInfo>)
    ensures Count(users, HistoryTally) + Count(users, ProfileTally) == |users| + Count(users, BothTally)
  {
    CountOverInclusionExclusion(SortedIds(users.Keys), users);
    assert |users.Keys| == |users|;
  }

  // ------------------------------------------------------------------- split

  /** Where `_split_message` cuts `r`. */
  function SplitPos(r: string, maxLength: nat): (p: nat)
    ensures p <= maxLength
  {
    var nl := RFindChar(r, '\n', maxLength);
    if nl != -1 then nl
    else
      var sp := RFindChar(r, ' ', maxLength);
      if sp != -1 then sp else maxLength
  }

  /** The cut is at the last newline before `maxLength`, else at the last
      space before it, else at `maxLength` itself. */
  lemma SplitPosRule(r: string, maxLength: nat)
    ensures var p := SplitPos(r, maxLength);
      p < maxLength ==> p < |r| && (r[p] == '\n' || r[p] == ' ')
    ensures var p := SplitPos(r, maxLength);
      (exists j | 0 <= j < maxLength && j < |r| :: r[j] == '\n') ==>
      p < |r| && r[p] == '\n' && forall j | p < j < maxLength && j < |r| :: r[j] != '\n'
    ensures var p := SplitPos(r, maxLength);
      (forall j | 0 <= j < maxLength && j < |r| :: r[j] != '\n') ==>
      (exists j | 0 <= j < maxLength && j < |r| :: r[j] == ' ') ==>
      p < |r| && r[p] == ' ' && forall j | p < j < maxLength && j < |r| :: r[j] != ' '
    ensures var p := SplitPos(r, maxLength);
      (forall j | 0 <= j < maxLength && j < |r| :: r[j] != '\n' && r[j] != ' ') ==> p == maxLength
  {
  }

  /** Left-stripping drops only whitespace. */
  lemma LStripKeepsNonSpace(s: string)
    ensures NonSpace(LStrip(s)) == NonSpace(s)
  {
    var kept := LStrip(s);
    var dropped := s[..|s| - |kept|];
    assert s == dropped + kept;
    NonSpaceOfSpaces(dropped);
    NonSpaceAppend(dropped, kept);
  }

  /** Cutting `r` at `p` and left-stripping the rest keeps every
      non-whitespace character. */
  lemma CutKeepsNonSpace(r: string, p: nat)
    requires p <= |r|
    ensures NonSpace(r) == NonSpace(r[..p]) + NonSpace(LStrip(r[p..]))
  {
    NonSpaceSplit(r, p);
    LStripKeepsNonSpace(r[p..]);
  }

  /** The non-whitespace characters of a text are those before and those
      after any position. */
  lemma NonSpaceSplit(r: string, p: nat)
    requires p <= |r|
    ensures NonSpace(r) == NonSpace(r[..p]) + NonSpace(r[p..])
  {
    NonSpaceAppend(r[..p], r[p..]);
    assert r[..p] + r[p..] == r;
  }

  /** When `maxLength` is at least 1, a cut shortens what is left. */
  lemma CutShrinks(r: string, maxLength: nat)
    requires 1 <= maxLength < |r|
    ensures |LStrip(r[SplitPos(r, maxLength)..])| < |r|
  {
    var p := SplitPos(r, maxLength);
    if p == 0 {
      assert r[p..] == r;
      assert IsSpace(r[0]);
      assert LStrip(r) == LStrip(r[1..]);
    }
  }

  /** With `maxLength` 0 the cut is at 0 and a remainder that starts with a
      non-whitespace character comes back unchanged: the loop never ends. */
  lemma SplitStuckAtZero(r: string)
    requires r != [] && !IsSpace(r[0])
    ensures SplitPos(r, 0) == 0 && LStrip(r[SplitPos(r, 0)..]) == r
  {
    assert r[0..] == r;
  }

  /** Moving the piece before a cut from the remainder to the chunks keeps
      every non-whitespace character, in order. */
  lemma AppendChunk(chunks: seq<string>, remaining: string, p: nat)
    requires p <= |remaining|
    ensures NonSpace(Concat(chunks + [remaining[..p]])) + NonSpace(LStrip(remaining[p..]))
      == NonSpace(Concat(chunks)) + NonSpace(remaining)
  {
    var chunk := remaining[..p];
    var a, b, c := NonSpace(Concat(chunks)), NonSpace(chunk), NonSpace(LStrip(remaining[p..]));
    CutKeepsNonSpace(remaining, p);
    ConcatSnoc(chunks, chunk);
    NonSpaceAppend(Concat(chunks), chunk);
    AppendAssoc(a, b, c);
  }

  /** One pass of the splitting loop keeps its invariants and shortens the
      remainder. */
  lemma CutStep(chunks: seq<string>, remaining: string, maxLength: nat, text: string)
    requires 1 <= maxLength < |remaining|
    requires forall i | 0 <= i < |chunks| :: |chunks[i]| <= maxLength
    requires NonSpace(Concat(chunks)) + NonSpace(remaining) == NonSpace(text)
    ensures var p := SplitPos(remaining, maxLength);
      var chunks', remaining' := chunks + [remaining[..p]], LStrip(remaining[p..]);
      (forall i | 0 <= i < |chunks'| :: |chunks'[i]| <= maxLength)
      && NonSpace(Concat(chunks')) + NonSpace(remaining') == NonSpace(text)
      && |remaining'| < |remaining|
  {
    var p := SplitPos(remaining, maxLength);
    AppendChunk(chunks, remaining, p);
    CutShrinks(remaining, maxLength);
    var chunks' := chunks + [remaining[..p]];
    forall i | 0 <= i < |chunks'|
      ensures |chunks'[i]| <= maxLength
    {
      if i < |chunks| {
        assert chunks'[i] == chunks[i];
      }
    }
  }

  /** Adding the last remainder as a chunk. */
  lemma AppendLast(chunks: seq<string>, remaining: string)
    ensures NonSpace(Concat(chunks + [remaining])) == NonSpace(Concat(chunks)) + NonSpace(remaining)
  {
    ConcatSnoc(chunks, remaining);
    NonSpaceAppend(Concat(chunks), remaining);
  }

  /** `_split_message`: the text itself when it fits; otherwise chunks of at
      most `maxLength` characters that together keep every non-whitespace
      character of the text, in order. */
  method SplitMessage(text: string, maxLength: nat) returns (chunks: seq<string>)
    requires maxLength >= 1
    ensures |text| <= maxLength ==> chunks == [text]
    ensures forall i | 0 <= i < |chunks| :: |chunks[i]| <= maxLength
    ensures NonSpace(Concat(chunks)) == NonSpace(text)
  {
    if |text| <= maxLength {
      ConcatSingle(text);
      return [text];
    }
    chunks := [];
    var remaining := text;
    assert NonSpace(Concat(chunks)) == [];
    PrependEmpty(NonSpace(text));
    while |remaining| > maxLength
      invariant forall i | 0 <= i < |chunks| :: |chunks[i]| <= maxLength
      invariant NonSpace(Concat(chunks)) + NonSpace(remaining) == NonSpace(text)
      decreases |remaining|
    {
      var p := SplitPos(remaining, maxLength);
      CutStep(chunks, remaining, maxLength, text);
      chunks := chunks + [remaining[..p]];
      remaining := LStrip(remaining[p..]);
    }
    if remaining != [] {
      AppendLast(chunks, remaining);
      chunks := chunks + [remaining];
    } else {
      AppendEmpty(NonSpace(Concat(chunks)));
    }
  }
}

=== FILE: wrappers.dfy ===
// Option and Result: the model's stand-ins for Python's None and for raised exceptions.
module Wrappers {

  datatype Option<+T> = None | Some(value: T) {
    function GetOr(default: T): T {
      match this
      case Some(v) => v
      case None => default
    }
  }

  /** The outcome of an operation the source may abort by raising an exception. */
  datatype Result<+T, +E> = Ok(value: T) | Err(error: E)
}
